=== FILE: README.md ===
# terminal-data core, modelled in Dafny

This project models the core of the terminal-data market-data services and proves properties of that model.

**Price-alert engine**
- The alert registry, a symbol-to-alerts dictionary updated in place.
- The evaluator. It compares the last price with a constant, or with a two-point trend line interpolated only inside its window.
- The alert accessors.
- The engine that ties store events and price ticks to the registry, the feed subscriptions and the notification queue.
- The mock feed's subscription table.
- The FIFO notification dispatcher.

**Scanner and screener services**
- The scanner's SQL text builder: select list, WHERE from grid filters, ORDER BY, OFFSET/LIMIT and literal escaping.
- The two WebSocket session protocols, each with its per-session view and row-range paging.
- The ezscan engine's two-phase filtering and column evaluation.
- The boolean-series period reduction.
- The request validators.
- The expression cache.
- The hard-coded metadata provider.

**Market-data clients**
- The TradingView socket framing, used by both the bulk downloader and the quote streamer.
- The downloader's quote and completion bookkeeping.
- The quote streamer's update gating.
- The allocator of tickers to streaming connections.
- The Upstox instrument-key translation with its two caches.
- The StockTwits request mapping.
- MarketSmith parameter rewriting, symbol choice and call guards.

**Utilities**
- The watchlist chunking.
- The ordering and padding of fundamentals.

Each source file becomes one Dafny module.
- Code that updates objects in place becomes a class whose methods are proved to reach the state a specification function describes.
- Pure code becomes functions and lemmas.
- I/O, JSON parsing, Python's `eval` and the network are parameters, or are left out as listed below.
- Python exceptions become the `Err` side of a `Result`, and Python's `None` becomes `None` of an `Option` (module `Wrappers`).
- Module `Text` gives the Python string built-ins the code relies on, with their Python meaning.

## Model

| member | source | states |
|---|---|---|
| AlertRegistry.IndexOfId | modules/alerts/alert_manager.py:26-27 | the index found is the first one whose alert carries the id; None exactly when no alert in the list carries it |
| AlertRegistry.FirstIndexOfId | modules/alerts/alert_manager.py:26-27 | any position holding the id with no earlier holder is the one the search returns |
| AlertRegistry.WithoutId | modules/alerts/alert_manager.py:20 | the filtered list keeps exactly the alerts whose id differs, and no alert outside the input |
| AlertRegistry.WithoutIdAbsent | modules/alerts/alert_manager.py:20 | filtering out an id no alert carries leaves the list unchanged |
| AlertRegistry.RemoveFirst | modules/alerts/alert_manager.py:28 | `list.remove` drops one entry when the alert is present and changes nothing otherwise |
| AlertRegistry.RemoveFirstAtIndex | modules/alerts/alert_manager.py:28 | removing the alert found at the first position holding its id deletes exactly that position |
| AlertRegistry.RemoveSymbol | modules/alerts/alert_manager.py:22 | deleting a bucket removes exactly that symbol from the key order |
| AlertRegistry.RemoveSymbolDistinct | modules/alerts/alert_manager.py:22 | the key order stays free of duplicates after a deletion |
| AlertRegistry.Add | modules/alerts/alert_manager.py:10-11 | the alert goes last in its symbol's list, which is created if absent; every other symbol's list is unchanged |
| AlertRegistry.Remove | modules/alerts/alert_manager.py:17-22 | the symbol's list loses every alert with the id; every other symbol's list is unchanged |
| AlertRegistry.AddKeepsWellFormed | modules/alerts/alert_manager.py:10-11 | add keeps the invariant: keys and buckets agree, no empty bucket, each alert filed under its own symbol |
| AlertRegistry.RemoveKeepsWellFormed | modules/alerts/alert_manager.py:17-22 | remove keeps the invariant, deleting a bucket that becomes empty |
| AlertRegistry.LocateFrom | modules/alerts/alert_manager.py:25-27 | the search over symbols in key order finds a position exactly when some later symbol's list holds the id; the symbol found is the first such in key order and the position is the first in its list |
| AlertRegistry.Discard | modules/alerts/alert_manager.py:28-30 | removes the alert from the one symbol's list and leaves the others |
| AlertRegistry.RemoveById | modules/alerts/alert_manager.py:24-32 | with no match the registry is unchanged and None is returned; a returned alert carries the id |
| AlertRegistry.DiscardKeepsWellFormed | modules/alerts/alert_manager.py:28-30 | removing one alert keeps the invariant (an emptied bucket is deleted) |
| AlertRegistry.RemoveByIdKeepsWellFormed | modules/alerts/alert_manager.py:24-32 | `remove_alert_by_id` keeps the invariant |
| AlertRegistry.LocatedAlert | modules/alerts/alert_manager.py:25-27 | the located alert is the first with the id in its list, and is filed under the symbol it is found in |
| AlertRegistry.RemoveByIdRemovesOne | modules/alerts/alert_manager.py:24-31 | exactly one alert is removed: the first carrying the id in the returned alert's symbol list |
| AlertRegistry.RemoveAtLocation | modules/alerts/alert_manager.py:26-31 | the alert returned is the one at the located position, and only that position disappears |
| AlertRegistry.RemoveByIdFindsAny | modules/alerts/alert_manager.py:24-32 | an alert is returned exactly when some symbol's list holds the id |
| AlertRegistry.RemoveByIdKeepsOthers | modules/alerts/alert_manager.py:24-31 | every other symbol's list is unchanged |
| AlertRegistry.Update | modules/alerts/alert_manager.py:13-15 | after an update the new alert is last in its symbol's list, and the invariant holds |
| AlertRegistry.UpdateUnknownIsAdd | modules/alerts/alert_manager.py:13-15 | updating an id the registry does not hold is the same as adding |
| AlertRegistry.AlertManager.constructor | modules/alerts/alert_manager.py:7-8 | starts with no symbols |
| AlertRegistry.AlertManager.AddAlert | modules/alerts/alert_manager.py:10-11 | the dictionary becomes `Add` of the old one |
| AlertRegistry.AlertManager.UpdateAlert | modules/alerts/alert_manager.py:13-15 | the dictionary becomes `Update` of the old one and stays well formed |
| AlertRegistry.AlertManager.RemoveAlert | modules/alerts/alert_manager.py:17-22 | the dictionary becomes `Remove` of the old one |
| AlertRegistry.AlertManager.RemoveAlertById | modules/alerts/alert_manager.py:24-32 | the dictionary and the result are those of `RemoveById` on the old state |
| AlertRegistry.AlertManager.FindId | modules/alerts/alert_manager.py:26-27 | the inner search loop returns the first index with the id |
| AlertRegistry.AlertManager.DiscardAlert | modules/alerts/alert_manager.py:28-30 | removes the alert from the bucket, deleting it when emptied |
| AlertRegistry.AlertManager.GetAlertsForSymbol | modules/alerts/alert_manager.py:34-35 | an unknown symbol gives []; in a valid registry the list is empty only for unknown symbols and holds only that symbol's alerts |
| AlertRegistry.AlertManager.HasAlertsForSymbol | modules/alerts/alert_manager.py:37-38 | true exactly when the symbol's list exists and is non-empty |
| AlertModels.IsTrendline | modules/alerts/models.py:30-31 | true exactly for rhs_type "trend_line" |
| AlertModels.GetConstantValue | modules/alerts/models.py:33-36 | the "constant" entry for a constant alert, None for any other rhs_type |
| AlertModels.ParsePoints | modules/alerts/models.py:40-44 | succeeds exactly when every anchor validates; the parsed points keep the input's length and order |
| AlertModels.GetTrendlinePoints | modules/alerts/models.py:38-45 | None unless rhs_type is "trend_line"; a missing "trend_line" key gives []; otherwise succeeds exactly when every anchor validates |
| AlertEvaluator.OperatorsMeanComparisons | modules/alerts/evaluator.py:9-16 | the table holds exactly the six symbols >, >=, <, <=, ==, != and maps each to its comparison |
| AlertEvaluator.Apply | modules/alerts/evaluator.py:9-16 | the comparison of each operator; OperatorsMeanComparisons ties it to the symbols |
| AlertEvaluator.Compare | modules/alerts/evaluator.py:9-16 | a comparison exactly for the six operator symbols |
| AlertEvaluator.InterpolateTrendline | modules/alerts/evaluator.py:60-76 | None exactly when now lies before the first anchor or after the second (no extrapolation); p1.price when the anchors share a time |
| AlertEvaluator.InterpolateAtAnchors | modules/alerts/evaluator.py:68-76 | the line gives p1.price at t1 and p2.price at t2 |
| AlertEvaluator.InterpolateAtEnd | modules/alerts/evaluator.py:74-76 | with t1 < t2 the line reaches p2.price at t2 |
| AlertEvaluator.InvertedWindowNeverMatches | modules/alerts/evaluator.py:65-66 | anchors in the wrong order give None at every time |
| AlertEvaluator.InterpolateBetweenAnchors | modules/alerts/evaluator.py:74-76 | an interpolated value lies between the two anchor prices |
| AlertEvaluator.InterpolateMonotone | modules/alerts/evaluator.py:74-76 | on a rising line a later time never gives a lower value |
| AlertEvaluator.EvaluateAlert | modules/alerts/evaluator.py:19-57 | true only for lhs_type "last_price", a supported rhs_type and one of the six operators |
| AlertEvaluator.EvaluateRejects | modules/alerts/evaluator.py:25-55 | false for an unsupported lhs_type, rhs_type or operator, a missing constant, a trend line without exactly two valid points, and a time outside the window |
| AlertEvaluator.EvaluateConstant | modules/alerts/evaluator.py:32-57 | a constant alert fires exactly when the operator's comparison of the last price with the constant holds |
| AlertEvaluator.EvaluateTrendline | modules/alerts/evaluator.py:38-57 | inside the window a trend-line alert fires exactly when the comparison with the interpolated value holds |
| AlertEvaluator.ComplementaryOperators | modules/alerts/evaluator.py:9-57 | ">" and "<=" against the same constant never agree |
| AlertEngineModel.Fired | modules/alerts/engine.py:42-43 | the alerts of the bucket that the tick satisfies, in bucket order: every satisfied alert and no other |
| AlertEngineModel.Ids | modules/alerts/engine.py:46 | the ids marked triggered: exactly the ids of the fired alerts |
| AlertEngineModel.WithoutIds | modules/alerts/engine.py:47 | the alerts whose id is not among the given ones, in order |
| AlertEngineModel.RemoveEachKeepsWellFormed | modules/alerts/engine.py:47 | removing the fired alerts one by one keeps the registry invariant |
| AlertEngineModel.RemoveEachEffect | modules/alerts/engine.py:42-47 | removing alerts of one symbol filters only that symbol's list by their ids |
| AlertEngineModel.WithoutIdsEmpty | modules/alerts/engine.py:47 | filtering by no ids keeps the list |
| AlertEngineModel.TickRemainder | modules/alerts/engine.py:42-47 | after a tick the symbol's list holds exactly the alerts whose id did not fire; other symbols are untouched (iteration over a copy skips nothing) |
| AlertEngineModel.NoRefire | modules/alerts/engine.py:38-47 | no later tick on the symbol can fire an alert whose id already fired, unless it is inserted again |
| AlertEngineModel.UnfiredStays | modules/alerts/engine.py:43-47 | an alert the tick does not satisfy stays in its list |
| AlertEngineModel.AddEachKeepsWellFormed | modules/alerts/engine.py:25-26 | registering each fetched alert keeps the invariant |
| AlertEngineModel.AddEachRegisters | modules/alerts/engine.py:25-26 | after start-up every fetched alert is in its symbol's list and nothing registered before is lost |
| AlertEngineModel.Symbols | modules/alerts/engine.py:27 | the symbols subscribed at start-up: exactly those of the fetched alerts |
| AlertEngineModel.RemoveEachKeys | modules/alerts/engine.py:47 | removals never add a symbol |
| AlertEngineModel.AddEachKeys | modules/alerts/engine.py:25-26 | the registered symbols after start-up are the earlier ones plus the fetched alerts' symbols |
| AlertEngineModel.AlertEngine.constructor | modules/alerts/engine.py:10-14 | empty registry, queue, store marks and subscriptions |
| AlertEngineModel.AlertEngine.SyncExistingAlerts | modules/alerts/engine.py:22-27 | every fetched alert is added in order and its symbol subscribed; every symbol with alerts stays subscribed |
| AlertEngineModel.AlertEngine.OnPriceTick | modules/alerts/engine.py:37-51 | the satisfied alerts are queued once each in bucket order, marked triggered and removed; a symbol without alerts changes nothing; after a tick on a non-empty bucket the symbol is unsubscribed iff no alerts remain |
| AlertEngineModel.AlertEngine.TriggerEach | modules/alerts/engine.py:42-47 | the loop over the copied bucket queues, marks and removes exactly the fired alerts, in order |
| AlertEngineModel.AlertEngine.UnsubscribeIfEmpty | modules/alerts/engine.py:50-51 | the symbol is unsubscribed exactly when it has no alerts left |
| AlertEngineModel.AlertEngine.Trigger | modules/alerts/engine.py:45-47 | one satisfied alert is queued last, its id marked triggered and it is removed from the registry |
| AlertEngineModel.AlertEngine.HandleInsert | modules/alerts/engine.py:53-56 | (corrected, see Findings) the alert is added and its symbol subscribed |
| AlertEngineModel.AlertEngine.HandleInsertAsWritten | modules/alerts/engine.py:53-56 | (as written, see Findings) the alert is added but the subscriptions are unchanged, so an alert on a symbol not yet subscribed breaks the engine invariant |
| AlertEngineModel.AlertEngine.HandleUpdate | modules/alerts/engine.py:58-61 | (corrected, see Findings) the alert replaces its id and its symbol is subscribed; nothing is unsubscribed |
| AlertEngineModel.AlertEngine.HandleUpdateAsWritten | modules/alerts/engine.py:58-61 | (as written, see Findings) the alert replaces its id but the subscriptions are unchanged, so moving it to a symbol not yet subscribed breaks the engine invariant |
| AlertEngineModel.AlertEngine.HandleDelete | modules/alerts/engine.py:63-67 | the alert is removed by id; its symbol is unsubscribed only when it has no alerts left; an unknown id changes nothing |
| AlertFeed.MockDataProvider.constructor | modules/alerts/provider.py:31-33 | no callbacks, running |
| AlertFeed.MockDataProvider.Stop | modules/alerts/provider.py:38-39 | clears the running flag and nothing else |
| AlertFeed.MockDataProvider.Subscribe | modules/alerts/provider.py:41-42 | sets the symbol's callback, overwriting an earlier one; other entries are untouched |
| AlertFeed.MockDataProvider.Unsubscribe | modules/alerts/provider.py:45-47 | deletes the symbol's entry if present and is a no-op otherwise |
| NotificationDispatch.Deliveries | modules/alerts/dispatcher_queue.py:22-27 | one invocation per handler, in registration order, each recording whether that handler raised |
| NotificationDispatch.DeliverAllAppend | modules/alerts/dispatcher_queue.py:14-17 | draining two queues in turn is draining their concatenation |
| NotificationDispatch.SeenBy | modules/alerts/dispatcher_queue.py:22-24 | the alerts one handler was invoked with, in order |
| NotificationDispatch.SeenByAppend | modules/alerts/dispatcher_queue.py:22-24 | what a handler sees distributes over concatenated invocation logs |
| NotificationDispatch.SeenByDeliveries | modules/alerts/dispatcher_queue.py:22-27 | handling one alert invokes a handler once per registration, failures or not |
| NotificationDispatch.HandlerSeesQueueInOrder | modules/alerts/dispatcher_queue.py:14-27 | a handler registered once receives exactly the queued alerts in FIFO order, whatever the other handlers raise |
| NotificationDispatch.NotificationDispatcher.constructor | modules/alerts/dispatcher_queue.py:7-9 | empty queue and handler list |
| NotificationDispatch.NotificationDispatcher.RegisterHandler | modules/alerts/dispatcher_queue.py:11-12 | the handler is appended to the list |
| NotificationDispatch.NotificationDispatcher.Enqueue | modules/alerts/dispatcher_queue.py:19-20 | the alert goes to the back of the queue |
| NotificationDispatch.NotificationDispatcher.HandleAlert | modules/alerts/dispatcher_queue.py:22-27 | every handler is invoked in registration order; a raising handler does not stop the later ones |
| NotificationDispatch.NotificationDispatcher.DispatchLoop | modules/alerts/dispatcher_queue.py:14-17 | the queue is drained front first and each alert handled in turn |
| ScannerSql.EscapeValue | modules/scanner/data.py:260-270 | a string becomes a single-quoted literal, None becomes NULL, a bool TRUE/FALSE |
| ScannerSql.EscapeStringReadsBack | modules/scanner/data.py:262-265 | a SQL lexer reads an escaped string back as exactly one literal holding the original text, so a quote in the value cannot end the literal early |
| ScannerSql.ReadEscapedBody | modules/scanner/data.py:264-265 | the doubled quotes of the escaped body read back as the original characters |
| ScannerSql.QuotedList | modules/scanner/data.py:112 | each column is double-quoted, in order |
| ScannerSql.SelectSql | modules/scanner/data.py:106-109 | " *" for absent or empty columns |
| ScannerSql.SelectSqlReadsBack | modules/scanner/data.py:111-113 | the SELECT list names exactly the requested columns, in order |
| ScannerSql.ReadQuotedColumns | modules/scanner/data.py:112-113 | reading the comma-joined quoted list gives the columns back |
| ScannerSql.Comparison | modules/scanner/data.py:187-210 | a template exists exactly for the ten comparison types that use the value |
| ScannerSql.Check | modules/scanner/data.py:199-214 | a template exists exactly for blank, notBlank, true and false |
| ScannerSql.BaseFilterToSql | modules/scanner/data.py:181-216 | a produced clause is non-empty and starts with the quoted column or a parenthesis |
| ScannerSql.BaseFilterOutcome | modules/scanner/data.py:183-216 | an error exactly for a missing colId or a type outside the fourteen supported ones; each comparison starts with the quoted column and contains the escaped value |
| ScannerSql.AdvancedFilterToSql | modules/scanner/data.py:168-178 | a join yields its parts in parentheses; any other filter is a base filter |
| ScannerSql.JoinParts | modules/scanner/data.py:171-174 | the join's parts in order, with no empty part |
| ScannerSql.JoinFailsWithAnyPart | modules/scanner/data.py:172-173 | a failing condition makes the join fail |
| ScannerSql.ClausesNeverEmpty | modules/scanner/data.py:174 | no condition yields an empty part, so the empty-part filter drops nothing |
| ScannerSql.WhereSql | modules/scanner/data.py:159-165 | nothing for a filter without a truthy type, else the advanced-filter clause |
| ScannerSql.StripWherePrefix | modules/scanner/data.py:140-141 | drops a leading " WHERE " and nothing else (the corrected removal) |
| ScannerSql.FilterClausesAsWritten | modules/scanner/data.py:137-142 | (as written, see Findings) the clauses collected with every " WHERE " deleted; WhereDeletionChangesValue shows the literal it alters |
| ScannerSql.WhereSqlMultipleAsWritten | modules/scanner/data.py:116-156 | (as written, see Findings) the WHERE clause over those clauses; WhereDeletionChangesValue shows it differs from the corrected WhereSqlMultiple |
| ScannerSql.EmptyUniverseMatchesNothing | modules/scanner/data.py:125-128 | an empty universe gives " WHERE 1=2" whatever the filters |
| ScannerSql.WhereWithoutConditions | modules/scanner/data.py:152-153 | without a universe the result is "" exactly when no filter yields a clause |
| ScannerSql.WhereSingleClause | modules/scanner/data.py:146-156 | a single clause is used without parentheses |
| ScannerSql.WhereMergedClauses | modules/scanner/data.py:148-156 | several clauses are joined by the merge operator inside parentheses |
| ScannerSql.WhereUniverseFirst | modules/scanner/data.py:129-156 | the universe restriction is AND-ed in front of the filter part |
| ScannerSql.FilterClausesVerbatim | modules/scanner/data.py:137-142 | with the corrected removal every collected clause is one a filter produced |
| ScannerSql.ClauseNotWherePrefixed | modules/scanner/data.py:159-216 | no filter clause starts with " WHERE " |
| ScannerSql.WhereDeletionChangesValue | modules/scanner/data.py:141 | an equals filter whose value contains " WHERE " is queried with a different value as written, and unchanged with the corrected removal |
| ScannerSql.SingleFilterClauses | modules/scanner/data.py:137-142 | the clause of one filter as collected by the source and by the corrected removal |
| ScannerSql.Direction | modules/scanner/data.py:233-238 | an explicit null direction fails (None has no upper()); otherwise DESC exactly when the upper-cased text is DESC, and ASC for an absent key or any other text |
| ScannerSql.SortClausesKeepNamed | modules/scanner/data.py:231-239 | fails exactly when some entry's direction is null; otherwise one ORDER BY item per entry that names a column, in order, with its direction |
| ScannerSql.SortClauses | modules/scanner/data.py:230-239 | the sort loop; SortClausesKeepNamed states that it fails exactly on a null direction and otherwise keeps one item per named entry, in order |
| ScannerSql.Named | modules/scanner/data.py:235 | the entries with a column, in order |
| ScannerSql.OrderByEmptyWhenUnnamed | modules/scanner/data.py:227-242 | fails exactly when some direction is null; otherwise no ORDER BY exactly when no entry names a column |
| ScannerSql.OrderBySql | modules/scanner/data.py:219-244 | the loop returns the ORDER BY clause OrderBySpec defines, including its null-direction error |
| ScannerSql.OrderBySpec | modules/scanner/data.py:219-244 | the ORDER BY clause: empty without named entries, otherwise the items joined with ", "; OrderByEmptyWhenUnnamed and SortClausesKeepNamed state its error and items |
| ScannerSql.LimitOffsetEmpty | modules/scanner/data.py:257 | "" exactly when both limit and offset are absent |
| ScannerSql.OffsetBeforeLimit | modules/scanner/data.py:251-257 | OFFSET comes before LIMIT |
| ScannerSql.LimitOffsetSql | modules/scanner/data.py:247-257 | the loop builds the specified clause |
| ScannerSql.LimitOffsetSpec | modules/scanner/data.py:247-257 | the paging suffix: LimitOffsetEmpty and OffsetBeforeLimit state when it is empty and that OFFSET precedes LIMIT |
| ScannerSql.WhereSqlMultipleLoop | modules/scanner/data.py:116-156 | (corrected, see Findings) the loop over the filters gives the WHERE clause WhereSqlMultiple defines, raising the first filter error |
| ScannerSql.WhereSqlMultiple | modules/scanner/data.py:116-156 | (corrected, see Findings) the WHERE clause: EmptyUniverseMatchesNothing, WhereWithoutConditions, WhereSingleClause, WhereMergedClauses and WhereUniverseFirst state its cases |
| ScannerSql.FilterClausesFail | modules/scanner/data.py:137-138 | an error in a prefix of the filters is the error of the whole list |
| ScannerSql.BuildSqlShape | modules/scanner/data.py:88-103 | a query starts with SELECT and ends with ";"; it fails exactly when the WHERE part fails or some direction is null, and a WHERE error is returned as raised |
| ScannerSql.BuildSql | modules/scanner/data.py:88-103 | (corrected, see Findings) the whole query, SELECT, WHERE, ORDER BY and paging in that order; BuildSqlShape states its shape and errors |
| Framing.Frames | utils/tradingview.py:35-39 | the frames of the payloads back to back; no payloads give "" |
| Framing.Frame | utils/tradingview.py:35-37 | a frame starts with the separator, ends with its payload and is longer than both separators and the payload |
| Framing.FramesAppend | utils/tradingview.py:35-37 | each further item appends its frame |
| Framing.SliceBound | utils/tradingview.py:45-50 | a Python slice bound: counted from the end when negative, then clamped |
| Framing.PySlice | utils/tradingview.py:49-50 | Python slicing: an in-range slice is the plain one, an overlong end is clamped |
| Framing.FrameStartsWithPrefix | utils/tradingview.py:44-45 | a frame starts with "~m~" |
| Framing.SeparatorAfterDigits | utils/tradingview.py:46 | the separator search stops right after the length digits |
| Framing.FrameFields | utils/tradingview.py:46-50 | the length field parses to the payload's length and the slice after it is the payload |
| Framing.DecodeLooseStep | utils/tradingview.py:44-50 | one frame is read as its payload and reading goes on after it |
| Framing.DecodeStrictStep | modules/core/provider/tradingview/quote_streamer.py:56-65 | the same for the streamer's loop |
| Framing.DecodeLooseFrames | utils/tradingview.py:26-50 | round trip: the framing loop applied to encoded payloads gives them back, in order |
| Framing.DecodeLoose | utils/tradingview.py:42-50 | the downloader's framing loop; DecodeLooseFrames states its round trip |
| Framing.UnterminatedReadsNothing | modules/core/provider/tradingview/quote_streamer.py:56-60 | a prefix with no separator after it ends the loop without failing |
| Framing.DecodeStrictFrames | modules/core/provider/tradingview/quote_streamer.py:43-65 | the streamer's loop gives back the payloads of encoded frames and ignores an unterminated tail |
| Framing.DecodeStrict | modules/core/provider/tradingview/quote_streamer.py:54-65 | the streamer's framing loop; DecodeStrictFrames states its round trip |
| Framing.DecodeStrictBeforeTail | modules/core/provider/tradingview/quote_streamer.py:56-65 | frames before a tail that reads as nothing give back their payloads |
| Framing.HeartbeatIsNotJson | utils/tradingview.py:53-57 | no frame is both a heartbeat and an event |
| Framing.Select | utils/tradingview.py:53-57 | the frames that pass the test, in order |
| TradingViewUtils.Payloads | utils/tradingview.py:28-36 | a string is one payload; a dict is one item; a list gives one payload per item, a None item an empty one |
| TradingViewUtils.Encode | utils/tradingview.py:26-39 | the frames of the payloads in order, which the framing loop reads back exactly |
| TradingViewUtils.EncodeItems | utils/tradingview.py:35-39 | the loop emits one frame per item, in order |
| TradingViewUtils.ClassifyWellFormed | utils/tradingview.py:52-58 | when every "{" frame parses, the heartbeats are echoed and the "{" frames become the events, in order; all other frames are dropped |
| TradingViewUtils.ClassifyBadJson | utils/tradingview.py:56-57 | a "{" frame that fails to parse makes the decoder raise |
| TradingViewUtils.Classify | utils/tradingview.py:52-58 | the sorting of frames into echoes and events, which ClassifyWellFormed and ClassifyBadJson state |
| TradingViewUtils.Decode | utils/tradingview.py:42-58 | a framing failure raises; otherwise the frames are sorted as the classification says |
| TradingViewUtils.ReadFrames | utils/tradingview.py:43-50 | the while loop computes the framing function |
| TradingViewUtils.SortFrames | utils/tradingview.py:52-58 | the second loop computes the classification |
| TradingViewUtils.PrependTwice | utils/tradingview.py:48-50 | payloads read one at a time accumulate in order |
| TradingViewUtils.ClassifyStops | utils/tradingview.py:56-57 | once a frame has raised, later frames change nothing |
| TradingViewUtils.ChunkListParts | utils/tradingview.py:316-317 | the chunks concatenate to the input; every chunk but the last is full, the last is non-empty; no chunks exactly for an empty list |
| TradingViewUtils.ChunkList | utils/tradingview.py:316-317 | every chunk holds between 1 and `size` elements, and there are no chunks exactly for an empty list; ChunkListParts adds that they concatenate back |
| TradingViewUtils.MergeQuoteEffect | utils/tradingview.py:137-151 | the new values override, fields not mentioned stay, other tickers keep their quotes |
| TradingViewUtils.MergeQuote | utils/tradingview.py:137-151 | the merge of one qsd event, whose effect MergeQuoteEffect states |
| TradingViewUtils.FetchState.constructor | utils/tradingview.py:80-84 | the counter of the unused mode is pre-filled with the ticker count |
| TradingViewUtils.FetchState.OnSeriesCompleted | utils/tradingview.py:202-207 | each series_completed raises bar_completed by exactly one |
| TradingViewUtils.FetchState.ProcessData | utils/tradingview.py:117-134 | quotes merged event by event, each counter raised once per matching event; complete exactly when both counters equal the ticker count |
| QuoteScaler.Cut | shared/provider/tradingview/quote_scaler.py:68-77 | Python's clamped slice bound: never past the list or the requested count, and non-empty when both are |
| QuoteScaler.NewTickers | shared/provider/tradingview/quote_scaler.py:58 | exactly the offered tickers not yet mapped, in order (duplicates kept, as written) |
| QuoteScaler.NewDistinct | shared/provider/tradingview/quote_scaler.py:58 | the same tickers, each once (the corrected list) |
| QuoteScaler.AssignedAppend | shared/provider/tradingview/quote_scaler.py:62-76 | the tickers of a plan built in two parts are those of the parts, in order |
| QuoteScaler.FillExistingTickers | shared/provider/tradingview/quote_scaler.py:65-71 | phase one splits the tickers into the placed prefix and the leftover, in order |
| QuoteScaler.FillExistingFits | shared/provider/tradingview/quote_scaler.py:65-71 | phase one fills only existing nodes in order, each with a non-empty batch within its spare room (`max_tickers - len(tickers)`) |
| QuoteScaler.FillExisting | shared/provider/tradingview/quote_scaler.py:65-71 | phase one of `add_tickers`; FillExistingTickers and FillExistingFits state its split and its fit |
| QuoteScaler.CreateNodesNames | shared/provider/tradingview/quote_scaler.py:73-77 | new nodes only while connections are free, each with a fresh name and a non-empty batch of at most the per-connection limit |
| QuoteScaler.CreateNodesCount | shared/provider/tradingview/quote_scaler.py:73 | no more new nodes than free connections |
| QuoteScaler.CreateNodesAt | shared/provider/tradingview/quote_scaler.py:74-76 | the k-th new node's name and batch size |
| QuoteScaler.CreateNodesTickers | shared/provider/tradingview/quote_scaler.py:75-77 | the new nodes' batches are a prefix of the leftover tickers |
| QuoteScaler.CreateNodesPlacesAll | shared/provider/tradingview/quote_scaler.py:73-77 | when a connection is left free every leftover ticker was placed |
| QuoteScaler.CreateNodes | shared/provider/tradingview/quote_scaler.py:73-77 | phase two (corrected); the CreateNodes lemmas state the names, count, position and tickers of the new nodes |
| QuoteScaler.CreateNodesAsWritten | shared/provider/tradingview/quote_scaler.py:73-77 | (as written, see Findings) phase two naming every batch `node_{len+1}`; AddTickersAsWrittenDropsBatch shows a batch lost |
| QuoteScaler.PhasesTickers | shared/provider/tradingview/quote_scaler.py:63-77 | the two phases place distinct tickers, all of them offered |
| QuoteScaler.Without | shared/provider/tradingview/quote_scaler.py:116 | the node order loses exactly the deleted nodes |
| QuoteScaler.UpdateNodesEffect | shared/provider/tradingview/quote_scaler.py:106-127 | a listed node survives iff it still has tickers; a deleted one keeps no task, streamer or queue; a surviving listed node gets a task and a queue; unlisted nodes and the mapping are untouched |
| QuoteScaler.UpdateNodes | shared/provider/tradingview/quote_scaler.py:106-127 | `_update_nodes` on the scaler's state, whose effect UpdateNodesEffect states |
| QuoteScaler.WithoutNone | shared/provider/tradingview/quote_scaler.py:116 | deleting no node keeps the order |
| QuoteScaler.WithoutWithout | shared/provider/tradingview/quote_scaler.py:107-116 | deleting nodes in two rounds is deleting them all at once |
| QuoteScaler.UpdateNodesNone | shared/provider/tradingview/quote_scaler.py:106-107 | updating no node leaves the scaler as it was |
| QuoteScaler.UpdateNodeDropped | shared/provider/tradingview/quote_scaler.py:108-117 | a node that is missing or has no tickers is deleted with its task, streamer and queue, and nothing else changes |
| QuoteScaler.UpdateNodeKept | shared/provider/tradingview/quote_scaler.py:119-127 | a node that still has tickers gets a task and a queue, and nothing else changes |
| QuoteScaler.UpdateNodesStep | shared/provider/tradingview/quote_scaler.py:107-127 | the nodes can be updated one at a time in any order |
| QuoteScaler.Stop | shared/provider/tradingview/quote_scaler.py:43-54 | a running scaler clears nodes, tasks, streamers, mapping and queues and keeps its quotes; a stopped one is unchanged |
| QuoteScaler.GetQuoteAfterRecord | shared/provider/tradingview/quote_scaler.py:140-164 | a recorded quote is what `get_quote` returns; other tickers are unaffected; an unknown ticker gives {} |
| QuoteScaler.RecordQuote | shared/provider/tradingview/quote_scaler.py:135-141 | a streamer's quote update, cached only while running; GetQuoteAfterRecord states what `get_quote` then returns |
| QuoteScaler.GetQuote | shared/provider/tradingview/quote_scaler.py:163-164 | `get_quote`; GetQuoteAfterRecord states it gives the recorded quote, or {} for a ticker never recorded |
| QuoteScaler.ApplyOneConsistent | shared/provider/tradingview/quote_scaler.py:80-83 | assigning unmapped tickers to a node keeps `ticker_to_node[t] == n` iff t is in node n |
| QuoteScaler.ApplyPlanMapped | shared/provider/tradingview/quote_scaler.py:79-83 | the mapped tickers after a plan are the earlier ones and the planned ones |
| QuoteScaler.ApplyPlanKeeps | shared/provider/tradingview/quote_scaler.py:79-83 | existing mappings are kept |
| QuoteScaler.ApplyPlanConsistent | shared/provider/tradingview/quote_scaler.py:79-83 | a plan of distinct, unmapped tickers keeps the mapping consistent |
| QuoteScaler.PruneConsistent | shared/provider/tradingview/quote_scaler.py:108-116 | only empty or missing nodes are deleted, so consistency is kept |
| QuoteScaler.AddPlanTickers | shared/provider/tradingview/quote_scaler.py:58-77 | the corrected plan places distinct, unmapped tickers |
| QuoteScaler.CommitConsistent | shared/provider/tradingview/quote_scaler.py:79-85 | carrying out such a plan keeps the mapping consistent |
| QuoteScaler.AddTickersConsistent | shared/provider/tradingview/quote_scaler.py:56-85 | `add_tickers` (corrected) preserves `ticker_to_node[t] == n` iff t is in node n's tickers |
| QuoteScaler.AddTickers | shared/provider/tradingview/quote_scaler.py:56-85 | `add_tickers` (corrected) on the scaler's state; AddTickersConsistent, AddTickersWellFormed and AddTickersMapsAll state what it keeps and maps |
| QuoteScaler.AddTickersAsWritten | shared/provider/tradingview/quote_scaler.py:56-85 | (as written, see Findings) `add_tickers` with repeats kept and the shared node name; AddTickersAsWrittenDropsBatch and AddTickersAsWrittenSplitsDuplicate show the two failures |
| QuoteScaler.AddPlan | shared/provider/tradingview/quote_scaler.py:58-77 | the corrected two-phase plan; AddPlanTickers, AddPlanNames and AddPlanPlacesAll state what it places and where |
| QuoteScaler.Commit | shared/provider/tradingview/quote_scaler.py:79-85 | carrying out a plan; CommitConsistent, CommitWellFormed and CommitMaps state that it keeps both invariants and maps the planned tickers |
| QuoteScaler.RemoveOneConsistent | shared/provider/tradingview/quote_scaler.py:92-97 | removing one ticker keeps the mapping consistent |
| QuoteScaler.RemoveAllConsistent | shared/provider/tradingview/quote_scaler.py:91-97 | removing each ticker in turn keeps it consistent |
| QuoteScaler.RemoveOne | shared/provider/tradingview/quote_scaler.py:92-97 | one ticker of `remove_tickers`; RemoveOneConsistent states that it keeps the mapping consistent |
| QuoteScaler.RemoveAll | shared/provider/tradingview/quote_scaler.py:91-97 | the removal loop; RemoveAllEffect, RemoveAllConsistent and RemoveAllKeepsNodes state its effect |
| QuoteScaler.RemoveTickersDropsQuotes | shared/provider/tradingview/quote_scaler.py:91-97 | on a consistent scaler, `get_quote` of a removed, mapped ticker is {} afterwards, and other tickers keep their quote |
| QuoteScaler.RemoveTickersConsistent | shared/provider/tradingview/quote_scaler.py:87-104 | `remove_tickers` preserves the consistency invariant |
| QuoteScaler.RemoveTickers | shared/provider/tradingview/quote_scaler.py:87-104 | `remove_tickers` on the scaler's state; RemoveTickersConsistent, RemoveTickersWellFormed, RemoveAllEffect and RemoveTickersDropsQuotes state its effect |
| QuoteScaler.ApplyOneWellFormed | shared/provider/tradingview/quote_scaler.py:80 | creating or extending a node keeps the node list and map in step |
| QuoteScaler.ApplyPlanWellFormed | shared/provider/tradingview/quote_scaler.py:79-81 | the same for a whole plan |
| QuoteScaler.WithoutDistinct | shared/provider/tradingview/quote_scaler.py:116 | the node order stays free of duplicates |
| QuoteScaler.PruneWellFormed | shared/provider/tradingview/quote_scaler.py:108-116 | deleting nodes keeps list and map in step |
| QuoteScaler.AddPlanNames | shared/provider/tradingview/quote_scaler.py:65-76 | every node a plan names is existing or newly opened |
| QuoteScaler.CommitWellFormed | shared/provider/tradingview/quote_scaler.py:79-85 | carrying out a plan keeps list and map in step |
| QuoteScaler.AddTickersWellFormed | shared/provider/tradingview/quote_scaler.py:56-85 | `add_tickers` keeps list and map in step |
| QuoteScaler.RemoveAllKeepsNodes | shared/provider/tradingview/quote_scaler.py:91-97 | removals only shrink existing nodes' ticker sets |
| QuoteScaler.RemoveTickersWellFormed | shared/provider/tradingview/quote_scaler.py:87-104 | `remove_tickers` keeps list and map in step |
| QuoteScaler.OperationsKeepValid | shared/provider/tradingview/quote_scaler.py:43-117 | add, remove and stop all preserve both invariants |
| QuoteScaler.CommitMaps | shared/provider/tradingview/quote_scaler.py:79-83 | committing maps the planned tickers and keeps existing mappings |
| QuoteScaler.AddPlanPlacesAll | shared/provider/tradingview/quote_scaler.py:63-77 | with a connection left free the plan places every new ticker |
| QuoteScaler.AddTickersMapsAll | shared/provider/tradingview/quote_scaler.py:56-85 | already-mapped tickers are ignored and keep their node; only offered tickers get mapped; with a free connection all of them are |
| QuoteScaler.RemoveAllEffect | shared/provider/tradingview/quote_scaler.py:91-97 | every given ticker is unmapped, other mappings are kept, only given tickers lose their cached quote, and on a consistent scaler every given ticker that was mapped does lose it |
| QuoteScaler.AddTickersAsWrittenDropsBatch | shared/provider/tradingview/quote_scaler.py:73-77 | as written, on a fresh scaler with one ticker per node, ticker "a" of ["a","b"] is never mapped |
| QuoteScaler.AsWrittenDuplicatePlan | shared/provider/tradingview/quote_scaler.py:58-71 | as written, a ticker listed twice is planned onto two nodes |
| QuoteScaler.FillOneSpare | shared/provider/tradingview/quote_scaler.py:65-71 | a node with one spare place takes a single ticker |
| QuoteScaler.FillOneSpareThen | shared/provider/tradingview/quote_scaler.py:65-71 | and the next node takes the next one |
| QuoteScaler.ApplyTwice | shared/provider/tradingview/quote_scaler.py:79-83 | a ticker planned for two nodes is in both, while the map names only the second |
| QuoteScaler.PruneKeeps | shared/provider/tradingview/quote_scaler.py:108-109 | a node that still has tickers survives unchanged |
| QuoteScaler.AddTickersAsWrittenSplitsDuplicate | shared/provider/tradingview/quote_scaler.py:58-83 | as written, a consistent scaler given ["a","a"] becomes inconsistent |
| QuoteScalerObject.NewTickerList | shared/provider/tradingview/quote_scaler.py:58 | the loop yields the unmapped tickers, each once |
| QuoteScalerObject.FillPhase | shared/provider/tradingview/quote_scaler.py:65-71 | the loop computes phase one |
| QuoteScalerObject.CreatePhase | shared/provider/tradingview/quote_scaler.py:73-77 | the loop computes phase two with fresh node names |
| QuoteScalerObject.TradingViewScaler.constructor | shared/provider/tradingview/quote_scaler.py:20-36 | an empty, stopped scaler with the given limits |
| QuoteScalerObject.TradingViewScaler.Start | shared/provider/tradingview/quote_scaler.py:38-40 | sets running and changes nothing else |
| QuoteScalerObject.TradingViewScaler.Stop | shared/provider/tradingview/quote_scaler.py:43-54 | the new state is `Stop` of the old one, and the invariants hold |
| QuoteScalerObject.TradingViewScaler.UpdateNode | shared/provider/tradingview/quote_scaler.py:107-127 | one node updated as `UpdateNodes` specifies |
| QuoteScalerObject.TradingViewScaler.UpdateNodes | shared/provider/tradingview/quote_scaler.py:106-127 | the loop over listed nodes gives `UpdateNodes` of the old state |
| QuoteScalerObject.TradingViewScaler.MapBatch | shared/provider/tradingview/quote_scaler.py:82-83 | every ticker of the batch is mapped to the node, the other mappings are kept, and no other field changes |
| QuoteScalerObject.TradingViewScaler.AssignOne | shared/provider/tradingview/quote_scaler.py:80-83 | the node is created if needed and takes the batch |
| QuoteScalerObject.TradingViewScaler.Assign | shared/provider/tradingview/quote_scaler.py:79-83 | each batch goes to its node, in plan order |
| QuoteScalerObject.TradingViewScaler.Place | shared/provider/tradingview/quote_scaler.py:62-77 | the plan is both phases of placement over the current nodes |
| QuoteScalerObject.TradingViewScaler.CommitPlan | shared/provider/tradingview/quote_scaler.py:79-85 | carrying out a plan leaves `Commit` of the old state: the batches assigned, the opened nodes counted, the named nodes started or cleaned up |
| QuoteScalerObject.TradingViewScaler.AddTickers | shared/provider/tradingview/quote_scaler.py:56-85 | the new state is the corrected `AddTickers` of the old one, and the invariants hold |
| QuoteScalerObject.TradingViewScaler.RemoveTickers | shared/provider/tradingview/quote_scaler.py:87-104 | the new state is `RemoveTickers` of the old one, the invariants hold, and every given ticker that was mapped has no cached quote |
| QuoteScalerObject.TradingViewScaler.OnQuoteUpdate | shared/provider/tradingview/quote_scaler.py:136-141 | the quote is cached only while running |
| QuoteScalerObject.TradingViewScaler.GetQuote | shared/provider/tradingview/quote_scaler.py:163-164 | the cached quote or {} |
| QuoteScalerObject.TradingViewScaler.GetAllQuotes | shared/provider/tradingview/quote_scaler.py:166-167 | a copy of all cached quotes |
| QuoteStreamer.MessagePayloads | modules/core/provider/tradingview/quote_streamer.py:44-50 | a string is one payload; a dict is one item; a list gives one JSON payload per item |
| QuoteStreamer.EncodeMessage | modules/core/provider/tradingview/quote_streamer.py:43-52 | one "~m~len~m~payload" frame per item in item order, which the streamer's own decoder reads back exactly |
| QuoteStreamer.EncodeItems | modules/core/provider/tradingview/quote_streamer.py:48-51 | the item loop builds exactly the frames of the items' payloads, in order |
| QuoteStreamer.ReadFrames | modules/core/provider/tradingview/quote_streamer.py:55-65 | the while loop computes the framing function, stopping at a prefix with no separator |
| QuoteStreamer.SortFrames | modules/core/provider/tradingview/quote_streamer.py:67-77 | heartbeat frames are echoed; "{" frames that parse become events; frames that fail to parse are skipped, and nothing else is kept |
| QuoteStreamer.DecodeMessage | modules/core/provider/tradingview/quote_streamer.py:54-77 | a bad length field raises; otherwise echoes and events are those of the frames |
| QuoteStreamer.DecodeMessageFrames | modules/core/provider/tradingview/quote_streamer.py:54-77 | encoded frames followed by a malformed tail decode to their payloads; the echoes are exactly the heartbeats, the events exactly the parsing "{" frames, and no frame is both |
| QuoteStreamer.ProcessQuoteUpdateEffect | modules/core/provider/tradingview/quote_streamer.py:110-122 | with fewer than two params or a missing ticker or values nothing changes; otherwise the values are merged over the stored quote (new keys win) and a copy returned, other tickers untouched |
| QuoteStreamer.ProcessQuoteUpdate | modules/core/provider/tradingview/quote_streamer.py:110-122 | the update of one qsd event, whose effect ProcessQuoteUpdateEffect states |
| QuoteStreamer.UpdatesAreGated | modules/core/provider/tradingview/quote_streamer.py:143-155 | a QUOTE_UPDATE is yielded only for a ticker already marked quote_completed, carrying its merged quote; completed marks are never lost within a connection |
| QuoteStreamer.HandleEvent | modules/core/provider/tradingview/quote_streamer.py:142-157 | one event: UpdatesAreGated and UpdateYieldedIffCompleted state its outcome, including the TypeError of an unhashable completed ticker |
| QuoteStreamer.HandleEvents | modules/core/provider/tradingview/quote_streamer.py:142-157 | one message's events in order, stopping at the first that raises; HandleEventsGated and FailedStays state its properties |
| QuoteStreamer.UpdateYieldedIffCompleted | modules/core/provider/tradingview/quote_streamer.py:150-155 | an update is yielded iff its ticker is completed; the cache is refreshed either way |
| QuoteStreamer.HandleEventsGated | modules/core/provider/tradingview/quote_streamer.py:142-155 | over a whole message every yielded update is for a ticker marked complete |
| QuoteStreamer.NoUpdateBeforeCompleted | modules/core/provider/tradingview/quote_streamer.py:137-154 | right after connecting no update is yielded |
| QuoteStreamer.TradingViewQuoteStreamer.constructor | modules/core/provider/tradingview/quote_streamer.py:28-38 | empty caches, no session, no socket |
| QuoteStreamer.TradingViewQuoteStreamer.Connect | modules/core/provider/tradingview/quote_streamer.py:137-140 | a connection sets the socket, clears the completed set and initialises the session; quotes and removals are kept |
| QuoteStreamer.TradingViewQuoteStreamer.InitializeSession | modules/core/provider/tradingview/quote_streamer.py:90-98 | a session exists afterwards |
| QuoteStreamer.TradingViewQuoteStreamer.Disconnect | modules/core/provider/tradingview/quote_streamer.py:167-168 | the socket is gone |
| QuoteStreamer.TradingViewQuoteStreamer.RemoveSymbols | modules/core/provider/tradingview/quote_streamer.py:100-108 | a no-op without a session or socket; otherwise the removal is sent and each symbol loses its quote and its completed flag |
| QuoteStreamer.TradingViewQuoteStreamer.ProcessUpdate | modules/core/provider/tradingview/quote_streamer.py:110-122 | the cache and the result are those of the update function |
| QuoteStreamer.TradingViewQuoteStreamer.HandleMessage | modules/core/provider/tradingview/quote_streamer.py:142-157 | the loop over one message's events gives the yields and state HandleEvents defines; a completed event whose ticker is a dict or a list raises |
| QuoteStreamer.FailedStays | modules/core/provider/tradingview/quote_streamer.py:142-157 | once an event raised, the rest of the message is not looked at |
| UpstoxKeys.FromKey | modules/core/provider/upstox/utils.py:85-92 | succeeds exactly for a key cached with a ticker; any other key raises |
| UpstoxKeys.CachedTickerAnswersFromCache | modules/core/provider/upstox/utils.py:59-61 | a cached ticker returns its cached key without re-validating, and the caches are unchanged |
| UpstoxKeys.FreshKeyRoundTrip | modules/core/provider/upstox/utils.py:78-92 | after a fresh key is produced for a ticker, translating the key back gives the ticker, and the ticker now answers from the cache with the same key |
| UpstoxKeys.ToKeyCachesOnlyKeys | modules/core/provider/upstox/utils.py:53-82 | no key leaves both caches unchanged; a key is cached under its ticker; an error is raised exactly for an uncached ticker of unsupported type |
| UpstoxKeys.DeriveCases | modules/core/provider/upstox/utils.py:67-74 | an index resolves exactly when the table maps it to a non-empty key; a stock or fund with an ISIN gives "{exchange}_EQ\|{isin}", without one None |
| UpstoxKeys.Derive | modules/core/provider/upstox/utils.py:67-74 | an error exactly for a type other than index, stock or fund; an index's key is the table's entry for its ticker |
| UpstoxKeys.ToKey | modules/core/provider/upstox/utils.py:53-82 | an uncached ticker gets the derived key; a key found is cached under its ticker; the caches only grow |
| UpstoxKeys.DurablesUnresolvedAsWritten | modules/core/provider/upstox/utils.py:36 | as written, the consumer durables index under TradingView's name NSE:NIFTY_CONSR_DURBL gives None |
| UpstoxKeys.DurablesResolved | modules/core/provider/upstox/utils.py:17-46 | with the corrected key the index resolves to its Upstox key, and every other entry is unchanged |
| UpstoxKeys.InstrumentKeys.constructor | modules/core/provider/upstox/utils.py:48-50 | both caches start empty |
| UpstoxKeys.InstrumentKeys.ToInstrumentKey | modules/core/provider/upstox/utils.py:53-82 | (corrected, see Findings) result and caches are those of the translation function on the old caches, with the corrected index table |
| UpstoxKeys.InstrumentKeys.FromInstrumentKey | modules/core/provider/upstox/utils.py:85-92 | the reverse lookup on the current caches |
| ExpressionCaching.HitRate | modules/ezscan/utils/cache.py:86-87 | a percentage between 0 and 100; 0 exactly when there was no hit (in particular before any lookup); 100 exactly when every lookup hit |
| ExpressionCaching.ExpressionCache.constructor | modules/ezscan/utils/cache.py:16-26 | empty cache, zero counters, the given switch |
| ExpressionCaching.ExpressionCache.Get | modules/ezscan/utils/cache.py:28-47 | answers only when enabled and the key is present; each call counts exactly one hit or one miss; a disabled cache returns None and counts a miss |
| ExpressionCaching.ExpressionCache.Set | modules/ezscan/utils/cache.py:49-58 | stores only when enabled |
| ExpressionCaching.ExpressionCache.Clear | modules/ezscan/utils/cache.py:60-64 | empties the entries and zeroes both counters, keeping the switch |
| ExpressionCaching.ExpressionCache.Enable | modules/ezscan/utils/cache.py:66-68 | only sets the switch |
| ExpressionCaching.ExpressionCache.Disable | modules/ezscan/utils/cache.py:70-73 | clears the entries and turns caching off |
| ExpressionCaching.ExpressionCache.IsEnabled | modules/ezscan/utils/cache.py:75-77 | reports the switch |
| ExpressionCaching.ExpressionCache.GetStats | modules/ezscan/utils/cache.py:79-95 | the counters, the entry count (0 when disabled) and the hit rate |
| ReducePeriod.Tail | modules/ezscan/core/expression_evaluator.py:166 | the result is a suffix of the series, of length n when n is non-negative and the series is long enough, the whole series otherwise |
| ReducePeriod.ReduceDefaults | modules/ezscan/core/expression_evaluator.py:154-175 | an empty series and an unknown mode give false; "now" reads the last bar |
| ReducePeriod.Reduce | modules/ezscan/core/expression_evaluator.py:154-175 | a missing period is an error exactly for the three modes that use it on a non-empty series; an index out of range exactly for "x bars ago" with a period of 0 or less reaching before the first bar |
| ReducePeriod.XBarAgoPositive | modules/ezscan/core/expression_evaluator.py:160-163 | for n >= 1, "x bars ago" is true iff there are at least n bars and the bar n back from the end is true |
| ReducePeriod.WithinLastPositive | modules/ezscan/core/expression_evaluator.py:165-167 | for n >= 1, "within last" is true iff one of the last n bars is true |
| ReducePeriod.InRowPositive | modules/ezscan/core/expression_evaluator.py:169-173 | for n >= 1, "in a row" is true iff there are at least n bars and all of the last n are true |
| ReducePeriod.InRowImpliesWithinLast | modules/ezscan/core/expression_evaluator.py:165-173 | n true bars in a row ending now imply a true bar within the last n |
| ReducePeriod.WithinLastMonotone | modules/ezscan/core/expression_evaluator.py:165-167 | widening the "within last" window never turns a true answer false |
| ReducePeriod.ZeroPeriod | modules/ezscan/core/expression_evaluator.py:160-173 | with a period of 0, "x bars ago" reads the first bar, "in a row" is true and "within last" is false |
| ScanRequests.CheckEvaluationPeriod | modules/ezscan/models/requests.py:22-33 | a computed condition without a period gets "now"; a static one with a period is refused; otherwise the period passes unchanged, and a rank condition passes only with "now" |
| ScanRequests.CheckValue | modules/ezscan/models/requests.py:35-55 | the value passes unchanged or is refused: a rank condition takes no value; a computed windowed period needs a positive one; "now" and static conditions take none; anything else passes |
| ScanRequests.RankRangeError | modules/ezscan/models/requests.py:66-72 | no error exactly when 1 <= rank_min <= rank_max <= 100 |
| ScanRequests.Condition.constructor | modules/ezscan/models/requests.py:12-20 | a condition holds the fields it was given |
| ScanRequests.Condition.CheckRankFields | modules/ezscan/models/requests.py:57-78 | a rank condition fills missing bounds with 1 and 99 and then reports the range check; any other condition has both bounds cleared and passes |
| ScanRequests.CheckStaticColumn | modules/ezscan/models/requests.py:91-96 | refused exactly when the column is static and the property name is missing or empty; otherwise unchanged |
| ScanRequests.CheckComputedColumn | modules/ezscan/models/requests.py:98-103 | refused exactly when the column is computed and the expression is missing or empty; otherwise unchanged |
| ScanRequests.CheckConditionColumn | modules/ezscan/models/requests.py:105-110 | refused exactly when the column is a condition column and the list is missing or empty; otherwise unchanged |
| ScanRequests.Ids | modules/ezscan/models/requests.py:123 | one id per column, in order |
| ScanRequests.DistinctCardinality | modules/ezscan/models/requests.py:124 | the set of ids is as large as the list exactly when no id repeats |
| ScanRequests.CheckUniqueColumnIds | modules/ezscan/models/requests.py:121-126 | refused exactly when two columns share an id; otherwise the columns pass unchanged |
| ScannerEngine.OfType | modules/ezscan/core/scanner_engine.py:80-81 | only conditions of the requested type, no more than given |
| ScannerEngine.SplitConditions | modules/ezscan/core/scanner_engine.py:80-81 | the static and the computed lists each keep the conditions' order, and together they hold every condition |
| ScannerEngine.Phase1 | modules/ezscan/core/scanner_engine.py:83-84 | the symbols the static filter passes, all loaded symbols without static conditions; ScanSelection states its use |
| ScannerEngine.SymbolPassesCases | modules/ezscan/core/scanner_engine.py:192-222 | an unloaded symbol fails; no conditions pass; with "and" a symbol passes iff every condition holds, with any other logic iff one holds |
| ScannerEngine.ProcessSymbolComputedConditions | modules/ezscan/core/scanner_engine.py:182-222 | returns the symbol and whether it passes, condition by condition, an evaluation that raises counting as false |
| ScannerEngine.Passing | modules/ezscan/core/scanner_engine.py:172-180 | a symbol is selected iff it is an input symbol that passes |
| ScannerEngine.SelectedIsSubsequence | modules/ezscan/core/scanner_engine.py:157-180 | the selection keeps the input order, is the input itself without conditions, and otherwise holds exactly the passing input symbols |
| ScannerEngine.Selected | modules/ezscan/core/scanner_engine.py:94-97 | the phase-two selection, which SelectedIsSubsequence states |
| ScannerEngine.EvaluateComputedConditions | modules/ezscan/core/scanner_engine.py:157-180 | the loop selects exactly the passing symbols, in order |
| ScannerEngine.Scan | modules/ezscan/core/scanner_engine.py:55-103 | an early exit is always the empty unsuccessful response with "symbol" and the column names; otherwise at least one symbol goes on to column evaluation |
| ScannerEngine.ScanSelection | modules/ezscan/core/scanner_engine.py:74-146 | nothing loaded gives the empty response; no conditions select every loaded symbol; with computed conditions every selected symbol is loaded and passes them |
| ScannerEngine.NonStaticCells | modules/ezscan/core/scanner_engine.py:348-399 | the result has exactly the columns' names as keys |
| ScannerEngine.NonStaticCellOf | modules/ezscan/core/scanner_engine.py:359-399 | under a column's name is the value of the last column of that name: its evaluation for a loaded symbol, None for an unloaded one |
| ScannerEngine.ColumnCellDefaults | modules/ezscan/core/scanner_engine.py:367-393 | a blank computed expression gives None, a condition column without conditions gives False, any other type gives None |
| ScannerEngine.ColumnCell | modules/ezscan/core/scanner_engine.py:359-393 | one cell of a non-static column, whose defaults ColumnCellDefaults states |
| ScannerEngine.EvaluateNonStaticColumns | modules/ezscan/core/scanner_engine.py:348-399 | the loop builds exactly the name-to-value map above |
| ScannerEngine.IdToName | modules/ezscan/core/scanner_engine.py:429-431 | "symbol" always maps to itself |
| ScannerEngine.IdMap | modules/ezscan/core/scanner_engine.py:429 | holds exactly the columns' ids |
| ScannerEngine.Resolve | modules/ezscan/core/scanner_engine.py:439-454 | a sort entry resolves only to a column present in the results |
| ScannerEngine.ResolveSort | modules/ezscan/core/scanner_engine.py:435-454 | the kept entries are input entries, each paired with the result column it resolves to |
| ScannerEngine.ResolveSortKeeps | modules/ezscan/core/scanner_engine.py:438-454 | every entry that resolves is kept |
| ScannerEngine.ResolvePrefersIds | modules/ezscan/core/scanner_engine.py:440-454 | an id is looked up first and is dropped if its column is absent; a raw column name is used only when it is not an id |
| ScannerEngine.Ascending | modules/ezscan/core/scanner_engine.py:458 | ascending exactly for the "asc" entries |
| ScannerEngine.ResolveSortColumns | modules/ezscan/core/scanner_engine.py:426-454 | the loop keeps exactly the resolving entries with their column names |
| StockTwits.ToRequestParam | modules/core/provider/stocktwits/client.py:44-72 | the query always carries the request's limit |
| StockTwits.SymbolForms | modules/core/provider/stocktwits/client.py:46-47 | a bare symbol becomes SYM.NSE; EX:SYM becomes SYM.EX |
| StockTwits.StockTwitsSymbol | modules/core/provider/stocktwits/client.py:46-47 | the stream symbol, whose two forms SymbolForms states |
| StockTwits.FilterChoice | modules/core/provider/stocktwits/client.py:49-72 | the filter is "top" exactly for the suggested global feed and popular symbol feeds, "all" for every other request |
| StockTwits.SymbolFeedUrl | modules/core/provider/stocktwits/client.py:49-56 | a symbol feed addresses that symbol's own stream, under "streams/symbol/" for trending and "trending_messages/symbol/" for popular |
| HardcodedMetadata.ToMap | modules/ezscan/providers/hardcoded_metadata_provider.py:20-31 | the dict holds exactly the keys of its entries |
| HardcodedMetadata.ToMapLast | modules/ezscan/providers/hardcoded_metadata_provider.py:20-31 | a key's value is that of its last entry |
| HardcodedMetadata.Keys | modules/ezscan/providers/hardcoded_metadata_provider.py:72 | the keys of the entries, in insertion order |
| HardcodedMetadata.GetMetadata | modules/ezscan/providers/hardcoded_metadata_provider.py:33-50 | a value exactly for the supported properties, None otherwise |
| HardcodedMetadata.GetAllMetadata | modules/ezscan/providers/hardcoded_metadata_provider.py:52-63 | every supported property with the value get_metadata gives it, and nothing else |
| HardcodedMetadata.GetSupportedProperties | modules/ezscan/providers/hardcoded_metadata_provider.py:65-72 | the ten names, each once, "eps" first and "roa" last, exactly the keys of get_all_metadata |
| HardcodedMetadata.SameForEverySymbol | modules/ezscan/providers/hardcoded_metadata_provider.py:48-63 | neither answer depends on the symbol |
| HardcodedMetadata.EpsDefault | modules/ezscan/providers/hardcoded_metadata_provider.py:21-50 | "eps" is 50 for every symbol |
| HardcodedMetadata.UnsupportedProperty | modules/ezscan/providers/hardcoded_metadata_provider.py:44-46 | a property outside the defaults gives None |
| ScreenerWs.SubscribeView | modules/api/ws.py:121-128 | the request's universe, filters and merge; the default columns when none are given; the range (0, -1) for fewer than two bounds; the requested sort followed by the name tiebreaker |
| ScreenerWs.PatchView | modules/api/ws.py:137-159 | only the given fields change: an empty column list becomes ["name"], a new sort gets the name tiebreaker, the universe is kept, and a patch naming no field changes nothing |
| ScreenerWs.FullResponseFor | modules/api/ws.py:187-216 | a range that is not a pair fails to unpack; an empty or negative range sends nothing; otherwise one response for rows start..end, queried at offset start with limit end - start over the session's columns, filters, sort, merge and universe |
| ScreenerWs.PatchIdempotent | modules/api/ws.py:137-159 | applying the same patch twice equals applying it once |
| ScreenerWs.DefaultRangeSendsNothing | modules/api/ws.py:124-190 | a session subscribed without a range sends no page |
| ScreenerWs.PatchSends | modules/api/ws.py:161-163 | a patch naming no field sends nothing; otherwise the acknowledgement comes first, then the page |
| ScreenerWs.SubscribeRepliesAsWritten | modules/api/ws.py:262-268 | as written, a new id is acknowledged (a repeated id gets nothing, see Findings) |
| ScreenerWs.SubscribeReply | modules/api/ws.py:262-268 | the reply is the duplicate notice exactly when the id is already open, the acknowledgement otherwise |
| ScreenerWs.DuplicateUnansweredAsWritten | modules/api/ws.py:264 | a second subscribe under an open id gets no message as written, and the duplicate notice when corrected |
| ScreenerWs.NextViews | modules/api/ws.py:244-256 | a subscribe adds its id, an unsubscribe drops one, and every other request keeps the open ids |
| ScreenerWs.NextViewsKeepsOthers | modules/api/ws.py:244-281 | a view that changes is the one the patch or universe switch names |
| ScreenerWs.NextToken | modules/api/ws.py:258-260 | only an auth with a token other than "no_auth" changes the token, to that token |
| ScreenerWs.SentHasNoError | modules/api/ws.py:226-234 | no handler writes the error reply itself |
| ScreenerWs.ErrorReplyIffFailure | modules/api/ws.py:226-234 | the error reply is written exactly when the message did not validate or its handler failed on the range unpacking, and then last (query errors: see Left out) |
| ScreenerWs.ScreenerSession.constructor | modules/api/ws.py:100-116 | a fresh session shows the default view (no universe, no filters, OR, no sort, the four default columns, range (0, -1)) and runs no task |
| ScreenerWs.ScreenerSession.Subscribe | modules/api/ws.py:121-131 | the view becomes the subscribe view, the acknowledgement is sent and the realtime task runs |
| ScreenerWs.ScreenerSession.Unsubscribe | modules/api/ws.py:133-135 | the view is kept and a task, if any, is cancelled |
| ScreenerWs.ScreenerSession.DispatchFullResponse | modules/api/ws.py:187-216 | sends exactly the full response computed for the current view, failing when the range is not a pair |
| ScreenerWs.ScreenerSession.Patch | modules/api/ws.py:137-164 | the view becomes the patched view; the socket receives the acknowledgement and page when a field was given, and nothing otherwise |
| ScreenerWs.ScreenerSession.SetUniverse | modules/api/ws.py:166-169 | only the universe changes, and the new page is sent |
| ScreenerWs.WSSession.constructor | modules/api/ws.py:219-224 | no token and no sessions |
| ScreenerWs.WSSession.OnAuth | modules/api/ws.py:258-260 | the token is replaced except by the placeholder "no_auth"; sessions are untouched |
| ScreenerWs.WSSession.OnScreenerSubscribe | modules/api/ws.py:262-268 | (corrected, see Findings) a new id opens a fresh session with the connection's token and the subscribe view, leaving the others; an open id keeps every session; the one reply sent is the subscribe reply |
| ScreenerWs.WSSession.AddSession | modules/api/ws.py:266-268 | a fresh session is filed under the new id with the subscribe view, the other views unchanged, and acknowledged |
| ScreenerWs.WSSession.OnScreenerUnsubscribe | modules/api/ws.py:270-273 | the id is dropped and its task no longer runs; an unknown id changes nothing |
| ScreenerWs.WSSession.OnScreenerPatch | modules/api/ws.py:275-277 | only the named session's view changes, to its patched view; an unknown id sends nothing |
| ScreenerWs.WSSession.OnScreenerSetUniverse | modules/api/ws.py:279-281 | only the named session's universe changes; an unknown id sends nothing |
| ScreenerWs.WSSession.OnDisconnect | modules/api/ws.py:238-242 | every session's task is stopped and no session is left |
| ScreenerWs.WSSession.OnData | modules/api/ws.py:244-256 | the views, token and messages are those NextViews, NextToken and Sent give for the request's kind, and the handler fails exactly as Fails says |
| ScreenerWs.WSSession.Receive | modules/api/ws.py:226-234 | a message that does not validate changes no session, view or token; a valid one changes them as its handler does; what is written is Reply: the error alone, or the handler's messages followed by the error when it raised |
| ScreenerWs.WSSession.Handle | modules/api/ws.py:229-234 | a validated message changes the views and token as its handler does; what is written is the handler's messages, followed by the error reply exactly when the handler raised |
| ScreenerWs.WSSession.SendError | modules/api/ws.py:232-234 | the error reply is appended and no session or view changes |
| Sockets.WebSocket.constructor | modules/api/ws.py:222-223 | nothing sent yet |
| Sockets.WebSocket.SendJson | modules/api/ws.py:130 | the message is appended after everything sent before |
| ScannerWs.SubscribeView | modules/scanner/ws.py:91-95 | the request's filters and sort as given; the default columns when none are given; the range (0, -1) for fewer than two bounds |
| ScannerWs.PatchView | modules/scanner/ws.py:101-118 | only the given fields change, an empty column list becoming ["name"]; a patch naming no field changes nothing |
| ScannerWs.PatchIdempotent | modules/scanner/ws.py:101-118 | applying the same patch twice equals applying it once |
| ScannerWs.FullResponseFor | modules/scanner/ws.py:124-152 | a range that is not a pair fails to unpack; an empty or negative range sends nothing; otherwise one response for rows start..end, queried at offset start with limit end - start, filters merged with OR |
| ScannerWs.PatchSends | modules/scanner/ws.py:120-122 | a patch naming no field sends nothing; otherwise the acknowledgement comes first, then the page |
| ScannerWs.SubscribeRepliesAsWritten | modules/scanner/ws.py:185-191 | as written, a new id is acknowledged (a repeated id gets nothing, see Findings) |
| ScannerWs.SubscribeReply | modules/scanner/ws.py:185-191 | the duplicate notice exactly when the id is already open, the acknowledgement otherwise |
| ScannerWs.DuplicateUnansweredAsWritten | modules/scanner/ws.py:187 | a second subscribe under an open id gets no message as written, and the duplicate notice when corrected |
| ScannerWs.NextViews | modules/scanner/ws.py:175-183 | a subscribe adds its id, an unsubscribe drops one, and a patch keeps the open ids |
| ScannerWs.NextViewsKeepsOthers | modules/scanner/ws.py:175-200 | a view that changes is the one the patch names |
| ScannerWs.SentHasNoError | modules/scanner/ws.py:160-168 | no handler writes the error reply itself |
| ScannerWs.ErrorReplyIffFailure | modules/scanner/ws.py:160-168 | the error reply is written exactly when the message did not validate or its handler failed on the range unpacking, and then last (query errors: see Left out) |
| ScannerWs.ScreenerSession.constructor | modules/scanner/ws.py:76-86 | a fresh session shows the default view |
| ScannerWs.ScreenerSession.Subscribe | modules/scanner/ws.py:91-96 | the view becomes the subscribe view and the acknowledgement is sent |
| ScannerWs.ScreenerSession.DispatchFullResponse | modules/scanner/ws.py:124-152 | sends exactly the full response computed for the current view, failing when the range is not a pair |
| ScannerWs.ScreenerSession.Patch | modules/scanner/ws.py:101-122 | the view becomes the patched view; the socket receives the acknowledgement and the page when a field was given, nothing otherwise |
| ScannerWs.WSSession.constructor | modules/scanner/ws.py:156-158 | no sessions |
| ScannerWs.WSSession.OnScreenerSubscribe | modules/scanner/ws.py:185-191 | (corrected, see Findings) a new id opens a fresh session with the subscribe view, leaving the others; an open id keeps every session; the one reply sent is the subscribe reply |
| ScannerWs.WSSession.AddSession | modules/scanner/ws.py:189-191 | a fresh session is filed under the new id with the subscribe view and acknowledged |
| ScannerWs.WSSession.OnScreenerUnsubscribe | modules/scanner/ws.py:193-196 | the id is dropped, every other view kept |
| ScannerWs.WSSession.OnScreenerPatch | modules/scanner/ws.py:198-200 | only the named session's view changes; an unknown id sends nothing |
| ScannerWs.WSSession.OnDisconnect | modules/scanner/ws.py:172-173 | only logged: every session and view is kept |
| ScannerWs.WSSession.OnData | modules/scanner/ws.py:175-183 | the views and messages are those NextViews and Sent give for the request's kind, and the handler fails exactly as Fails says |
| ScannerWs.WSSession.Receive | modules/scanner/ws.py:160-168 | a message that does not validate changes no session or view; a valid one changes them as its handler does; what is written is Reply: the error alone, or the handler's messages followed by the error when it raised |
| ScannerWs.WSSession.Handle | modules/scanner/ws.py:163-168 | a validated message changes the views as its handler does; what is written is the handler's messages, followed by the error reply exactly when the handler raised |
| ScannerWs.WSSession.SendError | modules/scanner/ws.py:166-168 | the error reply is appended and no session or view changes |
| MarketSmith.ConvertValue | modules/core/provider/marketsmith/client.py:75-78 | a text value has each space replaced by "+"; any other value is unchanged |
| MarketSmith.ConvertedHasNoSpace | modules/core/provider/marketsmith/client.py:75-76 | a converted text has no space left and keeps its length |
| MarketSmith.ConvertParams | modules/core/provider/marketsmith/client.py:71-79 | the same keys, each value converted |
| MarketSmith.SearchText | modules/core/provider/marketsmith/client.py:174 | "_" becomes "-": same length, no "_" left |
| MarketSmith.Normalise | modules/core/provider/marketsmith/client.py:174-211 | the stored form of a symbol keeps its length |
| MarketSmith.NormalForm | modules/core/provider/marketsmith/client.py:174-211 | a stored symbol has no "_" and no lower-case letter, and normalising it again changes nothing |
| MarketSmith.NormaliseIgnoresCase | modules/core/provider/marketsmith/client.py:174-211 | case and the choice of "_" or "-" do not change the stored symbol |
| MarketSmith.FirstMatch | modules/core/provider/marketsmith/client.py:188-191 | the index of the first result whose symbol equals the searched text ignoring case, or none when no result matches |
| MarketSmith.SymbolChoice | modules/core/provider/marketsmith/client.py:174-212 | no match gives "symbol not found"; a success stores the upper-cased search text with the instrument id of a matching result; the only errors are "not found" and a missing instrument id |
| MarketSmith.ChoiceIgnoresCase | modules/core/provider/marketsmith/client.py:189 | a lower-cased spelling of the symbol finds the same instrument |
| MarketSmith.FirstMatchSame | modules/core/provider/marketsmith/client.py:189 | texts equal up to case find the same first match |
| MarketSmith.FirstMatchWins | modules/core/provider/marketsmith/client.py:188-191 | of two matching results the first one's instrument is chosen |
| MarketSmith.Readiness | modules/core/provider/marketsmith/client.py:241-245 | a data call may proceed exactly when there is a session, a symbol and an instrument id; without a session the error is "session not initialized", otherwise "symbol not set" |
| MarketSmith.Endpoint | modules/core/provider/marketsmith/client.py:29-42 | every data URL lies under the site's gateway |
| MarketSmith.EndpointNamesInstrument | modules/core/provider/marketsmith/client.py:34-42 | every data URL except the broker estimates contains the instrument id |
| MarketSmith.MarketSmithClient.constructor | modules/core/provider/marketsmith/client.py:46-69 | no session, no cookies, no symbol, and the fixed common headers |
| MarketSmith.MarketSmithClient.HeadersWithReferer | modules/core/provider/marketsmith/client.py:81-86 | the common headers, plus a Referer naming the lower-cased symbol exactly when a symbol is set |
| MarketSmith.MarketSmithClient.InitSession | modules/core/provider/marketsmith/client.py:115-171 | the client exists afterwards and the session cookie is stored; no session cookie or no auth cookie is an error that leaves the auth unset; of two or more auth cookies the second is kept, otherwise the only one |
| MarketSmith.MarketSmithClient.SetSymbol | modules/core/provider/marketsmith/client.py:173-214 | without a session it fails; otherwise it succeeds exactly when the symbol choice does and stores the chosen symbol and id; a failure keeps the previous symbol |
| MarketSmith.MarketSmithClient.Prepare | modules/core/provider/marketsmith/client.py:241-468 | a data call is refused with the readiness error, and otherwise fetches its endpoint for the current instrument |
| MarketSmith.MarketSmithClient.Close | modules/core/provider/marketsmith/client.py:538-545 | the session is gone; an open client also forgets its symbol and instrument |
| MarketSmith.CloseRefusesCalls | modules/core/provider/marketsmith/client.py:241-545 | after close every data call is refused for want of a session |
| Watchlist.Large | utils/watchlist.py:5 | exactly the members above the 3-billion market-cap floor |
| Watchlist.InsertDesc | utils/watchlist.py:14 | inserting into a descending list keeps it descending and adds exactly the one member |
| Watchlist.SortDesc | utils/watchlist.py:14 | descending by market cap and a permutation of the input |
| Watchlist.Largest | utils/watchlist.py:14 | the first n (or all) members, in descending order of market cap |
| Watchlist.LargestAreLargest | utils/watchlist.py:14 | the chosen members together with the rest make up the group, and none left out has a larger cap than one chosen |
| Watchlist.Tickers | utils/watchlist.py:11-19 | one ticker per member, in order |
| Watchlist.FormatGroup | utils/watchlist.py:8-19 | a group of at most one is just its tickers; a larger one is headed by its ten largest tickers joined with "+" and its size, then every ticker |
| Watchlist.Sections | utils/watchlist.py:5-23 | at most one section per group, and no section is empty |
| Watchlist.ChunksOkMeans | utils/watchlist.py:25-47 | the chunk rules hold exactly when every chunk is non-empty and within the limit unless it holds one section, and every chunk was closed only because the next section would have overflowed it |
| Watchlist.FillKeepsRules | utils/watchlist.py:30-43 | every state the chunking loop reaches holds the sections seen so far, in order, in closed chunks under the rules followed by the chunk being filled |
| Watchlist.Step | utils/watchlist.py:34-43 | one section added to the chunking state; StartChunk and JoinChunk state that it keeps the rules |
| Watchlist.Fill | utils/watchlist.py:30-43 | the chunking state after a prefix of the sections, which FillKeepsRules states |
| Watchlist.CloseChunk | utils/watchlist.py:35-47 | closing a chunk keeps the chunk rules and the order of the sections |
| Watchlist.StartChunk | utils/watchlist.py:34-38 | a section that would overflow the chunk starts a new one and the chunking state stays valid |
| Watchlist.JoinChunk | utils/watchlist.py:40-43 | a section that fits, or any section of an empty chunk, joins it and the chunking state stays valid |
| Watchlist.FinishChunks | utils/watchlist.py:45-47 | keeping the last chunk only when it holds something yields a packing of all the sections |
| Watchlist.PackSections | utils/watchlist.py:25-47 | every section, in order, in non-empty chunks; a chunk exceeds the limit of 1000 entries only when it holds one section; a chunk ends only where the next section would have overflowed it |
| Watchlist.Entry | utils/watchlist.py:41 | a section's entry starts with the "###" marker, its name and a comma |
| Watchlist.Render | utils/watchlist.py:41-50 | a chunk's entries joined with commas; GenerateWatchlist states its use |
| Watchlist.GenerateWatchlist | utils/watchlist.py:4-50 | one line per chunk of a packing of the groups' sections, each line that chunk's entries joined with commas |
| Fundamentals.BelowAsymmetric | utils/fundamentals.py:85 | string order: a date below another is never above it |
| Fundamentals.BelowTransitive | utils/fundamentals.py:85 | string order is transitive |
| Fundamentals.BelowTotal | utils/fundamentals.py:85 | of two different dates one is below the other |
| Fundamentals.NotBelowTransitive | utils/fundamentals.py:85 | "not below" is transitive, so descending order chains |
| Fundamentals.PrependSorted | utils/fundamentals.py:85 | a row at least as recent as the head keeps a descending list descending |
| Fundamentals.InsertByDate | utils/fundamentals.py:85 | inserting into a list sorted most recent first keeps it sorted and adds exactly that row |
| Fundamentals.SortByDateDesc | utils/fundamentals.py:34-85 | sorted most recent first and a permutation of the rows |
| Fundamentals.LastTtm | utils/fundamentals.py:74-79 | the TTM row found is one of the rows; none exactly when no row is TTM |
| Fundamentals.RegularMembers | utils/fundamentals.py:75-81 | exactly the rows that are not TTM |
| Fundamentals.Regular | utils/fundamentals.py:75-81 | the rows that are not TTM, which RegularMembers states |
| Fundamentals.LastTtmIsLast | utils/fundamentals.py:77-79 | of several TTM rows the last one is kept |
| Fundamentals.SplitTtm | utils/fundamentals.py:74-81 | the loop keeps the last TTM row and collects the other rows in order |
| Fundamentals.PnlOrder | utils/fundamentals.py:83-91 | the TTM row first when there is one, then the other rows sorted most recent first, none lost or added |
| Fundamentals.RegularWithoutTtm | utils/fundamentals.py:80-81 | without a TTM row every row is regular |
| Fundamentals.MetricColumnsHold | utils/fundamentals.py:56-126 | one metric yields exactly periods 1..n, each the metric in that row or nothing past the last row |
| Fundamentals.DistinctPrefix | utils/fundamentals.py:37-112 | dropping a metric keeps the short names distinct |
| Fundamentals.ColumnsKeys | utils/fundamentals.py:55-121 | the output has exactly one column per metric and period 1..n |
| Fundamentals.ColumnsValues | utils/fundamentals.py:55-126 | with distinct short names, each column holds its own metric's value in the p-th row, or nothing past the last row |
| Fundamentals.Columns | utils/fundamentals.py:55-126 | the output columns of the metrics, which ColumnsKeys and ColumnsValues state |
| Fundamentals.FillMetric | utils/fundamentals.py:56-126 | the loop adds one metric's columns; with rows present, a metric the table lacks is an error |
| Fundamentals.FillColumns | utils/fundamentals.py:55-126 | fails exactly when there are rows and some metric is missing from the table, naming a missing one; otherwise builds exactly the column map |
| Fundamentals.YearlyNamesDistinct | utils/fundamentals.py:97-112 | the fourteen yearly short names are distinct |
| Fundamentals.QuarterlyNamesDistinct | utils/fundamentals.py:37-49 | the eleven quarterly short names are distinct |
| Fundamentals.ExtractPnl | utils/fundamentals.py:68-128 | with rows, a table without a Date column fails naming it; fails exactly when there are rows and Date or a yearly metric is missing; otherwise the yearly columns over the P&L order, five periods |
| Fundamentals.PnlColumns | utils/fundamentals.py:88-126 | fy_p is the metric in the p-th row of the P&L order, or nothing past the last row, and fy_1 is the TTM row's value when there is one |
| Fundamentals.ExtractQuarterlyResult | utils/fundamentals.py:26-65 | a table without a Date column fails naming it, even without rows; a date that does not parse as year and month fails; fails exactly in those cases or when there are rows and a quarterly metric is missing; otherwise the quarterly columns over the rows sorted most recent first, six periods |
| Fundamentals.QuarterlyColumns | utils/fundamentals.py:34-63 | fq_p is the metric in the p-th most recent quarter, or nothing past the last quarter |

## Left out

- Asynchronous plumbing is not modelled:
  - the alert store (Supabase client and realtime channel), the worker process and `main.py`;
  - the mock feed's random-price loop;
  - the `asyncio` tasks and queues of the quote scaler (`_run_node`, `quote_events`);
  - the streamer's reconnect loop and socket I/O;
  - the screener's prefetch and realtime-dispatch tasks.

  Only the bookkeeping these touch is modelled. A task is a tag (running or cancelled), and a socket is the list of messages sent on it.
- JSON encoding and parsing are opaque. A payload is carried as its text, and whether a text parses is a parameter.
- Python's `int()` is modelled for decimal digits only.
- Python's `str.upper` and `str.lower` are modelled for ASCII letters only.
- Prices and market caps are exact reals. Floating-point rounding is not modelled.
- Expression evaluation through Python `eval` is not modelled. The scanner engine receives the series evaluation, the value evaluation, the condition-column evaluation and the vectorised static filter as parameters; `None` means the evaluation raised.
- The pandas execution in `scanner_engine.py` is not modelled:
  - the static-column metadata lookup;
  - the row merge;
  - the `dropna` calls;
  - `sort_values` itself.

  Sort-column resolution is modelled; a scan that selects symbols ends in `Rows`, the symbols handed on to column evaluation.
- ExpressionCaching.ExpressionCache.GetStats: reports the hit rate unrounded, whereas the source rounds it to two decimals.
- HardcodedMetadata.GetAllMetadata: returns a value. The copy the source makes, and the independence of that copy from the provider, are therefore trivial in the model and not stated.
- The scanner's and the screener's `on_event`, and the trivial getters (`get_current_symbol`, `get_available_symbols`, `get_symbol_info`), are not modelled.
- Full screener responses carry the page query (`Query`) in place of the rows and the total count. The query execution (`query_symbols`) is not part of this model.
- MarketSmith: the HTTP bodies, the cookie jar handling, the search and add-symbol requests, `all()` and the transport's close are not modelled.
  - The cookies and search results are parameters.
  - A data call yields the URL it would fetch.
  - A failure of the initial GET or of the add-symbol POST is not modelled.
- StockTwits: `fetch` is not modelled. The `ValueError` for an unknown feed cannot arise, because the model admits only the three feeds the request model allows.
- Fundamentals:
  - `get_fundamentals` (bucket I/O) is not modelled.
  - Output columns are keys (short name, period) in place of the strings `<name>_fy_<p>` and `<name>_fq_<p>`.
  - Dates are compared as text, and the `to_datetime` re-formatting of quarterly dates is not modelled. It keeps the text order of `YYYYMM` dates.
  - Whether `to_datetime(format='%Y%m')` accepts a quarterly date is a parameter of ExtractQuarterlyResult. A date it rejects is the model's parse error.
  - Pandas' default sort is modelled as a stable sort.
- Watchlist: the `groupby` of the frame is not modelled. Groups arrive in the order the grouping yields them. Ties in `nlargest` keep their input order.
- The quote scaler's constructor needs `max_tickers_per_connection > 0`. With 0 the node-creating loop of `add_tickers` never ends.
- TradingViewUtils.ChunkListParts: needs a positive chunk size, because `range` with a step of 0 raises.
- QuoteStreamer.HandleEvent: a `quote_completed` ticker that is hashable but not text (`None` for a missing ticker, a number) is yielded but not recorded in the completed set. Only text tickers are compared with it, so it could never match.
- AlertEngineModel: the engine calls the feed's `subscribe` with a symbol only, while the mock feed's `subscribe` also takes a callback. Subscriptions are therefore a set of symbols, and the mock feed's callback table is modelled separately.
- AlertEngineModel.AlertEngine.HandleInsert and AlertEngineModel.AlertEngine.HandleUpdate: subscribe the alert's symbol (the corrected behaviour, see Findings). As written, `subscribe(alert.symbol)` (modules/alerts/engine.py:56, :61) lacks the required callback and raises TypeError after the registry has changed. The handler's task ends there, and an alert on a symbol not yet subscribed gets no tick until the next start-up sync. HandleInsertAsWritten and HandleUpdateAsWritten model that.
- AlertEvaluator.EvaluateAlert: the "constant" entry of `rhs_attr` is a number or missing. The source's `rhs_attr` is an untyped dict, so a constant stored as text reaches `op_func(ltp, rhs)` (modules/alerts/evaluator.py:57). For <, <=, > and >= that raises TypeError, which escapes `_on_price_tick`. The rest of that symbol's alerts are then not evaluated and the unsubscribe check is skipped. "==" gives False and "!=" gives True, so the alert fires on the first tick. None of these cases is modelled.
- ScannerSql.BaseFilterToSql and ScannerSql.AdvancedFilterToSql: a filter key is either present with a value or missing; a key present with JSON null is not modelled. In the source, `"colId": null` filters on the column `"None"` (modules/scanner/data.py:183). A join whose `"type"` is null is joined with " None " (:175). `"conditions": null` raises TypeError when iterated (:171-173), whereas the model reads a missing key as no conditions. The sort entries do tell null from missing (`SortField`).
- TradingViewUtils.MergeQuote and TradingViewUtils.FetchState.ProcessData: a `qsd` event is always well formed, a ticker with an optional value map. The source's `_on_qsd_event` (utils/tradingview.py:137-151) raises when "p" is missing or has fewer than two entries, when p[1] is not a dict, or when "v" is not a dict. A missing "n" files the quote under the key None. Any such raise ends `_process_data` and with it the fetch. These paths are not modelled, unlike the streamer's `HandleEvent`, which models the same malformed shapes as a failure.

- ScannerSql.WhereSqlMultipleLoop, ScannerSql.WhereSqlMultiple and ScannerSql.BuildSql: strip only the leading `" WHERE "` of each filter clause (the corrected behaviour, see Findings). The source deletes it everywhere in the clause, which ScannerSql.WhereDeletionChangesValue exhibits.
- UpstoxKeys.InstrumentKeys.ToInstrumentKey: runs the corrected index table (see Findings). `NSE:NIFTY_CONSR_DURBL` therefore resolves and `NSE:NIFTY_CONSR_DURL` does not, the reverse of the source; UpstoxKeys.DurablesUnresolvedAsWritten exhibits the table as written.
- ScreenerWs.WSSession.OnScreenerSubscribe: sends the duplicate notice for an open id (the corrected behaviour, see Findings). The source sends nothing, because the notice's coroutine is never awaited; ScreenerWs.SubscribeRepliesAsWritten is that reply.
- ScannerWs.WSSession.OnScreenerSubscribe: the same corrected duplicate notice; ScannerWs.SubscribeRepliesAsWritten is the reply as written.
- ScreenerWs.Fails and ScreenerWs.ErrorReplyIffFailure: the only handler failure modelled is a range that is not a pair. `dispatch_full_response` (modules/api/ws.py:187-216) also raises whenever `query_symbols` raises, and `listen` turns that into the error reply too. That happens, for example, when the SQL cannot be built from the session's filters and sort, or when the database fails; modules/api/data.py is not part of this model. The query is not executed here, so those error replies are absent from `Fails`, `Reply` and `OnData`'s failure clause.
- ScannerWs.Fails and ScannerWs.ErrorReplyIffFailure: the same for the scanner. The `query_symbols` calls at modules/scanner/ws.py:132-141 can raise as `ScannerSql.BuildSql` does (`ScannerSql.BuildSqlShape` states those errors) or in the database. The session's filters and sort are opaque JSON objects here, so those failures are not part of `Fails`.
- QuoteScaler.AddTickers and QuoteScalerObject.TradingViewScaler.AddTickers: run the corrected node naming and ticker de-duplication (see Findings).

## Findings

| source | as written | input that shows it | evidently intended | confidence | as-written member | corrected member |
|---|---|---|---|---|---|---|
| modules/scanner/data.py:141 | each filter clause has `" WHERE "` deleted everywhere in it, not only as its prefix | a text filter whose value contains `" WHERE "`: the literal is changed and the query filters on a different value | strip only the leading `" WHERE "` of each clause | not executed | ScannerSql.WhereDeletionChangesValue | ScannerSql.StripWherePrefix |
| shared/provider/tradingview/quote_scaler.py:73-77 | the new node's name is computed from `len(self.nodes)`, which does not grow inside the loop, so every batch gets the same name | no nodes, 4 connections, 1 ticker per node, tickers ["a", "b"]: both batches are named node 1, so only "b" is assigned and "a" is never mapped | each new batch on a new node, up to the connection limit | not executed | QuoteScaler.AddTickersAsWrittenDropsBatch | QuoteScaler.AddTickersMapsAll |
| shared/provider/tradingview/quote_scaler.py:58 | repeated tickers in one call are all kept as new | two nodes of capacity 2 holding one ticker each, tickers ["a", "a"]: "a" fills the spare place of both nodes, while the map names only one of them | each new ticker assigned once | not executed | QuoteScaler.AddTickersAsWrittenSplitsDuplicate | QuoteScaler.AddTickersConsistent |
| modules/core/provider/upstox/utils.py:36 | the consumer-durables index is keyed `NSE:NIFTY_CONSR_DURL` | the TradingView symbol `NSE:NIFTY_CONSR_DURBL` gives None | the key `NSE:NIFTY_CONSR_DURBL` | not executed | UpstoxKeys.DurablesUnresolvedAsWritten | UpstoxKeys.DurablesResolved |
| modules/api/ws.py:264 | the duplicate notice's `send_json` coroutine is returned, never awaited, so nothing is sent | two subscribes with session id "s1": the second gets no reply | send the duplicate notice | not executed | ScreenerWs.DuplicateUnansweredAsWritten | ScreenerWs.SubscribeReply |
| modules/scanner/ws.py:187 | the same un-awaited duplicate notice | two subscribes with session id "s1": the second gets no reply | send the duplicate notice | not executed | ScannerWs.DuplicateUnansweredAsWritten | ScannerWs.SubscribeReply |
| modules/alerts/engine.py:56 | `subscribe(alert.symbol)` omits the callback the feed's `subscribe` requires, so it raises TypeError after the alert is added | an insert event for an alert on a symbol with no alerts yet: the alert is registered but the symbol is never subscribed, so it sees no tick until restart | subscribe the symbol with `_on_price_tick`, as the start-up sync does | not executed | AlertEngineModel.AlertEngine.HandleInsertAsWritten | AlertEngineModel.AlertEngine.HandleInsert |
| modules/alerts/engine.py:61 | the same one-argument `subscribe` after `update_alert` | an update moving an alert to a symbol with no alerts yet: the symbol is never subscribed | subscribe the symbol with `_on_price_tick` | not executed | AlertEngineModel.AlertEngine.HandleUpdateAsWritten | AlertEngineModel.AlertEngine.HandleUpdate |

=== FILE: alert_engine.dfy ===
/** The alert engine: it keeps the registry in step with the alert store's
    change events and checks every price tick against the alerts on the
    tick's symbol. An alert the tick satisfies is queued for notification,
    marked triggered in the store and dropped from the registry, so it cannot
    fire again; a symbol left without alerts is unsubscribed from the feed.
    The store is reduced to the set of ids marked triggered, and the feed to
    the set of subscribed symbols. */
module AlertEngineModel {
  import opened Wrappers
  import opened AlertModels
  import opened AlertEvaluator
  import opened AlertRegistry
  import opened NotificationDispatch

  // ---------------------------------------------------------------- the tick

  /** The alerts of a list that the tick satisfies, in list order. */
  function Fired(bucket: seq<Alert>, u: ChangeUpdate): (fired: seq<Alert>)
    ensures |fired| <= |bucket|
    ensures forall a :: a in fired ==> a in bucket && EvaluateAlert(a, u)
    ensures forall k :: 0 <= k < |bucket| && EvaluateAlert(bucket[k], u) ==> bucket[k] in fired
  {
    if bucket == [] then []
    else
      var last := bucket[|bucket| - 1];
      Fired(bucket[..|bucket| - 1], u) + (if EvaluateAlert(last, u) then [last] else [])
  }

  /** The ids of a list of alerts. */
  function Ids(xs: seq<Alert>): (ids: set<string>)
    ensures forall a :: a in xs ==> a.id in ids
    ensures forall id :: id in ids ==> exists a :: a in xs && a.id == id
  {
    if xs == [] then {} else Ids(xs[..|xs| - 1]) + {xs[|xs| - 1].id}
  }

  /** The alerts of a list whose id is not in `ids`, in list order. */
  function WithoutIds(xs: seq<Alert>, ids: set<string>): (ys: seq<Alert>)
    ensures forall a :: a in ys <==> a in xs && a.id !in ids
  {
    if xs == [] then []
    else if xs[0].id !in ids then [xs[0]] + WithoutIds(xs[1..], ids)
    else WithoutIds(xs[1..], ids)
  }

  lemma {:induction false} WithoutIdsStep(xs: seq<Alert>, ids: set<string>, id: string)
    ensures WithoutId(WithoutIds(xs, ids), id) == WithoutIds(xs, ids + {id})
  {
    if xs != [] {
      WithoutIdsStep(xs[1..], ids, id);
    }
  }

  /** `remove_alert` applied to each alert of `xs` in turn. */
  function RemoveEach(r: Registry, xs: seq<Alert>): Registry {
    if xs == [] then r else Remove(RemoveEach(r, xs[..|xs| - 1]), xs[|xs| - 1])
  }

  lemma {:induction false} RemoveEachKeepsWellFormed(r: Registry, xs: seq<Alert>)
    requires WellFormed(r)
    ensures WellFormed(RemoveEach(r, xs))
  {
    if xs != [] {
      RemoveEachKeepsWellFormed(r, xs[..|xs| - 1]);
      RemoveKeepsWellFormed(RemoveEach(r, xs[..|xs| - 1]), xs[|xs| - 1]);
    }
  }

  /** Removing alerts of one symbol filters that symbol's list by id and
      leaves every other list alone. */
  lemma {:induction false} RemoveEachEffect(r: Registry, xs: seq<Alert>, symbol: string)
    requires forall a :: a in xs ==> a.symbol == symbol
    ensures Get(RemoveEach(r, xs), symbol) == WithoutIds(Get(r, symbol), Ids(xs))
    ensures forall t :: t != symbol ==> Get(RemoveEach(r, xs), t) == Get(r, t)
  {
    if xs == [] {
      assert Ids(xs) == {};
      assert WithoutIds(Get(r, symbol), {}) == Get(r, symbol) by {
        WithoutIdsEmpty(Get(r, symbol));
      }
    } else {
      var init, last := xs[..|xs| - 1], xs[|xs| - 1];
      assert forall a :: a in init ==> a in xs;
      RemoveEachEffect(r, init, symbol);
      WithoutIdsStep(Get(r, symbol), Ids(init), last.id);
    }
  }

  lemma {:induction false} WithoutIdsEmpty(xs: seq<Alert>)
    ensures WithoutIds(xs, {}) == xs
  {
    if xs != [] {
      WithoutIdsEmpty(xs[1..]);
    }
  }

  /** The registry after a tick: the symbol's list loses every alert whose id
      fired, every other list is unchanged. */
  lemma {:induction false} TickRemainder(r: Registry, u: ChangeUpdate)
    requires WellFormed(r)
    ensures var fired := Fired(Get(r, u.symbol), u);
      Get(RemoveEach(r, fired), u.symbol) == WithoutIds(Get(r, u.symbol), Ids(fired))
      && forall t :: t != u.symbol ==> Get(RemoveEach(r, fired), t) == Get(r, t)
  {
    var fired := Fired(Get(r, u.symbol), u);
    forall a | a in fired ensures a.symbol == u.symbol {
      assert a in Get(r, u.symbol);
    }
    RemoveEachEffect(r, fired, u.symbol);
  }

  /** An alert that fired is gone from its symbol's list after the tick, so no
      later tick on that symbol can fire an alert with its id unless one is
      added again. */
  lemma {:induction false} NoRefire(r: Registry, u: ChangeUpdate, later: ChangeUpdate)
    requires WellFormed(r)
    requires later.symbol == u.symbol
    ensures var fired := Fired(Get(r, u.symbol), u);
      var after := RemoveEach(r, fired);
      forall a :: a in Fired(Get(after, u.symbol), later) ==> a.id !in Ids(fired)
  {
    TickRemainder(r, u);
  }

  /** An alert the tick does not satisfy stays, unless it shares its id with
      one that fired. */
  lemma {:induction false} UnfiredStays(r: Registry, u: ChangeUpdate, a: Alert)
    requires WellFormed(r)
    requires a in Get(r, u.symbol) && a.id !in Ids(Fired(Get(r, u.symbol), u))
    ensures a in Get(RemoveEach(r, Fired(Get(r, u.symbol), u)), u.symbol)
  {
    TickRemainder(r, u);
  }

  // ---------------------------------------------------------------- start-up

  /** `add_alert` applied to each alert of `xs` in turn. */
  function AddEach(r: Registry, xs: seq<Alert>): Registry {
    if xs == [] then r else Add(AddEach(r, xs[..|xs| - 1]), xs[|xs| - 1])
  }

  lemma {:induction false} AddEachKeepsWellFormed(r: Registry, xs: seq<Alert>)
    requires WellFormed(r)
    ensures WellFormed(AddEach(r, xs))
  {
    if xs != [] {
      AddEachKeepsWellFormed(r, xs[..|xs| - 1]);
      AddKeepsWellFormed(AddEach(r, xs[..|xs| - 1]), xs[|xs| - 1]);
    }
  }

  /** After the start-up sync every fetched alert is registered under its
      symbol, and nothing registered before is lost. */
  lemma {:induction false} AddEachRegisters(r: Registry, xs: seq<Alert>)
    ensures forall a :: a in xs ==> a in Get(AddEach(r, xs), a.symbol)
    ensures forall s, a :: a in Get(r, s) ==> a in Get(AddEach(r, xs), s)
  {
    if xs != [] {
      AddEachRegisters(r, xs[..|xs| - 1]);
      forall a | a in xs ensures a in Get(AddEach(r, xs), a.symbol) {
        if a != xs[|xs| - 1] {
          assert a in xs[..|xs| - 1];
        }
      }
    }
  }

  /** The symbols of a list of alerts. */
  function Symbols(xs: seq<Alert>): (symbols: set<string>)
    ensures forall a :: a in xs ==> a.symbol in symbols
    ensures forall s :: s in symbols ==> exists a :: a in xs && a.symbol == s
  {
    if xs == [] then {} else Symbols(xs[..|xs| - 1]) + {xs[|xs| - 1].symbol}
  }

  // ---------------------------------------------------------------- the engine

  class AlertEngine {
    const manager: AlertManager
    const dispatcher: NotificationDispatcher
    /** Ids the store has marked triggered. */
    var triggered: set<string>
    /** Symbols subscribed on the price feed. */
    var subscribed: set<string>

    /** The registry is well formed, and every symbol with alerts is
        subscribed on the feed. */
    ghost predicate Valid()
      reads this, manager
    {
      manager.Valid() && forall s :: s in manager.buckets ==> s in subscribed
    }

    constructor ()
      ensures Valid() && fresh(manager) && fresh(dispatcher)
      ensures manager.State() == Registry([], map[])
      ensures dispatcher.queue == [] && dispatcher.handlers == [] && dispatcher.log == []
      ensures triggered == {} && subscribed == {}
    {
      manager := new AlertManager();
      dispatcher := new NotificationDispatcher();
      triggered := {};
      subscribed := {};
    }

    /** Loads the store's active alerts, registering each one and
        subscribing its symbol. */
    method SyncExistingAlerts(alerts: seq<Alert>)
      requires Valid()
      modifies this, manager
      ensures Valid()
      ensures manager.State() == AddEach(old(manager.State()), alerts)
      ensures subscribed == old(subscribed) + Symbols(alerts)
      ensures triggered == old(triggered)
    {
      ghost var r0 := manager.State();
      var i := 0;
      while i < |alerts|
        invariant 0 <= i <= |alerts|
        invariant manager.State() == AddEach(r0, alerts[..i])
        invariant subscribed == old(subscribed) + Symbols(alerts[..i])
        invariant triggered == old(triggered)
      {
        assert alerts[..i + 1][..i] == alerts[..i];
        var alert := alerts[i];
        manager.AddAlert(alert);
        subscribed := subscribed + {alert.symbol};
        i := i + 1;
      }
      assert alerts[..i] == alerts;
      AddEachKeepsWellFormed(r0, alerts);
      AddEachKeys(r0, alerts);
    }

    /** Checks the tick against every alert on its symbol, in list order,
        and unsubscribes the symbol when none is left. A symbol without
        alerts is left as it is. */
    method OnPriceTick(u: ChangeUpdate)
      requires Valid()
      modifies this, manager, dispatcher
      ensures Valid()
      ensures var fired := Fired(Get(old(manager.State()), u.symbol), u);
        && manager.State() == RemoveEach(old(manager.State()), fired)
        && dispatcher.queue == old(dispatcher.queue) + fired
        && triggered == old(triggered) + Ids(fired)
      ensures dispatcher.handlers == old(dispatcher.handlers) && dispatcher.log == old(dispatcher.log)
      ensures subscribed ==
        if Get(old(manager.State()), u.symbol) != [] && !manager.HasAlertsForSymbol(u.symbol)
        then old(subscribed) - {u.symbol}
        else old(subscribed)
    {
      var alerts := manager.GetAlertsForSymbol(u.symbol);
      if alerts == [] {
        assert Fired(alerts, u) == [];
        return;
      }
      ghost var r0 := manager.State();
      TriggerEach(alerts, u);
      RemoveEachKeepsWellFormed(r0, Fired(alerts, u));
      RemoveEachKeys(r0, Fired(alerts, u));
      UnsubscribeIfEmpty(u.symbol);
    }

    /** The loop over a copy of the symbol's list: every alert the tick
        satisfies is queued, marked triggered and removed, in list order. */
    method TriggerEach(alerts: seq<Alert>, u: ChangeUpdate)
      modifies this, manager, dispatcher
      ensures manager.State() == RemoveEach(old(manager.State()), Fired(alerts, u))
      ensures dispatcher.queue == old(dispatcher.queue) + Fired(alerts, u)
      ensures dispatcher.handlers == old(dispatcher.handlers) && dispatcher.log == old(dispatcher.log)
      ensures triggered == old(triggered) + Ids(Fired(alerts, u))
      ensures subscribed == old(subscribed)
    {
      ghost var r0 := manager.State();
      ghost var fired: seq<Alert> := [];
      var i := 0;
      while i < |alerts|
        invariant 0 <= i <= |alerts|
        invariant fired == Fired(alerts[..i], u)
        invariant manager.State() == RemoveEach(r0, fired)
        invariant dispatcher.queue == old(dispatcher.queue) + fired
        invariant dispatcher.handlers == old(dispatcher.handlers) && dispatcher.log == old(dispatcher.log)
        invariant triggered == old(triggered) + Ids(fired)
        invariant subscribed == old(subscribed)
      {
        FiredStep(alerts, i, u);
        var alert := alerts[i];
        if EvaluateAlert(alert, u) {
          SnocSteps(r0, fired, alert);
          AppendSteps(old(dispatcher.queue), fired, alert, old(triggered), Ids(fired));
          Trigger(alert);
          fired := fired + [alert];
        }
        i := i + 1;
      }
      assert alerts[..i] == alerts;
    }

    /** The clean-up after a tick: a symbol left without alerts is
        unsubscribed from the feed. */
    method UnsubscribeIfEmpty(symbol: string)
      requires manager.Valid()
      requires forall s :: s in manager.buckets ==> s in subscribed
      modifies this
      ensures Valid()
      ensures subscribed == if manager.HasAlertsForSymbol(symbol) then old(subscribed) else old(subscribed) - {symbol}
      ensures triggered == old(triggered)
    {
      if !manager.HasAlertsForSymbol(symbol) {
        subscribed := subscribed - {symbol};
      }
    }

    /** A satisfied alert: queue it for notification, mark it triggered in
        the store and `remove_alert` it from the registry. */
    method Trigger(alert: Alert)
      modifies this, manager, dispatcher
      ensures manager.State() == Remove(old(manager.State()), alert)
      ensures dispatcher.queue == old(dispatcher.queue) + [alert]
      ensures dispatcher.handlers == old(dispatcher.handlers) && dispatcher.log == old(dispatcher.log)
      ensures triggered == old(triggered) + {alert.id}
      ensures subscribed == old(subscribed)
    {
      dispatcher.Enqueue(alert);
      triggered := triggered + {alert.id};
      manager.RemoveAlert(alert);
    }

    /** Store insert event, corrected: register the alert and subscribe its
        symbol with the tick handler, as the start-up sync does. */
    method HandleInsert(alert: Alert)
      requires Valid()
      modifies this, manager
      ensures Valid()
      ensures manager.State() == Add(old(manager.State()), alert)
      ensures subscribed == old(subscribed) + {alert.symbol}
      ensures triggered == old(triggered)
    {
      AddKeepsWellFormed(manager.State(), alert);
      AddKeys(manager.State(), alert);
      manager.AddAlert(alert);
      subscribed := subscribed + {alert.symbol};
    }

    /** Store update event, corrected: replace the alert by id and subscribe
        its (possibly new) symbol; no symbol is unsubscribed. */
    method HandleUpdate(alert: Alert)
      requires Valid()
      modifies this, manager
      ensures Valid()
      ensures manager.State() == Update(old(manager.State()), alert)
      ensures subscribed == old(subscribed) + {alert.symbol}
      ensures triggered == old(triggered)
    {
      RemoveByIdKeys(manager.State(), alert.id);
      manager.UpdateAlert(alert);
      subscribed := subscribed + {alert.symbol};
    }

    /** Store insert event as written: the alert is registered, then the
        feed's `subscribe` is called without the callback it requires and
        raises, ending the handler's task. The subscriptions stay as they
        were, so an alert on a symbol not yet subscribed never sees a tick. */
    method HandleInsertAsWritten(alert: Alert)
      requires Valid()
      modifies manager
      ensures manager.Valid()
      ensures manager.State() == Add(old(manager.State()), alert)
      ensures alert.symbol in manager.buckets
      ensures alert.symbol !in subscribed ==> !Valid()
    {
      AddKeepsWellFormed(manager.State(), alert);
      AddKeys(manager.State(), alert);
      manager.AddAlert(alert);
    }

    /** Store update event as written: the alert replaces its id, then the
        same one-argument `subscribe` raises; a symbol the update moves the
        alert to is left unsubscribed. */
    method HandleUpdateAsWritten(alert: Alert)
      requires Valid()
      modifies manager
      ensures manager.Valid()
      ensures manager.State() == Update(old(manager.State()), alert)
      ensures alert.symbol in manager.buckets
      ensures alert.symbol !in subscribed ==> !Valid()
    {
      manager.UpdateAlert(alert);
      AddKeys(RemoveById(old(manager.State()), alert.id).0, alert);
    }

    /** Store delete event: remove the alert by id and unsubscribe its symbol
        when no alert is left on it; an unknown id changes nothing. */
    method HandleDelete(alertId: string)
      requires Valid()
      modifies this, manager
      ensures Valid()
      ensures manager.State() == RemoveById(old(manager.State()), alertId).0
      ensures subscribed ==
        match RemoveById(old(manager.State()), alertId).1
        case None => old(subscribed)
        case Some(a) => if a.symbol in manager.buckets then old(subscribed) else old(subscribed) - {a.symbol}
      ensures triggered == old(triggered)
    {
      RemoveByIdKeys(manager.State(), alertId);
      var removed := manager.RemoveAlertById(alertId);
      if removed.Some? && !manager.HasAlertsForSymbol(removed.value.symbol) {
        subscribed := subscribed - {removed.value.symbol};
      }
    }
  }

  lemma {:induction false} FiredStep(alerts: seq<Alert>, i: nat, u: ChangeUpdate)
    requires i < |alerts|
    ensures EvaluateAlert(alerts[i], u) ==> Fired(alerts[..i + 1], u) == Fired(alerts[..i], u) + [alerts[i]]
    ensures !EvaluateAlert(alerts[i], u) ==> Fired(alerts[..i + 1], u) == Fired(alerts[..i], u)
  {
    assert alerts[..i + 1][..i] == alerts[..i];
  }

  lemma {:induction false} SnocSteps(r: Registry, xs: seq<Alert>, a: Alert)
    ensures RemoveEach(r, xs + [a]) == Remove(RemoveEach(r, xs), a)
    ensures Ids(xs + [a]) == Ids(xs) + {a.id}
  {
    assert (xs + [a])[..|xs|] == xs;
  }

  /** Regrouping of one loop step of `TriggerEach`. */
  lemma {:induction false} AppendSteps(q: seq<Alert>, fired: seq<Alert>, a: Alert, t: set<string>, ids: set<string>)
    ensures q + fired + [a] == q + (fired + [a])
    ensures t + ids + {a.id} == t + (ids + {a.id})
  {
  }

  /** Removing alerts never adds a symbol. */
  lemma {:induction false} RemoveEachKeys(r: Registry, xs: seq<Alert>)
    ensures forall s :: s in RemoveEach(r, xs).buckets ==> s in r.buckets
  {
    if xs != [] {
      RemoveEachKeys(r, xs[..|xs| - 1]);
    }
  }

  /** After the start-up sync the registered symbols are the earlier ones
      and the fetched alerts' symbols. */
  lemma {:induction false} AddEachKeys(r: Registry, xs: seq<Alert>)
    ensures forall s :: s in AddEach(r, xs).buckets <==> s in r.buckets || s in Symbols(xs)
  {
    if xs != [] {
      AddEachKeys(r, xs[..|xs| - 1]);
      AddKeys(AddEach(r, xs[..|xs| - 1]), xs[|xs| - 1]);
    }
  }

  lemma {:induction false} AddKeys(r: Registry, a: Alert)
    ensures forall s :: s in Add(r, a).buckets <==> s in r.buckets || s == a.symbol
  {
  }

  lemma {:induction false} RemoveByIdKeys(r: Registry, id: string)
    requires WellFormed(r)
    ensures forall s :: s in RemoveById(r, id).0.buckets ==> s in r.buckets
  {
  }
}

=== FILE: alert_evaluator.dfy ===
/** Decides whether an alert's condition holds for a price tick: the last
    price is compared with a constant, or with the value of a two-point trend
    line at the tick's time. A trend line is only interpolated inside its
    anchor window; it is never extended beyond it. */
module AlertEvaluator {
  import opened Wrappers
  import opened AlertModels

  /** The six comparison operators. */
  datatype Op = Gt | Ge | Lt | Le | Eq | Ne

  const OPERATORS: map<string, Op> :=
    map[">" := Gt, ">=" := Ge, "<" := Lt, "<=" := Le, "==" := Eq, "!=" := Ne]

  function Apply(op: Op, lhs: real, rhs: real): bool {
    match op
    case Gt => lhs > rhs
    case Ge => lhs >= rhs
    case Lt => lhs < rhs
    case Le => lhs <= rhs
    case Eq => lhs == rhs
    case Ne => lhs != rhs
  }

  /** The meaning of an operator symbol, spelled out independently of the
      operator table: `None` for a symbol that is not an operator. */
  function Compare(symbol: string, lhs: real, rhs: real): (r: Option<bool>)
    ensures r.Some? <==> symbol in {">", ">=", "<", "<=", "==", "!="}
  {
    if symbol == ">" then Some(lhs > rhs)
    else if symbol == ">=" then Some(lhs >= rhs)
    else if symbol == "<" then Some(lhs < rhs)
    else if symbol == "<=" then Some(lhs <= rhs)
    else if symbol == "==" then Some(lhs == rhs)
    else if symbol == "!=" then Some(lhs != rhs)
    else None
  }

  /** The operator table holds exactly the six comparison symbols, each
      mapped to its own comparison. */
  lemma {:induction false} OperatorsMeanComparisons(symbol: string, lhs: real, rhs: real)
    ensures symbol in OPERATORS <==> Compare(symbol, lhs, rhs).Some?
    ensures symbol in OPERATORS ==> Compare(symbol, lhs, rhs) == Some(Apply(OPERATORS[symbol], lhs, rhs))
  {
  }

  /** The trend line through `p1` and `p2` evaluated at `now`, or `None` when
      `now` lies outside `[p1.timestamp, p2.timestamp]`. */
  function InterpolateTrendline(p1: TrendlinePoint, p2: TrendlinePoint, now: int): (r: Option<real>)
    ensures r.None? <==> now < p1.timestamp || now > p2.timestamp
    ensures r.Some? && p1.timestamp == p2.timestamp ==> r.value == p1.price
  {
    if now < p1.timestamp || now > p2.timestamp then None
    else
      var totalSeconds := (p2.timestamp - p1.timestamp) as real;
      var elapsedSeconds := (now - p1.timestamp) as real;
      if totalSeconds == 0.0 then Some(p1.price)
      else
        var slope := (p2.price - p1.price) / totalSeconds;
        Some(p1.price + slope * elapsedSeconds)
  }

  /** The line passes through both anchors. */
  lemma {:induction false} InterpolateAtAnchors(p1: TrendlinePoint, p2: TrendlinePoint)
    requires p1.timestamp <= p2.timestamp
    ensures InterpolateTrendline(p1, p2, p1.timestamp) == Some(p1.price)
    ensures p1.timestamp < p2.timestamp ==> InterpolateTrendline(p1, p2, p2.timestamp) == Some(p2.price)
  {
    if p1.timestamp < p2.timestamp {
      InterpolateAtEnd(p1, p2);
    }
  }

  lemma {:induction false} InterpolateAtEnd(p1: TrendlinePoint, p2: TrendlinePoint)
    requires p1.timestamp < p2.timestamp
    ensures InterpolateTrendline(p1, p2, p2.timestamp) == Some(p2.price)
  {
    var total := (p2.timestamp - p1.timestamp) as real;
    assert total > 0.0;
    var slope := (p2.price - p1.price) / total;
    assert slope * total == p2.price - p1.price;
    assert InterpolateTrendline(p1, p2, p2.timestamp).Some?;
    assert InterpolateTrendline(p1, p2, p2.timestamp).value == p1.price + slope * total;
  }

  /** Anchors given in the wrong order describe an empty window. */
  lemma {:induction false} InvertedWindowNeverMatches(p1: TrendlinePoint, p2: TrendlinePoint, now: int)
    requires p2.timestamp < p1.timestamp
    ensures InterpolateTrendline(p1, p2, now) == None
  {
  }

  /** An interpolated value lies between the two anchor prices. */
  lemma {:induction false} InterpolateBetweenAnchors(p1: TrendlinePoint, p2: TrendlinePoint, now: int)
    requires InterpolateTrendline(p1, p2, now).Some?
    ensures var v := InterpolateTrendline(p1, p2, now).value;
      (p1.price <= v <= p2.price) || (p2.price <= v <= p1.price)
  {
    if p1.timestamp < p2.timestamp {
      var total := (p2.timestamp - p1.timestamp) as real;
      var elapsed := (now - p1.timestamp) as real;
      var slope := (p2.price - p1.price) / total;
      assert InterpolateTrendline(p1, p2, now).value == p1.price + slope * elapsed;
      assert 0.0 <= elapsed <= total;
      assert slope * total == p2.price - p1.price;
      if p1.price <= p2.price {
        assert slope >= 0.0;
        ScaleNonnegative(slope, 0.0, elapsed);
        ScaleNonnegative(slope, elapsed, total);
      } else {
        assert slope <= 0.0;
        ScaleNonpositive(slope, 0.0, elapsed);
        ScaleNonpositive(slope, elapsed, total);
      }
    }
  }

  /** A rising line never falls inside its window: a later time gives a
      value at least as high. */
  lemma {:induction false} InterpolateMonotone(p1: TrendlinePoint, p2: TrendlinePoint, s: int, t: int)
    requires p1.price <= p2.price
    requires InterpolateTrendline(p1, p2, s).Some? && InterpolateTrendline(p1, p2, t).Some?
    requires s <= t
    ensures InterpolateTrendline(p1, p2, s).value <= InterpolateTrendline(p1, p2, t).value
  {
    if p1.timestamp < p2.timestamp {
      var total := (p2.timestamp - p1.timestamp) as real;
      var slope := (p2.price - p1.price) / total;
      assert slope >= 0.0;
      var es, et := (s - p1.timestamp) as real, (t - p1.timestamp) as real;
      assert InterpolateTrendline(p1, p2, s).value == p1.price + slope * es;
      assert InterpolateTrendline(p1, p2, t).value == p1.price + slope * et;
      ScaleNonnegative(slope, es, et);
    }
  }

  lemma {:induction false} ScaleNonnegative(c: real, x: real, y: real)
    requires 0.0 <= c && x <= y
    ensures c * x <= c * y
  {
    assert c * y - c * x == c * (y - x);
  }

  lemma {:induction false} ScaleNonpositive(c: real, x: real, y: real)
    requires c <= 0.0 && x <= y
    ensures c * y <= c * x
  {
    assert c * x - c * y == (-c) * (y - x);
  }

  /** True when the alert's condition holds for the tick. Any unsupported
      left side, right side or operator, a missing constant, a trend line
      without exactly two valid anchors and a time outside the trend line's
      window all give false. */
  function EvaluateAlert(a: Alert, u: ChangeUpdate): (r: bool)
    ensures r ==> a.lhsType == "last_price" && a.operator in OPERATORS
    ensures r ==> a.rhsType == "constant" || a.rhsType == "trend_line"
  {
    var currentPrice := u.ltp;
    var currentTime := u.ltt;
    if a.lhsType != "last_price" then false
    else
      var lhsValue := currentPrice;
      var rhs: Option<real> :=
        if a.rhsType == "constant" then
          GetConstantValue(a)
        else if a.rhsType == "trend_line" then
          var points := GetTrendlinePoints(a);
          if points.None? || |points.value| == 0 || |points.value| != 2 then None
          else InterpolateTrendline(points.value[0], points.value[1], currentTime)
        else None;
      if rhs.None? then false
      else if a.operator !in OPERATORS then false
      else
        Apply(OPERATORS[a.operator], lhsValue, rhs.value)
  }

  /** Each of the rejection paths gives false. */
  lemma {:induction false} EvaluateRejects(a: Alert, u: ChangeUpdate)
    ensures a.lhsType != "last_price" ==> !EvaluateAlert(a, u)
    ensures a.rhsType != "constant" && a.rhsType != "trend_line" ==> !EvaluateAlert(a, u)
    ensures a.operator !in OPERATORS ==> !EvaluateAlert(a, u)
    ensures a.rhsType == "constant" && a.rhsAttr.constant == None ==> !EvaluateAlert(a, u)
    ensures a.rhsType == "trend_line" && (GetTrendlinePoints(a).None? || |GetTrendlinePoints(a).value| != 2)
            ==> !EvaluateAlert(a, u)
    ensures a.rhsType == "trend_line" && GetTrendlinePoints(a).Some? && |GetTrendlinePoints(a).value| == 2
            && (u.ltt < GetTrendlinePoints(a).value[0].timestamp || u.ltt > GetTrendlinePoints(a).value[1].timestamp)
            ==> !EvaluateAlert(a, u)
  {
  }

  /** A constant alert with one of the six operators fires exactly when the
      comparison of the last price with the constant holds. */
  lemma {:induction false} EvaluateConstant(a: Alert, u: ChangeUpdate, c: real)
    requires a.lhsType == "last_price" && a.rhsType == "constant" && a.rhsAttr.constant == Some(c)
    requires a.operator in OPERATORS
    ensures Some(EvaluateAlert(a, u)) == Compare(a.operator, u.ltp, c)
  {
    OperatorsMeanComparisons(a.operator, u.ltp, c);
  }

  /** A trend-line alert with two valid anchors and one of the six
      operators fires, inside the window, exactly when the last price compares
      as required with the line's value at the tick's time. */
  lemma {:induction false} EvaluateTrendline(a: Alert, u: ChangeUpdate, p1: TrendlinePoint, p2: TrendlinePoint)
    requires a.lhsType == "last_price" && a.rhsType == "trend_line" && a.operator in OPERATORS
    requires GetTrendlinePoints(a) == Some([p1, p2])
    requires p1.timestamp <= u.ltt <= p2.timestamp
    ensures InterpolateTrendline(p1, p2, u.ltt).Some?
    ensures Some(EvaluateAlert(a, u)) == Compare(a.operator, u.ltp, InterpolateTrendline(p1, p2, u.ltt).value)
  {
    OperatorsMeanComparisons(a.operator, u.ltp, InterpolateTrendline(p1, p2, u.ltt).value);
  }

  /** The alerts "above" and "at or below" the same constant level are
      complementary: every tick fires exactly one of them. */
  lemma {:induction false} ComplementaryOperators(a: Alert, u: ChangeUpdate)
    requires a.lhsType == "last_price" && a.operator == ">"
    requires a.rhsType == "constant" && a.rhsAttr.constant.Some?
    ensures EvaluateAlert(a, u) != EvaluateAlert(a.(operator := "<="), u)
  {
  }
}

=== FILE: alert_feed.dfy ===
/** The mock price feed's subscription table: one price callback per
    subscribed symbol, and a running flag that stops the feed loop. */
module AlertFeed {

  /** A price-tick callback (a coroutine in the system). */
  datatype Callback = Callback(name: string)

  class MockDataProvider {
    var callbacks: map<string, Callback>
    var running: bool

    constructor ()
      ensures callbacks == map[] && running
    {
      callbacks := map[];
      running := true;
    }

    method Stop()
      modifies this
      ensures !running && callbacks == old(callbacks)
    {
      running := false;
    }

    /** Registers the callback for the symbol, replacing an earlier one; no
        other symbol's entry changes. */
    method Subscribe(symbol: string, callback: Callback)
      modifies this
      ensures callbacks == old(callbacks)[symbol := callback]
      ensures forall s :: s != symbol && s in old(callbacks) ==> s in callbacks && callbacks[s] == old(callbacks)[s]
      ensures running == old(running)
    {
      callbacks := callbacks[symbol := callback];
    }

    /** Drops the symbol's callback if there is one; otherwise nothing changes. */
    method Unsubscribe(symbol: string)
      modifies this
      ensures callbacks == old(callbacks) - {symbol}
      ensures symbol !in old(callbacks) ==> callbacks == old(callbacks)
      ensures running == old(running)
    {
      if symbol in callbacks {
        callbacks := callbacks - {symbol};
      }
    }
  }
}

=== FILE: alert_manager.dfy ===
/** The in-memory alert registry: a dictionary from symbol to the list of
    alerts on that symbol, kept in the dictionary's key insertion order (the
    order in which `remove_alert_by_id` searches it). */
module AlertRegistry {
  import opened Wrappers
  import opened AlertModels

  /** The registry's dictionary as a value: its keys in insertion order and
      the alert list stored under each key. */
  datatype Registry = Registry(symbols: seq<string>, buckets: map<string, seq<Alert>>)

  ghost predicate Distinct(ss: seq<string>) {
    forall i, j :: 0 <= i < j < |ss| ==> ss[i] != ss[j]
  }

  /** The key list and the map agree, no symbol maps to an empty list, and
      every alert is filed under its own symbol. */
  ghost predicate WellFormed(r: Registry) {
    && Distinct(r.symbols)
    && (forall s :: s in r.buckets <==> s in r.symbols)
    && (forall s :: s in r.buckets ==> r.buckets[s] != [])
    && (forall s, a :: s in r.buckets && a in r.buckets[s] ==> a.symbol == s)
  }

  /** The alerts on a symbol; none for a symbol that is not a key. */
  function Get(r: Registry, symbol: string): seq<Alert> {
    if symbol in r.buckets then r.buckets[symbol] else []
  }

  // ---------------------------------------------------------------- list helpers

  /** The position of the first alert with the given id. */
  function IndexOfId(xs: seq<Alert>, id: string): (r: Option<nat>)
    ensures r.None? <==> forall k :: 0 <= k < |xs| ==> xs[k].id != id
    ensures r.Some? ==> r.value < |xs| && xs[r.value].id == id
    ensures r.Some? ==> forall k :: 0 <= k < r.value ==> xs[k].id != id
  {
    if xs == [] then None
    else if xs[0].id == id then Some(0)
    else match IndexOfId(xs[1..], id)
      case None => None
      case Some(k) => Some(k + 1)
  }

  /** The first position carrying the id is the one `IndexOfId` finds. */
  lemma {:induction false} FirstIndexOfId(xs: seq<Alert>, id: string, k: nat)
    requires k < |xs| && xs[k].id == id
    requires forall m :: 0 <= m < k ==> xs[m].id != id
    ensures IndexOfId(xs, id) == Some(k)
  {
  }

  /** The list comprehension keeping the alerts whose id differs from `id`. */
  function WithoutId(xs: seq<Alert>, id: string): (ys: seq<Alert>)
    ensures |ys| <= |xs|
    ensures forall k :: 0 <= k < |ys| ==> ys[k].id != id
    ensures forall y :: y in ys ==> y in xs
    ensures forall k :: 0 <= k < |xs| && xs[k].id != id ==> xs[k] in ys
  {
    if xs == [] then []
    else if xs[0].id != id then [xs[0]] + WithoutId(xs[1..], id)
    else WithoutId(xs[1..], id)
  }

  /** Filtering out an id no alert carries keeps the list as it is. */
  lemma {:induction false} WithoutIdAbsent(xs: seq<Alert>, id: string)
    requires forall k :: 0 <= k < |xs| ==> xs[k].id != id
    ensures WithoutId(xs, id) == xs
  {
    if xs != [] {
      WithoutIdAbsent(xs[1..], id);
      assert [xs[0]] + xs[1..] == xs;
    }
  }

  /** `list.remove(x)`: drops the first element equal to `x`. */
  function RemoveFirst(xs: seq<Alert>, x: Alert): (ys: seq<Alert>)
    ensures x in xs ==> |ys| == |xs| - 1
    ensures x !in xs ==> ys == xs
    ensures forall y :: y in ys ==> y in xs
  {
    if xs == [] then []
    else if xs[0] == x then xs[1..]
    else [xs[0]] + RemoveFirst(xs[1..], x)
  }

  /** Removing the first alert carrying an id is removing the element at
      that id's first position: an earlier equal alert would carry the id. */
  lemma {:induction false} RemoveFirstAtIndex(xs: seq<Alert>, k: nat)
    requires k < |xs|
    requires forall m :: 0 <= m < k ==> xs[m].id != xs[k].id
    ensures RemoveFirst(xs, xs[k]) == xs[..k] + xs[k + 1..]
  {
    if k > 0 {
      var tail := xs[1..];
      assert xs[0].id != xs[k].id;
      assert tail[k - 1] == xs[k];
      forall m | 0 <= m < k - 1 ensures tail[m].id != tail[k - 1].id {
        assert tail[m] == xs[m + 1];
      }
      RemoveFirstAtIndex(tail, k - 1);
      ConsSplice(xs[0], tail, k - 1);
      assert [xs[0]] + tail == xs;
    }
  }

  lemma {:induction false} ConsSplice(x: Alert, t: seq<Alert>, j: nat)
    requires j < |t|
    ensures [x] + (t[..j] + t[j + 1..]) == ([x] + t)[..j + 1] + ([x] + t)[j + 2..]
  {
    assert ([x] + t)[..j + 1] == [x] + t[..j];
    assert ([x] + t)[j + 2..] == t[j + 1..];
  }

  /** Deleting a key from the dictionary's key order. */
  function RemoveSymbol(ss: seq<string>, s: string): (ts: seq<string>)
    ensures forall x :: x in ts <==> x in ss && x != s
  {
    if ss == [] then []
    else if ss[0] == s then RemoveSymbol(ss[1..], s)
    else [ss[0]] + RemoveSymbol(ss[1..], s)
  }

  lemma {:induction false} RemoveSymbolDistinct(ss: seq<string>, s: string)
    requires Distinct(ss)
    ensures Distinct(RemoveSymbol(ss, s))
  {
    if ss != [] {
      RemoveSymbolDistinct(ss[1..], s);
      assert ss[0] !in ss[1..];
    }
  }

  // ---------------------------------------------------------------- operations

  /** `add_alert`: append to the symbol's list, creating the key when absent. */
  function Add(r: Registry, a: Alert): (r': Registry)
    ensures Get(r', a.symbol) == Get(r, a.symbol) + [a]
    ensures forall s :: s != a.symbol ==> Get(r', s) == Get(r, s)
  {
    if a.symbol in r.buckets then Registry(r.symbols, r.buckets[a.symbol := r.buckets[a.symbol] + [a]])
    else Registry(r.symbols + [a.symbol], r.buckets[a.symbol := [a]])
  }

  /** `remove_alert`: drop every alert with this alert's id from its symbol's
      list, and delete the key once the list is empty. */
  function Remove(r: Registry, a: Alert): (r': Registry)
    ensures Get(r', a.symbol) == WithoutId(Get(r, a.symbol), a.id)
    ensures forall s :: s != a.symbol ==> Get(r', s) == Get(r, s)
  {
    if a.symbol in r.buckets && r.buckets[a.symbol] != [] then
      var kept := WithoutId(r.buckets[a.symbol], a.id);
      if kept == [] then Registry(RemoveSymbol(r.symbols, a.symbol), r.buckets - {a.symbol})
      else Registry(r.symbols, r.buckets[a.symbol := kept])
    else r
  }

  lemma {:induction false} AddKeepsWellFormed(r: Registry, a: Alert)
    requires WellFormed(r)
    ensures WellFormed(Add(r, a))
  {
    var r' := Add(r, a);
    if a.symbol !in r.buckets {
      assert a.symbol !in r.symbols;
      forall i, j | 0 <= i < j < |r'.symbols| ensures r'.symbols[i] != r'.symbols[j] {
        if j == |r.symbols| {
          assert r'.symbols[i] == r.symbols[i];
        }
      }
    }
  }

  lemma {:induction false} RemoveKeepsWellFormed(r: Registry, a: Alert)
    requires WellFormed(r)
    ensures WellFormed(Remove(r, a))
  {
    if a.symbol in r.buckets && r.buckets[a.symbol] != [] {
      var kept := WithoutId(r.buckets[a.symbol], a.id);
      if kept == [] {
        RemoveSymbolDistinct(r.symbols, a.symbol);
      }
    }
  }

  /** The first symbol, in key order from position `i`, whose list holds an
      alert with the id, and that alert's position in the list. */
  function LocateFrom(r: Registry, id: string, i: nat): (loc: Option<(string, nat)>)
    requires i <= |r.symbols|
    ensures loc.None? <==> forall j :: i <= j < |r.symbols| ==> IndexOfId(Get(r, r.symbols[j]), id).None?
    ensures loc.Some? ==> exists j :: (i <= j < |r.symbols| && r.symbols[j] == loc.value.0
      && IndexOfId(Get(r, r.symbols[j]), id) == Some(loc.value.1)
      && forall m :: i <= m < j ==> IndexOfId(Get(r, r.symbols[m]), id).None?)
    decreases |r.symbols| - i
  {
    if i == |r.symbols| then None
    else match IndexOfId(Get(r, r.symbols[i]), id)
      case Some(k) => Some((r.symbols[i], k))
      case None => LocateFrom(r, id, i + 1)
  }

  /** `list.remove` on one symbol's list, deleting the key once the list is
      empty. */
  function Discard(r: Registry, s: string, a: Alert): (r': Registry)
    ensures Get(r', s) == RemoveFirst(Get(r, s), a)
    ensures forall t :: t != s ==> Get(r', t) == Get(r, t)
  {
    var rest := RemoveFirst(Get(r, s), a);
    if rest == [] then Registry(RemoveSymbol(r.symbols, s), r.buckets - {s})
    else Registry(r.symbols, r.buckets[s := rest])
  }

  /** `remove_alert_by_id`: remove the first alert carrying the id, searching
      the symbols in key order, and return it; `None` and no change when no
      alert carries the id. */
  function RemoveById(r: Registry, id: string): (res: (Registry, Option<Alert>))
    ensures res.1.None? ==> res.0 == r
    ensures res.1.Some? ==> res.1.value.id == id
  {
    match LocateFrom(r, id, 0)
    case None => (r, None)
    case Some((s, k)) => (Discard(r, s, Get(r, s)[k]), Some(Get(r, s)[k]))
  }

  lemma {:induction false} DiscardKeepsWellFormed(r: Registry, s: string, a: Alert)
    requires WellFormed(r)
    ensures WellFormed(Discard(r, s, a))
  {
    if RemoveFirst(Get(r, s), a) == [] {
      RemoveSymbolDistinct(r.symbols, s);
    }
  }

  lemma {:induction false} RemoveByIdKeepsWellFormed(r: Registry, id: string)
    requires WellFormed(r)
    ensures WellFormed(RemoveById(r, id).0)
  {
    if LocateFrom(r, id, 0).Some? {
      var (s, k) := LocateFrom(r, id, 0).value;
      DiscardKeepsWellFormed(r, s, Get(r, s)[k]);
    }
  }

  /** The located alert sits under its own symbol, at the first position
      carrying the id. */
  lemma {:induction false} LocatedAlert(r: Registry, id: string)
    requires WellFormed(r)
    requires LocateFrom(r, id, 0).Some?
    ensures var (s, k) := LocateFrom(r, id, 0).value;
      s in r.buckets && k < |Get(r, s)| && Get(r, s)[k].symbol == s
      && IndexOfId(Get(r, s), id) == Some(k)
  {
    var (s, k) := LocateFrom(r, id, 0).value;
    assert s in r.symbols;
    assert r.buckets[s][k] in r.buckets[s];
  }

  /** `remove_alert_by_id` removes exactly one alert: the one at the first
      position carrying the id in the removed alert's symbol list. */
  lemma {:induction false} RemoveByIdRemovesOne(r: Registry, id: string)
    requires WellFormed(r)
    requires RemoveById(r, id).1.Some?
    ensures var a := RemoveById(r, id).1.value;
      var before := Get(r, a.symbol);
      IndexOfId(before, id).Some? && before[IndexOfId(before, id).value] == a
      && Get(RemoveById(r, id).0, a.symbol)
         == before[..IndexOfId(before, id).value] + before[IndexOfId(before, id).value + 1..]
  {
    LocatedAlert(r, id);
    var (s, k) := LocateFrom(r, id, 0).value;
    RemoveAtLocation(r, id, s, k);
  }

  lemma {:induction false} RemoveAtLocation(r: Registry, id: string, s: string, k: nat)
    requires LocateFrom(r, id, 0) == Some((s, k))
    requires k < |Get(r, s)| && IndexOfId(Get(r, s), id) == Some(k)
    ensures RemoveById(r, id).1 == Some(Get(r, s)[k])
    ensures Get(RemoveById(r, id).0, s) == Get(r, s)[..k] + Get(r, s)[k + 1..]
  {
    var before := Get(r, s);
    assert forall m :: 0 <= m < k ==> before[m].id != before[k].id;
    RemoveFirstAtIndex(before, k);
  }

  /** `remove_alert_by_id` finds an alert exactly when some symbol's list
      holds one with the id. */
  lemma {:induction false} RemoveByIdFindsAny(r: Registry, id: string)
    requires WellFormed(r)
    ensures RemoveById(r, id).1.None? <==> forall s :: s in r.buckets ==> IndexOfId(r.buckets[s], id).None?
  {
    if LocateFrom(r, id, 0).Some? {
      LocatedAlert(r, id);
    } else {
      forall s | s in r.buckets ensures IndexOfId(r.buckets[s], id).None? {
        assert s in r.symbols;
        var j :| 0 <= j < |r.symbols| && r.symbols[j] == s;
        assert IndexOfId(Get(r, r.symbols[j]), id).None?;
      }
    }
  }

  /** `remove_alert_by_id` leaves every other symbol's list as it was. */
  lemma {:induction false} RemoveByIdKeepsOthers(r: Registry, id: string)
    requires WellFormed(r)
    requires RemoveById(r, id).1.Some?
    ensures var a := RemoveById(r, id).1.value;
      forall t :: t != a.symbol ==> Get(RemoveById(r, id).0, t) == Get(r, t)
  {
    LocatedAlert(r, id);
  }

  /** `update_alert`: remove the first alert with the new alert's id, then add
      the new alert. */
  function Update(r: Registry, a: Alert): (r': Registry)
    requires WellFormed(r)
    ensures WellFormed(r')
    ensures Get(r', a.symbol) != [] && Get(r', a.symbol)[|Get(r', a.symbol)| - 1] == a
  {
    RemoveByIdKeepsWellFormed(r, a.id);
    AddKeepsWellFormed(RemoveById(r, a.id).0, a);
    Add(RemoveById(r, a.id).0, a)
  }

  /** Updating an alert whose id is absent is adding it. */
  lemma {:induction false} UpdateUnknownIsAdd(r: Registry, a: Alert)
    requires WellFormed(r)
    requires forall s :: s in r.buckets ==> IndexOfId(r.buckets[s], a.id).None?
    ensures Update(r, a) == Add(r, a)
  {
    RemoveByIdFindsAny(r, a.id);
  }

  // ---------------------------------------------------------------- the manager

  class AlertManager {
    var symbols: seq<string>
    var buckets: map<string, seq<Alert>>

    function State(): Registry
      reads this
    {
      Registry(symbols, buckets)
    }

    ghost predicate Valid()
      reads this
    {
      WellFormed(State())
    }

    constructor ()
      ensures Valid() && State() == Registry([], map[])
    {
      symbols := [];
      buckets := map[];
    }

    /** `add_alert`; it keeps `Valid` by `AddKeepsWellFormed`. */
    method AddAlert(alert: Alert)
      modifies this
      ensures State() == Add(old(State()), alert)
    {
      if alert.symbol !in buckets {
        symbols := symbols + [alert.symbol];
        buckets := buckets[alert.symbol := []];
      }
      buckets := buckets[alert.symbol := buckets[alert.symbol] + [alert]];
    }

    method UpdateAlert(alert: Alert)
      requires Valid()
      modifies this
      ensures Valid() && State() == Update(old(State()), alert)
    {
      var _ := RemoveAlertById(alert.id);
      AddKeepsWellFormed(State(), alert);
      AddAlert(alert);
    }

    /** `remove_alert`; it keeps `Valid` by `RemoveKeepsWellFormed`. */
    method RemoveAlert(alert: Alert)
      modifies this
      ensures State() == Remove(old(State()), alert)
    {
      var alerts := if alert.symbol in buckets then buckets[alert.symbol] else [];
      if alerts != [] {
        buckets := buckets[alert.symbol := WithoutId(alerts, alert.id)];
        if buckets[alert.symbol] == [] {
          buckets := buckets - {alert.symbol};
          symbols := RemoveSymbol(symbols, alert.symbol);
        }
      }
    }

    method RemoveAlertById(alertId: string) returns (removed: Option<Alert>)
      requires Valid()
      modifies this
      ensures Valid()
      ensures (State(), removed) == RemoveById(old(State()), alertId)
    {
      ghost var r0 := State();
      RemoveByIdKeepsWellFormed(r0, alertId);
      var i := 0;
      while i < |symbols|
        invariant 0 <= i <= |symbols|
        invariant State() == r0
        invariant LocateFrom(r0, alertId, i) == LocateFrom(r0, alertId, 0)
      {
        var symbol := symbols[i];
        var alerts := buckets[symbol];
        var k := FindId(alerts, alertId);
        if k.Some? {
          var alert := alerts[k.value];
          DiscardAlert(symbol, alert);
          return Some(alert);
        }
        i := i + 1;
      }
      return None;
    }

    /** The inner loop of `remove_alert_by_id`: the first position in the
        list holding an alert with the id. */
    static method FindId(alerts: seq<Alert>, alertId: string) returns (k: Option<nat>)
      ensures k == IndexOfId(alerts, alertId)
    {
      var j := 0;
      while j < |alerts|
        invariant 0 <= j <= |alerts|
        invariant forall m :: 0 <= m < j ==> alerts[m].id != alertId
      {
        if alerts[j].id == alertId {
          FirstIndexOfId(alerts, alertId, j);
          return Some(j);
        }
        j := j + 1;
      }
      return None;
    }

    /** Removes the first occurrence of the alert from the symbol's list and
        deletes the key once the list is empty. */
    method DiscardAlert(symbol: string, alert: Alert)
      requires symbol in buckets
      modifies this
      ensures State() == Discard(old(State()), symbol, alert)
    {
      var rest := RemoveFirst(buckets[symbol], alert);
      buckets := buckets[symbol := rest];
      if rest == [] {
        buckets := buckets - {symbol};
        symbols := RemoveSymbol(symbols, symbol);
      }
    }

    /** The alerts on a symbol, in the order they were added. */
    function GetAlertsForSymbol(symbol: string): (alerts: seq<Alert>)
      reads this
      ensures symbol !in buckets ==> alerts == []
      ensures Valid() ==> (alerts == [] <==> symbol !in buckets)
      ensures Valid() ==> forall k :: 0 <= k < |alerts| ==> alerts[k].symbol == symbol
    {
      Get(State(), symbol)
    }

    function HasAlertsForSymbol(symbol: string): (b: bool)
      reads this
      ensures b <==> GetAlertsForSymbol(symbol) != []
    {
      symbol in buckets && |buckets[symbol]| > 0
    }
  }
}

=== FILE: alert_models.dfy ===
/** The alert record and the price update it is checked against, with the
    accessors that read an alert's right-hand side. Times are whole seconds,
    prices are exact reals. */
module AlertModels {
  import opened Wrappers

  /** One anchor of a trend line. */
  datatype TrendlinePoint = TrendlinePoint(timestamp: int, price: real)

  /** A trend-line anchor as it arrives inside `rhs_attr`, before validation:
      either field may be missing. */
  datatype RawPoint = RawPoint(timestamp: Option<int>, price: Option<real>)

  /** The `rhs_attr` dictionary: its "constant" and "trend_line" keys. */
  datatype RhsAttr = RhsAttr(constant: Option<real>, trendLine: Option<seq<RawPoint>>)

  /** An alert: "when <lhs> <operator> <rhs>, notify". */
  datatype Alert = Alert(
    id: string,
    symbol: string,
    lhsType: string,
    operator: string,
    rhsType: string,
    rhsAttr: RhsAttr)

  /** A price tick: last traded quantity, price and time. */
  datatype ChangeUpdate = ChangeUpdate(symbol: string, ltq: real, ltp: real, ltt: int)

  function IsTrendline(a: Alert): (b: bool)
    ensures b <==> a.rhsType == "trend_line"
  {
    a.rhsType == "trend_line"
  }

  /** The constant right-hand side, present only for a "constant" alert. */
  function GetConstantValue(a: Alert): (r: Option<real>)
    ensures a.rhsType != "constant" ==> r == None
    ensures a.rhsType == "constant" ==> r == a.rhsAttr.constant
  {
    if a.rhsType == "constant" then a.rhsAttr.constant else None
  }

  /** A raw anchor validates exactly when both of its fields are present. */
  predicate Parses(p: RawPoint) {
    p.timestamp.Some? && p.price.Some?
  }

  /** Validates every anchor in order; one failure makes the whole list fail. */
  function ParsePoints(raw: seq<RawPoint>): (r: Option<seq<TrendlinePoint>>)
    ensures r.Some? <==> forall i :: 0 <= i < |raw| ==> Parses(raw[i])
    ensures r.Some? ==> |r.value| == |raw|
    ensures r.Some? ==> forall i :: 0 <= i < |raw| ==>
      r.value[i] == TrendlinePoint(raw[i].timestamp.value, raw[i].price.value)
  {
    if raw == [] then Some([])
    else if !Parses(raw[0]) then None
    else match ParsePoints(raw[1..])
      case None => None
      case Some(rest) => Some([TrendlinePoint(raw[0].timestamp.value, raw[0].price.value)] + rest)
  }

  /** The trend-line anchors of a "trend_line" alert; a missing key reads as
      an empty list, and any anchor that fails validation gives `None`. */
  function GetTrendlinePoints(a: Alert): (r: Option<seq<TrendlinePoint>>)
    ensures a.rhsType != "trend_line" ==> r == None
    ensures a.rhsType == "trend_line" && a.rhsAttr.trendLine == None ==> r == Some([])
    ensures a.rhsType == "trend_line" && a.rhsAttr.trendLine.Some? ==>
      (r.Some? <==> forall i :: 0 <= i < |a.rhsAttr.trendLine.value| ==> Parses(a.rhsAttr.trendLine.value[i]))
  {
    if a.rhsType == "trend_line" then
      match a.rhsAttr.trendLine
      case None => Some([])
      case Some(raw) => ParsePoints(raw)
    else None
  }
}

=== FILE: expression_cache.dfy ===
/** The scanner's cache of evaluated expressions, with hit and miss
    counters and a switch that turns caching off. */
module ExpressionCaching {
  import opened Wrappers

  /** What `get_stats` reports; the hit rate is a percentage. */
  datatype Stats = Stats(enabled: bool, hits: nat, misses: nat, hitRatePercent: real, cached: nat)

  /** Percentage of lookups that hit, 0 before any lookup. */
  function HitRate(hits: nat, misses: nat): (r: real)
    ensures 0.0 <= r <= 100.0
    ensures r == 0.0 <==> hits == 0
    ensures r == 100.0 <==> hits > 0 && misses == 0
  {
    if hits + misses > 0 then (hits as real) / ((hits + misses) as real) * 100.0 else 0.0
  }

  class ExpressionCache<V> {
    var cache: map<string, V>
    var hits: nat
    var misses: nat
    var enabled: bool

    /** A disabled cache holds nothing. */
    ghost predicate Valid()
      reads this
    {
      !enabled ==> cache == map[]
    }

    constructor(enabled: bool)
      ensures Valid()
      ensures cache == map[] && hits == 0 && misses == 0 && this.enabled == enabled
    {
      cache, hits, misses := map[], 0, 0;
      this.enabled := enabled;
    }

    /** A lookup answers only from an enabled cache holding the key; every
        lookup counts exactly one hit or one miss. */
    method Get(key: string) returns (r: Option<V>)
      requires Valid()
      modifies this
      ensures Valid() && cache == old(cache) && enabled == old(enabled)
      ensures r.Some? <==> enabled && key in cache
      ensures r.Some? ==> r.value == cache[key]
      ensures r.Some? ==> hits == old(hits) + 1 && misses == old(misses)
      ensures r.None? ==> hits == old(hits) && misses == old(misses) + 1
    {
      if !enabled {
        misses := misses + 1;
        return None;
      }
      if key in cache {
        hits := hits + 1;
        return Some(cache[key]);
      }
      misses := misses + 1;
      return None;
    }

    /** Stores the value only while enabled. */
    method Set(key: string, value: V)
      requires Valid()
      modifies this
      ensures Valid() && hits == old(hits) && misses == old(misses) && enabled == old(enabled)
      ensures cache == if enabled then old(cache)[key := value] else old(cache)
    {
      if enabled {
        cache := cache[key := value];
      }
    }

    /** Empties the cache and resets the counters. */
    method Clear()
      requires Valid()
      modifies this
      ensures Valid() && cache == map[] && hits == 0 && misses == 0 && enabled == old(enabled)
    {
      cache, hits, misses := map[], 0, 0;
    }

    method Enable()
      requires Valid()
      modifies this
      ensures Valid() && enabled
      ensures cache == old(cache) && hits == old(hits) && misses == old(misses)
    {
      enabled := true;
    }

    /** Turns caching off and drops every entry; the counters stay. */
    method Disable()
      modifies this
      ensures Valid() && !enabled && cache == map[]
      ensures hits == old(hits) && misses == old(misses)
    {
      enabled := false;
      cache := map[];
    }

    method IsEnabled() returns (r: bool)
      ensures r == enabled
    {
      return enabled;
    }

    /** The counters, the number of entries and the hit rate; a disabled
        cache reports no entries. */
    method GetStats() returns (st: Stats)
      requires Valid()
      ensures st.enabled == enabled && st.hits == hits && st.misses == misses
      ensures st.cached == |cache| && (!st.enabled ==> st.cached == 0)
      ensures st.hitRatePercent == HitRate(hits, misses)
    {
      var total := hits + misses;
      var rate := if total > 0 then (hits as real) / (total as real) * 100.0 else 0.0;
      st := Stats(enabled, hits, misses, rate, |cache|);
    }
  }
}

=== FILE: fundamentals.dfy ===
/** The fundamentals extraction: a symbol's yearly profit-and-loss table and
    quarterly results table, flattened into one column per metric and
    period, most recent period first. */
module Fundamentals {
  import opened Wrappers

  /** A table cell: empty, or a number. */
  datatype Cell = Null | Num(x: real)

  /** One row of a table: its date text ("YYYYMM", or "TTM" for the trailing
      twelve months) and its cells by column. */
  datatype Row = Row(date: string, cells: map<string, Cell>)

  datatype Table = Table(columns: set<string>, rows: seq<Row>)

  /** An output column: a metric's short name and a period number from 1.
      Its name in the output is `<name>_fy_<period>` (yearly) or
      `<name>_fq_<period>` (quarterly). */
  datatype Key = Key(name: string, period: nat)

  /** A column the table lacks (a `KeyError`: a metric, or "Date"), or a
      quarterly date `to_datetime(format='%Y%m')` rejects (a `ValueError`). */
  datatype FundError = MissingColumn(name: string) | BadDate

  const DATE := "Date"

  const YEARLY_METRICS: seq<(string, string)> := [
    ("Revenue", "revenue"), ("Revenue Growth", "revenue_growth"), ("OPM", "opm"),
    ("NPM", "npm"), ("PAT", "pat"), ("PAT Growth", "pat_growth"), ("EPS", "eps"),
    ("EPS Growth", "eps_growth"), ("ROA", "roa"), ("ROE", "roe"), ("ROCE", "roce"),
    ("GPM", "gpm"), ("Debt To Equity", "debt_to_equity"), ("Net Cash Flow", "net_cash_flow")]

  const QUARTERLY_METRICS: seq<(string, string)> := [
    ("Revenue", "revenue"), ("Revenue Growth YoY", "revenue_growth_yoy"),
    ("Revenue Growth QoQ", "revenue_growth_qoq"), ("OPM", "opm"), ("NPM", "npm"),
    ("PAT", "pat"), ("PAT Growth YoY", "pat_growth_yoy"), ("PAT Growth QoQ", "pat_growth_qoq"),
    ("EPS", "eps"), ("EPS Growth YoY", "eps_growth_yoy"), ("EPS Growth QoQ", "eps_growth_qoq")]

  const YEARS := 5
  const QUARTERS := 6
  const TTM := "TTM"

  // ---------------------------------------------------------------- order

  /** Python's `<` on strings: lexicographic by code point. */
  predicate Below(a: string, b: string)
    decreases |a|
  {
    if a == [] then b != []
    else if b == [] then false
    else if a[0] != b[0] then a[0] < b[0]
    else Below(a[1..], b[1..])
  }

  lemma {:induction false} BelowAsymmetric(a: string, b: string)
    ensures Below(a, b) ==> !Below(b, a)
    decreases |a|
  {
    if a != [] && b != [] && a[0] == b[0] {
      BelowAsymmetric(a[1..], b[1..]);
    }
  }

  lemma {:induction false} BelowTransitive(a: string, b: string, c: string)
    requires Below(a, b) && Below(b, c)
    ensures Below(a, c)
    decreases |a|
  {
    if a != [] && b != [] && c != [] && a[0] == b[0] && b[0] == c[0] {
      BelowTransitive(a[1..], b[1..], c[1..]);
    }
  }

  lemma {:induction false} BelowTotal(a: string, b: string)
    ensures a == b || Below(a, b) || Below(b, a)
    decreases |a|
  {
    if a != [] && b != [] && a[0] == b[0] {
      BelowTotal(a[1..], b[1..]);
      if a[1..] == b[1..] {
        assert a == [a[0]] + a[1..] && b == [b[0]] + b[1..];
      }
    }
  }

  /** "At least as recent as" is transitive. */
  lemma {:induction false} NotBelowTransitive(a: string, b: string, c: string)
    requires !Below(a, b) && !Below(b, c)
    ensures !Below(a, c)
  {
    BelowTotal(a, b);
    BelowTotal(b, c);
    if Below(a, c) {
      if a != b && b != c {
        BelowTransitive(c, b, a);
        BelowAsymmetric(c, a);
      } else {
        BelowAsymmetric(a, c);
      }
    }
  }

  // ---------------------------------------------------------------- sort

  /** Most recent date first. */
  predicate SortedDesc(rows: seq<Row>) {
    forall i, j :: 0 <= i < j < |rows| ==> !Below(rows[i].date, rows[j].date)
  }

  lemma {:induction false} PrependSorted(a: Row, rows: seq<Row>)
    requires SortedDesc(rows) && (rows != [] ==> !Below(a.date, rows[0].date))
    ensures SortedDesc([a] + rows)
  {
    var r := [a] + rows;
    forall i, j | 0 <= i < j < |r| ensures !Below(r[i].date, r[j].date) {
      if i == 0 && j > 1 {
        NotBelowTransitive(a.date, rows[0].date, rows[j - 1].date);
      }
    }
  }

  lemma {:induction false} SortedTail(rows: seq<Row>)
    requires SortedDesc(rows) && rows != []
    ensures SortedDesc(rows[1..])
  {
    forall i, j | 0 <= i < j < |rows| - 1 ensures !Below(rows[1..][i].date, rows[1..][j].date) {
      assert rows[1..][i] == rows[i + 1] && rows[1..][j] == rows[j + 1];
    }
  }

  /** The recursive step of `InsertByDate`: a row at least as recent as
      `x` stays in front of the insertion into the rest. */
  lemma {:induction false} InsertBehind(rows: seq<Row>, x: Row, rest: seq<Row>)
    requires SortedDesc(rows) && rows != [] && !Below(rows[0].date, x.date)
    requires SortedDesc(rest) && multiset(rest) == multiset(rows[1..]) + multiset{x}
    requires |rest| == |rows|
    requires rest[0] == x || (|rows| > 1 && rest[0] == rows[1])
    ensures SortedDesc([rows[0]] + rest)
    ensures multiset([rows[0]] + rest) == multiset(rows) + multiset{x}
  {
    assert rows == [rows[0]] + rows[1..];
    assert multiset([rows[0]] + rest) == multiset{rows[0]} + multiset(rest);
    PrependSorted(rows[0], rest);
  }

  /** The other case: `x` strictly more recent than the head goes first. */
  lemma {:induction false} InsertInFront(rows: seq<Row>, x: Row)
    requires SortedDesc(rows) && rows != [] && Below(rows[0].date, x.date)
    ensures SortedDesc([x] + rows)
    ensures multiset([x] + rows) == multiset(rows) + multiset{x}
  {
    BelowAsymmetric(rows[0].date, x.date);
    PrependSorted(x, rows);
  }

  /** `x` placed after every row at least as recent: rows with equal dates
      keep their order, as Python's sort does. */
  function InsertByDate(rows: seq<Row>, x: Row): (r: seq<Row>)
    requires SortedDesc(rows)
    ensures SortedDesc(r) && multiset(r) == multiset(rows) + multiset{x} && |r| == |rows| + 1
    ensures r[0] == x || (rows != [] && r[0] == rows[0])
  {
    if rows == [] then [x]
    else if !Below(rows[0].date, x.date) then
      SortedTail(rows);
      var rest := InsertByDate(rows[1..], x);
      InsertBehind(rows, x, rest);
      [rows[0]] + rest
    else
      InsertInFront(rows, x);
      [x] + rows
  }

  /** `sorted(rows, key=Date, reverse=True)`. */
  function SortByDateDesc(rows: seq<Row>): (r: seq<Row>)
    ensures SortedDesc(r) && multiset(r) == multiset(rows) && |r| == |rows|
  {
    if rows == [] then []
    else
      assert rows == rows[..|rows| - 1] + [rows[|rows| - 1]];
      InsertByDate(SortByDateDesc(rows[..|rows| - 1]), rows[|rows| - 1])
  }

  // ---------------------------------------------------------------- TTM

  /** The last trailing-twelve-months row: each one found replaces the one
      before. */
  function LastTtm(rows: seq<Row>): (t: Option<Row>)
    ensures t.Some? ==> t.value in rows && t.value.date == TTM
    ensures t.None? <==> forall i :: 0 <= i < |rows| ==> rows[i].date != TTM
  {
    if rows == [] then None
    else if rows[|rows| - 1].date == TTM then Some(rows[|rows| - 1])
    else LastTtm(rows[..|rows| - 1])
  }

  /** The rows that are not TTM, in order. */
  function Regular(rows: seq<Row>): seq<Row> {
    if rows == [] then []
    else Regular(rows[..|rows| - 1]) + (if rows[|rows| - 1].date == TTM then [] else [rows[|rows| - 1]])
  }

  /** The regular rows are exactly the rows that are not TTM. */
  lemma {:induction false} RegularMembers(rows: seq<Row>)
    ensures forall x :: x in Regular(rows) <==> x in rows && x.date != TTM
    decreases |rows|
  {
    if rows != [] {
      RegularMembers(rows[..|rows| - 1]);
      assert rows == rows[..|rows| - 1] + [rows[|rows| - 1]];
    }
  }

  /** A TTM row after every other TTM row is the one kept. */
  lemma {:induction false} LastTtmIsLast(rows: seq<Row>, k: nat)
    requires k < |rows| && rows[k].date == TTM
    requires forall j :: k < j < |rows| ==> rows[j].date != TTM
    ensures LastTtm(rows) == Some(rows[k])
    decreases |rows|
  {
    if k < |rows| - 1 {
      var prefix := rows[..|rows| - 1];
      assert prefix[k] == rows[k];
      forall j | k < j < |prefix| ensures prefix[j].date != TTM {
        assert prefix[j] == rows[j];
      }
      LastTtmIsLast(prefix, k);
    }
  }

  /** The split loop of `extract_pnl`. */
  method SplitTtm(rows: seq<Row>) returns (ttm: Option<Row>, regular: seq<Row>)
    ensures ttm == LastTtm(rows) && regular == Regular(rows)
  {
    ttm, regular := None, [];
    for i := 0 to |rows|
      invariant ttm == LastTtm(rows[..i]) && regular == Regular(rows[..i])
    {
      assert rows[..i + 1][..i] == rows[..i];
      if rows[i].date == TTM {
        ttm := Some(rows[i]);
      } else {
        regular := regular + [rows[i]];
      }
    }
    assert rows[..|rows|] == rows;
  }

  /** The order of the yearly rows: the TTM row first when there is one,
      then the others, most recent first. */
  function PnlOrder(rows: seq<Row>): (r: seq<Row>)
    ensures LastTtm(rows).Some? ==>
      && r != [] && r[0] == LastTtm(rows).value && SortedDesc(r[1..])
      && multiset(r[1..]) == multiset(Regular(rows))
    ensures LastTtm(rows).None? ==> SortedDesc(r) && multiset(r) == multiset(rows)
  {
    var sorted := SortByDateDesc(Regular(rows));
    if LastTtm(rows).None? then
      RegularWithoutTtm(rows);
      sorted
    else
      assert ([LastTtm(rows).value] + sorted)[1..] == sorted;
      [LastTtm(rows).value] + sorted
  }

  lemma {:induction false} RegularWithoutTtm(rows: seq<Row>)
    requires forall i :: 0 <= i < |rows| ==> rows[i].date != TTM
    ensures Regular(rows) == rows
    decreases |rows|
  {
    if rows != [] {
      var prefix := rows[..|rows| - 1];
      forall i | 0 <= i < |prefix| ensures prefix[i].date != TTM {
        assert prefix[i] == rows[i];
      }
      RegularWithoutTtm(prefix);
      assert rows == prefix + [rows[|rows| - 1]];
    }
  }

  // ---------------------------------------------------------------- columns

  /** A row's value for a column; a column the row does not fill is empty. */
  function CellOf(row: Row, column: string): Cell {
    if column in row.cells then row.cells[column] else Null
  }

  predicate DistinctNames(metrics: seq<(string, string)>) {
    forall k, l :: 0 <= k < l < |metrics| ==> metrics[k].1 != metrics[l].1
  }

  /** The value for a metric in period p: the metric in the p-th row, or
      nothing past the last row. */
  function Entry(rows: seq<Row>, original: string, p: int): Option<Cell>
    requires 1 <= p
  {
    if p - 1 < |rows| then Some(CellOf(rows[p - 1], original)) else None
  }

  /** The columns of one metric, periods 1..n. */
  function MetricColumns(original: string, name: string, rows: seq<Row>, n: nat): map<Key, Option<Cell>> {
    if n == 0 then map[] else MetricColumns(original, name, rows, n - 1)[Key(name, n) := Entry(rows, original, n)]
  }

  lemma {:induction false} MetricColumnsHold(original: string, name: string, rows: seq<Row>, n: nat)
    ensures forall key :: key in MetricColumns(original, name, rows, n) <==> key.name == name && 1 <= key.period <= n
    ensures forall p :: 1 <= p <= n ==> MetricColumns(original, name, rows, n)[Key(name, p)] == Entry(rows, original, p)
  {
    if n > 0 {
      MetricColumnsHold(original, name, rows, n - 1);
    }
  }

  /** The columns of all the metrics, filled in order. */
  function Columns(metrics: seq<(string, string)>, rows: seq<Row>, n: nat): map<Key, Option<Cell>> {
    if metrics == [] then map[]
    else
      var (original, name) := metrics[|metrics| - 1];
      Columns(metrics[..|metrics| - 1], rows, n) + MetricColumns(original, name, rows, n)
  }

  lemma {:induction false} DistinctPrefix(metrics: seq<(string, string)>)
    requires DistinctNames(metrics) && metrics != []
    ensures DistinctNames(metrics[..|metrics| - 1])
  {
    var prefix := metrics[..|metrics| - 1];
    forall k, l | 0 <= k < l < |prefix| ensures prefix[k].1 != prefix[l].1 {
      assert prefix[k] == metrics[k] && prefix[l] == metrics[l];
    }
  }

  /** A metric's short name with a period in 1..n. */
  predicate Named(metrics: seq<(string, string)>, key: Key, n: nat) {
    exists k :: 0 <= k < |metrics| && key.name == metrics[k].1 && 1 <= key.period <= n
  }

  /** Every metric has exactly its n columns. */
  lemma {:induction false} ColumnsKeys(metrics: seq<(string, string)>, rows: seq<Row>, n: nat, key: Key)
    ensures key in Columns(metrics, rows, n) <==> Named(metrics, key, n)
    decreases |metrics|
  {
    if metrics != [] {
      var prefix := metrics[..|metrics| - 1];
      var (original, name) := metrics[|metrics| - 1];
      ColumnsKeys(prefix, rows, n, key);
      MetricColumnsHold(original, name, rows, n);
      assert Columns(metrics, rows, n) == Columns(prefix, rows, n) + MetricColumns(original, name, rows, n);
      NamedSnoc(metrics, key, n);
    }
  }

  lemma {:induction false} NamedSnoc(metrics: seq<(string, string)>, key: Key, n: nat)
    requires metrics != []
    ensures Named(metrics, key, n) <==>
      Named(metrics[..|metrics| - 1], key, n) || (key.name == metrics[|metrics| - 1].1 && 1 <= key.period <= n)
  {
    var last := |metrics| - 1;
    var prefix := metrics[..last];
    if Named(prefix, key, n) {
      var k :| 0 <= k < |prefix| && key.name == prefix[k].1 && 1 <= key.period <= n;
      assert metrics[k] == prefix[k];
    }
    if Named(metrics, key, n) {
      var k :| 0 <= k < |metrics| && key.name == metrics[k].1 && 1 <= key.period <= n;
      if k < last {
        assert prefix[k] == metrics[k];
      }
    }
  }

  /** With distinct short names, each column holds its metric's value for
      the period. */
  lemma {:induction false} ColumnsValues(metrics: seq<(string, string)>, rows: seq<Row>, n: nat, k: nat, p: nat)
    requires DistinctNames(metrics) && k < |metrics| && 1 <= p <= n
    ensures Key(metrics[k].1, p) in Columns(metrics, rows, n)
    ensures Columns(metrics, rows, n)[Key(metrics[k].1, p)] == Entry(rows, metrics[k].0, p)
    decreases |metrics|
  {
    var last := |metrics| - 1;
    var prefix := metrics[..last];
    MetricColumnsHold(metrics[last].0, metrics[last].1, rows, n);
    if k < last {
      DistinctPrefix(metrics);
      assert prefix[k] == metrics[k];
      ColumnsValues(prefix, rows, n, k, p);
      assert metrics[k].1 != metrics[last].1;
    }
  }

  lemma {:induction false} MergeUpdate(a: map<Key, Option<Cell>>, m: map<Key, Option<Cell>>, k: Key, v: Option<Cell>)
    ensures (a + m)[k := v] == a + m[k := v]
  {
  }

  /** The inner filling loop: periods 1..n of one metric. A metric the
      table lacks fails at its first read, so only when there is a row. */
  method FillMetric(acc: map<Key, Option<Cell>>, original: string, name: string, rows: seq<Row>, columns: set<string>, n: nat)
    returns (r: Result<map<Key, Option<Cell>>, FundError>)
    ensures r.Err? <==> rows != [] && n >= 1 && original !in columns
    ensures r.Err? ==> r.error == MissingColumn(original)
    ensures r.Ok? ==> r.value == acc + MetricColumns(original, name, rows, n)
  {
    var result := acc;
    for i := 1 to n + 1
      invariant result == acc + MetricColumns(original, name, rows, i - 1)
      invariant rows != [] && i > 1 ==> original in columns
    {
      MergeUpdate(acc, MetricColumns(original, name, rows, i - 1), Key(name, i), Entry(rows, original, i));
      if i - 1 < |rows| {
        if original !in columns {
          return Err(MissingColumn(original));
        }
        result := result[Key(name, i) := Some(CellOf(rows[i - 1], original))];
      } else {
        result := result[Key(name, i) := None];
      }
    }
    r := Ok(result);
  }

  /** The filling loops of both extractions, metric after metric. */
  method FillColumns(metrics: seq<(string, string)>, rows: seq<Row>, columns: set<string>, n: nat)
    returns (r: Result<map<Key, Option<Cell>>, FundError>)
    ensures r.Err? <==> rows != [] && n >= 1 && exists k :: 0 <= k < |metrics| && metrics[k].0 !in columns
    ensures r.Err? ==> exists k :: 0 <= k < |metrics| && r.error == MissingColumn(metrics[k].0)
                                 && metrics[k].0 !in columns && forall l :: 0 <= l < k ==> metrics[l].0 in columns
    ensures r.Ok? ==> r.value == Columns(metrics, rows, n)
  {
    var result: map<Key, Option<Cell>> := map[];
    for k := 0 to |metrics|
      invariant result == Columns(metrics[..k], rows, n)
      invariant rows != [] && n >= 1 ==> forall l :: 0 <= l < k ==> metrics[l].0 in columns
    {
      var (original, name) := metrics[k];
      assert metrics[..k + 1][..k] == metrics[..k];
      var step := FillMetric(result, original, name, rows, columns, n);
      if step.Err? {
        return Err(step.error);
      }
      result := step.value;
    }
    assert metrics[..|metrics|] == metrics;
    r := Ok(result);
  }

  lemma YearlyNamesDistinct()
    ensures DistinctNames(YEARLY_METRICS)
  {
    forall k, l | 0 <= k < l < |YEARLY_METRICS| ensures YEARLY_METRICS[k].1 != YEARLY_METRICS[l].1 {
      var a, b := YEARLY_METRICS[k].1, YEARLY_METRICS[l].1;
      assert |a| != |b| || a[0] != b[0] || a[|a| - 1] != b[|b| - 1];
    }
  }

  lemma QuarterlyNamesDistinct()
    ensures DistinctNames(QUARTERLY_METRICS)
  {
    forall k, l | 0 <= k < l < |QUARTERLY_METRICS| ensures QUARTERLY_METRICS[k].1 != QUARTERLY_METRICS[l].1 {
      var a, b := QUARTERLY_METRICS[k].1, QUARTERLY_METRICS[l].1;
      assert |a| != |b| || a[0] != b[0] || a[|a| - 1] != b[|b| - 1];
    }
  }

  // ---------------------------------------------------------------- extract

  /** `extract_pnl`: the yearly columns over the rows in `PnlOrder`. */
  method ExtractPnl(t: Table) returns (r: Result<map<Key, Option<Cell>>, FundError>)
    ensures r.Err? <==>
      t.rows != [] && (DATE !in t.columns || exists k :: 0 <= k < |YEARLY_METRICS| && YEARLY_METRICS[k].0 !in t.columns)
    ensures t.rows != [] && DATE !in t.columns ==> r == Err(MissingColumn(DATE))
    ensures r.Ok? ==> r.value == Columns(YEARLY_METRICS, PnlOrder(t.rows), YEARS)
  {
    if t.rows != [] && DATE !in t.columns {
      // the first row's `row['Date']` raises
      return Err(MissingColumn(DATE));
    }
    var ttm, regular := SplitTtm(t.rows);
    var sortedRows := SortByDateDesc(regular);
    var sortedData := if ttm.Some? then [ttm.value] + sortedRows else sortedRows;
    assert sortedData == PnlOrder(t.rows);
    assert |sortedData| == 0 <==> t.rows == [] by {
      if t.rows != [] && ttm.None? {
        RegularMembers(t.rows);
        assert t.rows[0] in Regular(t.rows);
        assert t.rows[0] in multiset(sortedRows);
      }
    }
    r := FillColumns(YEARLY_METRICS, sortedData, t.columns, YEARS);
  }

  /** fy_p of every yearly metric is its value in the p-th row of
      `PnlOrder`, the TTM row being fy_1 when there is one; past the last
      row it is nothing. */
  lemma {:induction false} PnlColumns(rows: seq<Row>, k: nat, p: nat)
    requires k < |YEARLY_METRICS| && 1 <= p <= YEARS
    ensures Key(YEARLY_METRICS[k].1, p) in Columns(YEARLY_METRICS, PnlOrder(rows), YEARS)
    ensures Columns(YEARLY_METRICS, PnlOrder(rows), YEARS)[Key(YEARLY_METRICS[k].1, p)]
      == if p - 1 < |PnlOrder(rows)| then Some(CellOf(PnlOrder(rows)[p - 1], YEARLY_METRICS[k].0)) else None
    ensures p == 1 && LastTtm(rows).Some? ==>
      Columns(YEARLY_METRICS, PnlOrder(rows), YEARS)[Key(YEARLY_METRICS[k].1, p)] == Some(CellOf(LastTtm(rows).value, YEARLY_METRICS[k].0))
  {
    YearlyNamesDistinct();
    ColumnsValues(YEARLY_METRICS, PnlOrder(rows), YEARS, k, p);
  }

  /** `extract_quarterly_result`: the quarterly columns over the rows,
      most recent first. `isYearMonth` says whether `to_datetime` with
      format `%Y%m` accepts a date text. */
  method ExtractQuarterlyResult(t: Table, isYearMonth: string -> bool) returns (r: Result<map<Key, Option<Cell>>, FundError>)
    ensures r.Err? <==>
      || DATE !in t.columns
      || (exists i :: 0 <= i < |t.rows| && !isYearMonth(t.rows[i].date))
      || (t.rows != [] && exists k :: 0 <= k < |QUARTERLY_METRICS| && QUARTERLY_METRICS[k].0 !in t.columns)
    ensures DATE !in t.columns ==> r == Err(MissingColumn(DATE))
    ensures DATE in t.columns && (exists i :: 0 <= i < |t.rows| && !isYearMonth(t.rows[i].date)) ==> r == Err(BadDate)
    ensures r.Ok? ==> r.value == Columns(QUARTERLY_METRICS, SortByDateDesc(t.rows), QUARTERS)
  {
    if DATE !in t.columns {
      // `df['Date']` raises even for an empty table
      return Err(MissingColumn(DATE));
    }
    if exists i :: 0 <= i < |t.rows| && !isYearMonth(t.rows[i].date) {
      return Err(BadDate);
    }
    var sortedRows := SortByDateDesc(t.rows);
    r := FillColumns(QUARTERLY_METRICS, sortedRows, t.columns, QUARTERS);
  }

  /** fq_p of every quarterly metric is its value in the p-th most recent
      quarter, or nothing past the last quarter. */
  lemma {:induction false} QuarterlyColumns(rows: seq<Row>, k: nat, p: nat)
    requires k < |QUARTERLY_METRICS| && 1 <= p <= QUARTERS
    ensures Key(QUARTERLY_METRICS[k].1, p) in Columns(QUARTERLY_METRICS, SortByDateDesc(rows), QUARTERS)
    ensures Columns(QUARTERLY_METRICS, SortByDateDesc(rows), QUARTERS)[Key(QUARTERLY_METRICS[k].1, p)]
      == if p - 1 < |rows| then Some(CellOf(SortByDateDesc(rows)[p - 1], QUARTERLY_METRICS[k].0)) else None
  {
    QuarterlyNamesDistinct();
    ColumnsValues(QUARTERLY_METRICS, SortByDateDesc(rows), QUARTERS, k, p);
  }
}

=== FILE: marketsmith.dfy ===
/** The MarketSmith India client: its request parameters and headers, the
    symbol it is set to, and the guards every data call passes first. The
    HTTP calls are abstracted: the cookies of the first page and the search
    results arrive as parameters, and a data call yields the URL it would
    fetch. */
module MarketSmith {
  import opened Wrappers
  import opened Text

  const BASE_URL := "https://marketsmithindia.com"

  /** The headers sent with every API request. */
  const COMMON_HEADERS: map<string, string> := map[
    "Accept" := "*/*",
    "Accept-Language" := "en-IN,en;q=0.9,ar-EG;q=0.8,ar;q=0.7,en-US;q=0.6,ar-XB;q=0.5,en-GB;q=0.4",
    "Cache-Control" := "no-cache",
    "DNT" := "1",
    "Pragma" := "no-cache",
    "Priority" := "u=1, i",
    "Sec-CH-UA" := "\"Google Chrome\";v=\"137\", \"Chromium\";v=\"137\", \"Not/A)Brand\";v=\"24\"",
    "Sec-CH-UA-Mobile" := "?0",
    "Sec-CH-UA-Platform" := "\"macOS\"",
    "Sec-Fetch-Dest" := "empty",
    "Sec-Fetch-Mode" := "cors",
    "Sec-Fetch-Site" := "same-origin",
    "User-Agent" := "Mozilla/5.0 (Macintosh; Intel Mac OS X 10_15_7) AppleWebKit/537.36 (KHTML, like Gecko) Chrome/137.0.0.0 Safari/537.36",
    "X-Requested-With" := "XMLHttpRequest"]

  datatype ClientError =
    | SessionNotInitialized
    | SymbolNotFound
    | SymbolNotSet
    /** The matching search result has no instrument id (a `KeyError`). */
    | MissingInstrumentId

  datatype InitError = NoSessionCookie | NoAuthCookie

  /** A query parameter value: text, or anything else (numbers, flags). */
  datatype ParamValue = Str(s: string) | Num(n: int) | Flag(b: bool)

  /** Python's truth value of an optional text. */
  predicate Truthy(v: Option<string>) {
    v.Some? && v.value != ""
  }

  // ---------------------------------------------------------------- params

  /** A text value with spaces has them joined back with "+". */
  function ConvertValue(v: ParamValue): (r: ParamValue)
    ensures v.Str? ==> r == Str(ReplaceChar(v.s, ' ', "+"))
    ensures !v.Str? ==> r == v
  {
    if v.Str? && ' ' in v.s then
      JoinSplitReplaces(v.s, ' ', '+');
      Str(Join(Split(v.s, ' '), "+"))
    else
      if v.Str? then ReplaceCharAbsent(v.s, ' ', "+"); v else v
  }

  /** A converted value has no space left and keeps its length. */
  lemma {:induction false} ConvertedHasNoSpace(v: ParamValue)
    requires v.Str?
    ensures ConvertValue(v).Str? && |ConvertValue(v).s| == |v.s|
    ensures forall i :: 0 <= i < |ConvertValue(v).s| ==> ConvertValue(v).s[i] != ' '
  {
    ReplaceCharPointwise(v.s, ' ', '+');
  }

  /** `_convert_params`: the same keys, each value converted. */
  method ConvertParams(params: map<string, ParamValue>) returns (r: map<string, ParamValue>)
    ensures r.Keys == params.Keys
    ensures forall k :: k in params ==> r[k] == ConvertValue(params[k])
  {
    r := map[];
    var todo := params.Keys;
    while todo != {}
      invariant todo <= params.Keys && r.Keys == params.Keys - todo
      invariant forall k :: k in r ==> r[k] == ConvertValue(params[k])
      decreases |todo|
    {
      var k :| k in todo;
      var value := params[k];
      if value.Str? && ' ' in value.s {
        r := r[k := Str(Join(Split(value.s, ' '), "+"))];
      } else {
        r := r[k := value];
      }
      todo := todo - {k};
    }
  }

  // ---------------------------------------------------------------- symbols

  /** The symbol as `set_symbol` searches for it: "_" becomes "-". */
  function SearchText(symbol: string): (t: string)
    ensures |t| == |symbol|
    ensures forall i :: 0 <= i < |t| ==> t[i] != '_'
  {
    ReplaceCharPointwise(symbol, '_', '-');
    ReplaceChar(symbol, '_', "-")
  }

  /** The symbol as it is stored once set. */
  function Normalise(symbol: string): (n: string)
    ensures |n| == |symbol|
  {
    Upper(SearchText(symbol))
  }

  /** A stored symbol has no "_" and no lower-case letter, and storing it
      again changes nothing. */
  lemma {:induction false} NormalForm(symbol: string)
    ensures forall i :: 0 <= i < |Normalise(symbol)| ==> Normalise(symbol)[i] != '_' && !('a' <= Normalise(symbol)[i] <= 'z')
    ensures Normalise(Normalise(symbol)) == Normalise(symbol)
  {
    var n := Normalise(symbol);
    ReplaceCharPointwise(n, '_', '-');
    ReplaceCharAbsent(n, '_', "-");
  }

  /** Case and the choice of "_" or "-" do not matter. */
  lemma {:induction false} NormaliseIgnoresCase(symbol: string)
    ensures Normalise(Lower(symbol)) == Normalise(symbol)
    ensures Normalise(SearchText(symbol)) == Normalise(symbol)
  {
    var lower := Lower(symbol);
    ReplaceCharPointwise(symbol, '_', '-');
    ReplaceCharPointwise(lower, '_', '-');
    var a, b := Normalise(lower), Normalise(symbol);
    forall i | 0 <= i < |symbol| ensures a[i] == b[i] {
      assert lower[i] == LowerChar(symbol[i]);
    }
    assert a == b;
    SearchTextIdempotent(symbol);
  }

  lemma {:induction false} SearchTextIdempotent(symbol: string)
    ensures SearchText(SearchText(symbol)) == SearchText(symbol)
  {
    ReplaceCharAbsent(SearchText(symbol), '_', "-");
  }

  /** One entry of the search response; an entry may lack either key. */
  datatype SearchResult = SearchResult(symbol: Option<string>, instrumentId: Option<string>) {
    /** An entry with neither key is an empty dict, which Python reads as
        false. */
    predicate IsEmpty() {
      symbol.None? && instrumentId.None?
    }
  }

  /** A result matches when its symbol equals the searched text, ignoring
      case; a missing symbol reads as "". */
  predicate Matches(r: SearchResult, text: string) {
    Upper(if r.symbol.Some? then r.symbol.value else "") == Upper(text)
  }

  /** The first matching result. */
  function FirstMatch(results: seq<SearchResult>, text: string): (m: Option<nat>)
    ensures m.Some? ==>
      && m.value < |results| && Matches(results[m.value], text)
      && forall j :: 0 <= j < m.value ==> !Matches(results[j], text)
    ensures m.None? ==> forall j :: 0 <= j < |results| ==> !Matches(results[j], text)
  {
    if results == [] then None
    else if Matches(results[0], text) then Some(0)
    else
      var m := FirstMatch(results[1..], text);
      if m.Some? then Some(m.value + 1) else None
  }

  /** The symbol and instrument id `set_symbol` settles on. */
  function SymbolChoice(symbol: string, results: seq<SearchResult>): (r: Result<(string, string), ClientError>)
    ensures (forall j :: 0 <= j < |results| ==> !Matches(results[j], SearchText(symbol))) ==> r == Err(SymbolNotFound)
    ensures r.Ok? ==>
      && r.value.0 == Normalise(symbol)
      && (exists i :: 0 <= i < |results| && Matches(results[i], SearchText(symbol))
            && results[i].instrumentId == Some(r.value.1))
    ensures r.Err? ==> r.error == SymbolNotFound || r.error == MissingInstrumentId
  {
    var text := SearchText(symbol);
    var m := FirstMatch(results, text);
    if m.None? || results[m.value].IsEmpty() then Err(SymbolNotFound)
    else if results[m.value].instrumentId.None? then Err(MissingInstrumentId)
    else Ok((Upper(text), results[m.value].instrumentId.value))
  }

  /** Any spelling of a listed symbol finds the same instrument. */
  lemma {:induction false} ChoiceIgnoresCase(symbol: string, results: seq<SearchResult>)
    ensures SymbolChoice(Lower(symbol), results) == SymbolChoice(symbol, results)
  {
    NormaliseIgnoresCase(symbol);
    var a, b := SearchText(Lower(symbol)), SearchText(symbol);
    assert Upper(a) == Upper(b);
    FirstMatchSame(results, a, b);
  }

  lemma {:induction false} FirstMatchSame(results: seq<SearchResult>, a: string, b: string)
    requires Upper(a) == Upper(b)
    ensures FirstMatch(results, a) == FirstMatch(results, b)
  {
    forall r: SearchResult ensures Matches(r, a) == Matches(r, b) {
    }
    FirstMatchAgrees(results, a, b);
  }

  lemma {:induction false} FirstMatchAgrees(results: seq<SearchResult>, a: string, b: string)
    requires forall r: SearchResult :: Matches(r, a) == Matches(r, b)
    ensures FirstMatch(results, a) == FirstMatch(results, b)
  {
    if results != [] {
      FirstMatchAgrees(results[1..], a, b);
    }
  }

  /** The first of several matches wins. */
  lemma {:induction false} FirstMatchWins(symbol: string, a: SearchResult, b: SearchResult)
    requires Matches(a, SearchText(symbol)) && a.instrumentId.Some?
    ensures SymbolChoice(symbol, [a, b]) == Ok((Normalise(symbol), a.instrumentId.value))
  {
  }

  // ---------------------------------------------------------------- guards

  /** The check every data call makes first: a session, then a symbol and
      an instrument id. */
  function Readiness(hasClient: bool, symbol: Option<string>, instrumentId: Option<string>): (r: Option<ClientError>)
    ensures r.None? <==> hasClient && Truthy(symbol) && Truthy(instrumentId)
    ensures !hasClient ==> r == Some(SessionNotInitialized)
    ensures hasClient && r.Some? ==> r == Some(SymbolNotSet)
  {
    if !hasClient then Some(SessionNotInitialized)
    else if !Truthy(symbol) || !Truthy(instrumentId) then Some(SymbolNotSet)
    else None
  }

  datatype DataCall = BasicMarket | Details | FinanceDetails | BrokerEstimates | RedFlags | BulkBlockDeals | Wisdom

  const GATEWAY := BASE_URL + "/gateway/"

  /** The path of each data call under the gateway. */
  function Path(call: DataCall, id: string): string {
    match call
    case BasicMarket => "simple-api/ms-india/instr/0/" + id + "/eHeaderDetails.json"
    case Details => "simple-api/ms-india/instr/0/" + id + "/symboldetails.json"
    case FinanceDetails => "simple-api/ms-india/instr/0/" + id + "/financeDetails.json"
    case BrokerEstimates => "simple-api/ms-india/getBrokerEstimates.json"
    case RedFlags => "simple-api/ms-india/instr/" + id + "/getRedFlags.json"
    case BulkBlockDeals => "simple-api/ms-india/" + id + "/getBulkBlockDeals.json"
    case Wisdom => "simple-api/ms-india/instr/0/" + id + "/wisdom.json"
  }

  /** The URL each data call fetches. */
  function Endpoint(call: DataCall, id: string): (url: string)
    ensures StartsWith(url, GATEWAY)
  {
    var url := GATEWAY + Path(call, id);
    assert url[..|GATEWAY|] == GATEWAY;
    url
  }

  /** Every call except the broker estimates names the instrument in its
      path. */
  lemma {:induction false} EndpointNamesInstrument(call: DataCall, id: string)
    requires call != BrokerEstimates
    ensures Contains(Endpoint(call, id), id)
  {
    match call
    case BasicMarket => ContainsMiddle(GATEWAY, "simple-api/ms-india/instr/0/", id, "/eHeaderDetails.json");
    case Details => ContainsMiddle(GATEWAY, "simple-api/ms-india/instr/0/", id, "/symboldetails.json");
    case FinanceDetails => ContainsMiddle(GATEWAY, "simple-api/ms-india/instr/0/", id, "/financeDetails.json");
    case RedFlags => ContainsMiddle(GATEWAY, "simple-api/ms-india/instr/", id, "/getRedFlags.json");
    case BulkBlockDeals => ContainsMiddle(GATEWAY, "simple-api/ms-india/", id, "/getBulkBlockDeals.json");
    case Wisdom => ContainsMiddle(GATEWAY, "simple-api/ms-india/instr/0/", id, "/wisdom.json");
  }

  lemma {:induction false} ContainsMiddle(gateway: string, pre: string, id: string, post: string)
    ensures Contains(gateway + (pre + id + post), id)
  {
    var s := gateway + (pre + id + post);
    assert s[|gateway| + |pre|..|gateway| + |pre| + |id|] == id;
    assert OccursAt(s, id, |gateway| + |pre|);
  }

  // ---------------------------------------------------------------- client

  class MarketSmithClient {
    const commonHeaders: map<string, string>
    var hasClient: bool
    var msAuth: Option<string>
    var msSessionId: Option<string>
    var currentSymbol: Option<string>
    var currentInstrumentId: Option<string>

    constructor()
      ensures commonHeaders == COMMON_HEADERS && !hasClient
      ensures msAuth.None? && msSessionId.None? && currentSymbol.None? && currentInstrumentId.None?
    {
      commonHeaders := COMMON_HEADERS;
      hasClient := false;
      msAuth, msSessionId, currentSymbol, currentInstrumentId := None, None, None, None;
    }

    /** `_get_headers_with_referer`: the common headers, plus a Referer
        naming the lower-cased symbol when one is set. */
    function HeadersWithReferer(): (h: map<string, string>)
      reads this
      ensures h.Keys == commonHeaders.Keys + (if Truthy(currentSymbol) then {"Referer"} else {})
      ensures forall k :: k in commonHeaders && k != "Referer" ==> h[k] == commonHeaders[k]
      ensures Truthy(currentSymbol) ==>
        h["Referer"] == BASE_URL + "/mstool/eval/" + Lower(currentSymbol.value) + "/evaluation.jsp"
      ensures !Truthy(currentSymbol) ==> h == commonHeaders
    {
      if Truthy(currentSymbol) then
        commonHeaders["Referer" := BASE_URL + "/mstool/eval/" + Lower(currentSymbol.value) + "/evaluation.jsp"]
      else commonHeaders
    }

    /** `init_session`: the client exists from here on, even when a cookie
        is then missing; of two auth cookies the second is kept. */
    method InitSession(sessionCookie: Option<string>, authCookies: seq<string>) returns (r: Option<InitError>)
      modifies this
      ensures hasClient && msSessionId == sessionCookie
      ensures currentSymbol == old(currentSymbol) && currentInstrumentId == old(currentInstrumentId)
      ensures !Truthy(sessionCookie) ==> r == Some(NoSessionCookie) && msAuth == old(msAuth)
      ensures Truthy(sessionCookie) && authCookies == [] ==> r == Some(NoAuthCookie) && msAuth == old(msAuth)
      ensures Truthy(sessionCookie) && authCookies != [] ==>
        r.None? && msAuth == Some(if |authCookies| >= 2 then authCookies[1] else authCookies[0])
    {
      hasClient := true;
      msSessionId := sessionCookie;
      if !Truthy(sessionCookie) {
        return Some(NoSessionCookie);
      }
      if authCookies == [] {
        return Some(NoAuthCookie);
      }
      if |authCookies| >= 2 {
        msAuth := Some(authCookies[1]);
      } else {
        msAuth := Some(authCookies[0]);
      }
      r := None;
    }

    /** `set_symbol`: without a session nothing is searched; otherwise the
        first case-insensitive match is stored, upper-cased, with its
        instrument id. A failure leaves the current symbol as it was. */
    method SetSymbol(symbol: string, results: seq<SearchResult>) returns (r: Result<(), ClientError>)
      modifies this
      ensures hasClient == old(hasClient) && msAuth == old(msAuth) && msSessionId == old(msSessionId)
      ensures !old(hasClient) ==> r == Err(SessionNotInitialized)
      ensures old(hasClient) ==> (r.Ok? <==> SymbolChoice(symbol, results).Ok?)
      ensures old(hasClient) && r.Err? ==> r.error == SymbolChoice(symbol, results).error
      ensures r.Ok? ==>
        && currentSymbol == Some(SymbolChoice(symbol, results).value.0)
        && currentInstrumentId == Some(SymbolChoice(symbol, results).value.1)
      ensures r.Err? ==> currentSymbol == old(currentSymbol) && currentInstrumentId == old(currentInstrumentId)
    {
      var text := ReplaceChar(symbol, '_', "-");
      if !hasClient {
        return Err(SessionNotInitialized);
      }
      var i := 0;
      while i < |results| && !Matches(results[i], text)
        invariant 0 <= i <= |results|
        invariant forall j :: 0 <= j < i ==> !Matches(results[j], text)
      {
        i := i + 1;
      }
      assert FirstMatch(results, text) == if i < |results| then Some(i) else None by {
        if i < |results| {
          var m := FirstMatch(results, text);
          assert m.Some?;
          assert !(m.value < i) && !(i < m.value);
        }
      }
      if i == |results| || results[i].IsEmpty() {
        return Err(SymbolNotFound);
      }
      if results[i].instrumentId.None? {
        return Err(MissingInstrumentId);
      }
      currentSymbol := Some(Upper(text));
      currentInstrumentId := results[i].instrumentId;
      r := Ok(());
    }

    /** The guards of a data call, then the URL it fetches. */
    method Prepare(call: DataCall) returns (r: Result<string, ClientError>)
      ensures var g := Readiness(hasClient, currentSymbol, currentInstrumentId);
        && (g.Some? ==> r == Err(g.value))
        && (g.None? ==> r == Ok(Endpoint(call, currentInstrumentId.value)))
    {
      if !hasClient {
        return Err(SessionNotInitialized);
      }
      if !Truthy(currentSymbol) || !Truthy(currentInstrumentId) {
        return Err(SymbolNotSet);
      }
      r := Ok(Endpoint(call, currentInstrumentId.value));
    }

    /** `close`: an open client is dropped with the symbol it was set to. */
    method Close()
      modifies this
      ensures !hasClient && msAuth == old(msAuth) && msSessionId == old(msSessionId)
      ensures old(hasClient) ==> currentSymbol.None? && currentInstrumentId.None?
      ensures !old(hasClient) ==> currentSymbol == old(currentSymbol) && currentInstrumentId == old(currentInstrumentId)
    {
      if hasClient {
        hasClient := false;
        currentSymbol := None;
        currentInstrumentId := None;
      }
    }
  }

  /** After `close`, every data call is refused for want of a session,
      whatever symbol was set. */
  method CloseRefusesCalls(c: MarketSmithClient, call: DataCall) returns (r: Result<string, ClientError>)
    modifies c
    ensures r == Err(SessionNotInitialized)
  {
    c.Close();
    r := c.Prepare(call);
  }
}

=== FILE: metadata_provider.dfy ===
/** The hard-coded metadata provider: the same fixed fundamental values for
    every symbol. */
module HardcodedMetadata {
  import opened Wrappers

  /** The defaults in their insertion order. */
  const DEFAULT_VALUES: seq<(string, real)> := [
    ("eps", 50.0), ("opm", 20.0), ("pat", 10.0), ("revenue", 100.0), ("debt", 5.0),
    ("market_cap", 1000.0), ("pe_ratio", 15.0), ("pb_ratio", 2.5), ("roe", 18.0), ("roa", 12.0)]

  /** The dict built from ordered entries; a later entry wins. */
  function ToMap(entries: seq<(string, real)>): (m: map<string, real>)
    ensures forall k :: k in m <==> exists i :: 0 <= i < |entries| && entries[i].0 == k
  {
    if entries == [] then map[]
    else ToMap(entries[..|entries| - 1])[entries[|entries| - 1].0 := entries[|entries| - 1].1]
  }

  /** No later entry has the key of entry i. */
  predicate LastWith(entries: seq<(string, real)>, i: int)
    requires 0 <= i < |entries|
  {
    forall j :: i < j < |entries| ==> entries[j].0 != entries[i].0
  }

  /** The value under a key is that of the last entry with the key. */
  lemma {:induction false} ToMapLast(entries: seq<(string, real)>, i: int)
    requires 0 <= i < |entries| && LastWith(entries, i)
    ensures entries[i].0 in ToMap(entries) && ToMap(entries)[entries[i].0] == entries[i].1
  {
    var n := |entries| - 1;
    if i < n {
      var prefix := entries[..n];
      assert prefix[i] == entries[i];
      assert LastWith(prefix, i) by {
        forall j | i < j < |prefix| ensures prefix[j].0 != prefix[i].0 {
          assert prefix[j] == entries[j];
        }
      }
      ToMapLast(prefix, i);
      assert entries[n].0 != entries[i].0;
    }
  }

  function Keys(entries: seq<(string, real)>): (ks: seq<string>)
    ensures |ks| == |entries| && forall i :: 0 <= i < |entries| ==> ks[i] == entries[i].0
  {
    seq(|entries|, i requires 0 <= i < |entries| => entries[i].0)
  }

  /** `get_metadata`: the default of a supported property, whatever the
      symbol; nothing for any other property. */
  function GetMetadata(symbol: string, property: string): (r: Option<real>)
    ensures r.Some? <==> property in Keys(DEFAULT_VALUES)
  {
    var m := ToMap(DEFAULT_VALUES);
    if property in m then Some(m[property]) else None
  }

  /** `get_all_metadata`: every property with the value `get_metadata`
      gives it. */
  function GetAllMetadata(symbol: string): (r: map<string, real>)
    ensures forall p :: (p in r <==> GetMetadata(symbol, p).Some?)
    ensures forall p :: p in r ==> GetMetadata(symbol, p) == Some(r[p])
  {
    ToMap(DEFAULT_VALUES)
  }

  /** `get_supported_properties`: the ten property names, each once, in
      insertion order, and exactly the keys of `get_all_metadata`. */
  function GetSupportedProperties(): (r: seq<string>)
    ensures |r| == 10 && r[0] == "eps" && r[9] == "roa"
    ensures forall i, j :: 0 <= i < j < |r| ==> r[i] != r[j]
    ensures forall p :: p in r <==> p in GetAllMetadata("")
  {
    Keys(DEFAULT_VALUES)
  }

  /** The answer does not depend on the symbol. */
  lemma {:induction false} SameForEverySymbol(a: string, b: string, p: string)
    ensures GetMetadata(a, p) == GetMetadata(b, p)
    ensures GetAllMetadata(a) == GetAllMetadata(b)
  {
  }

  /** Earnings per share, for instance, is 50 for every symbol. */
  lemma {:induction false} EpsDefault(symbol: string)
    ensures GetMetadata(symbol, "eps") == Some(50.0)
  {
    ToMapLast(DEFAULT_VALUES, 0);
  }

  /** A property outside the defaults is unsupported. */
  lemma {:induction false} UnsupportedProperty(symbol: string)
    ensures GetMetadata(symbol, "dividend_yield") == None
  {
    assert "dividend_yield" !in Keys(DEFAULT_VALUES);
  }
}

=== FILE: notification_dispatcher.dfy ===
/** The notification dispatcher: a FIFO queue of triggered alerts and a list
    of handlers. Each dequeued alert is offered to every handler in
    registration order; a handler that raises is logged and skipped over, and
    the remaining handlers still run. */
module NotificationDispatch {
  import opened AlertModels

  /** A registered notification handler (a coroutine in the system). */
  datatype Handler = Handler(name: string)

  /** One handler invocation: which handler, which alert, and whether the
      handler raised. */
  datatype Delivery = Delivery(handler: Handler, alert: Alert, failed: bool)

  /** The invocations `_handle_alert` makes for one alert. */
  function Deliveries(hs: seq<Handler>, a: Alert, fails: (Handler, Alert) -> bool): (ds: seq<Delivery>)
    ensures |ds| == |hs|
    ensures forall j :: 0 <= j < |hs| ==> ds[j] == Delivery(hs[j], a, fails(hs[j], a))
  {
    if hs == [] then [] else Deliveries(hs[..|hs| - 1], a, fails) + [Delivery(hs[|hs| - 1], a, fails(hs[|hs| - 1], a))]
  }

  /** The invocations made while draining the queue `q`, front first. */
  function DeliverAll(q: seq<Alert>, hs: seq<Handler>, fails: (Handler, Alert) -> bool): (ds: seq<Delivery>)
  {
    if q == [] then [] else Deliveries(hs, q[0], fails) + DeliverAll(q[1..], hs, fails)
  }

  /** Draining two queues one after the other is draining their concatenation. */
  lemma {:induction false} DeliverAllAppend(q1: seq<Alert>, q2: seq<Alert>, hs: seq<Handler>, fails: (Handler, Alert) -> bool)
    ensures DeliverAll(q1 + q2, hs, fails) == DeliverAll(q1, hs, fails) + DeliverAll(q2, hs, fails)
  {
    if q1 == [] {
      assert q1 + q2 == q2;
    } else {
      var q := q1 + q2;
      assert q[0] == q1[0] && q[1..] == q1[1..] + q2;
      DeliverAllAppend(q1[1..], q2, hs, fails);
      var d, d1, d2 := Deliveries(hs, q1[0], fails), DeliverAll(q1[1..], hs, fails), DeliverAll(q2, hs, fails);
      assert DeliverAll(q, hs, fails) == d + (d1 + d2);
      assert d + (d1 + d2) == (d + d1) + d2;
    }
  }

  /** The alerts a handler was invoked with, in invocation order. */
  function SeenBy(ds: seq<Delivery>, h: Handler): (alerts: seq<Alert>)
    ensures |alerts| <= |ds|
  {
    if ds == [] then []
    else SeenBy(ds[..|ds| - 1], h) + (if ds[|ds| - 1].handler == h then [ds[|ds| - 1].alert] else [])
  }

  lemma {:induction false} SeenByAppend(d1: seq<Delivery>, d2: seq<Delivery>, h: Handler)
    ensures SeenBy(d1 + d2, h) == SeenBy(d1, h) + SeenBy(d2, h)
    decreases |d2|
  {
    if d2 == [] {
      assert d1 + d2 == d1;
    } else {
      var d2' := d2[..|d2| - 1];
      assert (d1 + d2)[..|d1 + d2| - 1] == d1 + d2';
      assert (d1 + d2)[|d1 + d2| - 1] == d2[|d2| - 1];
      SeenByAppend(d1, d2', h);
    }
  }

  /** The number of times a handler is registered. */
  function Registrations(hs: seq<Handler>, h: Handler): nat {
    if hs == [] then 0 else Registrations(hs[..|hs| - 1], h) + (if hs[|hs| - 1] == h then 1 else 0)
  }

  lemma {:induction false} SeenByDeliveries(hs: seq<Handler>, a: Alert, fails: (Handler, Alert) -> bool, h: Handler)
    ensures SeenBy(Deliveries(hs, a, fails), h) == seq(Registrations(hs, h), _ => a)
  {
    if hs != [] {
      SeenByDeliveries(hs[..|hs| - 1], a, fails, h);
    }
  }

  /** Delivery is first in, first out: a handler registered once is invoked
      with the queued alerts in exactly the order they were enqueued, whether
      or not any handler raised. */
  lemma {:induction false} HandlerSeesQueueInOrder(q: seq<Alert>, hs: seq<Handler>, fails: (Handler, Alert) -> bool, h: Handler)
    requires Registrations(hs, h) == 1
    ensures SeenBy(DeliverAll(q, hs, fails), h) == q
  {
    if q != [] {
      HandlerSeesQueueInOrder(q[1..], hs, fails, h);
      SeenByAppend(Deliveries(hs, q[0], fails), DeliverAll(q[1..], hs, fails), h);
      SeenByDeliveries(hs, q[0], fails, h);
      assert [q[0]] + q[1..] == q;
    }
  }

  class NotificationDispatcher {
    var queue: seq<Alert>
    var handlers: seq<Handler>
    /** Every handler invocation so far, in order. */
    var log: seq<Delivery>

    constructor ()
      ensures queue == [] && handlers == [] && log == []
    {
      queue := [];
      handlers := [];
      log := [];
    }

    method RegisterHandler(handler: Handler)
      modifies this
      ensures handlers == old(handlers) + [handler]
      ensures queue == old(queue) && log == old(log)
    {
      handlers := handlers + [handler];
    }

    method Enqueue(alert: Alert)
      modifies this
      ensures queue == old(queue) + [alert]
      ensures handlers == old(handlers) && log == old(log)
    {
      queue := queue + [alert];
    }

    /** Offers one alert to every handler in registration order; whether a
        handler raises is given by `fails`. */
    method HandleAlert(alert: Alert, fails: (Handler, Alert) -> bool)
      modifies this`log
      ensures log == old(log) + Deliveries(old(handlers), alert, fails)
      ensures queue == old(queue) && handlers == old(handlers)
    {
      var i := 0;
      while i < |handlers|
        invariant 0 <= i <= |handlers|
        invariant queue == old(queue) && handlers == old(handlers)
        invariant log == old(log) + Deliveries(handlers[..i], alert, fails)
      {
        var handler := handlers[i];
        var failed := fails(handler, alert);
        log := log + [Delivery(handler, alert, failed)];
        assert handlers[..i + 1][..i] == handlers[..i];
        i := i + 1;
      }
      assert handlers[..i] == handlers;
    }

    /** The dispatch loop, run until the queue is empty: alerts are taken
        from the front of the queue and handled one at a time. */
    method DispatchLoop(fails: (Handler, Alert) -> bool)
      modifies this`queue, this`log
      ensures queue == []
      ensures log == old(log) + DeliverAll(old(queue), old(handlers), fails)
      ensures handlers == old(handlers)
    {
      ghost var q0, l0 := queue, log;
      while queue != []
        invariant l0 + DeliverAll(q0, handlers, fails) == log + DeliverAll(queue, handlers, fails)
        decreases |queue|
      {
        var alert := queue[0];
        ghost var log0, rest := log, DeliverAll(queue[1..], handlers, fails);
        assert DeliverAll(queue, handlers, fails) == Deliveries(handlers, alert, fails) + rest;
        queue := queue[1..];
        HandleAlert(alert, fails);
        assert log0 + (Deliveries(handlers, alert, fails) + rest) == log + rest;
      }
    }
  }
}

=== FILE: quote_scaler.dfy ===
/** The allocation of tickers to streaming connections ("nodes"): each node
    streams at most `maxPerNode` tickers, at most `maxConnections` nodes
    are opened, and `tickerToNode` says which node streams each ticker.
    Node "node_<k>" is written as the number k. Tasks, streamers and event
    queues are tracked by the nodes that own them; the streaming itself is
    not part of this model. */
module QuoteScaler {

  type NodeId = nat

  /** A node assignment plan (`node_assignments`), in insertion order. */
  type Plan = seq<(NodeId, seq<string>)>

  /** Which node streams which ticker. */
  datatype Alloc = Alloc(
    nodeIds: seq<NodeId>,                 // the keys of `nodes`, in insertion order
    nodes: map<NodeId, set<string>>,      // each node's tickers
    tickerToNode: map<string, NodeId>)

  datatype Scaler = Scaler(
    alloc: Alloc,
    tasks: set<NodeId>,                   // nodes with a running task
    streamers: set<NodeId>,               // nodes with a registered streamer
    queues: set<NodeId>,                  // nodes with an event queue
    quotes: map<string, map<string, string>>,
    running: bool,
    created: nat)                         // nodes ever opened (used for fresh names)

  const EMPTY: Scaler := Scaler(Alloc([], map[], map[]), {}, {}, {}, map[], false, 0)

  // ---------------------------------------------------------------- slices

  /** The bound `n` of `u[:n]` and `u[n:]` with Python's clamping. */
  function Cut(u: seq<string>, n: int): (c: nat)
    ensures c <= |u| && (n >= 0 ==> c <= n) && (0 < n && u != [] ==> 0 < c)
  {
    if n <= 0 then 0 else if n >= |u| then |u| else n
  }

  function Take(u: seq<string>, n: int): seq<string> {
    u[..Cut(u, n)]
  }

  function Drop(u: seq<string>, n: int): seq<string> {
    u[Cut(u, n)..]
  }

  predicate Distinct(xs: seq<string>) {
    forall i, j :: 0 <= i < j < |xs| ==> xs[i] != xs[j]
  }

  // ---------------------------------------------------------------- the invariants

  /** `ticker_to_node[t] == n` exactly when node n streams t. */
  ghost predicate Consistent(a: Alloc) {
    forall n, t :: n in a.nodes && t in a.nodes[n] <==> t in a.tickerToNode && a.tickerToNode[t] == n
  }

  /** The node list and the node map agree, and every node is named by a
      positive number no larger than the count of nodes opened. */
  ghost predicate WellFormed(a: Alloc, created: nat) {
    && (forall n :: n in a.nodes <==> n in a.nodeIds)
    && (forall i, j :: 0 <= i < j < |a.nodeIds| ==> a.nodeIds[i] != a.nodeIds[j])
    && (forall n :: n in a.nodes ==> 0 < n <= created)
  }

  ghost predicate Valid(s: Scaler) {
    Consistent(s.alloc) && WellFormed(s.alloc, s.created)
  }

  // ---------------------------------------------------------------- planning

  /** Tickers not yet mapped, in input order (`new_tickers` as written). */
  function NewTickers(ts: seq<string>, mapped: map<string, NodeId>): (r: seq<string>)
    ensures forall t :: t in r <==> t in ts && t !in mapped
  {
    if ts == [] then []
    else
      var t := ts[|ts| - 1];
      NewTickers(ts[..|ts| - 1], mapped) + (if t !in mapped then [t] else [])
  }

  /** Tickers not yet mapped, each once, in order of first appearance. */
  function NewDistinct(ts: seq<string>, mapped: map<string, NodeId>): (r: seq<string>)
    ensures forall t :: t in r <==> t in ts && t !in mapped
    ensures Distinct(r)
  {
    if ts == [] then []
    else
      var rest := NewDistinct(ts[..|ts| - 1], mapped);
      var t := ts[|ts| - 1];
      rest + (if t !in mapped && t !in rest then [t] else [])
  }

  /** The tickers a plan assigns, in order. */
  function Assigned(plan: Plan): seq<string> {
    if plan == [] then [] else plan[0].1 + Assigned(plan[1..])
  }

  lemma {:induction false} AssignedAppend(p: Plan, q: Plan)
    ensures Assigned(p + q) == Assigned(p) + Assigned(q)
  {
    if p != [] {
      AssignedAppend(p[1..], q);
      assert (p + q)[0] == p[0];
      assert (p + q)[1..] == p[1..] + q;
      assert Assigned(p + q) == p[0].1 + Assigned(p[1..] + q);
    } else {
      assert p + q == q;
    }
  }

  lemma {:induction false} AssignedCons(x: (NodeId, seq<string>), q: Plan)
    ensures Assigned([x] + q) == x.1 + Assigned(q)
  {
    assert ([x] + q)[1..] == q;
  }

  lemma {:induction false} AssignedLast(plan: Plan)
    requires plan != []
    ensures Assigned(plan) == Assigned(plan[..|plan| - 1]) + plan[|plan| - 1].1
  {
    var init, last := plan[..|plan| - 1], plan[|plan| - 1];
    AssignedAppend(init, [last]);
    AssignedSingle(last);
    assert init + [last] == plan;
  }

  lemma {:induction false} AssignedSingle(x: (NodeId, seq<string>))
    ensures Assigned([x]) == x.1
  {
    assert [x][1..] == [];
    assert x.1 + [] == x.1;
  }

  /** A node's spare room (`max_tickers - len(tickers)`). */
  function Capacity(nodes: map<NodeId, set<string>>, id: NodeId, maxPerNode: nat): int {
    maxPerNode - (if id in nodes then |nodes[id]| else 0)
  }

  /** Phase one: existing nodes, in order, take tickers up to their spare
      room. Returns the plan and the tickers left over. */
  function FillExisting(ids: seq<NodeId>, nodes: map<NodeId, set<string>>, maxPerNode: nat, u: seq<string>)
    : (Plan, seq<string>)
  {
    if ids == [] then ([], u)
    else
      var id := ids[0];
      var cap := Capacity(nodes, id, maxPerNode);
      if cap > 0 && Take(u, cap) != [] then
        var (p, rest) := FillExisting(ids[1..], nodes, maxPerNode, Drop(u, cap));
        ([(id, Take(u, cap))] + p, rest)
      else FillExisting(ids[1..], nodes, maxPerNode, u)
  }

  /** Phase one splits the tickers into what it places and what is left,
      in order. */
  lemma {:induction false} FillExistingTickers(ids: seq<NodeId>, nodes: map<NodeId, set<string>>, maxPerNode: nat, u: seq<string>)
    ensures Assigned(FillExisting(ids, nodes, maxPerNode, u).0) + FillExisting(ids, nodes, maxPerNode, u).1 == u
    decreases |ids|
  {
    if ids != [] {
      var cap := Capacity(nodes, ids[0], maxPerNode);
      if cap > 0 && Take(u, cap) != [] {
        var c := Cut(u, cap);
        FillExistingTickers(ids[1..], nodes, maxPerNode, u[c..]);
        var (p, rest) := FillExisting(ids[1..], nodes, maxPerNode, u[c..]);
        AssignedCons((ids[0], u[..c]), p);
        Regroup(u[..c], Assigned(p), rest);
        assert u[..c] + u[c..] == u;
      } else {
        FillExistingTickers(ids[1..], nodes, maxPerNode, u);
      }
    }
  }

  /** One node of phase one: the node at `i` takes what fits, then the
      nodes after it go on with the rest. */
  lemma {:induction false} FillExistingStep(ids: seq<NodeId>, i: nat, nodes: map<NodeId, set<string>>, maxPerNode: nat, u: seq<string>)
    requires i < |ids|
    ensures var cap := Capacity(nodes, ids[i], maxPerNode);
      FillExisting(ids[i..], nodes, maxPerNode, u)
        == if cap > 0 && Take(u, cap) != [] then
             var (p, rest) := FillExisting(ids[i + 1..], nodes, maxPerNode, Drop(u, cap));
             ([(ids[i], Take(u, cap))] + p, rest)
           else FillExisting(ids[i + 1..], nodes, maxPerNode, u)
  {
    assert ids[i..][0] == ids[i] && ids[i..][1..] == ids[i + 1..];
  }

  lemma {:induction false} Regroup<T>(a: seq<T>, b: seq<T>, c: seq<T>)
    ensures a + b + c == a + (b + c)
  {
  }

  predicate FitsAt(p: Plan, k: nat, ids: seq<NodeId>, nodes: map<NodeId, set<string>>, maxPerNode: nat)
    requires k < |p|
  {
    p[k].0 in ids && p[k].1 != [] && |p[k].1| <= Capacity(nodes, p[k].0, maxPerNode)
  }

  /** Phase one only fills existing nodes, each with a nonempty batch that
      fits its spare room. */
  lemma {:induction false} FillExistingFits(ids: seq<NodeId>, nodes: map<NodeId, set<string>>, maxPerNode: nat, u: seq<string>)
    ensures forall k :: 0 <= k < |FillExisting(ids, nodes, maxPerNode, u).0| ==>
      FitsAt(FillExisting(ids, nodes, maxPerNode, u).0, k, ids, nodes, maxPerNode)
    decreases |ids|
  {
    if ids != [] {
      var cap := Capacity(nodes, ids[0], maxPerNode);
      if cap > 0 && Take(u, cap) != [] {
        var c := Cut(u, cap);
        FillExistingFits(ids[1..], nodes, maxPerNode, u[c..]);
        var q := FillExisting(ids[1..], nodes, maxPerNode, u[c..]).0;
        var p := [(ids[0], u[..c])] + q;
        assert FillExisting(ids, nodes, maxPerNode, u).0 == p;
        assert forall x :: x in ids[1..] ==> x in ids;
        forall k | 0 <= k < |p| ensures FitsAt(p, k, ids, nodes, maxPerNode) {
          if k == 0 {
            assert p[k] == (ids[0], u[..c]);
          } else {
            assert p[k] == q[k - 1];
            assert FitsAt(q, k - 1, ids[1..], nodes, maxPerNode);
          }
        }
      } else {
        FillExistingFits(ids[1..], nodes, maxPerNode, u);
        var q := FillExisting(ids[1..], nodes, maxPerNode, u).0;
        assert FillExisting(ids, nodes, maxPerNode, u).0 == q;
        forall k | 0 <= k < |q| ensures FitsAt(q, k, ids, nodes, maxPerNode) {
          assert FitsAt(q, k, ids[1..], nodes, maxPerNode);
        }
      }
    }
  }

  /** Phase two: new nodes, named after the last node opened, take full
      batches while connections remain; tickers beyond that stay unassigned. */
  function CreateNodes(last: nat, slots: int, maxPerNode: nat, u: seq<string>): Plan
    requires maxPerNode > 0
    decreases |u|
  {
    if u == [] || slots <= 0 then []
    else [(last + 1, Take(u, maxPerNode))] + CreateNodes(last + 1, slots - 1, maxPerNode, Drop(u, maxPerNode))
  }

  /** New nodes get consecutive names after `last`, no more of them than
      there are free connections, each with a nonempty batch of at most
      `maxPerNode` tickers. */
  lemma {:induction false} CreateNodesNames(last: nat, slots: int, maxPerNode: nat, u: seq<string>)
    requires maxPerNode > 0
    ensures var p := CreateNodes(last, slots, maxPerNode, u);
      && |p| <= (if slots < 0 then 0 else slots)
      && (forall k :: 0 <= k < |p| ==> p[k].0 == last + k + 1 && 0 < |p[k].1| <= maxPerNode)
  {
    CreateNodesCount(last, slots, maxPerNode, u);
    forall k | 0 <= k < |CreateNodes(last, slots, maxPerNode, u)|
      ensures var p := CreateNodes(last, slots, maxPerNode, u);
        p[k].0 == last + k + 1 && 0 < |p[k].1| <= maxPerNode
    {
      CreateNodesAt(last, slots, maxPerNode, u, k);
    }
  }

  lemma {:induction false} CreateNodesCount(last: nat, slots: int, maxPerNode: nat, u: seq<string>)
    requires maxPerNode > 0
    ensures |CreateNodes(last, slots, maxPerNode, u)| <= (if slots < 0 then 0 else slots)
    decreases |u|
  {
    if u != [] && slots > 0 {
      CreateNodesCount(last + 1, slots - 1, maxPerNode, Drop(u, maxPerNode));
    }
  }

  lemma {:induction false} CreateNodesAt(last: nat, slots: int, maxPerNode: nat, u: seq<string>, k: nat)
    requires maxPerNode > 0
    requires k < |CreateNodes(last, slots, maxPerNode, u)|
    ensures var p := CreateNodes(last, slots, maxPerNode, u);
      p[k].0 == last + k + 1 && 0 < |p[k].1| <= maxPerNode
    decreases k
  {
    var p := CreateNodes(last, slots, maxPerNode, u);
    var b, d := Take(u, maxPerNode), Drop(u, maxPerNode);
    var q := CreateNodes(last + 1, slots - 1, maxPerNode, d);
    assert p == [(last + 1, b)] + q;
    if k == 0 {
      assert p[0] == (last + 1, b);
    } else {
      CreateNodesAt(last + 1, slots - 1, maxPerNode, d, k - 1);
      assert p[k] == q[k - 1];
      assert q[k - 1].0 == last + 1 + (k - 1) + 1;
    }
  }

  /** The new nodes' batches are a prefix of the leftover tickers. */
  lemma {:induction false} CreateNodesTickers(last: nat, slots: int, maxPerNode: nat, u: seq<string>)
    requires maxPerNode > 0
    ensures var a := Assigned(CreateNodes(last, slots, maxPerNode, u));
      |a| <= |u| && a == u[..|a|]
    decreases |u|
  {
    var p := CreateNodes(last, slots, maxPerNode, u);
    if u != [] && slots > 0 {
      var c := Cut(u, maxPerNode);
      var b, d := u[..c], u[c..];
      var q := CreateNodes(last + 1, slots - 1, maxPerNode, d);
      CreateNodesTickers(last + 1, slots - 1, maxPerNode, d);
      var aq := Assigned(q);
      assert p == [(last + 1, b)] + q;
      AssignedCons((last + 1, b), q);
      assert b + d[..|aq|] == u[..c + |aq|];
    } else {
      assert p == [];
    }
  }

  /** When a connection is left free, every leftover ticker was placed. */
  lemma {:induction false} CreateNodesPlacesAll(last: nat, slots: int, maxPerNode: nat, u: seq<string>)
    requires maxPerNode > 0
    requires |CreateNodes(last, slots, maxPerNode, u)| < slots
    ensures Assigned(CreateNodes(last, slots, maxPerNode, u)) == u
    decreases |u|
  {
    var p := CreateNodes(last, slots, maxPerNode, u);
    if u != [] {
      var c := Cut(u, maxPerNode);
      var q := CreateNodes(last + 1, slots - 1, maxPerNode, u[c..]);
      assert p == [(last + 1, u[..c])] + q;
      CreateNodesPlacesAll(last + 1, slots - 1, maxPerNode, u[c..]);
      AssignedCons((last + 1, u[..c]), q);
      assert u[..c] + u[c..] == u;
    }
  }

  /** `node_assignments[id] = batch`: replaces an entry in place, or appends. */
  function Assign(plan: Plan, id: NodeId, batch: seq<string>): Plan {
    if plan == [] then [(id, batch)]
    else if plan[0].0 == id then [(id, batch)] + plan[1..]
    else [plan[0]] + Assign(plan[1..], id, batch)
  }

  /** Phase two as written: the name is computed from the node count,
      which does not change inside the loop, so every batch is written to
      the same entry, and the loop runs until no ticker is left. */
  function CreateNodesAsWritten(count: nat, maxConnections: nat, maxPerNode: nat, u: seq<string>, plan: Plan): Plan
    requires maxPerNode > 0
    decreases |u|
  {
    if u == [] || count >= maxConnections then plan
    else CreateNodesAsWritten(count, maxConnections, maxPerNode, Drop(u, maxPerNode),
                              Assign(plan, count + 1, Take(u, maxPerNode)))
  }

  /** The two phases of planning: existing nodes first, then new nodes
      for what is left. */
  function Phases(ids: seq<NodeId>, nodes: map<NodeId, set<string>>, last: nat, slots: int, maxPerNode: nat, u: seq<string>)
    : (Plan, Plan)
    requires maxPerNode > 0
  {
    var (p1, rest) := FillExisting(ids, nodes, maxPerNode, u);
    (p1, CreateNodes(last, slots, maxPerNode, rest))
  }

  /** The phases place distinct tickers, taken from those offered. */
  lemma {:induction false} PhasesTickers(ids: seq<NodeId>, nodes: map<NodeId, set<string>>, last: nat, slots: int, maxPerNode: nat, u: seq<string>)
    requires maxPerNode > 0
    requires Distinct(u)
    ensures Distinct(Assigned(Phases(ids, nodes, last, slots, maxPerNode, u).0 + Phases(ids, nodes, last, slots, maxPerNode, u).1))
    ensures forall t :: t in Assigned(Phases(ids, nodes, last, slots, maxPerNode, u).0 + Phases(ids, nodes, last, slots, maxPerNode, u).1) ==> t in u
  {
    var p1: Plan, rest: seq<string> := FillExisting(ids, nodes, maxPerNode, u).0, FillExisting(ids, nodes, maxPerNode, u).1;
    var p2 := CreateNodes(last, slots, maxPerNode, rest);
    assert Phases(ids, nodes, last, slots, maxPerNode, u) == (p1, p2);
    FillExistingTickers(ids, nodes, maxPerNode, u);
    CreateNodesTickers(last, slots, maxPerNode, rest);
    AssignedAppend(p1, p2);
    PlannedPrefix(Assigned(p1), Assigned(p2), rest, u);
  }

  lemma {:induction false} PlannedPrefix(a1: seq<string>, a2: seq<string>, rest: seq<string>, whole: seq<string>)
    requires a1 + rest == whole && Distinct(whole)
    requires |a2| <= |rest| && a2 == rest[..|a2|]
    ensures Distinct(a1 + a2) && forall t :: t in a1 + a2 ==> t in whole
  {
    var left := rest[|a2|..];
    assert (a1 + a2) + left == whole;
    PrefixOfDistinct(a1 + a2, left, whole);
  }

  lemma {:induction false} PrefixOfDistinct(a: seq<string>, left: seq<string>, whole: seq<string>)
    requires a + left == whole && Distinct(whole)
    ensures Distinct(a) && forall t :: t in a ==> t in whole
  {
    DistinctParts(a, left);
    forall t | t in a ensures t in whole {
      var i :| 0 <= i < |a| && a[i] == t;
      assert whole[i] == t;
    }
  }

  lemma {:induction false} DistinctParts(a: seq<string>, b: seq<string>)
    requires Distinct(a + b)
    ensures Distinct(a) && Distinct(b) && forall t :: t in a ==> t !in b
  {
    forall i, j | 0 <= i < j < |a| ensures a[i] != a[j] {
      assert a[i] == (a + b)[i] && a[j] == (a + b)[j];
    }
    forall i, j | 0 <= i < j < |b| ensures b[i] != b[j] {
      assert b[i] == (a + b)[|a| + i] && b[j] == (a + b)[|a| + j];
    }
    forall t | t in a ensures t !in b {
      var i :| 0 <= i < |a| && a[i] == t;
      if j :| 0 <= j < |b| && b[j] == t {
        assert (a + b)[i] == (a + b)[|a| + j];
      }
    }
  }

  // ---------------------------------------------------------------- applying a plan

  function NodeIdsOf(plan: Plan): set<NodeId> {
    set k | 0 <= k < |plan| :: plan[k].0
  }

  /** One assignment: the node is opened if needed, takes the tickers, and
      each ticker is mapped to it. */
  function ApplyOne(a: Alloc, id: NodeId, batch: seq<string>): Alloc {
    Alloc(if id in a.nodes then a.nodeIds else a.nodeIds + [id],
          a.nodes[id := (if id in a.nodes then a.nodes[id] else {}) + (set t | t in batch)],
          a.tickerToNode + MapTo(batch, id))
  }

  function ApplyPlan(a: Alloc, plan: Plan): Alloc {
    if plan == [] then a
    else ApplyOne(ApplyPlan(a, plan[..|plan| - 1]), plan[|plan| - 1].0, plan[|plan| - 1].1)
  }

  /** Every ticker of `batch` mapped to node `id`. */
  function MapTo(batch: seq<string>, id: NodeId): (m: map<string, NodeId>)
    ensures m.Keys == set t | t in batch
  {
    map t | t in batch :: id
  }

  /** Mapping the tickers of a batch one more at a time. */
  lemma {:induction false} MapBatchStep(m: map<string, NodeId>, batch: seq<string>, j: nat, id: NodeId)
    requires j < |batch|
    ensures m + MapTo(batch[..j + 1], id) == (m + MapTo(batch[..j], id))[batch[j] := id]
  {
    assert batch[..j + 1] == batch[..j] + [batch[j]];
  }

  /** Carrying out a plan one more entry at a time. */
  lemma {:induction false} ApplyPlanStep(a: Alloc, plan: Plan, i: nat)
    requires i < |plan|
    ensures ApplyPlan(a, plan[..i + 1]) == ApplyOne(ApplyPlan(a, plan[..i]), plan[i].0, plan[i].1)
  {
    assert plan[..i + 1][..i] == plan[..i];
  }

  function Without(ids: seq<NodeId>, dead: set<NodeId>): (r: seq<NodeId>)
    ensures forall n :: n in r <==> n in ids && n !in dead
  {
    if ids == [] then []
    else Without(ids[..|ids| - 1], dead) + (if ids[|ids| - 1] in dead then [] else [ids[|ids| - 1]])
  }

  /** The listed nodes that are gone or have no tickers left. */
  function Dead(a: Alloc, ids: set<NodeId>): set<NodeId> {
    set n | n in ids && (n !in a.nodes || a.nodes[n] == {})
  }

  /** The node part of `_update_nodes`: dead nodes are deleted. */
  function Prune(a: Alloc, ids: set<NodeId>): Alloc {
    a.(nodeIds := Without(a.nodeIds, Dead(a, ids)), nodes := a.nodes - Dead(a, ids))
  }

  /** `_update_nodes`: a dead node loses its task, streamer, queue and
      entry; every other listed node gets a fresh task and queue. */
  function UpdateNodes(s: Scaler, ids: set<NodeId>): Scaler {
    var dead := Dead(s.alloc, ids);
    s.(alloc := Prune(s.alloc, ids),
       tasks := (s.tasks - dead) + (ids - dead), streamers := s.streamers - dead,
       queues := (s.queues - dead) + (ids - dead))
  }

  /** A listed node survives exactly when it still has tickers; a deleted
      node keeps no task, streamer or queue; a surviving listed node has a
      task and a queue; unlisted nodes are untouched. */
  lemma {:induction false} UpdateNodesEffect(s: Scaler, ids: set<NodeId>)
    ensures var r := UpdateNodes(s, ids);
      && (forall n :: n in r.alloc.nodes <==> n in s.alloc.nodes && (n !in ids || s.alloc.nodes[n] != {}))
      && (forall n :: n in ids && n !in r.alloc.nodes ==> n !in r.tasks && n !in r.streamers && n !in r.queues)
      && (forall n :: n in ids && n in r.alloc.nodes ==> n in r.tasks && n in r.queues)
      && (forall n :: n !in ids ==>
            (n in r.tasks <==> n in s.tasks) && (n in r.queues <==> n in s.queues) && (n in r.streamers <==> n in s.streamers))
      && r.alloc.tickerToNode == s.alloc.tickerToNode
  {
  }

  lemma {:induction false} WithoutNone(ids: seq<NodeId>)
    ensures Without(ids, {}) == ids
    decreases |ids|
  {
    if ids != [] {
      WithoutNone(ids[..|ids| - 1]);
      assert ids[..|ids| - 1] + [ids[|ids| - 1]] == ids;
    }
  }

  lemma {:induction false} WithoutWithout(ids: seq<NodeId>, a: set<NodeId>, b: set<NodeId>)
    ensures Without(Without(ids, a), b) == Without(ids, a + b)
    decreases |ids|
  {
    if ids != [] {
      var init, x := ids[..|ids| - 1], ids[|ids| - 1];
      WithoutWithout(init, a, b);
      var w := Without(init, a);
      assert Without(ids, a + b) == Without(init, a + b) + (if x in a + b then [] else [x]);
      if x in a {
        assert Without(ids, a) == w;
      } else {
        var wx := w + [x];
        assert Without(ids, a) == wx;
        assert wx[..|wx| - 1] == w && wx[|wx| - 1] == x;
        assert Without(wx, b) == Without(w, b) + (if x in b then [] else [x]);
      }
    }
  }

  /** Updating no node changes nothing. */
  lemma {:induction false} UpdateNodesNone(s: Scaler)
    ensures UpdateNodes(s, {}) == s
  {
    assert Dead(s.alloc, {}) == {};
    WithoutNone(s.alloc.nodeIds);
  }

  /** Updating one node that is missing or has no tickers deletes it with
      its task, streamer and queue. */
  lemma {:induction false} UpdateNodeDropped(s: Scaler, n: NodeId)
    requires n !in s.alloc.nodes || s.alloc.nodes[n] == {}
    ensures UpdateNodes(s, {n}) == s.(alloc := s.alloc.(nodeIds := Without(s.alloc.nodeIds, {n}), nodes := s.alloc.nodes - {n}),
      tasks := s.tasks - {n}, streamers := s.streamers - {n}, queues := s.queues - {n})
  {
    assert Dead(s.alloc, {n}) == {n};
    assert (s.tasks - {n}) + ({n} - {n}) == s.tasks - {n};
    assert (s.queues - {n}) + ({n} - {n}) == s.queues - {n};
  }

  /** Updating one node that still has tickers gives it a task and a queue
      and changes nothing else. */
  lemma {:induction false} UpdateNodeKept(s: Scaler, n: NodeId)
    requires n in s.alloc.nodes && s.alloc.nodes[n] != {}
    ensures UpdateNodes(s, {n}) == s.(tasks := s.tasks + {n}, queues := s.queues + {n})
  {
    assert Dead(s.alloc, {n}) == {};
    WithoutNone(s.alloc.nodeIds);
    assert s.alloc.nodes - {} == s.alloc.nodes;
    assert s.alloc.(nodeIds := s.alloc.nodeIds, nodes := s.alloc.nodes) == s.alloc;
  }

  /** Nodes can be updated one at a time, in any order: each node's fate
      depends only on its own entry. */
  lemma {:induction false} UpdateNodesStep(s: Scaler, done: set<NodeId>, n: NodeId)
    requires n !in done
    ensures UpdateNodes(UpdateNodes(s, done), {n}) == UpdateNodes(s, done + {n})
  {
    var dd := Dead(s.alloc, done);
    var mid := UpdateNodes(s, done);
    assert Dead(mid.alloc, {n}) == Dead(s.alloc, {n});
    assert Dead(s.alloc, done + {n}) == dd + Dead(s.alloc, {n});
    WithoutWithout(s.alloc.nodeIds, dd, Dead(s.alloc, {n}));
  }

  // ---------------------------------------------------------------- operations

  /** `add_tickers` as written. */
  function AddTickersAsWritten(s: Scaler, ts: seq<string>, maxConnections: nat, maxPerNode: nat): Scaler
    requires maxPerNode > 0
  {
    var s1 := s.(running := true);
    var added := NewTickers(ts, s.alloc.tickerToNode);
    if added == [] then s1
    else
      var (p1, rest) := FillExisting(s.alloc.nodeIds, s.alloc.nodes, maxPerNode, added);
      var plan := CreateNodesAsWritten(|s.alloc.nodeIds|, maxConnections, maxPerNode, rest, p1);
      UpdateNodes(s1.(alloc := ApplyPlan(s.alloc, plan)), NodeIdsOf(plan))
  }

  /** The plan `add_tickers` evidently intends: duplicates are taken once,
      and each new node gets a name not used before. */
  function AddPlan(s: Scaler, ts: seq<string>, maxConnections: nat, maxPerNode: nat): (Plan, Plan)
    requires maxPerNode > 0
  {
    Phases(s.alloc.nodeIds, s.alloc.nodes, s.created, maxConnections - |s.alloc.nodeIds|, maxPerNode,
           NewDistinct(ts, s.alloc.tickerToNode))
  }

  /** Carrying out a plan whose second part opens new nodes: the nodes take
      their tickers, then every node named is started or cleaned up. */
  function Commit(s: Scaler, p1: Plan, p2: Plan): Scaler {
    UpdateNodes(s.(alloc := ApplyPlan(s.alloc, p1 + p2), running := true, created := s.created + |p2|),
                NodeIdsOf(p1 + p2))
  }

  /** `add_tickers` with the evident intent. */
  function AddTickers(s: Scaler, ts: seq<string>, maxConnections: nat, maxPerNode: nat): Scaler
    requires maxPerNode > 0
  {
    if NewDistinct(ts, s.alloc.tickerToNode) == [] then s.(running := true)
    else Commit(s, AddPlan(s, ts, maxConnections, maxPerNode).0, AddPlan(s, ts, maxConnections, maxPerNode).1)
  }

  /** One ticker of `remove_tickers`: its mapping is popped; if its node
      exists the node drops it, its quote is dropped and the node is
      marked affected. */
  function RemoveOne(s: Scaler, affected: set<NodeId>, t: string): (Scaler, set<NodeId>) {
    var a := s.alloc;
    if t !in a.tickerToNode then (s, affected)
    else
      var n := a.tickerToNode[t];
      if n in a.nodes then
        (s.(alloc := a.(nodes := a.nodes[n := a.nodes[n] - {t}], tickerToNode := a.tickerToNode - {t}),
            quotes := s.quotes - {t}),
         affected + {n})
      else (s.(alloc := a.(tickerToNode := a.tickerToNode - {t})), affected)
  }

  function RemoveAll(s: Scaler, ts: seq<string>): (Scaler, set<NodeId>) {
    if ts == [] then (s, {})
    else
      var (s', affected) := RemoveAll(s, ts[..|ts| - 1]);
      RemoveOne(s', affected, ts[|ts| - 1])
  }

  function RemoveTickers(s: Scaler, ts: seq<string>): Scaler {
    UpdateNodes(RemoveAll(s, ts).0, RemoveAll(s, ts).1)
  }

  /** `stop`: only a running scaler is cleared; quotes are kept. */
  function Stop(s: Scaler): (r: Scaler)
    ensures s.running ==>
      (r.alloc == Alloc([], map[], map[]) && r.tasks == {} && r.streamers == {} && r.queues == {}
       && !r.running && r.quotes == s.quotes)
    ensures !s.running ==> r == s
  {
    if s.running then
      s.(running := false, alloc := Alloc([], map[], map[]), tasks := {}, streamers := {}, queues := {})
    else s
  }

  /** A node's streamer reports a quote update: it is cached while the
      scaler runs, and dropped after it stopped. */
  function RecordQuote(s: Scaler, t: string, data: map<string, string>): Scaler {
    if s.running then s.(quotes := s.quotes[t := data]) else s
  }

  /** `get_quote`: the cached quote, or {} for an unknown ticker. */
  function GetQuote(s: Scaler, t: string): map<string, string> {
    if t in s.quotes then s.quotes[t] else map[]
  }

  /** A recorded quote is what `get_quote` returns until it is replaced;
      a ticker never recorded reads as {}. */
  lemma {:induction false} GetQuoteAfterRecord(s: Scaler, t: string, u: string, data: map<string, string>)
    requires s.running
    ensures GetQuote(RecordQuote(s, t, data), t) == data
    ensures u != t ==> GetQuote(RecordQuote(s, t, data), u) == GetQuote(s, u)
    ensures u !in s.quotes ==> GetQuote(s, u) == map[]
  {
  }

  // ---------------------------------------------------------------- the mapping stays consistent

  lemma {:induction false} ApplyOneConsistent(a: Alloc, id: NodeId, batch: seq<string>)
    requires Consistent(a)
    requires forall t :: t in batch ==> t !in a.tickerToNode
    ensures Consistent(ApplyOne(a, id, batch))
  {
  }

  /** Applying a plan maps exactly the planned tickers besides the mapped
      ones. */
  lemma {:induction false} ApplyPlanMapped(a: Alloc, plan: Plan)
    ensures forall t :: t in ApplyPlan(a, plan).tickerToNode <==> t in a.tickerToNode || t in Assigned(plan)
    decreases |plan|
  {
    if plan != [] {
      ApplyPlanMapped(a, plan[..|plan| - 1]);
      AssignedLast(plan);
    }
  }

  /** Applying unmapped tickers leaves the existing mappings alone. */
  lemma {:induction false} ApplyPlanKeeps(a: Alloc, plan: Plan)
    requires forall t :: t in Assigned(plan) ==> t !in a.tickerToNode
    ensures forall t :: t in a.tickerToNode ==>
      t in ApplyPlan(a, plan).tickerToNode && ApplyPlan(a, plan).tickerToNode[t] == a.tickerToNode[t]
    decreases |plan|
  {
    if plan != [] {
      AssignedLast(plan);
      ApplyPlanKeeps(a, plan[..|plan| - 1]);
    }
  }

  /** A plan of distinct, unmapped tickers keeps the mapping consistent. */
  lemma {:induction false} ApplyPlanConsistent(a: Alloc, plan: Plan)
    requires Consistent(a)
    requires Distinct(Assigned(plan))
    requires forall t :: t in Assigned(plan) ==> t !in a.tickerToNode
    ensures Consistent(ApplyPlan(a, plan))
    decreases |plan|
  {
    if plan != [] {
      var init, last := plan[..|plan| - 1], plan[|plan| - 1];
      AssignedLast(plan);
      DistinctParts(Assigned(init), last.1);
      ApplyPlanConsistent(a, init);
      ApplyPlanMapped(a, init);
      ApplyOneConsistent(ApplyPlan(a, init), last.0, last.1);
    }
  }

  /** Only empty or missing nodes are deleted, so no mapped ticker loses
      its node. */
  lemma {:induction false} PruneConsistent(a: Alloc, ids: set<NodeId>)
    requires Consistent(a)
    ensures Consistent(Prune(a, ids))
  {
    var r := Prune(a, ids);
    forall n, t | t in r.tickerToNode && r.tickerToNode[t] == n ensures n in r.nodes && t in r.nodes[n] {
      assert t in a.nodes[n];
    }
  }

  /** The plan places distinct tickers, none of them mapped already. */
  lemma {:induction false} AddPlanTickers(s: Scaler, ts: seq<string>, maxConnections: nat, maxPerNode: nat)
    requires maxPerNode > 0
    ensures Distinct(Assigned(AddPlan(s, ts, maxConnections, maxPerNode).0 + AddPlan(s, ts, maxConnections, maxPerNode).1))
    ensures forall t :: t in Assigned(AddPlan(s, ts, maxConnections, maxPerNode).0 + AddPlan(s, ts, maxConnections, maxPerNode).1) ==>
      t in ts && t !in s.alloc.tickerToNode
  {
    PhasesTickers(s.alloc.nodeIds, s.alloc.nodes, s.created, maxConnections - |s.alloc.nodeIds|, maxPerNode,
                  NewDistinct(ts, s.alloc.tickerToNode));
  }

  lemma {:induction false} CommitConsistent(s: Scaler, p1: Plan, p2: Plan)
    requires Consistent(s.alloc)
    requires Distinct(Assigned(p1 + p2))
    requires forall t :: t in Assigned(p1 + p2) ==> t !in s.alloc.tickerToNode
    ensures Consistent(Commit(s, p1, p2).alloc)
  {
    ApplyPlanConsistent(s.alloc, p1 + p2);
    PruneConsistent(ApplyPlan(s.alloc, p1 + p2), NodeIdsOf(p1 + p2));
  }

  /** `add_tickers` keeps `ticker_to_node` and the nodes' tickers in step. */
  lemma {:induction false} AddTickersConsistent(s: Scaler, ts: seq<string>, maxConnections: nat, maxPerNode: nat)
    requires maxPerNode > 0
    requires Consistent(s.alloc)
    ensures Consistent(AddTickers(s, ts, maxConnections, maxPerNode).alloc)
  {
    if NewDistinct(ts, s.alloc.tickerToNode) != [] {
      AddPlanTickers(s, ts, maxConnections, maxPerNode);
      CommitConsistent(s, AddPlan(s, ts, maxConnections, maxPerNode).0, AddPlan(s, ts, maxConnections, maxPerNode).1);
    }
  }

  lemma {:induction false} RemoveOneConsistent(s: Scaler, affected: set<NodeId>, t: string)
    requires Consistent(s.alloc)
    ensures Consistent(RemoveOne(s, affected, t).0.alloc)
  {
  }

  lemma {:induction false} RemoveAllConsistent(s: Scaler, ts: seq<string>)
    requires Consistent(s.alloc)
    ensures Consistent(RemoveAll(s, ts).0.alloc)
    decreases |ts|
  {
    if ts != [] {
      RemoveAllConsistent(s, ts[..|ts| - 1]);
      var (s', affected) := RemoveAll(s, ts[..|ts| - 1]);
      RemoveOneConsistent(s', affected, ts[|ts| - 1]);
    }
  }

  /** `remove_tickers` keeps `ticker_to_node` and the nodes' tickers in step. */
  lemma {:induction false} RemoveTickersConsistent(s: Scaler, ts: seq<string>)
    requires Consistent(s.alloc)
    ensures Consistent(RemoveTickers(s, ts).alloc)
  {
    RemoveAllConsistent(s, ts);
    PruneConsistent(RemoveAll(s, ts).0.alloc, RemoveAll(s, ts).1);
  }

  // ---------------------------------------------------------------- the node list stays in step

  lemma {:induction false} ApplyOneWellFormed(a: Alloc, created: nat, id: NodeId, batch: seq<string>)
    requires WellFormed(a, created) && 0 < id <= created
    ensures WellFormed(ApplyOne(a, id, batch), created)
  {
  }

  lemma {:induction false} ApplyPlanWellFormed(a: Alloc, created: nat, plan: Plan)
    requires WellFormed(a, created)
    requires forall k :: 0 <= k < |plan| ==> 0 < plan[k].0 <= created
    ensures WellFormed(ApplyPlan(a, plan), created)
    decreases |plan|
  {
    if plan != [] {
      var init := plan[..|plan| - 1];
      ApplyPlanWellFormed(a, created, init);
      ApplyOneWellFormed(ApplyPlan(a, init), created, plan[|plan| - 1].0, plan[|plan| - 1].1);
    }
  }

  lemma {:induction false} WithoutDistinct(ids: seq<NodeId>, dead: set<NodeId>)
    requires forall i, j :: 0 <= i < j < |ids| ==> ids[i] != ids[j]
    ensures forall i, j :: 0 <= i < j < |Without(ids, dead)| ==> Without(ids, dead)[i] != Without(ids, dead)[j]
    decreases |ids|
  {
    if ids != [] {
      var init, x := ids[..|ids| - 1], ids[|ids| - 1];
      WithoutDistinct(init, dead);
      var w := Without(init, dead);
      if x !in dead {
        var r := w + [x];
        assert Without(ids, dead) == r;
        forall i, j | 0 <= i < j < |r| ensures r[i] != r[j] {
          if j == |w| {
            assert r[i] == w[i] && w[i] in init;
            var k :| 0 <= k < |init| && init[k] == w[i];
            assert ids[k] == w[i];
          } else {
            assert r[i] == w[i] && r[j] == w[j];
          }
        }
      } else {
        assert Without(ids, dead) == w;
      }
    }
  }

  lemma {:induction false} PruneWellFormed(a: Alloc, created: nat, ids: set<NodeId>)
    requires WellFormed(a, created)
    ensures WellFormed(Prune(a, ids), created)
  {
    WithoutDistinct(a.nodeIds, Dead(a, ids));
  }

  /** Every node a plan names is an existing node or one of the new ones. */
  lemma {:induction false} AddPlanNames(s: Scaler, ts: seq<string>, maxConnections: nat, maxPerNode: nat)
    requires maxPerNode > 0 && WellFormed(s.alloc, s.created)
    ensures var p1, p2 := AddPlan(s, ts, maxConnections, maxPerNode).0, AddPlan(s, ts, maxConnections, maxPerNode).1;
      forall k :: 0 <= k < |p1 + p2| ==> 0 < (p1 + p2)[k].0 <= s.created + |p2|
  {
    var u := NewDistinct(ts, s.alloc.tickerToNode);
    var slots := maxConnections - |s.alloc.nodeIds|;
    var p1: Plan, rest: seq<string> := FillExisting(s.alloc.nodeIds, s.alloc.nodes, maxPerNode, u).0,
                                       FillExisting(s.alloc.nodeIds, s.alloc.nodes, maxPerNode, u).1;
    var p2 := CreateNodes(s.created, slots, maxPerNode, rest);
    assert AddPlan(s, ts, maxConnections, maxPerNode) == (p1, p2);
    FillExistingFits(s.alloc.nodeIds, s.alloc.nodes, maxPerNode, u);
    CreateNodesNames(s.created, slots, maxPerNode, rest);
    forall k | 0 <= k < |p1 + p2| ensures 0 < (p1 + p2)[k].0 <= s.created + |p2| {
      if k < |p1| {
        assert (p1 + p2)[k] == p1[k] && FitsAt(p1, k, s.alloc.nodeIds, s.alloc.nodes, maxPerNode);
      } else {
        assert (p1 + p2)[k] == p2[k - |p1|];
      }
    }
  }

  lemma {:induction false} CommitWellFormed(s: Scaler, p1: Plan, p2: Plan)
    requires WellFormed(s.alloc, s.created)
    requires forall k :: 0 <= k < |p1 + p2| ==> 0 < (p1 + p2)[k].0 <= s.created + |p2|
    ensures WellFormed(Commit(s, p1, p2).alloc, Commit(s, p1, p2).created)
  {
    var c := s.created + |p2|;
    ApplyPlanWellFormed(s.alloc, c, p1 + p2);
    PruneWellFormed(ApplyPlan(s.alloc, p1 + p2), c, NodeIdsOf(p1 + p2));
  }

  /** `add_tickers` keeps the node list in step with the nodes. */
  lemma {:induction false} AddTickersWellFormed(s: Scaler, ts: seq<string>, maxConnections: nat, maxPerNode: nat)
    requires maxPerNode > 0 && WellFormed(s.alloc, s.created)
    ensures var r := AddTickers(s, ts, maxConnections, maxPerNode); WellFormed(r.alloc, r.created)
  {
    if NewDistinct(ts, s.alloc.tickerToNode) != [] {
      AddPlanNames(s, ts, maxConnections, maxPerNode);
      CommitWellFormed(s, AddPlan(s, ts, maxConnections, maxPerNode).0, AddPlan(s, ts, maxConnections, maxPerNode).1);
    }
  }

  /** Removing tickers only shrinks existing nodes' ticker sets. */
  lemma {:induction false} RemoveAllKeepsNodes(s: Scaler, ts: seq<string>)
    ensures var r := RemoveAll(s, ts).0;
      r.alloc.nodeIds == s.alloc.nodeIds && r.alloc.nodes.Keys == s.alloc.nodes.Keys && r.created == s.created
    decreases |ts|
  {
    if ts != [] {
      RemoveAllKeepsNodes(s, ts[..|ts| - 1]);
    }
  }

  lemma {:induction false} RemoveTickersWellFormed(s: Scaler, ts: seq<string>)
    requires WellFormed(s.alloc, s.created)
    ensures var r := RemoveTickers(s, ts); WellFormed(r.alloc, r.created)
  {
    RemoveAllKeepsNodes(s, ts);
    PruneWellFormed(RemoveAll(s, ts).0.alloc, s.created, RemoveAll(s, ts).1);
  }

  /** Every operation keeps both invariants. */
  lemma {:induction false} OperationsKeepValid(s: Scaler, ts: seq<string>, maxConnections: nat, maxPerNode: nat)
    requires maxPerNode > 0 && Valid(s)
    ensures Valid(AddTickers(s, ts, maxConnections, maxPerNode))
    ensures Valid(RemoveTickers(s, ts))
    ensures Valid(Stop(s))
  {
    AddTickersConsistent(s, ts, maxConnections, maxPerNode);
    AddTickersWellFormed(s, ts, maxConnections, maxPerNode);
    RemoveTickersConsistent(s, ts);
    RemoveTickersWellFormed(s, ts);
  }

  // ---------------------------------------------------------------- placement

  /** Committing maps the planned tickers and keeps the existing mappings. */
  lemma {:induction false} CommitMaps(s: Scaler, p1: Plan, p2: Plan)
    requires forall t :: t in Assigned(p1 + p2) ==> t !in s.alloc.tickerToNode
    ensures var m := Commit(s, p1, p2).alloc.tickerToNode;
      && (forall t :: t in s.alloc.tickerToNode ==> t in m && m[t] == s.alloc.tickerToNode[t])
      && (forall t :: t in m <==> t in s.alloc.tickerToNode || t in Assigned(p1 + p2))
  {
    ApplyPlanMapped(s.alloc, p1 + p2);
    ApplyPlanKeeps(s.alloc, p1 + p2);
  }

  /** With a connection left free, the plan places every new ticker. */
  lemma {:induction false} AddPlanPlacesAll(s: Scaler, ts: seq<string>, maxConnections: nat, maxPerNode: nat)
    requires maxPerNode > 0
    requires |AddPlan(s, ts, maxConnections, maxPerNode).1| < maxConnections - |s.alloc.nodeIds|
    ensures Assigned(AddPlan(s, ts, maxConnections, maxPerNode).0 + AddPlan(s, ts, maxConnections, maxPerNode).1)
      == NewDistinct(ts, s.alloc.tickerToNode)
  {
    var u := NewDistinct(ts, s.alloc.tickerToNode);
    var slots := maxConnections - |s.alloc.nodeIds|;
    var p1: Plan, rest: seq<string> := FillExisting(s.alloc.nodeIds, s.alloc.nodes, maxPerNode, u).0,
                                       FillExisting(s.alloc.nodeIds, s.alloc.nodes, maxPerNode, u).1;
    var p2 := CreateNodes(s.created, slots, maxPerNode, rest);
    assert AddPlan(s, ts, maxConnections, maxPerNode) == (p1, p2);
    FillExistingTickers(s.alloc.nodeIds, s.alloc.nodes, maxPerNode, u);
    CreateNodesPlacesAll(s.created, slots, maxPerNode, rest);
    AssignedAppend(p1, p2);
  }

  /** `add_tickers` keeps every existing mapping, maps only tickers it was
      given, and, while a connection is left free, maps all of them. */
  lemma {:induction false} AddTickersMapsAll(s: Scaler, ts: seq<string>, maxConnections: nat, maxPerNode: nat)
    requires maxPerNode > 0
    ensures var m := AddTickers(s, ts, maxConnections, maxPerNode).alloc.tickerToNode;
      && (forall t :: t in s.alloc.tickerToNode ==> t in m && m[t] == s.alloc.tickerToNode[t])
      && (forall t :: t in m ==> t in s.alloc.tickerToNode || t in ts)
      && (|AddPlan(s, ts, maxConnections, maxPerNode).1| < maxConnections - |s.alloc.nodeIds| ==>
            forall t :: t in ts ==> t in m)
  {
    if NewDistinct(ts, s.alloc.tickerToNode) != [] {
      var p1, p2 := AddPlan(s, ts, maxConnections, maxPerNode).0, AddPlan(s, ts, maxConnections, maxPerNode).1;
      AddPlanTickers(s, ts, maxConnections, maxPerNode);
      CommitMaps(s, p1, p2);
      if |p2| < maxConnections - |s.alloc.nodeIds| {
        AddPlanPlacesAll(s, ts, maxConnections, maxPerNode);
      }
    }
  }

  /** `remove_tickers` unmaps every ticker it is given, keeps every other
      mapping, and drops only quotes of tickers it was given; on a
      consistent scaler, the quote of every given ticker that was mapped
      is dropped. */
  lemma {:induction false} RemoveAllEffect(s: Scaler, ts: seq<string>)
    ensures var r := RemoveAll(s, ts).0;
      && (forall t :: t in r.alloc.tickerToNode <==> t in s.alloc.tickerToNode && t !in ts)
      && (forall t :: t in r.alloc.tickerToNode ==> r.alloc.tickerToNode[t] == s.alloc.tickerToNode[t])
      && (forall t :: t in r.quotes ==> t in s.quotes && r.quotes[t] == s.quotes[t])
      && (forall t :: t in s.quotes && t !in ts ==> t in r.quotes)
      && (Consistent(s.alloc) ==> forall t :: t in ts && t in s.alloc.tickerToNode ==> t !in r.quotes)
    decreases |ts|
  {
    if ts != [] {
      var init, last := ts[..|ts| - 1], ts[|ts| - 1];
      RemoveAllEffect(s, init);
      assert forall t :: t in ts <==> t in init || t == last by {
        assert ts == init + [last];
      }
      if Consistent(s.alloc) {
        RemoveAllConsistent(s, init);
        var (s', affected) := RemoveAll(s, init);
        if last in s'.alloc.tickerToNode {
          var n := s'.alloc.tickerToNode[last];
          assert n in s'.alloc.nodes && last in s'.alloc.nodes[n];
        }
      }
    }
  }

  /** After `remove_tickers` on a consistent scaler, a given ticker that
      was mapped reads as {} from `get_quote`, and every other ticker's
      quote is unchanged. */
  lemma {:induction false} RemoveTickersDropsQuotes(s: Scaler, ts: seq<string>, t: string)
    requires Consistent(s.alloc)
    ensures t in ts && t in s.alloc.tickerToNode ==> t !in RemoveTickers(s, ts).quotes
    ensures t in ts && t in s.alloc.tickerToNode ==> GetQuote(RemoveTickers(s, ts), t) == map[]
    ensures t !in ts ==> GetQuote(RemoveTickers(s, ts), t) == GetQuote(s, t)
  {
    RemoveAllEffect(s, ts);
  }

  // ---------------------------------------------------------------- as written

  /** As written, two tickers on a fresh scaler with room for four nodes of
      one ticker each: both batches go to node 1, and the first ticker is
      never mapped. */
  lemma AddTickersAsWrittenDropsBatch()
    ensures "a" !in AddTickersAsWritten(EMPTY, ["a", "b"], 4, 1).alloc.tickerToNode
  {
    var ts := ["a", "b"];
    assert ts[..1] == ["a"];
    assert NewTickers(ts, map[]) == ts;
    assert FillExisting([], map[], 1, ts) == ([], ts);
    assert Take(ts, 1) == ["a"] && Drop(ts, 1) == ["b"];
    assert Take(["b"], 1) == ["b"] && Drop(["b"], 1) == [];
    var plan := CreateNodesAsWritten(0, 4, 1, ts, []);
    assert plan == [(1, ["b"])];
    assert Assigned(plan) == ["b"];
    ApplyPlanMapped(EMPTY.alloc, plan);
  }

  /** The state before the duplicate example: two nodes with one spare
      place each. */
  const TWO_NODES: Scaler :=
    Scaler(Alloc([1, 2], map[1 := {"x"}, 2 := {"y"}], map["x" := 1, "y" := 2]), {1, 2}, {1, 2}, {1, 2}, map[], true, 2)

  /** As written, a ticker listed twice goes to both spare places. */
  lemma AsWrittenDuplicatePlan()
    ensures CreateNodesAsWritten(2, 4, 2, FillExisting([1, 2], TWO_NODES.alloc.nodes, 2, ["a", "a"]).1,
                                 FillExisting([1, 2], TWO_NODES.alloc.nodes, 2, ["a", "a"]).0)
      == [(1, ["a"]), (2, ["a"])]
  {
    var nodes := TWO_NODES.alloc.nodes;
    assert nodes == map[1 := {"x"}, 2 := {"y"}];
    FillOneSpare(nodes, 2, "a");
    assert [1, 2][1..] == [2];
    FillOneSpareThen(nodes, 1, [2], "a");
  }

  /** A node with one spare place takes a single ticker. */
  lemma {:induction false} FillOneSpare(nodes: map<NodeId, set<string>>, id: NodeId, t: string)
    requires id in nodes && |nodes[id]| == 1
    ensures FillExisting([id], nodes, 2, [t]) == ([(id, [t])], [])
  {
    assert Capacity(nodes, id, 2) == 1;
    assert Take([t], 1) == [t] && Drop([t], 1) == [];
    assert [id][1..] == [];
    assert FillExisting([], nodes, 2, []) == ([], []);
    var none: Plan := [];
    assert FillExisting([id], nodes, 2, [t]) == ([(id, [t])] + none, []);
    assert [(id, [t])] + none == [(id, [t])];
  }

  lemma {:induction false} FillOneSpareThen(nodes: map<NodeId, set<string>>, id: NodeId, more: seq<NodeId>, t: string)
    requires id in nodes && |nodes[id]| == 1
    ensures FillExisting([id] + more, nodes, 2, [t, t])
      == ([(id, [t])] + FillExisting(more, nodes, 2, [t]).0, FillExisting(more, nodes, 2, [t]).1)
  {
    assert Capacity(nodes, id, 2) == 1;
    assert Take([t, t], 1) == [t] && Drop([t, t], 1) == [t];
    assert ([id] + more)[1..] == more;
  }

  /** One ticker planned for two different nodes ends up on both, while
      the mapping names only the second. */
  lemma {:induction false} ApplyTwice(a: Alloc, i: NodeId, j: NodeId, t: string)
    requires i != j
    ensures var r := ApplyPlan(a, [(i, [t]), (j, [t])]);
      i in r.nodes && t in r.nodes[i] && j in r.nodes && t in r.nodes[j]
      && t in r.tickerToNode && r.tickerToNode[t] == j
  {
    var plan: Plan := [(i, [t]), (j, [t])];
    assert plan[..1] == [(i, [t])] && |plan[..1][..0]| == 0;
    var a1 := ApplyOne(a, i, [t]);
    assert ApplyPlan(a, plan[..1]) == a1;
    assert t in a1.nodes[i];
  }

  /** Pruning keeps every node that still has tickers, unchanged. */
  lemma {:induction false} PruneKeeps(a: Alloc, ids: set<NodeId>, n: NodeId)
    requires n in a.nodes && a.nodes[n] != {}
    ensures n in Prune(a, ids).nodes && Prune(a, ids).nodes[n] == a.nodes[n]
    ensures Prune(a, ids).tickerToNode == a.tickerToNode
  {
  }

  lemma TwoNodesConsistent()
    ensures Consistent(TWO_NODES.alloc)
  {
    var a := TWO_NODES.alloc;
    assert a.nodes == map[1 := {"x"}, 2 := {"y"}] && a.tickerToNode == map["x" := 1, "y" := 2];
  }

  /** As written, a ticker listed twice can be placed on two nodes, and the
      mapping then names only the second: the invariant breaks. */
  lemma AddTickersAsWrittenSplitsDuplicate()
    ensures Consistent(TWO_NODES.alloc)
    ensures !Consistent(AddTickersAsWritten(TWO_NODES, ["a", "a"], 4, 2).alloc)
  {
    TwoNodesConsistent();
    var plan: Plan := [(1, ["a"]), (2, ["a"])];
    AsWrittenDuplicateAlloc(plan);
    var a2 := ApplyPlan(TWO_NODES.alloc, plan);
    ApplyTwice(TWO_NODES.alloc, 1, 2, "a");
    PruneKeeps(a2, NodeIdsOf(plan), 1);
    var r := Prune(a2, NodeIdsOf(plan));
    assert "a" in r.nodes[1] && r.tickerToNode["a"] == 2;
  }

  /** The tickers of the as-written duplicate run, as a plan carried out
      and pruned. */
  lemma {:induction false} AsWrittenDuplicateAlloc(plan: Plan)
    requires plan == [(1, ["a"]), (2, ["a"])]
    ensures AddTickersAsWritten(TWO_NODES, ["a", "a"], 4, 2).alloc == Prune(ApplyPlan(TWO_NODES.alloc, plan), NodeIdsOf(plan))
  {
    var ts := ["a", "a"];
    assert ts[..1] == ["a"];
    assert NewTickers(ts, TWO_NODES.alloc.tickerToNode) == ts;
    AsWrittenDuplicatePlan();
  }
}

=== FILE: quote_scaler_object.dfy ===
/** The scaler object: its dictionaries are fields updated in place, and
    each method is proved to leave the state its specification function
    in module QuoteScaler describes. */
module QuoteScalerObject {
  import opened QuoteScaler

  /** `new_tickers`, each ticker once. */
  method NewTickerList(ts: seq<string>, mapped: map<string, NodeId>) returns (r: seq<string>)
    ensures r == NewDistinct(ts, mapped)
  {
    r := [];
    var i := 0;
    while i < |ts|
      invariant 0 <= i <= |ts|
      invariant r == NewDistinct(ts[..i], mapped)
    {
      assert ts[..i + 1][..i] == ts[..i];
      if ts[i] !in mapped && ts[i] !in r {
        r := r + [ts[i]];
      }
      i := i + 1;
    }
    assert ts[..|ts|] == ts;
  }

  /** Phase one of `add_tickers`: the existing nodes, in order, take what
      fits. */
  method FillPhase(ids: seq<NodeId>, nodes: map<NodeId, set<string>>, maxPerNode: nat, u: seq<string>)
    returns (p: Plan, rest: seq<string>)
    ensures (p, rest) == FillExisting(ids, nodes, maxPerNode, u)
  {
    p, rest := [], u;
    var i := 0;
    assert ids[0..] == ids;
    ghost var tail := FillExisting(ids, nodes, maxPerNode, u);
    assert [] + tail.0 == tail.0;
    while i < |ids|
      invariant 0 <= i <= |ids|
      invariant tail == FillExisting(ids[i..], nodes, maxPerNode, rest)
      invariant FillExisting(ids, nodes, maxPerNode, u) == (p + tail.0, tail.1)
    {
      var id := ids[i];
      var capacity := Capacity(nodes, id, maxPerNode);
      FillExistingStep(ids, i, nodes, maxPerNode, rest);
      if capacity > 0 && Take(rest, capacity) != [] {
        var toAdd := Take(rest, capacity);
        tail := FillExisting(ids[i + 1..], nodes, maxPerNode, Drop(rest, capacity));
        Regroup(p, [(id, toAdd)], tail.0);
        p := p + [(id, toAdd)];
        rest := Drop(rest, capacity);
      } else {
        tail := FillExisting(ids[i + 1..], nodes, maxPerNode, rest);
      }
      i := i + 1;
    }
    assert ids[i..] == [] && tail == ([], rest);
    assert p + [] == p;
  }

  /** Phase two of `add_tickers`: a new node per batch while connections
      remain, each named after the last node opened. */
  method CreatePhase(last: nat, slots: int, maxPerNode: nat, u: seq<string>) returns (p: Plan)
    requires maxPerNode > 0
    ensures p == CreateNodes(last, slots, maxPerNode, u)
  {
    p := [];
    var rest, k := u, 0;
    while rest != [] && k < slots
      invariant 0 <= k
      invariant CreateNodes(last, slots, maxPerNode, u) == p + CreateNodes(last + k, slots - k, maxPerNode, rest)
      decreases |rest|
    {
      var batch := Take(rest, maxPerNode);
      var q := CreateNodes(last + k + 1, slots - k - 1, maxPerNode, Drop(rest, maxPerNode));
      assert p + ([(last + k + 1, batch)] + q) == (p + [(last + k + 1, batch)]) + q;
      p := p + [(last + k + 1, batch)];
      rest := Drop(rest, maxPerNode);
      k := k + 1;
    }
    assert p + [] == p;
  }

  class TradingViewScaler {
    var nodeIds: seq<NodeId>
    var nodes: map<NodeId, set<string>>
    var tickerToNode: map<string, NodeId>
    var tasks: set<NodeId>
    var streamers: set<NodeId>
    var queues: set<NodeId>
    var quotes: map<string, map<string, string>>
    var running: bool
    var created: nat
    const maxConnections: nat
    const maxPerNode: nat

    function State(): Scaler
      reads this
    {
      Scaler(Alloc(nodeIds, nodes, tickerToNode), tasks, streamers, queues, quotes, running, created)
    }

    ghost predicate Valid()
      reads this
    {
      maxPerNode > 0 && QuoteScaler.Valid(State())
    }

    constructor(maxConnections: nat, maxTickersPerConnection: nat)
      requires maxTickersPerConnection > 0
      ensures Valid() && State() == EMPTY
      ensures this.maxConnections == maxConnections && maxPerNode == maxTickersPerConnection
    {
      this.maxConnections := maxConnections;
      maxPerNode := maxTickersPerConnection;
      nodeIds, nodes, tickerToNode := [], map[], map[];
      tasks, streamers, queues := {}, {}, {};
      quotes, running, created := map[], false, 0;
    }

    method Start()
      modifies this
      ensures State() == old(State()).(running := true)
    {
      if !running {
        running := true;
      }
    }

    method Stop()
      requires Valid()
      modifies this
      ensures State() == QuoteScaler.Stop(old(State())) && Valid()
    {
      if running {
        running := false;
        nodeIds, nodes, tickerToNode := [], map[], map[];
        tasks, streamers, queues := {}, {}, {};
      }
    }

    /** `_update_nodes` for one node: an empty or missing node is dropped
        with its task, streamer and queue; any other gets a new task and
        queue. */
    method UpdateNode(n: NodeId)
      modifies this
      ensures State() == QuoteScaler.UpdateNodes(old(State()), {n})
    {
      if n !in nodes || nodes[n] == {} {
        UpdateNodeDropped(State(), n);
        tasks, streamers, queues := tasks - {n}, streamers - {n}, queues - {n};
        nodeIds, nodes := Without(nodeIds, {n}), nodes - {n};
      } else {
        UpdateNodeKept(State(), n);
        tasks, queues := tasks + {n}, queues + {n};
      }
    }

    /** `_update_nodes`, one listed node at a time. */
    method UpdateNodes(ids: set<NodeId>)
      modifies this
      ensures State() == QuoteScaler.UpdateNodes(old(State()), ids)
    {
      ghost var s0 := State();
      var todo := ids;
      ghost var done: set<NodeId> := {};
      UpdateNodesNone(s0);
      while todo != {}
        invariant todo + done == ids && todo !! done
        invariant State() == QuoteScaler.UpdateNodes(s0, done)
        decreases |todo|
      {
        var n :| n in todo;
        UpdateNextNode(s0, done, n);
        todo, done := todo - {n}, done + {n};
      }
    }

    /** One more listed node updated. */
    method UpdateNextNode(ghost s0: Scaler, ghost done: set<NodeId>, n: NodeId)
      requires n !in done && State() == QuoteScaler.UpdateNodes(s0, done)
      modifies this
      ensures State() == QuoteScaler.UpdateNodes(s0, done + {n})
    {
      UpdateNode(n);
      UpdateNodesStep(s0, done, n);
    }

    /** `ticker_to_node[t] = node_id` for each ticker of a batch. */
    method MapBatch(id: NodeId, batch: seq<string>)
      modifies this`tickerToNode
      ensures tickerToNode == old(tickerToNode) + MapTo(batch, id)
    {
      var j := 0;
      while j < |batch|
        invariant 0 <= j <= |batch|
        invariant tickerToNode == old(tickerToNode) + MapTo(batch[..j], id)
      {
        MapBatchStep(old(tickerToNode), batch, j, id);
        tickerToNode := tickerToNode[batch[j] := id];
        j := j + 1;
      }
      assert batch[..|batch|] == batch;
    }

    /** One entry of the plan: the node is created if needed and takes
        the batch. */
    method AssignOne(id: NodeId, batch: seq<string>)
      modifies this`nodeIds, this`nodes, this`tickerToNode
      ensures State().alloc == ApplyOne(old(State().alloc), id, batch)
    {
      var current := if id in nodes then nodes[id] else {};
      if id !in nodes {
        nodeIds := nodeIds + [id];
      }
      nodes := nodes[id := current + (set t | t in batch)];
      MapBatch(id, batch);
    }

    /** Each batch goes to its node, in plan order. */
    method Assign(plan: Plan)
      modifies this`nodeIds, this`nodes, this`tickerToNode
      ensures State().alloc == ApplyPlan(old(State().alloc), plan)
    {
      ghost var a0 := State().alloc;
      var i := 0;
      while i < |plan|
        invariant 0 <= i <= |plan|
        invariant State().alloc == ApplyPlan(a0, plan[..i])
      {
        ApplyPlanStep(a0, plan, i);
        AssignOne(plan[i].0, plan[i].1);
        i := i + 1;
      }
      assert plan[..|plan|] == plan;
    }

    /** The placement of `add_tickers`: the existing nodes take what fits,
        then new nodes take the rest while connections remain. */
    method Place(added: seq<string>) returns (p1: Plan, p2: Plan)
      requires maxPerNode > 0
      ensures (p1, p2) == Phases(nodeIds, nodes, created, maxConnections - |nodeIds|, maxPerNode, added)
    {
      var rest;
      p1, rest := FillPhase(nodeIds, nodes, maxPerNode, added);
      p2 := CreatePhase(created, maxConnections - |nodeIds|, maxPerNode, rest);
    }

    /** The part of `add_tickers` that carries out its plan: the nodes it
        opens counted, every batch assigned, then every node named started
        or cleaned up. */
    method CommitPlan(p1: Plan, p2: Plan)
      requires running
      modifies this
      ensures State() == Commit(old(State()), p1, p2)
    {
      ghost var s0 := State();
      ghost var mid := s0.(alloc := ApplyPlan(s0.alloc, p1 + p2), running := true, created := s0.created + |p2|);
      created := created + |p2|;
      Assign(p1 + p2);
      assert State() == mid;
      UpdateNodes(NodeIdsOf(p1 + p2));
    }

    /** `add_tickers`, with fresh node names and duplicates taken once. */
    method AddTickers(ts: seq<string>)
      requires Valid()
      modifies this
      ensures State() == QuoteScaler.AddTickers(old(State()), ts, maxConnections, maxPerNode) && Valid()
    {
      ghost var s0 := State();
      Start();
      var added := NewTickerList(ts, tickerToNode);
      if added != [] {
        var p1, p2 := Place(added);
        assert (p1, p2) == AddPlan(s0, ts, maxConnections, maxPerNode);
        CommitPlan(p1, p2);
      }
      AddTickersConsistent(s0, ts, maxConnections, maxPerNode);
      AddTickersWellFormed(s0, ts, maxConnections, maxPerNode);
    }

    /** `remove_tickers`: unmap each ticker, take it off its node and drop
        its quote, then update the nodes it touched. */
    method RemoveTickers(ts: seq<string>)
      requires Valid()
      modifies this
      ensures State() == QuoteScaler.RemoveTickers(old(State()), ts) && Valid()
      ensures forall t :: t in ts && t in old(tickerToNode) ==> t !in quotes
    {
      ghost var s0 := State();
      var affected: set<NodeId> := {};
      var i := 0;
      while i < |ts|
        invariant 0 <= i <= |ts|
        invariant (State(), affected) == RemoveAll(s0, ts[..i])
      {
        assert ts[..i + 1][..i] == ts[..i];
        var t := ts[i];
        if t in tickerToNode {
          var n := tickerToNode[t];
          tickerToNode := tickerToNode - {t};
          if n in nodes {
            nodes := nodes[n := nodes[n] - {t}];
            quotes := quotes - {t};
            affected := affected + {n};
          }
        }
        i := i + 1;
      }
      assert ts[..|ts|] == ts;
      UpdateNodes(affected);
      RemoveTickersConsistent(s0, ts);
      RemoveTickersWellFormed(s0, ts);
      forall t | t in ts && t in s0.alloc.tickerToNode
        ensures t !in quotes
      {
        RemoveTickersDropsQuotes(s0, ts, t);
      }
    }

    /** A streamer's quote update, cached only while running. */
    method OnQuoteUpdate(t: string, data: map<string, string>)
      modifies this
      ensures State() == RecordQuote(old(State()), t, data)
    {
      if running {
        quotes := quotes[t := data];
      }
    }

    method GetQuote(t: string) returns (q: map<string, string>)
      ensures q == QuoteScaler.GetQuote(State(), t)
    {
      q := if t in quotes then quotes[t] else map[];
    }

    method GetAllQuotes() returns (all: map<string, map<string, string>>)
      ensures all == quotes
    {
      all := quotes;
    }
  }
}

=== FILE: quote_streamer.dfy ===
/** The quote streamer of one TradingView socket: its message encoder and
    decoder, the merging of quote updates into its cache, and the rule that
    an update is passed on only for a ticker whose first full quote has
    arrived on the current connection. JSON texts are carried as text and
    whether one parses is a parameter; events arrive already parsed. */
module QuoteStreamer {
  import opened Wrappers
  import opened Text
  import opened Framing
  import opened TradingViewUtils

  // ---------------------------------------------------------------- encode

  /** `json.dumps` of one item: its JSON text, "null" for `None`. */
  function ItemJson(item: Option<string>): string {
    if item.Some? then item.value else "null"
  }

  /** The payload of each frame `_encode_message` emits. */
  function MessagePayloads(data: Data): (ps: seq<string>)
    ensures data.Items? ==> |ps| == |data.items|
  {
    match data
    case Text(s) => [s]
    case Object(json) => [json]
    case Items(items) => seq(|items|, k requires 0 <= k < |items| => ItemJson(items[k]))
  }

  /** `_encode_message`: one frame per payload, in item order; the
      streamer's own decoder reads the payloads back. */
  method EncodeMessage(data: Data) returns (msg: string)
    ensures msg == Frames(MessagePayloads(data))
    ensures DecodeStrict(msg) == Ok(MessagePayloads(data))
  {
    if data.Text? {
      msg := Frame(data.s);
      assert Frames([data.s]) == Frame(data.s) + Frames([]);
    } else {
      var items := if data.Object? then [Some(data.json)] else data.items;
      assert MessagePayloads(data) == MessagePayloads(Items(items));
      msg := EncodeItems(items);
    }
    DecodeStrictFrames(MessagePayloads(data), "");
    assert msg + "" == msg;
  }

  /** The item loop of `_encode_message`: one frame per item, in order. */
  method EncodeItems(items: seq<Option<string>>) returns (msg: string)
    ensures msg == Frames(MessagePayloads(Items(items)))
  {
    ghost var ps := MessagePayloads(Items(items));
    msg := "";
    var i := 0;
    while i < |items|
      invariant 0 <= i <= |items|
      invariant msg == Frames(ps[..i])
    {
      var payload := if items[i].Some? then items[i].value else "null";
      FramesPrefix(ps, i);
      msg := msg + Frame(payload);
      i := i + 1;
    }
    assert ps[..i] == ps;
  }

  // ---------------------------------------------------------------- decode

  /** The framing loop of `_decode_message`. */
  method ReadFrames(msg: string) returns (r: Result<seq<string>, FrameError>)
    ensures r == DecodeStrict(msg)
  {
    var decoded: seq<string> := [];
    var rest := msg;
    if DecodeStrict(msg).Ok? {
      assert [] + DecodeStrict(msg).value == DecodeStrict(msg).value;
    }
    while StartsWith(rest, PREFIX)
      invariant DecodeStrict(msg) == Prepend(decoded, DecodeStrict(rest))
      decreases |rest|
    {
      var t := StrictTurn(rest);
      if t.Stop? {
        break;
      }
      if t.Bad? {
        return Err(BadLength(t.text));
      }
      PrependTwice(decoded, t.payload, DecodeStrict(t.next));
      decoded := decoded + [t.payload];
      rest := t.next;
    }
    assert decoded + [] == decoded;
    return Ok(decoded);
  }

  /** The frames worth an event: they start with "{" and parse. */
  function EventFrame(parses: string -> bool): string -> bool {
    m => IsJson(m) && parses(m)
  }

  /** The second loop of `_decode_message`: heartbeats are echoed, "{"
      frames that parse become events, and every other frame (including a
      "{" frame that fails to parse) is skipped. */
  method SortFrames(frames: seq<string>, parses: string -> bool) returns (echoes: seq<string>, events: seq<string>)
    ensures echoes == Select(frames, IsHeartbeat)
    ensures events == Select(frames, EventFrame(parses))
  {
    echoes, events := [], [];
    var i := 0;
    while i < |frames|
      invariant 0 <= i <= |frames|
      invariant echoes == Select(frames[..i], IsHeartbeat)
      invariant events == Select(frames[..i], EventFrame(parses))
    {
      var m := frames[i];
      assert frames[..i + 1][..i] == frames[..i];
      if StartsWith(m, "~h~") {
        echoes := echoes + [m];
      } else if StartsWith(m, "{") {
        if parses(m) {
          events := events + [m];
        }
      }
      HeartbeatIsNotJson(m);
      i := i + 1;
    }
    assert frames[..i] == frames;
  }

  /** `_decode_message`: a length field `int()` rejects raises; otherwise
      the heartbeats to echo and the events, in order. */
  method DecodeMessage(msg: string, parses: string -> bool)
    returns (r: Result<(seq<string>, seq<string>), FrameError>)
    ensures DecodeStrict(msg).Err? ==> r == Err(DecodeStrict(msg).error)
    ensures DecodeStrict(msg).Ok? ==>
      r == Ok((Select(DecodeStrict(msg).value, IsHeartbeat), Select(DecodeStrict(msg).value, EventFrame(parses))))
  {
    var frames := ReadFrames(msg);
    if frames.Err? {
      return Err(frames.error);
    }
    var echoes, events := SortFrames(frames.value, parses);
    r := Ok((echoes, events));
  }

  /** Whatever the payloads, a message of frames followed by a prefix whose
      separator never arrived is read without error: every heartbeat is
      echoed, every parsing "{" frame is an event, and nothing is both. */
  lemma {:induction false} DecodeMessageFrames(ps: seq<string>, tail: string, parses: string -> bool)
    requires tail == [] || Unterminated(tail)
    ensures DecodeStrict(Frames(ps) + tail) == Ok(ps)
    ensures forall m :: m in Select(ps, IsHeartbeat) <==> m in ps && IsHeartbeat(m)
    ensures forall m :: m in Select(ps, EventFrame(parses)) <==> m in ps && IsJson(m) && parses(m)
    ensures forall m :: m in Select(ps, IsHeartbeat) ==> m !in Select(ps, EventFrame(parses))
  {
    DecodeStrictFrames(ps, tail);
    forall m | m in Select(ps, IsHeartbeat) ensures m !in Select(ps, EventFrame(parses)) {
      HeartbeatIsNotJson(m);
    }
  }

  // ---------------------------------------------------------------- events

  /** A parameter of an event: a string, an object with its optional "n"
      and "v" entries, a list, or another scalar (null, a number, a
      boolean). Objects and lists cannot be put in a set. */
  datatype Param = PStr(s: string) | PQuote(n: Option<string>, v: Option<map<string, string>>) | PList | PScalar

  predicate Hashable(p: Param) {
    !p.PQuote? && !p.PList?
  }

  /** A decoded event: its "m" entry and its "p" list, each possibly absent. */
  datatype Event = Event(m: Option<string>, p: Option<seq<Param>>)

  /** What `_process_quote_update` ends in: `None`, an exception (the
      second parameter is not an object, so it has no `get`), or the
      ticker with a copy of its merged quote. */
  datatype Update = Ignored | Raised | Updated(ticker: string, data: map<string, string>)

  /** `event.get("p", default)`. */
  function ParamsOr(e: Event, default: seq<Param>): seq<Param> {
    if e.p.Some? then e.p.value else default
  }

  /** `_process_quote_update`: the new quotes cache and the outcome. */
  function ProcessQuoteUpdate(quotes: map<string, map<string, string>>, e: Event)
    : (r: (Update, map<string, map<string, string>>))
  {
    var params := ParamsOr(e, [PScalar, PScalar]);
    if |params| < 2 then (Ignored, quotes)
    else
      match params[1]
      case PQuote(n, v) =>
        if n.None? || n.value == "" || v.None? || v.value == map[] then (Ignored, quotes)
        else
          var q := MergeQuote(quotes, n.value, v);
          (Updated(n.value, q[n.value]), q)
      case _ => (Raised, quotes)
  }

  /** An update merges the new values over the cached quote of its ticker,
      keeps old fields not mentioned, returns the merged quote, and leaves
      other tickers alone; any other outcome leaves the cache as it was. */
  lemma {:induction false} ProcessQuoteUpdateEffect(quotes: map<string, map<string, string>>, e: Event)
    ensures var (u, q) := ProcessQuoteUpdate(quotes, e);
      && (!u.Updated? ==> q == quotes)
      && (u.Updated? ==>
            var t := u.ticker;
            && t in q && u.data == q[t] && t != ""
            && (forall f :: f in q[t] <==> f in e.p.value[1].v.value || (t in quotes && f in quotes[t]))
            && (forall f :: f in e.p.value[1].v.value ==> q[t][f] == e.p.value[1].v.value[f])
            && (forall f :: f !in e.p.value[1].v.value && t in quotes && f in quotes[t] ==> q[t][f] == quotes[t][f])
            && (forall s :: s != t ==> (s in q <==> s in quotes) && (s in quotes ==> q[s] == quotes[s])))
  {
    var params := ParamsOr(e, [PScalar, PScalar]);
    if |params| >= 2 && params[1].PQuote? {
      var (n, v) := (params[1].n, params[1].v);
      if !(n.None? || n.value == "" || v.None? || v.value == map[]) {
        MergeQuoteEffect(quotes, n.value, v.value);
      }
    }
  }

  /** What `stream_quotes` yields for an event. */
  datatype Yield =
    | CompletedOut(symbol: Param, data: map<string, string>)
    | UpdateOut(ticker: string, data: map<string, string>)
    | ErrorOut(message: Param)

  datatype Outcome = Quiet | Yielded(y: Yield) | Failed

  function StrOf(p: Param): Option<string> {
    if p.PStr? then Some(p.s) else None
  }

  /** The state a streamer keeps per connection. */
  datatype Cache = Cache(quotes: map<string, map<string, string>>, completed: set<string>)

  /** One event of the `stream_quotes` loop. "quote_completed" marks its
      ticker complete and yields its cached quote; "qsd" updates the cache
      and yields only for a completed ticker; the two error kinds yield
      their first parameter; a list too short to index, or a ticker that
      cannot go into the completed set, raises. */
  function HandleEvent(c: Cache, e: Event): (r: (Outcome, Cache))
  {
    if e.m == Some("quote_completed") then
      var params := ParamsOr(e, [PScalar, PScalar]);
      if |params| < 2 || !Hashable(params[1]) then (Failed, c)
      else
        var t := StrOf(params[1]);
        (Yielded(CompletedOut(params[1], if t.Some? && t.value in c.quotes then c.quotes[t.value] else map[])),
         c.(completed := if t.Some? then c.completed + {t.value} else c.completed))
    else if e.m == Some("qsd") then
      var (u, q) := ProcessQuoteUpdate(c.quotes, e);
      match u
      case Raised => (Failed, c)
      case Ignored => (Quiet, c)
      case Updated(t, d) => (if t in c.completed then Yielded(UpdateOut(t, d)) else Quiet, c.(quotes := q))
    else if e.m == Some("critical_error") || e.m == Some("protocol_error") then
      var params := ParamsOr(e, [PStr("Unknown error")]);
      if |params| == 0 then (Failed, c) else (Yielded(ErrorOut(params[0])), c)
    else (Quiet, c)
  }

  /** An update is yielded only for a ticker already marked complete, and
      then carries its merged quote; a "quote_completed" marks its ticker. */
  lemma {:induction false} UpdatesAreGated(c: Cache, e: Event)
    ensures var (o, c') := HandleEvent(c, e);
      && (o.Yielded? && o.y.UpdateOut? ==>
            o.y.ticker in c.completed && o.y.ticker in c'.quotes && o.y.data == c'.quotes[o.y.ticker])
      && (o.Yielded? && o.y.CompletedOut? && o.y.symbol.PStr? ==> o.y.symbol.s in c'.completed)
      && (e.m == Some("quote_completed") && e.p.Some? && |e.p.value| >= 2 && !Hashable(e.p.value[1]) ==> o.Failed?)
      && c.completed <= c'.completed
  {
    if e.m == Some("qsd") {
      ProcessQuoteUpdateEffect(c.quotes, e);
    }
  }

  /** A quote update for a completed ticker is yielded; for any other
      ticker it only refreshes the cache. */
  lemma {:induction false} UpdateYieldedIffCompleted(c: Cache, e: Event)
    requires e.m == Some("qsd") && ProcessQuoteUpdate(c.quotes, e).0.Updated?
    ensures var t := ProcessQuoteUpdate(c.quotes, e).0.ticker;
      (HandleEvent(c, e).0.Yielded? <==> t in c.completed)
      && HandleEvent(c, e).1.quotes == ProcessQuoteUpdate(c.quotes, e).1
  {
  }

  /** The events of one message, in order, until one raises. */
  function HandleEvents(c: Cache, es: seq<Event>): (r: (seq<Yield>, bool, Cache))
  {
    if es == [] then ([], false, c)
    else
      var (ys, failed, c1) := HandleEvents(c, es[..|es| - 1]);
      if failed then (ys, failed, c1)
      else
        var (o, c2) := HandleEvent(c1, es[|es| - 1]);
        match o
        case Failed => (ys, true, c2)
        case Quiet => (ys, false, c2)
        case Yielded(y) => (ys + [y], false, c2)
  }

  /** Over a whole message, every update yielded is for a ticker marked
      complete by the time the message is handled. */
  lemma {:induction false} HandleEventsGated(c: Cache, es: seq<Event>)
    ensures var (ys, _, c') := HandleEvents(c, es);
      && c.completed <= c'.completed
      && forall k :: 0 <= k < |ys| && ys[k].UpdateOut? ==> ys[k].ticker in c'.completed
    decreases |es|
  {
    if es != [] {
      HandleEventsGated(c, es[..|es| - 1]);
      var (ys, failed, c1) := HandleEvents(c, es[..|es| - 1]);
      if !failed {
        UpdatesAreGated(c1, es[|es| - 1]);
      }
    }
  }

  /** Right after a connection no ticker is complete, so an update yields
      nothing until its "quote_completed" arrives. */
  lemma {:induction false} NoUpdateBeforeCompleted(quotes: map<string, map<string, string>>, e: Event)
    ensures HandleEvent(Cache(quotes, {}), e).0.Yielded? ==> !HandleEvent(Cache(quotes, {}), e).0.y.UpdateOut?
  {
  }

  /** The streamer object. */
  class TradingViewQuoteStreamer {
    var quotes: map<string, map<string, string>>
    var completed: set<string>
    var hasSession: bool
    var hasSocket: bool
    var removals: seq<seq<string>>    // the symbol lists of `quote_remove_symbols` messages sent

    function State(): Cache
      reads this
    {
      Cache(quotes, completed)
    }

    constructor()
      ensures quotes == map[] && completed == {} && !hasSession && !hasSocket && removals == []
    {
      quotes, completed := map[], {};
      hasSession, hasSocket := false, false;
      removals := [];
    }

    /** A new connection: the socket is set, no ticker is complete, and a
        new quote session is opened on it. */
    method Connect()
      modifies this
      ensures hasSocket && hasSession && completed == {}
      ensures quotes == old(quotes) && removals == old(removals)
    {
      hasSocket := true;
      completed := {};
      InitializeSession();
    }

    /** `_initialize_session`: a fresh (never empty) session id is set; the
        set-up messages it sends are not part of this model. */
    method InitializeSession()
      modifies this`hasSession
      ensures hasSession
    {
      hasSession := true;
    }

    /** A closed connection drops the socket; the session id stays set. */
    method Disconnect()
      modifies this`hasSocket
      ensures !hasSocket
    {
      hasSocket := false;
    }

    /** `remove_symbols`: without a session or a socket nothing happens;
        otherwise the removal is sent and each symbol loses its quote and
        its completed mark. */
    method RemoveSymbols(symbols: seq<string>)
      modifies this
      ensures hasSession == old(hasSession) && hasSocket == old(hasSocket)
      ensures !(hasSession && hasSocket) ==>
        quotes == old(quotes) && completed == old(completed) && removals == old(removals)
      ensures hasSession && hasSocket ==>
        && quotes == old(quotes) - (set s | s in symbols)
        && completed == old(completed) - (set s | s in symbols)
        && removals == old(removals) + [symbols]
    {
      if !hasSession || !hasSocket {
        return;
      }
      removals := removals + [symbols];
      var i := 0;
      while i < |symbols|
        invariant 0 <= i <= |symbols|
        invariant quotes == old(quotes) - (set s | s in symbols[..i])
        invariant completed == old(completed) - (set s | s in symbols[..i])
        invariant hasSession && hasSocket && removals == old(removals) + [symbols]
      {
        assert forall s :: s in symbols[..i + 1] <==> s in symbols[..i] || s == symbols[i] by {
          assert symbols[..i + 1] == symbols[..i] + [symbols[i]];
        }
        quotes := quotes - {symbols[i]};
        completed := completed - {symbols[i]};
        i := i + 1;
      }
      assert symbols[..i] == symbols;
    }

    /** `_process_quote_update` on the streamer's cache. */
    method ProcessUpdate(e: Event) returns (u: Update)
      modifies this
      ensures (u, quotes) == ProcessQuoteUpdate(old(quotes), e)
      ensures completed == old(completed)
    {
      var params := if e.p.Some? then e.p.value else [PScalar, PScalar];
      if |params| < 2 {
        return Ignored;
      }
      if !params[1].PQuote? {
        return Raised;
      }
      var n, v := params[1].n, params[1].v;
      if n.None? || n.value == "" || v.None? || v.value == map[] {
        return Ignored;
      }
      var current := if n.value in quotes then quotes[n.value] else map[];
      current := current + v.value;
      quotes := quotes[n.value := current];
      u := Updated(n.value, current);
    }

    /** The body of the `stream_quotes` loop for the events of one message. */
    method HandleMessage(es: seq<Event>) returns (ys: seq<Yield>, failed: bool)
      modifies this
      ensures (ys, failed, State()) == HandleEvents(old(State()), es)
    {
      ys, failed := [], false;
      var i := 0;
      while i < |es| && !failed
        invariant 0 <= i <= |es|
        invariant (ys, failed, State()) == HandleEvents(old(State()), es[..i])
      {
        var e := es[i];
        assert es[..i + 1][..i] == es[..i];
        if e.m == Some("quote_completed") {
          var params := if e.p.Some? then e.p.value else [PScalar, PScalar];
          if |params| < 2 || params[1].PQuote? || params[1].PList? {
            failed := true;
          } else {
            var t := StrOf(params[1]);
            ys := ys + [CompletedOut(params[1], if t.Some? && t.value in quotes then quotes[t.value] else map[])];
            if t.Some? {
              completed := completed + {t.value};
            }
          }
        } else if e.m == Some("qsd") {
          var u := ProcessUpdate(e);
          if u.Raised? {
            failed := true;
          } else if u.Updated? && u.ticker in completed {
            ys := ys + [UpdateOut(u.ticker, u.data)];
          }
        } else if e.m == Some("critical_error") || e.m == Some("protocol_error") {
          var params := if e.p.Some? then e.p.value else [PStr("Unknown error")];
          if |params| == 0 {
            failed := true;
          } else {
            ys := ys + [ErrorOut(params[0])];
          }
        }
        i := i + 1;
      }
      if i < |es| {
        FailedStays(old(State()), es, i);
      } else {
        assert es[..i] == es;
      }
    }
  }

  /** Once an event raised, the rest of the message is not looked at. */
  lemma {:induction false} FailedStays(c: Cache, es: seq<Event>, n: nat)
    requires n <= |es| && HandleEvents(c, es[..n]).1
    ensures HandleEvents(c, es) == HandleEvents(c, es[..n])
    decreases |es| - n
  {
    if n < |es| {
      assert es[..n + 1][..n] == es[..n];
      FailedStays(c, es, n + 1);
    } else {
      assert es[..n] == es;
    }
  }
}

=== FILE: reduce_period.dfy ===
/** Reduction of a condition's boolean series (one entry per bar, oldest
    first) to a single answer, by evaluation period. */
module ReducePeriod {
  import opened Wrappers

  datatype Mode = Now | XBarAgo | WithinLast | InRow | Unknown

  /** A missing period value where one is used fails, as the comparison or
      negation of `None` does. */
  datatype PeriodError = MissingValue | IndexOutOfRange

  /** `series.tail(n)`: the last n entries (all of a shorter series); a
      negative n drops the first |n| entries instead. */
  function Tail(s: seq<bool>, n: int): (r: seq<bool>)
    ensures n >= 0 ==> |r| == if n < |s| then n else |s|
    ensures |r| <= |s| && r == s[|s| - |r|..]
  {
    if n >= 0 then (if n < |s| then s[|s| - n..] else s)
    else if -n < |s| then s[-n..] else []
  }

  predicate Any(s: seq<bool>) {
    exists i :: 0 <= i < |s| && s[i]
  }

  predicate All(s: seq<bool>) {
    forall i :: 0 <= i < |s| ==> s[i]
  }

  /** `reduce_condition_by_period`. `s.iloc[-v]` reads entry |s| - v for a
      positive v, the first entry for 0 and entry -v for a negative v (out
      of range when -v >= |s|). */
  function Reduce(s: seq<bool>, mode: Mode, value: Option<int>): (r: Result<bool, PeriodError>)
    ensures r == Err(MissingValue) <==> s != [] && (mode.XBarAgo? || mode.WithinLast? || mode.InRow?) && value.None?
    ensures r == Err(IndexOutOfRange) <==> s != [] && mode.XBarAgo? && value.Some? && value.value <= 0 && -value.value >= |s|
  {
    if |s| == 0 then Ok(false)
    else match mode
      case Now => Ok(s[|s| - 1])
      case XBarAgo =>
        if value.None? then Err(MissingValue)
        else if |s| < value.value then Ok(false)
        else if value.value > 0 then Ok(s[|s| - value.value])
        else if -value.value < |s| then Ok(s[-value.value])
        else Err(IndexOutOfRange)
      case WithinLast =>
        if value.None? then Err(MissingValue) else Ok(Any(Tail(s, value.value)))
      case InRow =>
        if value.None? then Err(MissingValue)
        else if |s| < value.value then Ok(false)
        else Ok(All(Tail(s, value.value)))
      case Unknown => Ok(false)
  }

  /** An empty series and an unknown mode are false whatever the value;
      "now" is the last bar. */
  lemma {:induction false} ReduceDefaults(s: seq<bool>, mode: Mode, value: Option<int>)
    ensures s == [] ==> Reduce(s, mode, value) == Ok(false)
    ensures mode == Unknown ==> Reduce(s, mode, value) == Ok(false)
    ensures s != [] && mode == Now ==> Reduce(s, mode, value) == Ok(s[|s| - 1])
  {
  }

  /** For a period n >= 1, "x bars ago" is the bar n back from the end,
      false when there are fewer bars. */
  lemma {:induction false} XBarAgoPositive(s: seq<bool>, n: int)
    requires s != [] && n >= 1
    ensures Reduce(s, XBarAgo, Some(n)) == Ok(n <= |s| && s[|s| - n])
  {
  }

  /** For a period n >= 1, "within last" holds iff one of the last n bars
      holds. */
  lemma {:induction false} WithinLastPositive(s: seq<bool>, n: int)
    requires s != [] && n >= 1
    ensures Reduce(s, WithinLast, Some(n)) == Ok(exists i :: |s| - n <= i < |s| && 0 <= i && s[i])
  {
    var t := Tail(s, n);
    assert Reduce(s, WithinLast, Some(n)) == Ok(Any(t));
    if exists i :: |s| - n <= i < |s| && 0 <= i && s[i] {
      var i :| |s| - n <= i < |s| && 0 <= i && s[i];
      assert t[i - (|s| - |t|)] == s[i];
    }
    if Any(t) {
      var j :| 0 <= j < |t| && t[j];
      assert s[j + (|s| - |t|)] == t[j];
    }
  }

  /** For a period n >= 1, "in a row" holds iff there are at least n bars
      and all of the last n hold. */
  lemma {:induction false} InRowPositive(s: seq<bool>, n: int)
    requires s != [] && n >= 1
    ensures Reduce(s, InRow, Some(n)) == Ok(n <= |s| && forall i :: |s| - n <= i < |s| ==> s[i])
  {
    var t := Tail(s, n);
    if n <= |s| && (forall i :: |s| - n <= i < |s| ==> s[i]) {
      forall j | 0 <= j < |t| ensures t[j] {
        assert t[j] == s[j + |s| - n];
      }
    }
  }

  /** A run of n >= 1 true bars ending now means one of the last n bars is
      true. */
  lemma {:induction false} InRowImpliesWithinLast(s: seq<bool>, n: int)
    requires n >= 1 && Reduce(s, InRow, Some(n)) == Ok(true)
    ensures Reduce(s, WithinLast, Some(n)) == Ok(true)
  {
    var t := Tail(s, n);
    assert |t| == n && t[0];
  }

  /** Widening the window of "within last" never turns it false. */
  lemma {:induction false} WithinLastMonotone(s: seq<bool>, n: int, m: int)
    requires 0 <= n <= m && Reduce(s, WithinLast, Some(n)) == Ok(true)
    ensures Reduce(s, WithinLast, Some(m)) == Ok(true)
  {
    var tn, tm := Tail(s, n), Tail(s, m);
    var i :| 0 <= i < |tn| && tn[i];
    assert tm[i + |tm| - |tn|] == tn[i];
  }

  /** As written, a period of 0 is not rejected here: "x bars ago" reads the
      first bar, and "in a row" holds vacuously. */
  lemma {:induction false} ZeroPeriod(s: seq<bool>)
    requires s != []
    ensures Reduce(s, XBarAgo, Some(0)) == Ok(s[0])
    ensures Reduce(s, InRow, Some(0)) == Ok(true)
    ensures Reduce(s, WithinLast, Some(0)) == Ok(false)
  {
    assert Tail(s, 0) == [];
  }
}

=== FILE: scan_requests.dfy ===
/** The checks of a scan request: a condition's evaluation period, value
    and rank range, a column definition's required part, and unique column
    ids. */
module ScanRequests {
  import opened Wrappers

  datatype Period = Now | XBarAgo | WithinLast | InRow
  datatype EvalType = Boolean | Rank
  datatype ConditionType = Computed | Static
  datatype ColumnType = StaticColumn | ComputedColumn | ConditionColumn
  datatype Logic = And | Or

  /** The `ValueError` each check raises. */
  datatype Invalid =
    | PeriodNotAllowedForStatic
    | RankOnlyNow
    | ValueNotAllowedForRank
    | ValueMustBePositive
    | ValueNotAllowedForNow
    | ValueNotAllowedForStatic
    | RankMinOutOfRange
    | RankMaxOutOfRange
    | RankMaxBelowMin
    | PropertyNameRequired
    | ExpressionRequired
    | ConditionsRequired
    | DuplicateColumnIds

  /** The fields validated before the one being checked, as `info.data`
      holds them; any of them may be missing. */
  datatype Info = Info(conditionType: Option<ConditionType>, period: Option<Period>, evalType: Option<EvalType>)

  /** `check_evaluation_period`: a computed condition without a period gets
      "now"; a static one may not have a period; a rank one only "now". */
  function CheckEvaluationPeriod(v: Option<Period>, info: Info): (r: Result<Option<Period>, Invalid>)
    ensures info.conditionType == Some(Computed) && v.None? ==> r == Ok(Some(Now))
    ensures info.conditionType == Some(Static) && v.Some? ==> r == Err(PeriodNotAllowedForStatic)
    ensures r.Ok? ==> r.value == v || (v.None? && r.value == Some(Now))
    ensures r.Ok? && info.evalType == Some(Rank) ==> r.value == Some(Now)
    ensures r.Err? && info.conditionType != Some(Static) ==> info.evalType == Some(Rank) && v != Some(Now)
  {
    if info.conditionType == Some(Computed) && v.None? then Ok(Some(Now))
    else if info.conditionType == Some(Static) && v.Some? then Err(PeriodNotAllowedForStatic)
    else if info.evalType == Some(Rank) && v != Some(Now) then Err(RankOnlyNow)
    else Ok(v)
  }

  /** The periods that look back over several bars. */
  predicate Windowed(p: Option<Period>) {
    p == Some(XBarAgo) || p == Some(WithinLast) || p == Some(InRow)
  }

  /** `check_value`: the value passes unchanged or is refused. */
  function CheckValue(v: Option<int>, info: Info): (r: Result<Option<int>, Invalid>)
    ensures r.Ok? ==> r.value == v
    ensures info.evalType == Some(Rank) ==> (r.Ok? <==> v.None?)
    ensures info.evalType != Some(Rank) && info.conditionType == Some(Computed) && Windowed(info.period) ==>
      (r.Ok? <==> v.Some? && v.value > 0)
    ensures info.evalType != Some(Rank) && info.conditionType == Some(Computed) && info.period == Some(Now) ==>
      (r.Ok? <==> v.None?)
    ensures info.evalType != Some(Rank) && info.conditionType == Some(Static) ==> (r.Ok? <==> v.None?)
    ensures info.evalType != Some(Rank) && info.conditionType.None? ==> r.Ok?
  {
    if info.evalType == Some(Rank) then
      if v.Some? then Err(ValueNotAllowedForRank) else Ok(v)
    else if info.conditionType == Some(Computed) then
      if Windowed(info.period) && (v.None? || v.value <= 0) then Err(ValueMustBePositive)
      else if info.period == Some(Now) && v.Some? then Err(ValueNotAllowedForNow)
      else Ok(v)
    else if info.conditionType == Some(Static) && v.Some? then Err(ValueNotAllowedForStatic)
    else Ok(v)
  }

  /** The first failing check of a rank range. */
  function RankRangeError(rankMin: int, rankMax: int): (r: Option<Invalid>)
    ensures r.None? <==> 1 <= rankMin <= rankMax <= 100
  {
    if rankMin < 1 || rankMin > 100 then Some(RankMinOutOfRange)
    else if rankMax < 1 || rankMax > 100 then Some(RankMaxOutOfRange)
    else if rankMax < rankMin then Some(RankMaxBelowMin)
    else None
  }

  /** A condition of a scan; the rank bounds are updated in place by the
      model validator. */
  class Condition {
    const expression: string
    const period: Option<Period>
    const evalType: EvalType
    const value: Option<int>
    const conditionType: ConditionType
    var rankMin: Option<int>
    var rankMax: Option<int>

    constructor(expression: string, period: Option<Period>, evalType: EvalType, value: Option<int>,
                conditionType: ConditionType, rankMin: Option<int>, rankMax: Option<int>)
      ensures this.expression == expression && this.period == period && this.evalType == evalType
      ensures this.value == value && this.conditionType == conditionType
      ensures this.rankMin == rankMin && this.rankMax == rankMax
    {
      this.expression, this.period, this.evalType := expression, period, evalType;
      this.value, this.conditionType := value, conditionType;
      this.rankMin, this.rankMax := rankMin, rankMax;
    }

    /** `check_rank_fields`: a rank condition gets the missing bounds 1 and
        99 and must then satisfy 1 <= min <= max <= 100 (the defaults are
        stored even when the check then fails); any other condition has
        both bounds cleared. */
    method CheckRankFields() returns (r: Option<Invalid>)
      modifies this
      ensures evalType == Rank ==>
        && rankMin == Some(if old(rankMin).Some? then old(rankMin).value else 1)
        && rankMax == Some(if old(rankMax).Some? then old(rankMax).value else 99)
        && r == RankRangeError(rankMin.value, rankMax.value)
      ensures evalType != Rank ==> rankMin.None? && rankMax.None? && r.None?
    {
      if evalType == Rank {
        if rankMin.None? {
          rankMin := Some(1);
        }
        if rankMax.None? {
          rankMax := Some(99);
        }
        r := RankRangeError(rankMin.value, rankMax.value);
      } else {
        rankMin, rankMax := None, None;
        r := None;
      }
    }
  }

  datatype ColumnDef = ColumnDef(
    id: string, name: string, columnType: ColumnType,
    propertyName: Option<string>, expression: Option<string>,
    conditions: Option<seq<Condition>>, logic: Option<Logic>)

  /** Python's truth value of an optional text. */
  predicate Blank(v: Option<string>) {
    v.None? || v.value == ""
  }

  /** `check_static_column`: a static column needs a property name. */
  function CheckStaticColumn(v: Option<string>, columnType: Option<ColumnType>): (r: Result<Option<string>, Invalid>)
    ensures r.Ok? ==> r.value == v
    ensures r.Err? <==> columnType == Some(StaticColumn) && Blank(v)
  {
    if columnType == Some(StaticColumn) && Blank(v) then Err(PropertyNameRequired) else Ok(v)
  }

  /** `check_computed_column`: a computed column needs an expression. */
  function CheckComputedColumn(v: Option<string>, columnType: Option<ColumnType>): (r: Result<Option<string>, Invalid>)
    ensures r.Ok? ==> r.value == v
    ensures r.Err? <==> columnType == Some(ComputedColumn) && Blank(v)
  {
    if columnType == Some(ComputedColumn) && Blank(v) then Err(ExpressionRequired) else Ok(v)
  }

  /** `check_condition_column`: a condition column needs at least one
      condition. */
  function CheckConditionColumn(v: Option<seq<Condition>>, columnType: Option<ColumnType>): (r: Result<Option<seq<Condition>>, Invalid>)
    ensures r.Ok? ==> r.value == v
    ensures r.Err? <==> columnType == Some(ConditionColumn) && (v.None? || |v.value| == 0)
  {
    if columnType == Some(ConditionColumn) && (v.None? || |v.value| == 0) then Err(ConditionsRequired) else Ok(v)
  }

  function Ids(columns: seq<ColumnDef>): (ids: seq<string>)
    ensures |ids| == |columns| && forall i :: 0 <= i < |columns| ==> ids[i] == columns[i].id
  {
    seq(|columns|, i requires 0 <= i < |columns| => columns[i].id)
  }

  predicate Distinct(ids: seq<string>) {
    forall i, j :: 0 <= i < j < |ids| ==> ids[i] != ids[j]
  }

  /** A sequence has as many distinct elements as entries exactly when no
      element repeats. */
  lemma {:induction false} DistinctCardinality(ids: seq<string>)
    ensures |set x | x in ids| == |ids| <==> Distinct(ids)
    ensures |set x | x in ids| <= |ids|
  {
    if ids != [] {
      var rest := ids[1..];
      DistinctCardinality(rest);
      var s, sr := set x | x in ids, set x | x in rest;
      assert s == sr + {ids[0]} by {
        forall x | x in s ensures x in sr + {ids[0]} {
          var k :| 0 <= k < |ids| && ids[k] == x;
          if k > 0 { assert rest[k - 1] == x; }
        }
      }
      if ids[0] in rest {
        assert s == sr;
        var k :| 0 <= k < |rest| && rest[k] == ids[0];
        assert ids[k + 1] == ids[0];
      } else {
        assert |s| == |sr| + 1;
        if Distinct(rest) {
          forall i, j | 0 <= i < j < |ids| ensures ids[i] != ids[j] {
            if i == 0 {
              assert ids[j] == rest[j - 1];
            } else {
              assert ids[i] == rest[i - 1] && ids[j] == rest[j - 1];
            }
          }
        } else {
          var i, j :| 0 <= i < j < |rest| && rest[i] == rest[j];
          assert ids[i + 1] == ids[j + 1];
        }
      }
    }
  }

  /** `check_unique_column_ids`: refused exactly when two columns share an
      id. */
  function CheckUniqueColumnIds(columns: seq<ColumnDef>): (r: Result<seq<ColumnDef>, Invalid>)
    ensures r.Ok? ==> r.value == columns
    ensures r.Err? <==> exists i, j :: 0 <= i < j < |columns| && columns[i].id == columns[j].id
  {
    var ids := Ids(columns);
    DistinctCardinality(ids);
    assert Distinct(ids) <==> forall i, j :: 0 <= i < j < |columns| ==> columns[i].id != columns[j].id;
    if |ids| != |set x | x in ids| then Err(DuplicateColumnIds) else Ok(columns)
  }
}

=== FILE: scanner_engine.dfy ===
/** The scanner engine's control logic: the split of conditions into static
    and computed ones, the two filtering phases, the early exits of a scan,
    the per-symbol evaluation of computed and condition columns, and the
    resolution of sort columns. Expression evaluation itself is a parameter
    (`Evaluators`), since the engine hands it to Python's `eval`. */
module ScannerEngine {
  import opened Wrappers
  import opened Text
  import opened ScanRequests
  import ReducePeriod

  /** A value a column can hold. */
  datatype Cell = Null | Flag(b: bool) | Number(x: real)

  datatype Direction = Asc | Desc
  datatype SortColumn = SortColumn(column: string, direction: Direction)

  /** The evaluations the engine delegates; `None` stands for an evaluation
      that raised. */
  datatype Evaluators = Evaluators(
    series: (string, string) -> Option<seq<bool>>,
    value: (string, string) -> Option<Cell>,
    conditionColumn: (string, seq<Condition>, Logic) -> Option<Cell>,
    staticFilter: (seq<string>, seq<string>, string) -> seq<string>)

  /** `a` is `b` with some entries left out, order kept. */
  ghost predicate Subsequence<T>(a: seq<T>, b: seq<T>)
    decreases |b|
  {
    if a == [] then true
    else if b == [] then false
    else (a[0] == b[0] && Subsequence(a[1..], b[1..])) || Subsequence(a, b[1..])
  }

  // ---------------------------------------------------------------- conditions

  /** The conditions of one type, in order. */
  function OfType(conds: seq<Condition>, t: ConditionType): (r: seq<Condition>)
    ensures forall i :: 0 <= i < |r| ==> r[i].conditionType == t
    ensures |r| <= |conds|
  {
    if conds == [] then []
    else (if conds[0].conditionType == t then [conds[0]] else []) + OfType(conds[1..], t)
  }

  /** Splitting by type keeps the order and loses nothing. */
  lemma {:induction false} SplitConditions(conds: seq<Condition>)
    ensures Subsequence(OfType(conds, Static), conds) && Subsequence(OfType(conds, Computed), conds)
    ensures |OfType(conds, Static)| + |OfType(conds, Computed)| == |conds|
  {
    OfTypeSubsequence(conds, Static);
    OfTypeSubsequence(conds, Computed);
    if conds != [] {
      SplitConditions(conds[1..]);
    }
  }

  lemma {:induction false} OfTypeSubsequence(conds: seq<Condition>, t: ConditionType)
    ensures Subsequence(OfType(conds, t), conds)
    decreases |conds|
  {
    if conds != [] {
      var rest := conds[1..];
      OfTypeSubsequence(rest, t);
      if conds[0].conditionType == t {
        assert OfType(conds, t) == [conds[0]] + OfType(rest, t);
        assert OfType(conds, t)[1..] == OfType(rest, t);
      } else {
        assert OfType(conds, t) == OfType(rest, t);
      }
    }
  }

  function Expressions(conds: seq<Condition>): (r: seq<string>)
    ensures |r| == |conds| && forall i :: 0 <= i < |conds| ==> r[i] == conds[i].expression
  {
    seq(|conds|, i requires 0 <= i < |conds| => conds[i].expression)
  }

  function ModeOf(p: Option<Period>): ReducePeriod.Mode {
    match p
    case None => ReducePeriod.Unknown
    case Some(Now) => ReducePeriod.Now
    case Some(XBarAgo) => ReducePeriod.XBarAgo
    case Some(WithinLast) => ReducePeriod.WithinLast
    case Some(InRow) => ReducePeriod.InRow
  }

  /** One computed condition on one symbol: its series reduced by its
      period; an evaluation or reduction that raises counts as false. */
  predicate ConditionHolds(ev: Evaluators, symbol: string, c: Condition) {
    match ev.series(symbol, c.expression)
    case None => false
    case Some(s) =>
      var r := ReducePeriod.Reduce(s, ModeOf(c.period), c.value);
      r.Ok? && r.value
  }

  function ConditionResults(ev: Evaluators, symbol: string, conds: seq<Condition>): (rs: seq<bool>)
    ensures |rs| == |conds| && forall i :: 0 <= i < |conds| ==> rs[i] == ConditionHolds(ev, symbol, conds[i])
  {
    seq(|conds|, i requires 0 <= i < |conds| => ConditionHolds(ev, symbol, conds[i]))
  }

  /** No results pass; "and" needs all of them, any other logic one. */
  predicate Combine(rs: seq<bool>, logic: string) {
    if rs == [] then true
    else if logic == "and" then forall i :: 0 <= i < |rs| ==> rs[i]
    else exists i :: 0 <= i < |rs| && rs[i]
  }

  /** `_process_symbol_computed_conditions`: an unloaded symbol fails. */
  predicate SymbolPasses(loaded: seq<string>, ev: Evaluators, symbol: string, conds: seq<Condition>, logic: string) {
    symbol in loaded && Combine(ConditionResults(ev, symbol, conds), logic)
  }

  /** What passing means, condition by condition. */
  lemma {:induction false} SymbolPassesCases(loaded: seq<string>, ev: Evaluators, symbol: string, conds: seq<Condition>, logic: string)
    ensures symbol !in loaded ==> !SymbolPasses(loaded, ev, symbol, conds, logic)
    ensures symbol in loaded && conds == [] ==> SymbolPasses(loaded, ev, symbol, conds, logic)
    ensures logic == "and" ==> (SymbolPasses(loaded, ev, symbol, conds, logic) <==>
      symbol in loaded && forall i :: 0 <= i < |conds| ==> ConditionHolds(ev, symbol, conds[i]))
    ensures logic != "and" && conds != [] ==> (SymbolPasses(loaded, ev, symbol, conds, logic) <==>
      symbol in loaded && exists i :: 0 <= i < |conds| && ConditionHolds(ev, symbol, conds[i]))
  {
    var rs := ConditionResults(ev, symbol, conds);
    if logic != "and" && conds != [] && symbol in loaded {
      if exists i :: 0 <= i < |conds| && ConditionHolds(ev, symbol, conds[i]) {
        var i :| 0 <= i < |conds| && ConditionHolds(ev, symbol, conds[i]);
        assert rs[i];
      }
    }
  }

  /** The loop of `_process_symbol_computed_conditions`. */
  method ProcessSymbolComputedConditions(loaded: seq<string>, ev: Evaluators, symbol: string, conds: seq<Condition>, logic: string)
    returns (sym: string, passes: bool)
    ensures sym == symbol && passes == SymbolPasses(loaded, ev, symbol, conds, logic)
  {
    sym := symbol;
    if symbol !in loaded {
      return sym, false;
    }
    var results: seq<bool> := [];
    var i := 0;
    while i < |conds|
      invariant 0 <= i <= |conds|
      invariant results == ConditionResults(ev, symbol, conds[..i])
    {
      var holds := false;
      var s := ev.series(symbol, conds[i].expression);
      if s.Some? {
        var r := ReducePeriod.Reduce(s.value, ModeOf(conds[i].period), conds[i].value);
        holds := r.Ok? && r.value;
      }
      results := results + [holds];
      i := i + 1;
    }
    assert conds[..|conds|] == conds;
    passes := Combine(results, logic);
  }

  /** The symbols that pass, in order. */
  function Passing(loaded: seq<string>, ev: Evaluators, symbols: seq<string>, conds: seq<Condition>, logic: string): (r: seq<string>)
    ensures forall s :: s in r <==> s in symbols && SymbolPasses(loaded, ev, s, conds, logic)
  {
    if symbols == [] then []
    else
      var rest := Passing(loaded, ev, symbols[..|symbols| - 1], conds, logic);
      var s := symbols[|symbols| - 1];
      if SymbolPasses(loaded, ev, s, conds, logic) then rest + [s] else rest
  }

  /** `_evaluate_computed_conditions`: without conditions the input is
      returned as is. */
  function Selected(loaded: seq<string>, ev: Evaluators, symbols: seq<string>, conds: seq<Condition>, logic: string): seq<string> {
    if conds == [] then symbols else Passing(loaded, ev, symbols, conds, logic)
  }

  lemma {:induction false} SubsequenceAppend<T>(a: seq<T>, b: seq<T>, x: T)
    requires Subsequence(a, b)
    ensures Subsequence(a + [x], b + [x]) && Subsequence(a, b + [x])
    decreases |b|
  {
    if a == [] {
      assert a + [x] == [x];
      SubsequenceOfEmpty(b, x);
    } else if b != [] {
      assert (a + [x])[1..] == a[1..] + [x] && (b + [x])[1..] == b[1..] + [x];
      if a[0] == b[0] && Subsequence(a[1..], b[1..]) {
        SubsequenceAppend(a[1..], b[1..], x);
      }
      if Subsequence(a, b[1..]) {
        SubsequenceAppend(a, b[1..], x);
      }
    }
  }

  lemma {:induction false} SubsequenceOfEmpty<T>(b: seq<T>, x: T)
    ensures Subsequence([x], b + [x])
    decreases |b|
  {
    if b != [] {
      assert (b + [x])[1..] == b[1..] + [x];
      SubsequenceOfEmpty(b[1..], x);
    }
  }

  /** The selection keeps the input's order and is the whole input when
      there are no conditions. */
  lemma {:induction false} SelectedIsSubsequence(loaded: seq<string>, ev: Evaluators, symbols: seq<string>, conds: seq<Condition>, logic: string)
    ensures Subsequence(Selected(loaded, ev, symbols, conds, logic), symbols)
    ensures conds == [] ==> Selected(loaded, ev, symbols, conds, logic) == symbols
    ensures conds != [] ==> forall s :: s in Selected(loaded, ev, symbols, conds, logic) <==>
      s in symbols && SymbolPasses(loaded, ev, s, conds, logic)
    decreases |symbols|
  {
    if conds == [] {
      SubsequenceRefl(symbols);
    } else if symbols != [] {
      var init := symbols[..|symbols| - 1];
      SelectedIsSubsequence(loaded, ev, init, conds, logic);
      SubsequenceAppend(Passing(loaded, ev, init, conds, logic), init, symbols[|symbols| - 1]);
      assert init + [symbols[|symbols| - 1]] == symbols;
    }
  }

  lemma {:induction false} SubsequenceRefl<T>(a: seq<T>)
    ensures Subsequence(a, a)
    decreases |a|
  {
    if a != [] {
      SubsequenceRefl(a[1..]);
    }
  }

  /** The loop of `_evaluate_computed_conditions`. */
  method EvaluateComputedConditions(loaded: seq<string>, ev: Evaluators, symbols: seq<string>, conds: seq<Condition>, logic: string)
    returns (selected: seq<string>)
    ensures selected == Selected(loaded, ev, symbols, conds, logic)
  {
    if conds == [] {
      return symbols;
    }
    selected := [];
    var i := 0;
    while i < |symbols|
      invariant 0 <= i <= |symbols|
      invariant selected == Passing(loaded, ev, symbols[..i], conds, logic)
    {
      assert symbols[..i + 1][..i] == symbols[..i];
      var sym, passes := ProcessSymbolComputedConditions(loaded, ev, symbols[i], conds, logic);
      if passes {
        selected := selected + [sym];
      }
      i := i + 1;
    }
    assert symbols[..|symbols|] == symbols;
  }

  // ---------------------------------------------------------------- scan

  /** `_evaluate_static_conditions`: every loaded symbol when there are no
      static conditions. */
  function Phase1(loaded: seq<string>, ev: Evaluators, staticConds: seq<Condition>, logic: string): seq<string> {
    if staticConds == [] then loaded else ev.staticFilter(loaded, Expressions(staticConds), logic)
  }

  /** A scan stops early with an empty, unsuccessful response, or hands the
      selected symbols on to column evaluation. */
  datatype ScanResult =
    | Response(count: nat, columns: seq<string>, success: bool)
    | Rows(symbols: seq<string>)

  function Names(columns: seq<ColumnDef>): (r: seq<string>)
    ensures |r| == |columns| && forall i :: 0 <= i < |columns| ==> r[i] == columns[i].name
  {
    seq(|columns|, i requires 0 <= i < |columns| => columns[i].name)
  }

  function EmptyResponse(columns: seq<ColumnDef>): ScanResult {
    Response(0, ["symbol"] + Names(columns), false)
  }

  /** `scan`, up to the evaluation of the columns: nothing loaded, nothing
      through phase 1 or nothing through phase 2 ends the scan. */
  function Scan(loaded: seq<string>, ev: Evaluators, conds: seq<Condition>, columns: seq<ColumnDef>, logic: string): (r: ScanResult)
    ensures r.Response? ==> r == Response(0, ["symbol"] + Names(columns), false)
    ensures r.Rows? ==> r.symbols != []
  {
    if loaded == [] then EmptyResponse(columns)
    else
      var computed := OfType(conds, Computed);
      var p1 := Phase1(loaded, ev, OfType(conds, Static), logic);
      if p1 == [] then EmptyResponse(columns)
      else
        var selected := if computed != [] then Selected(loaded, ev, p1, computed, logic) else p1;
        if selected == [] then EmptyResponse(columns) else Rows(selected)
  }

  /** A scan without conditions selects every loaded symbol; one with
      computed conditions selects only loaded symbols that pass them all
      ("and") or pass one of them. */
  lemma {:induction false} ScanSelection(loaded: seq<string>, ev: Evaluators, conds: seq<Condition>, columns: seq<ColumnDef>, logic: string)
    ensures conds == [] && loaded != [] ==> Scan(loaded, ev, conds, columns, logic) == Rows(loaded)
    ensures loaded == [] ==> Scan(loaded, ev, conds, columns, logic) == EmptyResponse(columns)
    ensures Scan(loaded, ev, conds, columns, logic).Rows? && OfType(conds, Computed) != [] ==>
      forall s :: s in Scan(loaded, ev, conds, columns, logic).symbols ==>
        s in loaded && SymbolPasses(loaded, ev, s, OfType(conds, Computed), logic)
  {
    var computed := OfType(conds, Computed);
    var p1 := Phase1(loaded, ev, OfType(conds, Static), logic);
    if loaded != [] && p1 != [] && computed != [] {
      SelectedIsSubsequence(loaded, ev, p1, computed, logic);
    }
  }

  // ---------------------------------------------------------------- columns

  /** A computed or condition column's value for a loaded symbol; an
      evaluation that raises gives None. */
  function ColumnCell(ev: Evaluators, symbol: string, col: ColumnDef): Cell {
    match col.columnType
    case ComputedColumn =>
      var expr := Strip(if col.expression.Some? then col.expression.value else "");
      if expr == "" then Null
      else (match ev.value(symbol, expr) case None => Null case Some(v) => v)
    case ConditionColumn =>
      if col.conditions.Some? && |col.conditions.value| > 0 then
        var logic := if col.logic.Some? then col.logic.value else And;
        (match ev.conditionColumn(symbol, col.conditions.value, logic) case None => Null case Some(v) => v)
      else Flag(false)
    case StaticColumn => Null
  }

  /** `_evaluate_non_static_columns`: name to value, a later column of the
      same name overwriting; every column is None for an unloaded symbol. */
  function NonStaticCells(loaded: seq<string>, ev: Evaluators, symbol: string, columns: seq<ColumnDef>): (r: map<string, Cell>)
    ensures forall n :: n in r <==> n in Names(columns)
  {
    if columns == [] then map[]
    else
      var init := columns[..|columns| - 1];
      var col := columns[|columns| - 1];
      assert Names(columns) == Names(init) + [col.name];
      NonStaticCells(loaded, ev, symbol, init)[col.name := if symbol in loaded then ColumnCell(ev, symbol, col) else Null]
  }

  /** No column after index i has its name. */
  predicate LastNamed(columns: seq<ColumnDef>, i: int)
    requires 0 <= i < |columns|
  {
    forall j :: i < j < |columns| ==> columns[j].name != columns[i].name
  }

  /** The value reported under a column's name is that column's own value
      (the last column of that name): None for an unloaded symbol or a blank
      expression, False for a condition column without conditions. */
  lemma {:induction false} NonStaticCellOf(loaded: seq<string>, ev: Evaluators, symbol: string, columns: seq<ColumnDef>, i: int)
    requires 0 <= i < |columns| && LastNamed(columns, i)
    ensures columns[i].name in NonStaticCells(loaded, ev, symbol, columns)
    ensures NonStaticCells(loaded, ev, symbol, columns)[columns[i].name] ==
      if symbol in loaded then ColumnCell(ev, symbol, columns[i]) else Null
    decreases |columns|
  {
    var n := |columns| - 1;
    if i < n {
      var init := columns[..n];
      assert init[i] == columns[i];
      assert LastNamed(init, i) by {
        forall j | i < j < |init| ensures init[j].name != init[i].name {
          assert init[j] == columns[j];
        }
      }
      NonStaticCellOf(loaded, ev, symbol, init, i);
    }
  }

  /** The fixed answers of a column, whatever the evaluators. */
  lemma {:induction false} ColumnCellDefaults(ev: Evaluators, symbol: string, col: ColumnDef)
    ensures col.columnType == ComputedColumn && (col.expression.None? || Strip(col.expression.value) == "") ==>
      ColumnCell(ev, symbol, col) == Null
    ensures col.columnType == ConditionColumn && (col.conditions.None? || col.conditions.value == []) ==>
      ColumnCell(ev, symbol, col) == Flag(false)
    ensures col.columnType == StaticColumn ==> ColumnCell(ev, symbol, col) == Null
  {
    assert Strip("") == "" by { StripEmptyIffBlank(""); }
  }

  /** The loop of `_evaluate_non_static_columns`. */
  method EvaluateNonStaticColumns(loaded: seq<string>, ev: Evaluators, symbol: string, columns: seq<ColumnDef>)
    returns (result: map<string, Cell>)
    ensures result == NonStaticCells(loaded, ev, symbol, columns)
  {
    result := map[];
    var i := 0;
    while i < |columns|
      invariant 0 <= i <= |columns|
      invariant result == NonStaticCells(loaded, ev, symbol, columns[..i])
    {
      assert columns[..i + 1][..i] == columns[..i];
      result := result[columns[i].name := if symbol in loaded then ColumnCell(ev, symbol, columns[i]) else Null];
      i := i + 1;
    }
    assert columns[..|columns|] == columns;
  }

  // ---------------------------------------------------------------- sorting

  /** Column id to column name, a later column winning, and "symbol" to
      itself. */
  function IdToName(columns: seq<ColumnDef>): (m: map<string, string>)
    ensures "symbol" in m && m["symbol"] == "symbol"
  {
    IdMap(columns)["symbol" := "symbol"]
  }

  function IdMap(columns: seq<ColumnDef>): (m: map<string, string>)
    ensures forall id :: id in m <==> exists i :: 0 <= i < |columns| && columns[i].id == id
  {
    if columns == [] then map[]
    else
      var init := columns[..|columns| - 1];
      var col := columns[|columns| - 1];
      assert forall i :: 0 <= i < |init| ==> init[i] == columns[i];
      IdMap(init)[col.id := col.name]
  }

  /** One sort entry: its id's column if that column is in the results,
      otherwise (only when it is not an id) its raw name if that is. */
  function Resolve(idToName: map<string, string>, available: set<string>, sc: SortColumn): (r: Option<string>)
    ensures r.Some? ==> r.value in available
  {
    if sc.column in idToName then
      (if idToName[sc.column] in available then Some(idToName[sc.column]) else None)
    else if sc.column in available then Some(sc.column)
    else None
  }

  /** The entries that resolve, in order, with the names they resolve to. */
  function ResolveSort(idToName: map<string, string>, available: set<string>, sorts: seq<SortColumn>): (r: (seq<SortColumn>, seq<string>))
    ensures |r.0| == |r.1| && forall i :: 0 <= i < |r.1| ==> r.1[i] in available
    ensures forall i :: 0 <= i < |r.0| ==> r.0[i] in sorts && Resolve(idToName, available, r.0[i]) == Some(r.1[i])
    ensures |r.0| <= |sorts|
  {
    if sorts == [] then ([], [])
    else
      var init := ResolveSort(idToName, available, sorts[..|sorts| - 1]);
      var sc := sorts[|sorts| - 1];
      assert forall x :: x in sorts[..|sorts| - 1] ==> x in sorts;
      match Resolve(idToName, available, sc)
      case Some(name) => (init.0 + [sc], init.1 + [name])
      case None => init
  }

  /** Every entry that resolves is kept: an id is looked up first, and a
      raw name is used only when it is not an id. */
  lemma {:induction false} ResolveSortKeeps(idToName: map<string, string>, available: set<string>, sorts: seq<SortColumn>, k: int)
    requires 0 <= k < |sorts| && Resolve(idToName, available, sorts[k]).Some?
    ensures sorts[k] in ResolveSort(idToName, available, sorts).0
    decreases |sorts|
  {
    var n := |sorts| - 1;
    if k < n {
      assert sorts[..n][k] == sorts[k];
      ResolveSortKeeps(idToName, available, sorts[..n], k);
    }
  }

  /** An id names its column even when the id is also a result column, and
      a raw column name is used only when it is not an id. */
  lemma {:induction false} ResolvePrefersIds(idToName: map<string, string>, available: set<string>, sc: SortColumn)
    ensures sc.column in idToName && idToName[sc.column] in available ==>
      Resolve(idToName, available, sc) == Some(idToName[sc.column])
    ensures sc.column in idToName && idToName[sc.column] !in available ==>
      Resolve(idToName, available, sc) == None
    ensures sc.column !in idToName ==>
      (Resolve(idToName, available, sc) == if sc.column in available then Some(sc.column) else None)
  {
  }

  /** `sort_ascending`: ascending exactly for "asc" entries. */
  function Ascending(valid: seq<SortColumn>): (r: seq<bool>)
    ensures |r| == |valid| && forall i :: 0 <= i < |valid| ==> (r[i] <==> valid[i].direction == Asc)
  {
    seq(|valid|, i requires 0 <= i < |valid| => valid[i].direction == Asc)
  }

  /** The loop of `_process_results` that resolves the sort columns. */
  method ResolveSortColumns(columns: seq<ColumnDef>, available: set<string>, sorts: seq<SortColumn>)
    returns (valid: seq<SortColumn>, names: seq<string>)
    ensures (valid, names) == ResolveSort(IdToName(columns), available, sorts)
  {
    var idToName := IdToName(columns);
    valid, names := [], [];
    var i := 0;
    while i < |sorts|
      invariant 0 <= i <= |sorts|
      invariant (valid, names) == ResolveSort(idToName, available, sorts[..i])
    {
      assert sorts[..i + 1][..i] == sorts[..i];
      var sc := sorts[i];
      if sc.column in idToName {
        var actual := idToName[sc.column];
        if actual in available {
          valid, names := valid + [sc], names + [actual];
        }
      } else if sc.column in available {
        valid, names := valid + [sc], names + [sc.column];
      }
      i := i + 1;
    }
    assert sorts[..|sorts|] == sorts;
  }
}

=== FILE: scanner_sql.dfy ===
/** The scanner's SQL text builder: SELECT list, WHERE clause from grid
    filter models (with nested joins), ORDER BY, OFFSET/LIMIT, and the
    escaping of literal values. Filters are dictionaries in the system; here
    a missing key is `None`. Python exceptions become `Err`. */
module ScannerSql {
  import opened Wrappers
  import opened Text

  // ---------------------------------------------------------------- values

  /** A filter value: a string, `None` (also a missing key), a bool, an int,
      or any other value, carried by its `str()` text. */
  datatype Value = Str(s: string) | Null | Bool(b: bool) | Int(i: int) | Other(repr: string)

  /** `escape_value`. */
  function EscapeValue(v: Value): (lit: string)
    ensures v.Str? ==> |lit| >= 2 && lit[0] == '\'' && lit[|lit| - 1] == '\''
    ensures v.Null? ==> lit == "NULL"
    ensures v.Bool? ==> lit == (if v.b then "TRUE" else "FALSE")
  {
    match v
    case Str(s) => "'" + ReplaceChar(s, '\'', "''") + "'"
    case Null => "NULL"
    case Bool(b) => if b then "TRUE" else "FALSE"
    case Int(i) => IntToString(i)
    case Other(repr) => repr
  }

  /** A SQL lexer reading the body of a single-quoted literal (after the
      opening quote): `''` stands for one quote, a lone `'` ends the literal.
      Returns the literal's text and what follows it. */
  function ReadQuotedBody(t: string): (r: Option<(string, string)>)
    decreases |t|
  {
    if t == [] then None
    else if t[0] == '\'' then
      if |t| >= 2 && t[1] == '\'' then
        match ReadQuotedBody(t[2..])
        case None => None
        case Some((body, rest)) => Some(("'" + body, rest))
      else Some(("", t[1..]))
    else
      match ReadQuotedBody(t[1..])
      case None => None
      case Some((body, rest)) => Some(([t[0]] + body, rest))
  }

  function ReadLiteral(t: string): Option<(string, string)> {
    if t != [] && t[0] == '\'' then ReadQuotedBody(t[1..]) else None
  }

  /** An escaped string is read back by a SQL lexer as exactly one literal
      holding the original text: no quote in the value can end the literal
      early, whatever the value holds. The text after the literal must not
      start with a quote (`''` would continue the literal). */
  lemma {:induction false} EscapeStringReadsBack(s: string, rest: string)
    requires rest == [] || rest[0] != '\''
    ensures ReadLiteral(EscapeValue(Str(s)) + rest) == Some((s, rest))
  {
    var body := ReplaceChar(s, '\'', "''");
    Regroup("'", body, "'", rest);
    DropHead("'", body, "'" + rest);
    ReadEscapedBody(s, rest);
  }

  lemma {:induction false} ReadEscapedBody(s: string, rest: string)
    requires rest == [] || rest[0] != '\''
    ensures ReadQuotedBody(ReplaceChar(s, '\'', "''") + ("'" + rest)) == Some((s, rest))
    decreases |s|
  {
    var tail := "'" + rest;
    if s == [] {
      assert ReplaceChar(s, '\'', "''") + tail == tail;
      assert tail[1..] == rest;
    } else {
      var more := ReplaceChar(s[1..], '\'', "''");
      ReadEscapedBody(s[1..], rest);
      if s[0] == '\'' {
        assert ReplaceChar(s, '\'', "''") == "''" + more;
        ReadDoubledQuote(more, tail);
        assert "'" + s[1..] == s;
      } else {
        assert ReplaceChar(s, '\'', "''") == [s[0]] + more;
        ReadPlainChar(s[0], more, tail);
        assert [s[0]] + s[1..] == s;
      }
    }
  }

  /** A doubled quote inside a literal reads as one quote. */
  lemma {:induction false} ReadDoubledQuote(more: string, tail: string)
    ensures ReadQuotedBody("''" + more + tail) ==
      match ReadQuotedBody(more + tail)
      case None => None
      case Some((body, rest)) => Some(("'" + body, rest))
  {
    DropHead("''", more, tail);
  }

  /** Any other character inside a literal reads as itself. */
  lemma {:induction false} ReadPlainChar(c: char, more: string, tail: string)
    requires c != '\''
    ensures ReadQuotedBody([c] + more + tail) ==
      match ReadQuotedBody(more + tail)
      case None => None
      case Some((body, rest)) => Some(([c] + body, rest))
  {
    DropHead([c], more, tail);
  }

  lemma {:induction false} Regroup(a: string, b: string, c: string, d: string)
    ensures a + b + c + d == a + b + (c + d)
  {
  }

  lemma {:induction false} DropHead(head: string, more: string, tail: string)
    ensures (head + more + tail)[|head|..] == more + tail
  {
  }

  // ---------------------------------------------------------------- select

  function Quote(col: string): string {
    "\"" + col + "\""
  }

  function QuotedList(cols: seq<string>): (r: seq<string>)
    ensures |r| == |cols| && forall k :: 0 <= k < |cols| ==> r[k] == Quote(cols[k])
  {
    if cols == [] then [] else [Quote(cols[0])] + QuotedList(cols[1..])
  }

  /** `select_sql`: `*` without columns, else the double-quoted columns. */
  function SelectSql(columns: Option<seq<string>>): (r: string)
    ensures columns.None? || columns.value == [] ==> r == " *"
  {
    if columns.None? || columns.value == [] then " *"
    else " " + Join(QuotedList(columns.value), ", ")
  }

  /** Reads back a SELECT list of double-quoted names separated by ", ". */
  function ReadColumns(t: string): Option<seq<string>>
    decreases |t|
  {
    if t == [] || t[0] != '"' then None
    else
      var close := FindFrom(t, "\"", 1);
      if close == -1 then None
      else
        var name := t[1..close];
        var after := t[close + 1..];
        if after == [] then Some([name])
        else if |after| >= 2 && after[..2] == ", " then
          match ReadColumns(after[2..])
          case None => None
          case Some(names) => Some([name] + names)
        else None
  }

  predicate NoDoubleQuote(col: string) {
    forall i :: 0 <= i < |col| ==> col[i] != '"'
  }

  /** The SELECT list names exactly the requested columns, in order, when
      no column name holds a double quote. */
  lemma {:induction false} SelectSqlReadsBack(cols: seq<string>)
    requires cols != []
    requires forall k :: 0 <= k < |cols| ==> NoDoubleQuote(cols[k])
    ensures var r := SelectSql(Some(cols)); ReadColumns(r[1..]) == Some(cols)
  {
    var r := SelectSql(Some(cols));
    assert r[1..] == Join(QuotedList(cols), ", ");
    ReadQuotedColumns(cols);
  }

  lemma {:induction false} ReadQuotedColumns(cols: seq<string>)
    requires cols != []
    requires forall k :: 0 <= k < |cols| ==> NoDoubleQuote(cols[k])
    ensures ReadColumns(Join(QuotedList(cols), ", ")) == Some(cols)
    decreases |cols|
  {
    var q := QuotedList(cols);
    if |cols| == 1 {
      ReadLastColumn(cols[0]);
      assert cols == [cols[0]];
    } else {
      assert QuotedList(cols[1..]) == q[1..];
      ReadQuotedColumns(cols[1..]);
      ReadNextColumn(cols[0], Join(q[1..], ", "));
      assert [cols[0]] + cols[1..] == cols;
    }
  }

  /** The last name of a SELECT list. */
  lemma {:induction false} ReadLastColumn(c: string)
    requires NoDoubleQuote(c)
    ensures ReadColumns(Quote(c)) == Some([c])
  {
    var t := Quote(c);
    assert t == "\"" + c + "\"" + "";
    FindClosingQuote(c, "");
    assert t[1..|c| + 1] == c;
    assert t[|c| + 2..] == "";
  }

  /** A name followed by ", " and the rest of a SELECT list. */
  lemma {:induction false} ReadNextColumn(c: string, more: string)
    requires NoDoubleQuote(c)
    ensures ReadColumns(Quote(c) + ", " + more) ==
      match ReadColumns(more)
      case None => None
      case Some(names) => Some([c] + names)
  {
    var t := Quote(c) + ", " + more;
    var tail := ", " + more;
    assert t == "\"" + c + "\"" + tail;
    FindClosingQuote(c, tail);
    assert t[1..|c| + 1] == c;
    assert t[|c| + 2..] == tail;
    assert tail[..2] == ", " && tail[2..] == more;
  }

  lemma {:induction false} FindClosingQuote(c: string, tail: string)
    requires NoDoubleQuote(c)
    ensures FindFrom("\"" + c + "\"" + tail, "\"", 1) == |c| + 1
  {
    var t := "\"" + c + "\"" + tail;
    assert OccursAt(t, "\"", |c| + 1);
    forall i | 1 <= i < |c| + 1 ensures !OccursAt(t, "\"", i) {
      assert t[i] == c[i - 1];
    }
    FindFromFirst(t, "\"", 1, |c| + 1);
  }

  // ---------------------------------------------------------------- filters

  /** A grid filter model: `filterType` ("join" for a nested join), the
      `type` key (the comparison, or the join's AND/OR), `colId`, the
      `filter` value and the join's `conditions` (a missing key is []). */
  datatype Filter = Filter(filterType: Option<string>, kind: Option<string>, colId: Option<string>,
                           value: Value, conditions: seq<Filter>)

  /** The exceptions the SQL builders raise: a filter without `colId` or of
      an unsupported type (ValueError), and a sort entry whose `sort` is null
      (AttributeError of `None.upper`). */
  datatype SqlError = MissingColumn | UnsupportedFilterType(kind: Option<string>) | NullSort

  const VALUE_TYPES: set<string> :=
    {"contains", "notContains", "equals", "notEqual", "startsWith", "endsWith",
     "greaterThan", "greaterThanOrEqual", "lessThan", "lessThanOrEqual"}
  const FIXED_TYPES: set<string> := {"blank", "notBlank", "true", "false"}

  /** The comparison templates: the text between the quoted column and the
      escaped value, and the text after the value. */
  function Comparison(t: string): (r: Option<(string, string)>)
    ensures r.Some? <==> t in VALUE_TYPES
  {
    if t == "contains" then Some((" LIKE '%' || ", " || '%'"))
    else if t == "notContains" then Some((" NOT LIKE '%' || ", " || '%'"))
    else if t == "equals" then Some((" = ", ""))
    else if t == "notEqual" then Some((" != ", ""))
    else if t == "startsWith" then Some((" LIKE ", " || '%'"))
    else if t == "endsWith" then Some((" LIKE '%' || ", ""))
    else if t == "greaterThan" then Some((" > ", ""))
    else if t == "greaterThanOrEqual" then Some((" >= ", ""))
    else if t == "lessThan" then Some((" < ", ""))
    else if t == "lessThanOrEqual" then Some((" <= ", ""))
    else None
  }

  /** The templates that use no value. */
  function Check(col: string, t: string): (r: Option<string>)
    requires col != [] && col[0] == '"'
    ensures r.Some? <==> t in FIXED_TYPES
    ensures r.Some? ==> r.value != [] && (r.value[0] == '(' || r.value[0] == '"')
  {
    if t == "blank" then Some("(" + col + " IS NULL OR " + col + " = '')")
    else if t == "notBlank" then Some("(" + col + " IS NOT NULL AND " + col + " != '')")
    else if t == "true" then Some(col + " = TRUE")
    else if t == "false" then Some(col + " = FALSE")
    else None
  }

  /** `base_filter_to_sql`: the column is read first (a missing `colId` is a
      `KeyError`), then the type picks the template; an unknown type is a
      `ValueError`. */
  function BaseFilterToSql(f: Filter): (r: Result<string, SqlError>)
    ensures r.Ok? ==> r.value != [] && (r.value[0] == '(' || r.value[0] == '"')
  {
    if f.colId.None? then Err(MissingColumn)
    else
      var col := Quote(f.colId.value);
      var val := EscapeValue(f.value);
      if f.kind.Some? && Comparison(f.kind.value).Some? then
        var (op, post) := Comparison(f.kind.value).value;
        Ok(col + op + val + post)
      else if f.kind.Some? && Check(col, f.kind.value).Some? then
        Ok(Check(col, f.kind.value).value)
      else Err(UnsupportedFilterType(f.kind))
  }

  /** A base filter fails exactly for a missing column or a type outside the
      fourteen supported ones; every comparison starts with the quoted column
      and carries the escaped value. */
  lemma {:induction false} BaseFilterOutcome(f: Filter)
    ensures BaseFilterToSql(f).Err? <==>
      f.colId.None? || f.kind.None? || f.kind.value !in VALUE_TYPES + FIXED_TYPES
    ensures f.colId.None? ==> BaseFilterToSql(f) == Err(MissingColumn)
    ensures BaseFilterToSql(f).Ok? && f.kind.value in VALUE_TYPES ==>
      StartsWith(BaseFilterToSql(f).value, Quote(f.colId.value))
      && Contains(BaseFilterToSql(f).value, EscapeValue(f.value))
  {
    if BaseFilterToSql(f).Ok? && f.kind.value in VALUE_TYPES {
      var (op, post) := Comparison(f.kind.value).value;
      Framed(Quote(f.colId.value), op, EscapeValue(f.value), post);
    }
  }

  lemma {:induction false} Framed(col: string, op: string, val: string, post: string)
    ensures StartsWith(col + op + val + post, col) && Contains(col + op + val + post, val)
  {
    var r := col + op + val + post;
    assert r[..|col|] == col;
    assert r[|col| + |op|..|col| + |op| + |val|] == val;
    assert OccursAt(r, val, |col| + |op|);
  }

  /** `generate_where_clause_from_advanced_filter`: a join combines its
      non-empty parts with its type (AND when absent) inside parentheses;
      anything else is a base filter. An error in any part is raised. */
  function AdvancedFilterToSql(f: Filter): (r: Result<string, SqlError>)
    ensures r.Ok? && f.filterType == Some("join") ==>
      |r.value| >= 2 && r.value[0] == '(' && r.value[|r.value| - 1] == ')'
    ensures f.filterType != Some("join") ==> r == BaseFilterToSql(f)
    decreases f, 1
  {
    if f.filterType == Some("join") then
      match JoinParts(f.conditions)
      case Err(e) => Err(e)
      case Ok(parts) =>
        var joinType := if f.kind.Some? then f.kind.value else "AND";
        Ok("(" + Join(parts, " " + joinType + " ") + ")")
    else BaseFilterToSql(f)
  }

  /** The join's parts in order, dropping empty ones; the first error wins. */
  function JoinParts(cs: seq<Filter>): (r: Result<seq<string>, SqlError>)
    ensures r.Ok? ==> |r.value| <= |cs| && forall k :: 0 <= k < |r.value| ==> r.value[k] != ""
    decreases cs, 0
  {
    if cs == [] then Ok([])
    else
      assert cs[0] in cs;
      match AdvancedFilterToSql(cs[0])
      case Err(e) => Err(e)
      case Ok(part) =>
        match JoinParts(cs[1..])
        case Err(e) => Err(e)
        case Ok(rest) => Ok(if part != "" then [part] + rest else rest)
  }

  /** A join fails when any of its conditions fails. */
  lemma {:induction false} JoinFailsWithAnyPart(cs: seq<Filter>, k: nat)
    requires k < |cs| && AdvancedFilterToSql(cs[k]).Err?
    ensures JoinParts(cs).Err?
  {
    if k > 0 && AdvancedFilterToSql(cs[0]).Ok? {
      JoinFailsWithAnyPart(cs[1..], k - 1);
    }
  }

  /** No filter model produces an empty clause: base templates and joins
      are never empty, so dropping empty parts never drops anything. */
  lemma {:induction false} ClausesNeverEmpty(cs: seq<Filter>)
    requires JoinParts(cs).Ok?
    ensures |JoinParts(cs).value| == |cs|
    decreases |cs|
  {
    if cs != [] {
      ClausesNeverEmpty(cs[1..]);
      var f := cs[0];
      if f.filterType != Some("join") {
        BaseFilterOutcome(f);
      }
    }
  }

  /** `where_sql`: nothing for a filter without a (truthy) type. */
  function WhereSql(f: Filter): (r: Result<string, SqlError>)
    ensures f.kind.None? || f.kind == Some("") ==> r == Ok("")
    ensures f.kind.Some? && f.kind != Some("") ==> r == AdvancedFilterToSql(f)
  {
    if f.kind.None? || f.kind == Some("") then Ok("")
    else AdvancedFilterToSql(f)
  }

  // ---------------------------------------------------------------- where

  /** The filter clauses as the source collects them: empty clauses are
      skipped and every occurrence of " WHERE " is deleted from a clause. */
  function FilterClausesAsWritten(fs: seq<Filter>): Result<seq<string>, SqlError> {
    if fs == [] then Ok([])
    else
      match FilterClausesAsWritten(fs[..|fs| - 1])
      case Err(e) => Err(e)
      case Ok(cs) =>
        match WhereSql(fs[|fs| - 1])
        case Err(e) => Err(e)
        case Ok(c) => Ok(if c != "" then cs + [ReplaceAll(c, " WHERE ", "")] else cs)
  }

  /** Drops a leading " WHERE ", which is what the deletion is for. */
  function StripWherePrefix(c: string): (r: string)
    ensures StartsWith(c, " WHERE ") ==> r == c[7..]
    ensures !StartsWith(c, " WHERE ") ==> r == c
  {
    if StartsWith(c, " WHERE ") then c[7..] else c
  }

  /** The filter clauses, with only a leading " WHERE " dropped. */
  function FilterClauses(fs: seq<Filter>): Result<seq<string>, SqlError> {
    if fs == [] then Ok([])
    else
      match FilterClauses(fs[..|fs| - 1])
      case Err(e) => Err(e)
      case Ok(cs) =>
        match WhereSql(fs[|fs| - 1])
        case Err(e) => Err(e)
        case Ok(c) => Ok(if c != "" then cs + [StripWherePrefix(c)] else cs)
  }

  /** The WHERE clause built from the universe part and the filter clauses. */
  function WhereFromParts(universe: Option<seq<string>>, clauses: seq<string>, merge: string): string {
    var conds :=
      (if universe.Some? then ["ticker IN ('" + Join(universe.value, "', '") + "')"] else [])
      + (if clauses == [] then []
         else if |clauses| == 1 then [clauses[0]]
         else ["(" + Join(clauses, " " + merge + " ") + ")"]);
    if conds == [] then "" else " WHERE " + Join(conds, " AND ")
  }

  /** `where_sql_multiple`: an empty universe matches nothing, before any
      filter is looked at. */
  function WhereSqlMultiple(fs: seq<Filter>, merge: string, universe: Option<seq<string>>): Result<string, SqlError> {
    if universe == Some([]) then Ok(" WHERE 1=2")
    else
      match FilterClauses(fs)
      case Err(e) => Err(e)
      case Ok(clauses) => Ok(WhereFromParts(universe, clauses, merge))
  }

  function WhereSqlMultipleAsWritten(fs: seq<Filter>, merge: string, universe: Option<seq<string>>): Result<string, SqlError> {
    if universe == Some([]) then Ok(" WHERE 1=2")
    else
      match FilterClausesAsWritten(fs)
      case Err(e) => Err(e)
      case Ok(clauses) => Ok(WhereFromParts(universe, clauses, merge))
  }

  /** An empty universe gives the no-match clause whatever the filters are,
      even filters that would raise. */
  lemma {:induction false} EmptyUniverseMatchesNothing(fs: seq<Filter>, merge: string)
    ensures WhereSqlMultiple(fs, merge, Some([])) == Ok(" WHERE 1=2")
  {
  }

  /** Without a universe and without any clause there is no WHERE at all. */
  lemma {:induction false} WhereWithoutConditions(clauses: seq<string>, merge: string)
    ensures WhereFromParts(None, clauses, merge) == "" <==> clauses == []
  {
  }

  /** A single clause is used as it is. */
  lemma {:induction false} WhereSingleClause(clause: string, merge: string)
    ensures WhereFromParts(None, [clause], merge) == " WHERE " + clause
  {
  }

  /** Several clauses are merged with the merge operator, in parentheses. */
  lemma {:induction false} WhereMergedClauses(clauses: seq<string>, merge: string)
    requires |clauses| > 1
    ensures WhereFromParts(None, clauses, merge) == " WHERE (" + Join(clauses, " " + merge + " ") + ")"
  {
  }

  /** The universe restriction is AND-ed in front of the filter clauses. */
  lemma {:induction false} WhereUniverseFirst(universe: seq<string>, clauses: seq<string>, merge: string)
    requires clauses != []
    ensures var u := "ticker IN ('" + Join(universe, "', '") + "')";
      var c := if |clauses| == 1 then clauses[0] else "(" + Join(clauses, " " + merge + " ") + ")";
      WhereFromParts(Some(universe), clauses, merge) == " WHERE " + (u + " AND " + c)
  {
    var u := "ticker IN ('" + Join(universe, "', '") + "')";
    var c := if |clauses| == 1 then clauses[0] else "(" + Join(clauses, " " + merge + " ") + ")";
    var conds := [u] + [c];
    assert WhereFromParts(Some(universe), clauses, merge) == " WHERE " + Join(conds, " AND ");
    JoinPair(u, c, " AND ");
  }

  lemma {:induction false} JoinPair(a: string, b: string, sep: string)
    ensures Join([a] + [b], sep) == a + sep + b
  {
    assert ([a] + [b])[1..] == [b];
  }

  /** A clause produced by a filter never starts with " WHERE " (templates
      start with a quote or a parenthesis), so the intended prefix removal
      is the identity. */
  lemma {:induction false} FilterClausesVerbatim(fs: seq<Filter>)
    requires FilterClauses(fs).Ok?
    ensures forall c :: c in FilterClauses(fs).value ==> exists f :: f in fs && WhereSql(f) == Ok(c)
  {
    if fs != [] {
      FilterClausesVerbatim(fs[..|fs| - 1]);
      var f := fs[|fs| - 1];
      var c := WhereSql(f).value;
      if c != "" {
        ClauseNotWherePrefixed(f);
      }
      forall x | x in FilterClauses(fs).value ensures exists g :: g in fs && WhereSql(g) == Ok(x) {
        if x in FilterClauses(fs[..|fs| - 1]).value {
          var g :| g in fs[..|fs| - 1] && WhereSql(g) == Ok(x);
          assert g in fs;
        } else {
          assert x == c && f in fs;
        }
      }
    }
  }

  lemma {:induction false} ClauseNotWherePrefixed(f: Filter)
    requires WhereSql(f).Ok? && WhereSql(f).value != ""
    ensures !StartsWith(WhereSql(f).value, " WHERE ")
  {
    var c := WhereSql(f).value;
    assert c[0] == '(' || c[0] == '"';
  }

  /** A filter whose value contains " WHERE " (e.g. `equals` on "a WHERE b"):
      the source deletes those words from the clause, so the query compares
      against a different value than the one requested, while the prefix
      removal keeps the clause as it was. */
  lemma {:induction false} WhereDeletionChangesValue(col: string, s: string)
    requires Contains(s, " WHERE ")
    requires forall i :: 0 <= i < |s| ==> s[i] != '\''
    ensures var f := Filter(None, Some("equals"), Some(col), Str(s), []);
      && WhereSqlMultiple([f], "AND", None) == Ok(" WHERE " + WhereSql(f).value)
      && WhereSqlMultipleAsWritten([f], "AND", None) != WhereSqlMultiple([f], "AND", None)
  {
    var f := Filter(None, Some("equals"), Some(col), Str(s), []);
    var c := WhereSql(f).value;
    assert Contains(c, " WHERE ") by {
      var val := EscapeValue(Str(s));
      ReplaceCharAbsent(s, '\'', "''");
      assert val == "'" + s + "'";
      assert OccursAt(val, s, 1);
      BaseFilterOutcome(f);
      ContainsTransitive(val, s, " WHERE ");
      ContainsTransitive(c, val, " WHERE ");
    }
    var y := ReplaceAll(c, " WHERE ", "");
    DeleteAllShrinks(c, " WHERE ");
    ClauseNotWherePrefixed(f);
    SingleFilterClauses(f);
    WhereSingleClause(c, "AND");
    WhereSingleClause(y, "AND");
    assert WhereSqlMultiple([f], "AND", None) == Ok(" WHERE " + c);
    assert WhereSqlMultipleAsWritten([f], "AND", None) == Ok(" WHERE " + y);
    assert |" WHERE " + y| < |" WHERE " + c|;
  }

  lemma {:induction false} SingleFilterClauses(f: Filter)
    requires WhereSql(f).Ok? && WhereSql(f).value != ""
    ensures FilterClauses([f]) == Ok([StripWherePrefix(WhereSql(f).value)])
    ensures FilterClausesAsWritten([f]) == Ok([ReplaceAll(WhereSql(f).value, " WHERE ", "")])
  {
    var fs := [f];
    assert fs[..|fs| - 1] == [] && fs[|fs| - 1] == f;
    var c := WhereSql(f).value;
    var x, y := StripWherePrefix(c), ReplaceAll(c, " WHERE ", "");
    assert [] + [x] == [x] && [] + [y] == [y];
    assert FilterClauses(fs) == Ok([] + [x]);
    assert FilterClausesAsWritten(fs) == Ok([] + [y]);
  }

  // ---------------------------------------------------------------- order by

  /** The `sort` field of a sort entry: absent, an explicit null, or a text. */
  datatype SortField = SortAbsent | SortNull | SortText(text: string)

  /** A sort entry: `colId` (None when absent or null) and `sort`. */
  datatype SortEntry = SortEntry(colId: Option<string>, sort: SortField)

  /** The direction used for an entry: upper-cased, anything but ASC and
      DESC becomes ASC; "asc" when absent. An explicit null has no
      `upper`, so the entry raises whether or not it names a column. */
  function Direction(e: SortEntry): (d: Result<string, SqlError>)
    ensures d == if e.sort.SortNull? then Err(NullSort)
      else if e.sort.SortText? && Upper(e.sort.text) == "DESC" then Ok("DESC")
      else Ok("ASC")
  {
    match e.sort
    case SortNull => Err(NullSort)
    case SortAbsent => Ok("ASC")
    case SortText(t) =>
      var dir := Upper(t);
      if dir == "ASC" || dir == "DESC" then Ok(dir) else Ok("ASC")
  }

  predicate HasColumn(e: SortEntry) {
    e.colId.Some? && e.colId.value != ""
  }

  /** The ORDER BY items of the entries that name a column, in order; the
      first entry whose direction raises stops the loop. */
  function SortClauses(entries: seq<SortEntry>): (cs: Result<seq<string>, SqlError>)
  {
    if entries == [] then Ok([])
    else
      var e := entries[|entries| - 1];
      match SortClauses(entries[..|entries| - 1])
      case Err(err) => Err(err)
      case Ok(init) =>
        match Direction(e)
        case Err(err) => Err(err)
        case Ok(d) => Ok(init + (if HasColumn(e) then [Quote(e.colId.value) + " " + d] else []))
  }

  /** The sort fields raise exactly when some entry's `sort` is null;
      otherwise entries without a column are skipped and the others keep
      their order. */
  lemma {:induction false} SortClausesKeepNamed(entries: seq<SortEntry>)
    ensures SortClauses(entries).Err? <==> exists k :: 0 <= k < |entries| && entries[k].sort.SortNull?
    ensures SortClauses(entries).Ok? ==>
      && |SortClauses(entries).value| == |Named(entries)|
      && forall k :: 0 <= k < |Named(entries)| ==>
        SortClauses(entries).value[k] == Quote(Named(entries)[k].colId.value) + " " + Direction(Named(entries)[k]).value
  {
    if entries != [] {
      var init := entries[..|entries| - 1];
      SortClausesKeepNamed(init);
      forall k | 0 <= k < |init| ensures init[k] == entries[k] { }
      if SortClauses(init).Ok? && Direction(entries[|entries| - 1]).Ok? {
        forall k | 0 <= k < |Named(init)| ensures Named(init)[k].sort != SortNull {
          assert Named(init)[k] in init;
        }
      }
    }
  }

  /** The entries that name a column. */
  function Named(entries: seq<SortEntry>): (r: seq<SortEntry>)
    ensures forall k :: 0 <= k < |r| ==> HasColumn(r[k])
    ensures forall e :: e in r <==> e in entries && HasColumn(e)
  {
    if entries == [] then []
    else Named(entries[..|entries| - 1]) + (if HasColumn(entries[|entries| - 1]) then [entries[|entries| - 1]] else [])
  }

  function OrderBySpec(entries: seq<SortEntry>): Result<string, SqlError> {
    match SortClauses(entries)
    case Err(e) => Err(e)
    case Ok(cs) => Ok(if cs == [] then "" else " ORDER BY " + Join(cs, ", "))
  }

  /** No ORDER BY when no entry names a column, and an error exactly when
      some entry's `sort` is null. */
  lemma {:induction false} OrderByEmptyWhenUnnamed(entries: seq<SortEntry>)
    ensures OrderBySpec(entries).Err? <==> exists k :: 0 <= k < |entries| && entries[k].sort.SortNull?
    ensures OrderBySpec(entries).Ok? ==> (OrderBySpec(entries).value == "" <==> Named(entries) == [])
  {
    SortClausesKeepNamed(entries);
  }

  /** `order_by_sql`. */
  method OrderBySql(entries: seq<SortEntry>) returns (r: Result<string, SqlError>)
    ensures r == OrderBySpec(entries)
  {
    if entries == [] {
      return Ok("");
    }
    var clauses: seq<string> := [];
    var i := 0;
    while i < |entries|
      invariant 0 <= i <= |entries|
      invariant SortClauses(entries[..i]) == Ok(clauses)
    {
      var e := entries[i];
      if e.sort.SortNull? {
        assert entries[..i + 1][..i] == entries[..i];
        SortClausesFail(entries, i + 1);
        return Err(NullSort);
      }
      var direction := Upper(if e.sort.SortText? then e.sort.text else "asc");
      ghost var next := entries[..i + 1];
      assert next[..i] == entries[..i] && next[i] == e;
      if e.colId.Some? && e.colId.value != "" {
        if direction != "ASC" && direction != "DESC" {
          direction := "ASC";
        }
        if e.sort.SortAbsent? {
          assert Upper("asc") == "ASC";
        }
        assert Direction(e) == Ok(direction);
        assert SortClauses(next) == Ok(clauses + [Quote(e.colId.value) + " " + direction]);
        clauses := clauses + [Quote(e.colId.value) + " " + direction];
      } else {
        assert Direction(e).Ok?;
        assert clauses + [] == clauses;
      }
      i := i + 1;
    }
    assert entries[..i] == entries;
    if clauses == [] {
      return Ok("");
    }
    return Ok(" ORDER BY " + Join(clauses, ", "));
  }

  /** A raising prefix makes the whole sort list raise. */
  lemma {:induction false} SortClausesFail(entries: seq<SortEntry>, n: nat)
    requires n <= |entries| && SortClauses(entries[..n]).Err?
    ensures SortClauses(entries) == Err(NullSort)
    decreases |entries| - n
  {
    SortClausesNull(entries[..n]);
    if n < |entries| {
      assert entries[..n + 1][..n] == entries[..n];
      SortClausesFail(entries, n + 1);
    } else {
      assert entries[..n] == entries;
    }
  }

  /** The only error of the sort fields is the null direction. */
  lemma {:induction false} SortClausesNull(entries: seq<SortEntry>)
    ensures SortClauses(entries).Err? ==> SortClauses(entries) == Err(NullSort)
  {
    if entries != [] {
      SortClausesNull(entries[..|entries| - 1]);
    }
  }

  // ---------------------------------------------------------------- limit

  function LimitOffsetSpec(limit: Option<int>, offset: Option<int>): (r: string) {
    var parts := (if offset.Some? then ["OFFSET " + IntToString(offset.value)] else [])
      + (if limit.Some? then ["LIMIT " + IntToString(limit.value)] else []);
    if parts == [] then "" else " " + Join(parts, " ")
  }

  /** Nothing when neither is given. */
  lemma {:induction false} LimitOffsetEmpty(limit: Option<int>, offset: Option<int>)
    ensures LimitOffsetSpec(limit, offset) == "" <==> limit.None? && offset.None?
  {
  }

  /** OFFSET comes before LIMIT. */
  lemma {:induction false} OffsetBeforeLimit(limit: int, offset: int)
    ensures var o, l := "OFFSET " + IntToString(offset), "LIMIT " + IntToString(limit);
      LimitOffsetSpec(Some(limit), Some(offset)) == " " + o + " " + l
  {
    var o, l := "OFFSET " + IntToString(offset), "LIMIT " + IntToString(limit);
    var parts := [o, l];
    assert parts[1..] == [l];
  }

  /** `limit_offset_sql`. */
  method LimitOffsetSql(limit: Option<int>, offset: Option<int>) returns (r: string)
    ensures r == LimitOffsetSpec(limit, offset)
  {
    var parts: seq<string> := [];
    if offset.Some? {
      parts := parts + ["OFFSET " + IntToString(offset.value)];
    }
    if limit.Some? {
      parts := parts + ["LIMIT " + IntToString(limit.value)];
    }
    r := if parts != [] then " " + Join(parts, " ") else "";
  }

  // ---------------------------------------------------------------- where (loop)

  /** `where_sql_multiple` as a loop over the filters, with the corrected
      prefix removal. */
  method WhereSqlMultipleLoop(fs: seq<Filter>, merge: string, universe: Option<seq<string>>)
    returns (r: Result<string, SqlError>)
    ensures r == WhereSqlMultiple(fs, merge, universe)
  {
    if universe == Some([]) {
      return Ok(" WHERE 1=2");
    }
    var clauses: seq<string> := [];
    var i := 0;
    while i < |fs|
      invariant 0 <= i <= |fs|
      invariant FilterClauses(fs[..i]) == Ok(clauses)
    {
      assert fs[..i + 1][..i] == fs[..i];
      var clause := WhereSql(fs[i]);
      if clause.Err? {
        FilterClausesFail(fs, i + 1, clause.error);
        return Err(clause.error);
      }
      if clause.value != "" {
        clauses := clauses + [StripWherePrefix(clause.value)];
      }
      i := i + 1;
    }
    assert fs[..i] == fs;
    return Ok(WhereFromParts(universe, clauses, merge));
  }

  /** A failing prefix makes the whole filter list fail. */
  lemma {:induction false} FilterClausesFail(fs: seq<Filter>, n: nat, e: SqlError)
    requires n <= |fs| && FilterClauses(fs[..n]) == Err(e)
    ensures FilterClauses(fs) == Err(e)
    decreases |fs| - n
  {
    if n < |fs| {
      assert fs[..n + 1][..n] == fs[..n];
      FilterClausesFail(fs, n + 1, e);
    } else {
      assert fs[..n] == fs;
    }
  }

  // ---------------------------------------------------------------- query

  /** `build_sql`: the WHERE part is built before the ORDER BY part, so a
      filter error is raised before a sort error. */
  function BuildSql(table: string, columns: Option<seq<string>>, fs: seq<Filter>, merge: string,
                    sort: seq<SortEntry>, limit: Option<int>, offset: Option<int>,
                    universe: Option<seq<string>>): (r: Result<string, SqlError>)
  {
    match WhereSqlMultiple(fs, merge, universe)
    case Err(e) => Err(e)
    case Ok(where) =>
      match OrderBySpec(sort)
      case Err(e) => Err(e)
      case Ok(order) =>
        var query := SelectSql(columns) + " FROM " + table + where + order + LimitOffsetSpec(limit, offset);
        Ok("SELECT" + query + ";")
  }

  /** A built query starts with SELECT and ends with ";"; it fails exactly
      when a filter fails or a sort entry's direction is null, the filter
      error first. */
  lemma {:induction false} BuildSqlShape(table: string, columns: Option<seq<string>>, fs: seq<Filter>, merge: string,
                      sort: seq<SortEntry>, limit: Option<int>, offset: Option<int>,
                      universe: Option<seq<string>>)
    ensures var r := BuildSql(table, columns, fs, merge, sort, limit, offset, universe);
      && (r.Ok? ==> StartsWith(r.value, "SELECT") && r.value[|r.value| - 1] == ';')
      && (r.Err? <==> WhereSqlMultiple(fs, merge, universe).Err? || exists k :: 0 <= k < |sort| && sort[k].sort.SortNull?)
      && (WhereSqlMultiple(fs, merge, universe).Err? ==> r == Err(WhereSqlMultiple(fs, merge, universe).error))
  {
    OrderByEmptyWhenUnnamed(sort);
    match WhereSqlMultiple(fs, merge, universe)
    case Err(_) =>
    case Ok(where) =>
      match OrderBySpec(sort)
      case Err(_) =>
      case Ok(order) =>
        SelectStatement(SelectSql(columns) + " FROM " + table + where + order + LimitOffsetSpec(limit, offset));
  }

  lemma {:induction false} SelectStatement(query: string)
    ensures var q := "SELECT" + query + ";"; StartsWith(q, "SELECT") && q[|q| - 1] == ';'
  {
    var q := "SELECT" + query + ";";
    assert q[..6] == "SELECT";
  }
}

=== FILE: scanner_ws.dfy ===
/** The scanner service's WebSocket protocol: the earlier, smaller form of
    the screener protocol. A session keeps filters, sort, columns and a row
    range; the page query always merges filters with OR and keeps the sort
    as given; there is no universe and no authentication. Its requests,
    views and messages are its own types, so the reply and dispatch
    functions below are stated over them rather than shared with the
    screener protocol's module. */
module ScannerWs {
  import opened Wrappers
  import opened Sockets

  /** A JSON object of a request (a filter or a sort entry), opaque here. */
  type Dict = map<string, string>

  const DEFAULT_COLUMNS: seq<string> := ["ticker", "name", "logo", "day_close"]

  /** How the page query combines the filters. */
  const FILTER_MERGE := "OR"

  datatype SubscribeRequest = SubscribeRequest(
    sessionId: string, filters: seq<Dict>, sort: seq<Dict>, columns: seq<string>, range: seq<int>)

  datatype PatchRequest = PatchRequest(
    sessionId: string, filters: Option<seq<Dict>>, sort: Option<seq<Dict>>,
    columns: Option<seq<string>>, range: Option<(int, int)>)

  datatype Request =
    | Subscribe(subscribe: SubscribeRequest)
    | Patch(patch: PatchRequest)
    | Unsubscribe(id: string)

  /** What a session shows. The range is a list after a subscribe and a
      pair after a patch. */
  datatype View = View(filters: seq<Dict>, sort: seq<Dict>, columns: seq<string>, range: seq<int>)

  const DEFAULT_VIEW := View([], [], DEFAULT_COLUMNS, [0, -1])

  /** The page query a full response is built from. */
  datatype Query = Query(
    columns: seq<string>, filters: seq<Dict>, sort: seq<Dict>, filterMerge: string, offset: int, limit: int)

  datatype Message =
    | Subscribed(sessionId: string)
    | Patched(sessionId: string)
    | FullResponse(sessionId: string, query: Query, start: int, end: int)
    | Duplicate(sessionId: string)
    | ErrorReply

  /** A range that is not a pair cannot be unpacked. */
  datatype DispatchError = RangeNotAPair

  // ---------------------------------------------------------------- views

  /** `subscribe`: the request's view, with the default columns for none
      and the range (0, -1) for fewer than two bounds. */
  function SubscribeView(req: SubscribeRequest): (v: View)
    ensures v.filters == req.filters && v.sort == req.sort
    ensures v.columns == if req.columns == [] then DEFAULT_COLUMNS else req.columns
    ensures v.range == if |req.range| < 2 then [0, -1] else req.range
  {
    View(req.filters, req.sort,
      if |req.columns| == 0 then DEFAULT_COLUMNS else req.columns,
      if |req.range| < 2 then [0, -1] else req.range)
  }

  predicate Patches(req: PatchRequest) {
    req.columns.Some? || req.filters.Some? || req.range.Some? || req.sort.Some?
  }

  /** `patch`: only the fields given change; an empty column list becomes
      ["name"]. */
  function PatchView(v: View, req: PatchRequest): (r: View)
    ensures !Patches(req) ==> r == v
    ensures r.filters == if req.filters.Some? then req.filters.value else v.filters
    ensures r.sort == if req.sort.Some? then req.sort.value else v.sort
    ensures req.columns.None? ==> r.columns == v.columns
    ensures req.columns == Some([]) ==> r.columns == ["name"]
    ensures req.range.Some? ==> r.range == [req.range.value.0, req.range.value.1]
    ensures req.range.None? ==> r.range == v.range
  {
    v.(columns := if req.columns.Some? then (if |req.columns.value| == 0 then ["name"] else req.columns.value) else v.columns)
     .(filters := if req.filters.Some? then req.filters.value else v.filters)
     .(range := if req.range.Some? then [req.range.value.0, req.range.value.1] else v.range)
     .(sort := if req.sort.Some? then req.sort.value else v.sort)
  }

  /** Repeating a patch changes nothing more. */
  lemma {:induction false} PatchIdempotent(v: View, req: PatchRequest)
    ensures PatchView(PatchView(v, req), req) == PatchView(v, req)
  {
  }

  /** `dispatch_full_response`: nothing for an empty or negative range,
      otherwise one response for the rows start..end, asked for as offset
      start and limit end - start with the filters merged by OR. */
  function FullResponseFor(id: string, v: View): (r: Result<seq<Message>, DispatchError>)
    ensures |v.range| != 2 <==> r.Err?
    ensures r.Ok? && (v.range[1] < v.range[0] || v.range[1] < 0) ==> r.value == []
    ensures r.Ok? && r.value != [] ==>
      && |r.value| == 1 && r.value[0].FullResponse? && r.value[0].sessionId == id
      && r.value[0].start == r.value[0].query.offset == v.range[0]
      && r.value[0].end == v.range[1] >= 0
      && r.value[0].query.limit == v.range[1] - v.range[0] >= 0
      && r.value[0].query == Query(v.columns, v.filters, v.sort, FILTER_MERGE, v.range[0], v.range[1] - v.range[0])
  {
    if |v.range| != 2 then Err(RangeNotAPair)
    else
      var start, end := v.range[0], v.range[1];
      if end < start || end < 0 then Ok([])
      else Ok([FullResponse(id, Query(v.columns, v.filters, v.sort, FILTER_MERGE, start, end - start), start, end)])
  }

  /** What a patch sends: the acknowledgement and the new page, or nothing
      when no field was given. */
  function PatchSends(id: string, v: View, req: PatchRequest): (r: Result<seq<Message>, DispatchError>)
    ensures !Patches(req) ==> r == Ok([])
    ensures Patches(req) && r.Ok? ==> |r.value| >= 1 && r.value[0] == Patched(id)
  {
    if !Patches(req) then Ok([])
    else match FullResponseFor(id, PatchView(v, req))
      case Ok(ms) => Ok([Patched(id)] + ms)
      case Err(e) => Err(e)
  }

  // ---------------------------------------------------------------- replies

  /** The reply to a subscribe as written: the duplicate notice is built
      but never awaited, so nothing reaches the socket. */
  function SubscribeRepliesAsWritten(open: set<string>, req: SubscribeRequest): (r: seq<Message>)
    ensures req.sessionId !in open ==> r == [Subscribed(req.sessionId)]
  {
    if req.sessionId in open then [] else [Subscribed(req.sessionId)]
  }

  /** The reply to a subscribe: a duplicate id is told so. */
  function SubscribeReply(open: set<string>, req: SubscribeRequest): (r: Message)
    ensures r == Subscribed(req.sessionId) || r == Duplicate(req.sessionId)
    ensures r.Duplicate? <==> req.sessionId in open
  {
    if req.sessionId in open then Duplicate(req.sessionId) else Subscribed(req.sessionId)
  }

  /** As written, a second subscribe with an open session id goes
      unanswered. */
  lemma DuplicateUnansweredAsWritten()
    ensures SubscribeRepliesAsWritten({"s1"}, SubscribeRequest("s1", [], [], [], [])) == []
    ensures SubscribeReply({"s1"}, SubscribeRequest("s1", [], [], [], [])) == Duplicate("s1")
  {
  }

  // ---------------------------------------------------------------- dispatch

  /** The open views after `on_data` handles one request: a subscribe
      opens a new id, an unsubscribe drops one, a patch changes only the
      view it names, and an unknown id changes nothing. */
  function NextViews(views: map<string, View>, req: Request): (r: map<string, View>)
    ensures r.Keys == match req
      case Subscribe(sub) => views.Keys + {sub.sessionId}
      case Unsubscribe(id) => views.Keys - {id}
      case Patch(_) => views.Keys
  {
    match req
    case Subscribe(sub) => if sub.sessionId in views then views else views[sub.sessionId := SubscribeView(sub)]
    case Patch(p) => if p.sessionId in views then views[p.sessionId := PatchView(views[p.sessionId], p)] else views
    case Unsubscribe(id) => views - {id}
  }

  /** Only the view a request names changes; every other open view is
      kept. */
  lemma {:induction false} NextViewsKeepsOthers(views: map<string, View>, req: Request, k: string)
    requires k in views && k in NextViews(views, req)
    requires NextViews(views, req)[k] != views[k]
    ensures req.Patch? && k == req.patch.sessionId
  {
  }

  /** Whether the handler for one request raises, as far as this model
      sees: a patch of an open session whose range is no pair. The range
      unpacking is the only failure modelled; the page query's own
      exceptions are not (the query is not executed here). */
  predicate Fails(views: map<string, View>, req: Request) {
    req.Patch? && req.patch.sessionId in views
    && PatchSends(req.patch.sessionId, views[req.patch.sessionId], req.patch).Err?
  }

  /** What the handler for one request writes to the socket before it
      returns or raises. */
  function Sent(views: map<string, View>, req: Request): seq<Message> {
    match req
    case Subscribe(sub) => [SubscribeReply(views.Keys, sub)]
    case Patch(p) =>
      if p.sessionId !in views then []
      else
        var s := PatchSends(p.sessionId, views[p.sessionId], p);
        if s.Ok? then s.value else if Patches(p) then [Patched(p.sessionId)] else []
    case Unsubscribe(_) => []
  }

  /** What one step of `listen` writes: the error reply for a message that
      does not validate, otherwise what its handler sends, followed by the
      error reply when the handler raises. */
  function Reply(views: map<string, View>, req: Option<Request>): seq<Message> {
    match req
    case None => [ErrorReply]
    case Some(q) => Sent(views, q) + (if Fails(views, q) then [ErrorReply] else [])
  }

  /** No handler sends the error reply itself. */
  lemma {:induction false} SentHasNoError(views: map<string, View>, req: Request)
    ensures ErrorReply !in Sent(views, req)
  {
    match req
    case Patch(p) =>
      if p.sessionId in views && Patches(p) {
        var f := FullResponseFor(p.sessionId, PatchView(views[p.sessionId], p));
        if f.Ok? {
          assert PatchSends(p.sessionId, views[p.sessionId], p).value == [Patched(p.sessionId)] + f.value;
          assert ErrorReply !in f.value;
        }
      }
    case Subscribe(_) =>
    case Unsubscribe(_) =>
  }

  /** The client is told of an error exactly when its message did not
      validate or its handler failed as `Fails` says, and then as the last
      thing written. */
  lemma {:induction false} ErrorReplyIffFailure(views: map<string, View>, req: Option<Request>)
    ensures ErrorReply in Reply(views, req) <==> req.None? || Fails(views, req.value)
    ensures ErrorReply in Reply(views, req) ==> Reply(views, req)[|Reply(views, req)| - 1] == ErrorReply
  {
    if req.Some? {
      SentHasNoError(views, req.value);
    }
  }

  // ---------------------------------------------------------------- objects

  class ScreenerSession {
    const ws: WebSocket<Message>
    const sessionId: string
    var filters: seq<Dict>
    var sort: seq<Dict>
    var columns: seq<string>
    var range: seq<int>

    function CurrentView(): View
      reads this
    {
      View(filters, sort, columns, range)
    }

    constructor(ws: WebSocket<Message>, sessionId: string)
      ensures this.ws == ws && this.sessionId == sessionId
      ensures CurrentView() == DEFAULT_VIEW
    {
      this.ws, this.sessionId := ws, sessionId;
      filters, sort, columns, range := [], [], DEFAULT_COLUMNS, [0, -1];
    }

    /** `subscribe`: take the request's view and acknowledge. */
    method Subscribe(req: SubscribeRequest)
      modifies this, ws
      ensures CurrentView() == SubscribeView(req)
      ensures ws.sent == old(ws.sent) + [Subscribed(req.sessionId)]
    {
      columns := if |req.columns| == 0 then DEFAULT_COLUMNS else req.columns;
      range := if |req.range| < 2 then [0, -1] else req.range;
      filters, sort := req.filters, req.sort;
      ws.SendJson(Subscribed(req.sessionId));
    }

    method DispatchFullResponse() returns (r: Result<(), DispatchError>)
      modifies ws
      ensures var f := FullResponseFor(sessionId, CurrentView());
        && (r.Ok? <==> f.Ok?)
        && ws.sent == old(ws.sent) + (if f.Ok? then f.value else [])
    {
      if |range| != 2 {
        return Err(RangeNotAPair);
      }
      var start, end := range[0], range[1];
      if end < start || end < 0 {
        return Ok(());
      }
      ws.SendJson(FullResponse(sessionId, Query(columns, filters, sort, FILTER_MERGE, start, end - start), start, end));
      return Ok(());
    }

    method SetView(v: View)
      modifies this
      ensures CurrentView() == v
    {
      filters, sort, columns, range := v.filters, v.sort, v.columns, v.range;
    }

    /** `patch`: apply the given fields; if any was given, acknowledge and
        send the new page. */
    method Patch(req: PatchRequest) returns (r: Result<(), DispatchError>)
      modifies this, ws
      ensures CurrentView() == PatchView(old(CurrentView()), req)
      ensures var p := PatchSends(sessionId, old(CurrentView()), req);
        && (r.Ok? <==> p.Ok?)
        && ws.sent == old(ws.sent) + (if p.Ok? then p.value else if Patches(req) then [Patched(sessionId)] else [])
    {
      SetView(PatchView(CurrentView(), req));
      r := Ok(());
      if Patches(req) {
        ws.SendJson(Patched(sessionId));
        r := DispatchFullResponse();
      }
    }
  }

  /** One client connection and its screener sessions by id. */
  class WSSession {
    const ws: WebSocket<Message>
    var ss: map<string, ScreenerSession>

    /** Every session writes to this connection's socket and is filed under
        its own id, so distinct ids hold distinct sessions. */
    ghost predicate Valid()
      reads this, ss.Values
    {
      forall id :: id in ss ==> ss[id].ws == ws && ss[id].sessionId == id
    }

    /** The view of each open session. */
    function Views(): map<string, View>
      reads this, ss.Values
    {
      map id | id in ss :: ss[id].CurrentView()
    }

    constructor(ws: WebSocket<Message>)
      ensures this.ws == ws && ss == map[] && Valid()
    {
      this.ws := ws;
      ss := map[];
    }

    /** `on_screener_subscribe`: a new id opens a session; an open id is
        refused and keeps its session. */
    method OnScreenerSubscribe(req: SubscribeRequest)
      requires Valid()
      modifies this, ws
      ensures Valid()
      ensures req.sessionId in old(ss) ==> ss == old(ss) && Views() == old(Views())
      ensures req.sessionId !in old(ss) ==>
        && ss.Keys == old(ss.Keys) + {req.sessionId} && fresh(ss[req.sessionId])
        && Views() == old(Views())[req.sessionId := SubscribeView(req)]
      ensures ws.sent == old(ws.sent) + [SubscribeReply(old(ss.Keys), req)]
    {
      if req.sessionId in ss {
        ws.SendJson(Duplicate(req.sessionId));
      } else {
        AddSession(req);
      }
    }

    /** A new session on this connection, subscribed to `req`. */
    method OpenSession(req: SubscribeRequest) returns (s: ScreenerSession)
      modifies ws
      ensures fresh(s) && s.ws == ws && s.sessionId == req.sessionId
      ensures s.CurrentView() == SubscribeView(req)
      ensures ws.sent == old(ws.sent) + [Subscribed(req.sessionId)]
    {
      s := new ScreenerSession(ws, req.sessionId);
      s.Subscribe(req);
    }

    /** Open, subscribe and file a session under a new id. */
    method AddSession(req: SubscribeRequest)
      requires Valid() && req.sessionId !in ss
      modifies this, ws
      ensures Valid()
      ensures ss.Keys == old(ss.Keys) + {req.sessionId} && fresh(ss[req.sessionId])
      ensures Views() == old(Views())[req.sessionId := SubscribeView(req)]
      ensures ws.sent == old(ws.sent) + [Subscribed(req.sessionId)]
    {
      ghost var before := Views();
      ghost var old_ss := ss;
      var s := OpenSession(req);
      ss := ss[req.sessionId := s];
      ghost var after := before[req.sessionId := SubscribeView(req)];
      forall k | k in ss ensures ss[k].CurrentView() == after[k] {
        if k != req.sessionId {
          assert ss[k] == old_ss[k];
        }
      }
      assert Views().Keys == after.Keys;
      assert Views() == after;
    }

    /** `on_screener_unsubscribe`: an open session is dropped (its own
        unsubscribe does nothing); an unknown id changes nothing. */
    method OnScreenerUnsubscribe(id: string)
      requires Valid()
      modifies this
      ensures Valid() && ss == old(ss) - {id} && Views() == old(Views()) - {id}
    {
      if id in ss {
        ss := ss - {id};
      }
    }

    /** `on_screener_patch`: only the named session changes. */
    method OnScreenerPatch(req: PatchRequest) returns (r: Result<(), DispatchError>)
      requires Valid()
      modifies ss.Values, ws
      ensures Valid() && ss == old(ss)
      ensures Views() == if req.sessionId in old(ss)
        then old(Views())[req.sessionId := PatchView(old(Views())[req.sessionId], req)] else old(Views())
      ensures req.sessionId !in old(ss) ==> r.Ok? && ws.sent == old(ws.sent)
      ensures req.sessionId in old(ss) ==>
        var p := PatchSends(req.sessionId, old(Views())[req.sessionId], req);
        && (r.Ok? <==> p.Ok?)
        && ws.sent == old(ws.sent) + (if p.Ok? then p.value else if Patches(req) then [Patched(req.sessionId)] else [])
    {
      r := Ok(());
      if req.sessionId in ss {
        r := ss[req.sessionId].Patch(req);
      }
    }

    /** `on_disconnect`: only logged; the sessions stay as they were. */
    method OnDisconnect()
      modifies {}
      ensures ss == old(ss) && Views() == old(Views())
    {
    }

    /** `on_data` for one validated request: the handler the request's
        kind names, with the views and messages `NextViews` and `Sent`
        describe. */
    method OnData(req: Request) returns (r: Result<(), DispatchError>)
      requires Valid()
      modifies this, ss.Values, ws
      ensures Valid()
      ensures Views() == NextViews(old(Views()), req)
      ensures ws.sent == old(ws.sent) + Sent(old(Views()), req)
      ensures r.Err? <==> Fails(old(Views()), req)
    {
      r := Ok(());
      match req {
        case Subscribe(sub) => OnScreenerSubscribe(sub);
        case Patch(p) => r := OnScreenerPatch(p);
        case Unsubscribe(id) => OnScreenerUnsubscribe(id);
      }
    }

    /** One step of `listen`: a message that does not validate changes
        nothing and is answered with an error; a valid one is handled, and
        answered with an error after whatever its handler sent if the
        handler raises. */
    method Receive(req: Option<Request>)
      requires Valid()
      modifies this, ss.Values, ws
      ensures Valid()
      ensures req.None? ==> ss == old(ss) && Views() == old(Views())
      ensures req.Some? ==> Views() == NextViews(old(Views()), req.value)
      ensures ws.sent == old(ws.sent) + Reply(old(Views()), req)
    {
      if req.None? {
        SendError();
      } else {
        Handle(req.value);
      }
    }

    /** A validated message in `listen`: its handler runs, and a handler
        that raises is answered with the error reply. */
    method Handle(req: Request)
      requires Valid()
      modifies this, ss.Values, ws
      ensures Valid() && Views() == NextViews(old(Views()), req)
      ensures ws.sent == old(ws.sent) + Sent(old(Views()), req) + (if Fails(old(Views()), req) then [ErrorReply] else [])
    {
      var r := OnData(req);
      if r.Err? {
        SendError();
      }
    }

    /** The error reply of `listen`; no session changes. */
    method SendError()
      requires Valid()
      modifies ws
      ensures Valid() && ss == old(ss) && Views() == old(Views())
      ensures ws.sent == old(ws.sent) + [ErrorReply]
    {
      ws.SendJson(ErrorReply);
    }
  }
}

=== FILE: screener_ws.dfy ===
/** The screener's WebSocket protocol (the API service): a connection holds
    screener sessions by id; each session keeps the view it shows
    (universe, filters, sort, columns, row range) and answers with the rows
    of that range. Queries and quote streaming are abstracted: a full
    response carries the query it is built from. */
module ScreenerWs {
  import opened Wrappers
  import opened Sockets

  /** A JSON object of a request (a filter or a sort entry), opaque here. */
  type Dict = map<string, string>

  datatype Merge = AndMerge | OrMerge

  const DEFAULT_COLUMNS: seq<string> := ["ticker", "name", "logo", "day_close"]

  /** The tiebreaker that keeps pages stable among equal sort values. */
  const NAME_ASC: Dict := map["colId" := "name", "sort" := "ASC"]

  datatype SubscribeRequest = SubscribeRequest(
    sessionId: string, filters: seq<Dict>, filterMerge: Merge, sort: seq<Dict>,
    columns: seq<string>, range: seq<int>, universe: Option<seq<string>>)

  datatype PatchRequest = PatchRequest(
    sessionId: string, filters: Option<seq<Dict>>, filterMerge: Option<Merge>,
    sort: Option<seq<Dict>>, columns: Option<seq<string>>, range: Option<(int, int)>)

  datatype Request =
    | Auth(token: string)
    | Subscribe(subscribe: SubscribeRequest)
    | Patch(patch: PatchRequest)
    | Unsubscribe(id: string)
    | SetUniverse(target: string, universe: Option<seq<string>>)

  /** What a session shows. The range is a list after a subscribe and a
      pair after a patch. */
  datatype View = View(
    universe: Option<seq<string>>, filters: seq<Dict>, filterMerge: Merge,
    sort: seq<Dict>, columns: seq<string>, range: seq<int>)

  const DEFAULT_VIEW := View(None, [], OrMerge, [], DEFAULT_COLUMNS, [0, -1])

  /** The page query a full response is built from. */
  datatype Query = Query(
    columns: seq<string>, filters: seq<Dict>, sort: seq<Dict>, filterMerge: Merge,
    offset: int, limit: int, universe: Option<seq<string>>)

  datatype Message =
    | Subscribed(sessionId: string)
    | Patched(sessionId: string)
    | FullResponse(sessionId: string, query: Query, start: int, end: int)
    | Duplicate(sessionId: string)
    | ErrorReply

  /** A range that is not a pair cannot be unpacked. */
  datatype DispatchError = RangeNotAPair

  // ---------------------------------------------------------------- views

  /** `subscribe`: the request's view, with the default columns for none,
      the range (0, -1) for fewer than two bounds, and the name tiebreaker
      after the requested sort. */
  function SubscribeView(req: SubscribeRequest): (v: View)
    ensures v.universe == req.universe && v.filters == req.filters && v.filterMerge == req.filterMerge
    ensures v.columns == if req.columns == [] then DEFAULT_COLUMNS else req.columns
    ensures v.range == if |req.range| < 2 then [0, -1] else req.range
    ensures |v.sort| == |req.sort| + 1 && v.sort[..|req.sort|] == req.sort && v.sort[|req.sort|..] == [NAME_ASC]
  {
    View(req.universe, req.filters, req.filterMerge, req.sort + [NAME_ASC],
      if |req.columns| == 0 then DEFAULT_COLUMNS else req.columns,
      if |req.range| < 2 then [0, -1] else req.range)
  }

  predicate Patches(req: PatchRequest) {
    req.filterMerge.Some? || req.columns.Some? || req.filters.Some? || req.range.Some? || req.sort.Some?
  }

  /** `patch`: only the fields given change; an empty column list becomes
      ["name"] and a new sort gets the name tiebreaker. */
  function PatchView(v: View, req: PatchRequest): (r: View)
    ensures !Patches(req) ==> r == v
    ensures r.universe == v.universe
    ensures r.filterMerge == if req.filterMerge.Some? then req.filterMerge.value else v.filterMerge
    ensures r.filters == if req.filters.Some? then req.filters.value else v.filters
    ensures req.columns.None? ==> r.columns == v.columns
    ensures req.columns == Some([]) ==> r.columns == ["name"]
    ensures req.range.Some? ==> r.range == [req.range.value.0, req.range.value.1]
    ensures req.range.None? ==> r.range == v.range
    ensures req.sort.Some? ==> r.sort == req.sort.value + [NAME_ASC]
    ensures req.sort.None? ==> r.sort == v.sort
  {
    v.(filterMerge := if req.filterMerge.Some? then req.filterMerge.value else v.filterMerge)
     .(columns := if req.columns.Some? then (if |req.columns.value| == 0 then ["name"] else req.columns.value) else v.columns)
     .(filters := if req.filters.Some? then req.filters.value else v.filters)
     .(range := if req.range.Some? then [req.range.value.0, req.range.value.1] else v.range)
     .(sort := if req.sort.Some? then req.sort.value + [NAME_ASC] else v.sort)
  }

  /** `dispatch_full_response`: nothing for an empty or negative range,
      otherwise one response for the rows start..end, asked for as offset
      start and limit end - start. */
  function FullResponseFor(id: string, v: View): (r: Result<seq<Message>, DispatchError>)
    ensures |v.range| != 2 <==> r.Err?
    ensures r.Ok? && (v.range[1] < v.range[0] || v.range[1] < 0) ==> r.value == []
    ensures r.Ok? && r.value != [] ==>
      && |r.value| == 1 && r.value[0].FullResponse? && r.value[0].sessionId == id
      && r.value[0].start == r.value[0].query.offset == v.range[0]
      && r.value[0].end == v.range[1] >= 0
      && r.value[0].query.limit == v.range[1] - v.range[0] >= 0
      && r.value[0].query == Query(v.columns, v.filters, v.sort, v.filterMerge, v.range[0], v.range[1] - v.range[0], v.universe)
  {
    if |v.range| != 2 then Err(RangeNotAPair)
    else
      var start, end := v.range[0], v.range[1];
      if end < start || end < 0 then Ok([])
      else Ok([FullResponse(id, Query(v.columns, v.filters, v.sort, v.filterMerge, start, end - start, v.universe), start, end)])
  }

  /** Repeating a patch changes nothing more. */
  lemma {:induction false} PatchIdempotent(v: View, req: PatchRequest)
    ensures PatchView(PatchView(v, req), req) == PatchView(v, req)
  {
  }

  /** A fresh session answers nothing until its range is set. */
  lemma {:induction false} DefaultRangeSendsNothing(id: string, req: SubscribeRequest)
    requires |req.range| < 2
    ensures FullResponseFor(id, SubscribeView(req)) == Ok([])
  {
  }

  /** What a patch sends: the acknowledgement and the new page, or nothing
      when no field was given. */
  function PatchSends(id: string, v: View, req: PatchRequest): (r: Result<seq<Message>, DispatchError>)
    ensures !Patches(req) ==> r == Ok([])
    ensures Patches(req) && r.Ok? ==> |r.value| >= 1 && r.value[0] == Patched(id)
  {
    if !Patches(req) then Ok([])
    else match FullResponseFor(id, PatchView(v, req))
      case Ok(ms) => Ok([Patched(id)] + ms)
      case Err(e) => Err(e)
  }

  // ---------------------------------------------------------------- replies

  /** The reply to a subscribe as written: the duplicate notice is built
      but never awaited, so nothing reaches the socket. */
  function SubscribeRepliesAsWritten(open: set<string>, req: SubscribeRequest): (r: seq<Message>)
    ensures req.sessionId !in open ==> r == [Subscribed(req.sessionId)]
  {
    if req.sessionId in open then [] else [Subscribed(req.sessionId)]
  }

  /** The reply to a subscribe: a duplicate id is told so. */
  function SubscribeReply(open: set<string>, req: SubscribeRequest): (r: Message)
    ensures r == Subscribed(req.sessionId) || r == Duplicate(req.sessionId)
    ensures r.Duplicate? <==> req.sessionId in open
  {
    if req.sessionId in open then Duplicate(req.sessionId) else Subscribed(req.sessionId)
  }

  /** As written, a second subscribe with an open session id goes
      unanswered. */
  lemma DuplicateUnansweredAsWritten()
    ensures SubscribeRepliesAsWritten({"s1"}, SubscribeRequest("s1", [], OrMerge, [], [], [], None)) == []
    ensures SubscribeReply({"s1"}, SubscribeRequest("s1", [], OrMerge, [], [], [], None)) == Duplicate("s1")
  {
  }

  // ---------------------------------------------------------------- dispatch

  /** The open views after `on_data` handles one request: a subscribe
      opens a new id, an unsubscribe drops one, a patch or a universe
      switch changes only the view it names, and an unknown id changes
      nothing. */
  function NextViews(views: map<string, View>, req: Request): (r: map<string, View>)
    ensures r.Keys == match req
      case Subscribe(sub) => views.Keys + {sub.sessionId}
      case Unsubscribe(id) => views.Keys - {id}
      case Auth(_) => views.Keys
      case Patch(_) => views.Keys
      case SetUniverse(_, _) => views.Keys
  {
    match req
    case Auth(_) => views
    case Subscribe(sub) => if sub.sessionId in views then views else views[sub.sessionId := SubscribeView(sub)]
    case Patch(p) => if p.sessionId in views then views[p.sessionId := PatchView(views[p.sessionId], p)] else views
    case Unsubscribe(id) => views - {id}
    case SetUniverse(id, u) => if id in views then views[id := views[id].(universe := u)] else views
  }

  /** Only the view a request names changes; every other open view is
      kept. */
  lemma {:induction false} NextViewsKeepsOthers(views: map<string, View>, req: Request, k: string)
    requires k in views && k in NextViews(views, req)
    requires NextViews(views, req)[k] != views[k]
    ensures (req.Patch? && k == req.patch.sessionId) || (req.SetUniverse? && k == req.target)
  {
  }

  /** The connection's token after one request: only an auth with a real
      token replaces it. */
  function NextToken(token: Option<string>, req: Request): (r: Option<string>)
    ensures r != token ==> req.Auth? && r == Some(req.token) && req.token != "no_auth"
  {
    if req.Auth? && req.token != "no_auth" then Some(req.token) else token
  }

  /** Whether the handler for one request raises, as far as this model
      sees: a patch or a universe switch of an open session whose range is
      no pair. The range unpacking is the only failure modelled; the page
      query's own exceptions are not (the query is not executed here). */
  predicate Fails(views: map<string, View>, req: Request) {
    match req
    case Patch(p) => p.sessionId in views && PatchSends(p.sessionId, views[p.sessionId], p).Err?
    case SetUniverse(id, u) => id in views && FullResponseFor(id, views[id].(universe := u)).Err?
    case Auth(_) => false
    case Subscribe(_) => false
    case Unsubscribe(_) => false
  }

  /** What the handler for one request writes to the socket before it
      returns or raises. */
  function Sent(views: map<string, View>, req: Request): seq<Message> {
    match req
    case Auth(_) => []
    case Subscribe(sub) => [SubscribeReply(views.Keys, sub)]
    case Patch(p) =>
      if p.sessionId !in views then []
      else
        var s := PatchSends(p.sessionId, views[p.sessionId], p);
        if s.Ok? then s.value else if Patches(p) then [Patched(p.sessionId)] else []
    case Unsubscribe(_) => []
    case SetUniverse(id, u) =>
      if id !in views then []
      else
        var f := FullResponseFor(id, views[id].(universe := u));
        if f.Ok? then f.value else []
  }

  /** What one step of `listen` writes: the error reply for a message that
      does not validate, otherwise what its handler sends, followed by the
      error reply when the handler raises. */
  function Reply(views: map<string, View>, req: Option<Request>): seq<Message> {
    match req
    case None => [ErrorReply]
    case Some(q) => Sent(views, q) + (if Fails(views, q) then [ErrorReply] else [])
  }

  /** No handler sends the error reply itself. */
  lemma {:induction false} SentHasNoError(views: map<string, View>, req: Request)
    ensures ErrorReply !in Sent(views, req)
  {
    match req
    case Patch(p) =>
      if p.sessionId in views && Patches(p) {
        var f := FullResponseFor(p.sessionId, PatchView(views[p.sessionId], p));
        if f.Ok? {
          assert PatchSends(p.sessionId, views[p.sessionId], p).value == [Patched(p.sessionId)] + f.value;
          assert ErrorReply !in f.value;
        }
      }
    case SetUniverse(id, u) =>
    case Auth(_) =>
    case Subscribe(_) =>
    case Unsubscribe(_) =>
  }

  /** The client is told of an error exactly when its message did not
      validate or its handler failed as `Fails` says, and then as the last
      thing written. */
  lemma {:induction false} ErrorReplyIffFailure(views: map<string, View>, req: Option<Request>)
    ensures ErrorReply in Reply(views, req) <==> req.None? || Fails(views, req.value)
    ensures ErrorReply in Reply(views, req) ==> Reply(views, req)[|Reply(views, req)| - 1] == ErrorReply
  {
    if req.Some? {
      SentHasNoError(views, req.value);
    }
  }

  // ---------------------------------------------------------------- objects

  datatype Task = NoTask | Running | Cancelled

  class ScreenerSession {
    const ws: WebSocket<Message>
    const sessionId: string
    const token: Option<string>
    var universe: Option<seq<string>>
    var filters: seq<Dict>
    var filterMerge: Merge
    var sort: seq<Dict>
    var columns: seq<string>
    var range: seq<int>
    var dispatcher: Task

    function CurrentView(): View
      reads this
    {
      View(universe, filters, filterMerge, sort, columns, range)
    }

    constructor(ws: WebSocket<Message>, sessionId: string, token: Option<string>)
      ensures this.ws == ws && this.sessionId == sessionId && this.token == token
      ensures CurrentView() == DEFAULT_VIEW && dispatcher == NoTask
    {
      this.ws, this.sessionId, this.token := ws, sessionId, token;
      universe, filters, filterMerge, sort := None, [], OrMerge, [];
      columns, range, dispatcher := DEFAULT_COLUMNS, [0, -1], NoTask;
    }

    /** `subscribe`: take the request's view, acknowledge, start the
        realtime task. */
    method Subscribe(req: SubscribeRequest)
      modifies this, ws
      ensures CurrentView() == SubscribeView(req) && dispatcher == Running
      ensures ws.sent == old(ws.sent) + [Subscribed(req.sessionId)]
    {
      universe := req.universe;
      columns := if |req.columns| == 0 then DEFAULT_COLUMNS else req.columns;
      range := if |req.range| < 2 then [0, -1] else req.range;
      filters, filterMerge := req.filters, req.filterMerge;
      sort := req.sort + [NAME_ASC];
      ws.SendJson(Subscribed(req.sessionId));
      dispatcher := Running;
    }

    /** `unsubscribe`: cancel the realtime task if there is one. */
    method Unsubscribe()
      modifies this
      ensures CurrentView() == old(CurrentView())
      ensures dispatcher == if old(dispatcher) == NoTask then NoTask else Cancelled
    {
      if dispatcher != NoTask {
        dispatcher := Cancelled;
      }
    }

    method DispatchFullResponse() returns (r: Result<(), DispatchError>)
      modifies ws
      ensures var f := FullResponseFor(sessionId, CurrentView());
        && (r.Ok? <==> f.Ok?)
        && ws.sent == old(ws.sent) + (if f.Ok? then f.value else [])
    {
      if |range| != 2 {
        return Err(RangeNotAPair);
      }
      var start, end := range[0], range[1];
      if end < start || end < 0 {
        return Ok(());
      }
      ws.SendJson(FullResponse(sessionId, Query(columns, filters, sort, filterMerge, start, end - start, universe), start, end));
      return Ok(());
    }

    method SetView(v: View)
      modifies this
      ensures CurrentView() == v && dispatcher == old(dispatcher)
    {
      universe, filters, filterMerge := v.universe, v.filters, v.filterMerge;
      sort, columns, range := v.sort, v.columns, v.range;
    }

    /** `patch`: apply the given fields; if any was given, acknowledge and
        send the new page. */
    method Patch(req: PatchRequest) returns (r: Result<(), DispatchError>)
      modifies this, ws
      ensures CurrentView() == PatchView(old(CurrentView()), req) && dispatcher == old(dispatcher)
      ensures var p := PatchSends(sessionId, old(CurrentView()), req);
        && (r.Ok? <==> p.Ok?)
        && ws.sent == old(ws.sent) + (if p.Ok? then p.value else if Patches(req) then [Patched(sessionId)] else [])
    {
      SetView(PatchView(CurrentView(), req));
      r := Ok(());
      if Patches(req) {
        ws.SendJson(Patched(sessionId));
        r := DispatchFullResponse();
      }
    }

    /** `set_universe`: switch the universe and send the new page. */
    method SetUniverse(u: Option<seq<string>>) returns (r: Result<(), DispatchError>)
      modifies this, ws
      ensures CurrentView() == old(CurrentView()).(universe := u) && dispatcher == old(dispatcher)
      ensures var f := FullResponseFor(sessionId, CurrentView());
        && (r.Ok? <==> f.Ok?)
        && ws.sent == old(ws.sent) + (if f.Ok? then f.value else [])
    {
      universe := u;
      r := DispatchFullResponse();
    }
  }

  /** One client connection and its screener sessions by id. */
  class WSSession {
    const ws: WebSocket<Message>
    var token: Option<string>
    var ss: map<string, ScreenerSession>

    /** Every session writes to this connection's socket and is filed under
        its own id, so distinct ids hold distinct sessions. */
    ghost predicate Valid()
      reads this, ss.Values
    {
      forall id :: id in ss ==> ss[id].ws == ws && ss[id].sessionId == id
    }

    /** The view of each open session. */
    function Views(): map<string, View>
      reads this, ss.Values
    {
      map id | id in ss :: ss[id].CurrentView()
    }

    constructor(ws: WebSocket<Message>)
      ensures this.ws == ws && token.None? && ss == map[] && Valid()
    {
      this.ws := ws;
      token, ss := None, map[];
    }

    /** `on_auth`: the placeholder token "no_auth" is ignored. */
    method OnAuth(t: string)
      modifies this
      ensures token == if t != "no_auth" then Some(t) else old(token)
      ensures ss == old(ss)
    {
      if t != "no_auth" {
        token := Some(t);
      }
    }

    /** `on_screener_subscribe`: a new id opens a session that inherits the
        connection's token; an open id is refused and keeps its session. */
    method OnScreenerSubscribe(req: SubscribeRequest)
      requires Valid()
      modifies this, ws
      ensures Valid() && token == old(token)
      ensures req.sessionId in old(ss) ==> ss == old(ss) && Views() == old(Views())
      ensures req.sessionId !in old(ss) ==>
        && ss.Keys == old(ss.Keys) + {req.sessionId}
        && fresh(ss[req.sessionId]) && ss[req.sessionId].token == old(token)
        && Views() == old(Views())[req.sessionId := SubscribeView(req)]
      ensures ws.sent == old(ws.sent) + [SubscribeReply(old(ss.Keys), req)]
    {
      if req.sessionId in ss {
        ws.SendJson(Duplicate(req.sessionId));
      } else {
        AddSession(req);
      }
    }

    /** A new session on this connection, subscribed to `req`. */
    method OpenSession(req: SubscribeRequest) returns (s: ScreenerSession)
      modifies ws
      ensures fresh(s) && s.ws == ws && s.sessionId == req.sessionId && s.token == token
      ensures s.CurrentView() == SubscribeView(req)
      ensures ws.sent == old(ws.sent) + [Subscribed(req.sessionId)]
    {
      s := new ScreenerSession(ws, req.sessionId, token);
      s.Subscribe(req);
    }

    /** Open, subscribe and file a session under a new id. */
    method AddSession(req: SubscribeRequest)
      requires Valid() && req.sessionId !in ss
      modifies this, ws
      ensures Valid() && token == old(token)
      ensures ss.Keys == old(ss.Keys) + {req.sessionId}
      ensures fresh(ss[req.sessionId]) && ss[req.sessionId].token == old(token)
      ensures Views() == old(Views())[req.sessionId := SubscribeView(req)]
      ensures ws.sent == old(ws.sent) + [Subscribed(req.sessionId)]
    {
      ghost var before := Views();
      ghost var old_ss := ss;
      var s := OpenSession(req);
      ss := ss[req.sessionId := s];
      ghost var after := before[req.sessionId := SubscribeView(req)];
      forall k | k in ss ensures ss[k].CurrentView() == after[k] {
        if k != req.sessionId {
          assert ss[k] == old_ss[k];
        }
      }
      assert Views().Keys == after.Keys;
      assert Views() == after;
    }

    /** `on_screener_unsubscribe`: an open session is stopped and dropped;
        an unknown id changes nothing. */
    method OnScreenerUnsubscribe(id: string)
      requires Valid()
      modifies this, ss.Values
      ensures Valid() && token == old(token)
      ensures ss == old(ss) - {id} && Views() == old(Views()) - {id}
      ensures id in old(ss) ==> old(ss)[id].dispatcher != Running
    {
      if id in ss {
        ss[id].Unsubscribe();
        ss := ss - {id};
      }
    }

    /** `on_screener_patch`: only the named session changes. */
    method OnScreenerPatch(req: PatchRequest) returns (r: Result<(), DispatchError>)
      requires Valid()
      modifies ss.Values, ws
      ensures Valid() && ss == old(ss)
      ensures Views() == if req.sessionId in old(ss)
        then old(Views())[req.sessionId := PatchView(old(Views())[req.sessionId], req)] else old(Views())
      ensures req.sessionId !in old(ss) ==> r.Ok? && ws.sent == old(ws.sent)
      ensures req.sessionId in old(ss) ==>
        var p := PatchSends(req.sessionId, old(Views())[req.sessionId], req);
        && (r.Ok? <==> p.Ok?)
        && ws.sent == old(ws.sent) + (if p.Ok? then p.value else if Patches(req) then [Patched(req.sessionId)] else [])
    {
      r := Ok(());
      if req.sessionId in ss {
        r := ss[req.sessionId].Patch(req);
      }
    }

    /** `on_screener_set_universe`: only the named session changes. */
    method OnScreenerSetUniverse(id: string, u: Option<seq<string>>) returns (r: Result<(), DispatchError>)
      requires Valid()
      modifies ss.Values, ws
      ensures Valid() && ss == old(ss)
      ensures Views() == if id in old(ss) then old(Views())[id := old(Views())[id].(universe := u)] else old(Views())
      ensures id !in old(ss) ==> r.Ok? && ws.sent == old(ws.sent)
      ensures id in old(ss) ==>
        var f := FullResponseFor(id, old(Views())[id].(universe := u));
        && (r.Ok? <==> f.Ok?)
        && ws.sent == old(ws.sent) + (if f.Ok? then f.value else [])
    {
      r := Ok(());
      if id in ss {
        r := ss[id].SetUniverse(u);
      }
    }

    /** `on_disconnect`: every session is stopped, then all are dropped. */
    method OnDisconnect()
      requires Valid()
      modifies this, ss.Values
      ensures ss == map[] && Valid() && token == old(token)
      ensures forall s :: s in old(ss.Values) ==> s.dispatcher != Running
    {
      var todo := ss.Values;
      while todo != {}
        invariant todo <= old(ss.Values) && ss == old(ss) && token == old(token)
        invariant forall s :: s in old(ss.Values) - todo ==> s.dispatcher != Running
        decreases |todo|
      {
        var s :| s in todo;
        s.Unsubscribe();
        todo := todo - {s};
      }
      ss := map[];
    }

    /** `on_data` for one validated request: the handler the request's
        kind names, with the views, token and messages `NextViews`,
        `NextToken` and `Sent` describe. */
    method OnData(req: Request) returns (r: Result<(), DispatchError>)
      requires Valid()
      modifies this, ss.Values, ws
      ensures Valid()
      ensures Views() == NextViews(old(Views()), req) && token == NextToken(old(token), req)
      ensures ws.sent == old(ws.sent) + Sent(old(Views()), req)
      ensures r.Err? <==> Fails(old(Views()), req)
    {
      r := Ok(());
      match req {
        case Auth(t) => OnAuth(t);
        case Subscribe(sub) => OnScreenerSubscribe(sub);
        case Patch(p) => r := OnScreenerPatch(p);
        case Unsubscribe(id) => OnScreenerUnsubscribe(id);
        case SetUniverse(id, u) => r := OnScreenerSetUniverse(id, u);
      }
    }

    /** One step of `listen`: a message that does not validate changes
        nothing and is answered with an error; a valid one is handled, and
        answered with an error after whatever its handler sent if the
        handler raises. */
    method Receive(req: Option<Request>)
      requires Valid()
      modifies this, ss.Values, ws
      ensures Valid()
      ensures req.None? ==> ss == old(ss) && Views() == old(Views()) && token == old(token)
      ensures req.Some? ==> Views() == NextViews(old(Views()), req.value) && token == NextToken(old(token), req.value)
      ensures ws.sent == old(ws.sent) + Reply(old(Views()), req)
    {
      if req.None? {
        SendError();
      } else {
        Handle(req.value);
      }
    }

    /** A validated message in `listen`: its handler runs, and a handler
        that raises is answered with the error reply. */
    method Handle(req: Request)
      requires Valid()
      modifies this, ss.Values, ws
      ensures Valid() && Views() == NextViews(old(Views()), req) && token == NextToken(old(token), req)
      ensures ws.sent == old(ws.sent) + Sent(old(Views()), req) + (if Fails(old(Views()), req) then [ErrorReply] else [])
    {
      var r := OnData(req);
      if r.Err? {
        SendError();
      }
    }

    /** The error reply of `listen`; no session changes. */
    method SendError()
      requires Valid()
      modifies ws
      ensures Valid() && ss == old(ss) && Views() == old(Views())
      ensures ws.sent == old(ws.sent) + [ErrorReply]
    {
      ws.SendJson(ErrorReply);
    }
  }
}

=== FILE: sockets.dfy ===
/** A WebSocket as the screener sessions use it: a record of the JSON
    messages sent on it, in order. */
module Sockets {
  class WebSocket<M> {
    var sent: seq<M>

    constructor()
      ensures sent == []
    {
      sent := [];
    }

    /** `send_json`: the message goes after everything sent before. */
    method SendJson(m: M)
      modifies this
      ensures sent == old(sent) + [m]
    {
      sent := sent + [m];
    }
  }
}

=== FILE: stocktwits.dfy ===
/** The StockTwits client's translation of a feed request into an endpoint
    and its query parameters. */
module StockTwits {
  import opened Text

  /** The feeds of a global request, as the request model admits them. */
  datatype GlobalFeed = Trending | Suggested | Popular

  /** The two kinds of a symbol feed. */
  datatype SymbolFilter = TrendingMessages | PopularMessages

  datatype Param =
    | GlobalFeedParam(feed: GlobalFeed, limit: int)
    | SymbolFeedParam(filter: SymbolFilter, symbol: string, limit: int)

  datatype Query = Query(filter: string, limit: int)

  const API := "https://api.stocktwits.com/api/2/"

  /** "SYM" becomes "SYM.NSE" and "EX:SYM" becomes "SYM.EX"; pieces after a
      second colon are ignored. */
  function StockTwitsSymbol(symbol: string): (r: string)
  {
    var parts := Split(symbol, ':');
    if |parts| == 1 then parts[0] + ".NSE" else parts[1] + "." + parts[0]
  }

  /** `_to_request_param`: the endpoint and query of a request. */
  function ToRequestParam(p: Param): (r: (string, Query))
    ensures r.1.limit == p.limit
  {
    match p
    case SymbolFeedParam(filter, symbol, limit) =>
      var st := StockTwitsSymbol(symbol);
      if filter == TrendingMessages then (API + "streams/symbol/" + st + ".json", Query("all", limit))
      else (API + "trending_messages/symbol/" + st + ".json", Query("top", limit))
    case GlobalFeedParam(feed, limit) =>
      match feed
      case Suggested => (API + "streams/suggested.json", Query("top", limit))
      case Trending => (API + "streams/trending.json", Query("all", limit))
      case Popular => (API + "trending_messages/symbol_trending", Query("all", limit))
  }

  predicate NoColon(s: string) {
    forall i :: 0 <= i < |s| ==> s[i] != ':'
  }

  /** A bare symbol is taken as NSE; an exchange-qualified one is reversed
      around a dot. */
  lemma {:induction false} SymbolForms(ex: string, sym: string)
    requires NoColon(ex) && NoColon(sym)
    ensures StockTwitsSymbol(sym) == sym + ".NSE"
    ensures StockTwitsSymbol(ex + ":" + sym) == sym + "." + ex
  {
    SplitNoSeparator(sym, ':');
    SplitAfterPiece(ex, ':', sym);
  }

  /** The filter is "top" exactly for the suggested global feed and for
      popular symbol feeds, and "all" otherwise. */
  lemma {:induction false} FilterChoice(p: Param)
    ensures ToRequestParam(p).1.filter == "top" <==>
      (p.GlobalFeedParam? && p.feed == Suggested) || (p.SymbolFeedParam? && p.filter == PopularMessages)
    ensures ToRequestParam(p).1.filter == "top" || ToRequestParam(p).1.filter == "all"
  {
  }

  /** Symbol feeds address the symbol's own stream. */
  lemma {:induction false} SymbolFeedUrl(filter: SymbolFilter, ex: string, sym: string, limit: int)
    requires NoColon(ex) && NoColon(sym)
    ensures ToRequestParam(SymbolFeedParam(filter, ex + ":" + sym, limit)).0 ==
      API + (if filter == TrendingMessages then "streams/symbol/" else "trending_messages/symbol/") + sym + "." + ex + ".json"
  {
    SymbolForms(ex, sym);
  }
}

=== FILE: text.dfy ===
/** String helpers with the behaviour of the Python built-ins the system uses:
    `str.startswith`, `str.join`, `str.replace`, `str.find`, `str.split`,
    `str.strip`, `str.upper`/`str.lower` (ASCII letters only), `str(int)` and
    `int(str)` (decimal digits only). */
module Text {
  import opened Wrappers

  predicate StartsWith(s: string, prefix: string) {
    |prefix| <= |s| && s[..|prefix|] == prefix
  }

  /** `sep.join(parts)`. */
  function Join(parts: seq<string>, sep: string): (r: string)
    ensures parts == [] ==> r == ""
    ensures |parts| == 1 ==> r == parts[0]
  {
    if parts == [] then ""
    else if |parts| == 1 then parts[0]
    else parts[0] + sep + Join(parts[1..], sep)
  }

  /** True when `pat` occurs in `s` starting at index `i`. */
  predicate OccursAt(s: string, pat: string, i: int) {
    0 <= i && i + |pat| <= |s| && s[i..i + |pat|] == pat
  }

  predicate Contains(s: string, pat: string) {
    exists i :: 0 <= i <= |s| && OccursAt(s, pat, i)
  }

  /** `s.find(pat)`: the first index of `pat` at or after `from`, or -1. */
  function FindFrom(s: string, pat: string, from: nat): (r: int)
    requires from <= |s|
    ensures r == -1 || (from <= r && OccursAt(s, pat, r))
    ensures r == -1 ==> forall i :: from <= i ==> !OccursAt(s, pat, i)
    ensures r != -1 ==> forall i :: from <= i < r ==> !OccursAt(s, pat, i)
    decreases |s| - from
  {
    if from + |pat| > |s| then -1
    else if s[from..from + |pat|] == pat then from
    else if from == |s| then -1
    else FindFrom(s, pat, from + 1)
  }

  /** `FindFrom` returns the first occurrence. */
  lemma {:induction false} FindFromFirst(s: string, pat: string, from: nat, k: nat)
    requires from <= k <= |s| && OccursAt(s, pat, k)
    requires forall i :: from <= i < k ==> !OccursAt(s, pat, i)
    ensures FindFrom(s, pat, from) == k
    decreases k - from
  {
    if from < k {
      assert !OccursAt(s, pat, from);
      FindFromFirst(s, pat, from + 1, k);
    }
  }

  function Find(s: string, pat: string): (r: int)
    ensures r == -1 <==> !Contains(s, pat)
    ensures r != -1 ==> OccursAt(s, pat, r) && forall i :: 0 <= i < r ==> !OccursAt(s, pat, i)
  {
    FindFrom(s, pat, 0)
  }

  /** `s.replace(pat, rep)`: every non-overlapping occurrence, scanning left to right. */
  function ReplaceAll(s: string, pat: string, rep: string): (r: string)
    requires |pat| > 0
    decreases |s|
  {
    if |s| < |pat| then s
    else if s[..|pat|] == pat then rep + ReplaceAll(s[|pat|..], pat, rep)
    else [s[0]] + ReplaceAll(s[1..], pat, rep)
  }

  /** Replacing a pattern that does not occur leaves the string as it was. */
  lemma {:induction false} ReplaceAllAbsent(s: string, pat: string, rep: string)
    requires |pat| > 0 && !Contains(s, pat)
    ensures ReplaceAll(s, pat, rep) == s
    decreases |s|
  {
    if |s| >= |pat| {
      assert !OccursAt(s, pat, 0);
      assert !Contains(s[1..], pat) by {
        forall i | OccursAt(s[1..], pat, i) ensures OccursAt(s, pat, i + 1) {
          assert s[1..][i..i + |pat|] == s[i + 1..i + 1 + |pat|];
        }
      }
      ReplaceAllAbsent(s[1..], pat, rep);
    }
  }

  /** Deleting a pattern never lengthens a string, and shortens it when the
      pattern occurs. */
  lemma {:induction false} DeleteAllShrinks(s: string, pat: string)
    requires |pat| > 0
    ensures |ReplaceAll(s, pat, "")| <= |s|
    ensures Contains(s, pat) ==> |ReplaceAll(s, pat, "")| < |s|
    decreases |s|
  {
    if |s| >= |pat| {
      if s[..|pat|] == pat {
        DeleteAllShrinks(s[|pat|..], pat);
      } else {
        DeleteAllShrinks(s[1..], pat);
        if Contains(s, pat) {
          var i :| 0 <= i <= |s| && OccursAt(s, pat, i);
          assert i != 0;
          assert s[1..][i - 1..i - 1 + |pat|] == s[i..i + |pat|];
          assert OccursAt(s[1..], pat, i - 1);
        }
      }
    }
  }

  /** An occurrence inside an occurrence is an occurrence. */
  lemma {:induction false} ContainsTransitive(a: string, b: string, p: string)
    requires Contains(a, b) && Contains(b, p)
    ensures Contains(a, p)
  {
    var i :| 0 <= i <= |a| && OccursAt(a, b, i);
    var j :| 0 <= j <= |b| && OccursAt(b, p, j);
    var sub := a[i..i + |b|];
    assert forall m :: 0 <= m < |b| ==> a[i + m] == sub[m];
    assert a[i + j..i + j + |p|] == b[j..j + |p|];
    assert OccursAt(a, p, i + j);
  }

  /** Replacing one character by a string: each occurrence of `c` becomes `rep`,
      every other character is kept, in order. */
  function ReplaceChar(s: string, c: char, rep: string): (r: string)
    ensures (forall i :: 0 <= i < |rep| ==> rep[i] != c) ==> (forall i :: 0 <= i < |r| ==> r[i] != c)
    decreases |s|
  {
    if s == [] then ""
    else (if s[0] == c then rep else [s[0]]) + ReplaceChar(s[1..], c, rep)
  }

  /** Each occurrence of `c` grows or shrinks the string by `|rep| - 1`. */
  lemma {:induction false} ReplaceCharLength(s: string, c: char, rep: string)
    ensures |ReplaceChar(s, c, rep)| == |s| + (|rep| - 1) * CountChar(s, c)
    decreases |s|
  {
    if s != [] {
      ReplaceCharLength(s[1..], c, rep);
      var n := CountChar(s[1..], c);
      if s[0] == c {
        assert (|rep| - 1) * (n + 1) == (|rep| - 1) * n + |rep| - 1;
      }
    }
  }

  /** Replacing a character that does not occur changes nothing. */
  lemma {:induction false} ReplaceCharAbsent(s: string, c: char, rep: string)
    requires forall i :: 0 <= i < |s| ==> s[i] != c
    ensures ReplaceChar(s, c, rep) == s
    decreases |s|
  {
    if s != [] {
      ReplaceCharAbsent(s[1..], c, rep);
      assert [s[0]] + s[1..] == s;
    }
  }

  function CountChar(s: string, c: char): nat {
    if s == [] then 0 else (if s[0] == c then 1 else 0) + CountChar(s[1..], c)
  }

  /** `str.replace` with a one-character pattern is `ReplaceChar`. */
  lemma {:induction false} ReplaceAllOneChar(s: string, c: char, rep: string)
    ensures ReplaceAll(s, [c], rep) == ReplaceChar(s, c, rep)
    decreases |s|
  {
    if s != [] {
      ReplaceAllOneChar(s[1..], c, rep);
    }
  }

  /** `s.split(sep)` for a one-character separator. */
  function Split(s: string, sep: char): (parts: seq<string>)
    ensures |parts| >= 1
    ensures |parts| == CountChar(s, sep) + 1
    ensures forall k, i :: 0 <= k < |parts| && 0 <= i < |parts[k]| ==> parts[k][i] != sep
    decreases |s|
  {
    if s == [] then [""]
    else
      var rest := Split(s[1..], sep);
      if s[0] == sep then [""] + rest
      else [[s[0]] + rest[0]] + rest[1..]
  }

  /** A string without the separator splits into itself alone. */
  lemma {:induction false} SplitNoSeparator(s: string, sep: char)
    requires forall i :: 0 <= i < |s| ==> s[i] != sep
    ensures Split(s, sep) == [s]
    decreases |s|
  {
    if s != [] {
      SplitNoSeparator(s[1..], sep);
      assert [s[0]] + s[1..] == s;
    }
  }

  /** A first piece without the separator is split off whole. */
  lemma {:induction false} SplitAfterPiece(a: string, sep: char, rest: string)
    requires forall i :: 0 <= i < |a| ==> a[i] != sep
    ensures Split(a + [sep] + rest, sep) == [a] + Split(rest, sep)
    decreases |a|
  {
    if a == [] {
      assert (a + [sep] + rest)[1..] == rest;
    } else {
      SplitAfterPiece(a[1..], sep, rest);
      assert (a + [sep] + rest)[1..] == a[1..] + [sep] + rest;
      assert [a[0]] + a[1..] == a;
    }
  }

  /** Joining the pieces of a split with the separator gives the string back. */
  lemma {:induction false} JoinSplit(s: string, sep: char)
    ensures Join(Split(s, sep), [sep]) == s
  {
    JoinSplitReplaces(s, sep, sep);
    ReplaceCharSelf(s, sep);
  }

  /** Joining the pieces of a split with another character replaces every
      separator by that character. */
  lemma {:induction false} JoinSplitReplaces(s: string, sep: char, rep: char)
    ensures Join(Split(s, sep), [rep]) == ReplaceChar(s, sep, [rep])
    decreases |s|
  {
    if s != [] {
      JoinSplitReplaces(s[1..], sep, rep);
      var rest := Split(s[1..], sep);
      if s[0] == sep {
        JoinEmptyFirst(rest, [rep]);
      } else {
        JoinExtendFirst(s[0], rest, [rep]);
      }
    }
  }

  lemma {:induction false} JoinEmptyFirst(parts: seq<string>, sep: string)
    requires parts != []
    ensures Join([""] + parts, sep) == sep + Join(parts, sep)
  {
    assert ([""] + parts)[1..] == parts;
  }

  lemma {:induction false} JoinExtendFirst(x: char, parts: seq<string>, sep: string)
    requires parts != []
    ensures Join([[x] + parts[0]] + parts[1..], sep) == [x] + Join(parts, sep)
  {
    var q := [[x] + parts[0]] + parts[1..];
    if |parts| > 1 {
      assert q[1..] == parts[1..];
      assert Join(q, sep) == [x] + parts[0] + sep + Join(parts[1..], sep);
    }
  }

  lemma {:induction false} ReplaceCharSelf(s: string, c: char)
    ensures ReplaceChar(s, c, [c]) == s
    decreases |s|
  {
    if s != [] {
      ReplaceCharSelf(s[1..], c);
      assert [s[0]] + s[1..] == s;
    }
  }

  /** Replacing a character by one character keeps every position. */
  lemma {:induction false} ReplaceCharPointwise(s: string, c: char, d: char)
    ensures |ReplaceChar(s, c, [d])| == |s|
    ensures forall i :: 0 <= i < |s| ==> ReplaceChar(s, c, [d])[i] == if s[i] == c then d else s[i]
    decreases |s|
  {
    if s != [] {
      ReplaceCharPointwise(s[1..], c, d);
      var r := ReplaceChar(s, c, [d]);
      forall i | 1 <= i < |s| ensures r[i] == if s[i] == c then d else s[i] {
        assert r[i] == ReplaceChar(s[1..], c, [d])[i - 1];
      }
    }
  }

  // ---------------------------------------------------------------- case

  function UpperChar(c: char): char {
    if 'a' <= c <= 'z' then (c as int - 32) as char else c
  }

  function LowerChar(c: char): char {
    if 'A' <= c <= 'Z' then (c as int + 32) as char else c
  }

  function Upper(s: string): (r: string)
    ensures |r| == |s| && forall i :: 0 <= i < |s| ==> r[i] == UpperChar(s[i])
  {
    seq(|s|, i requires 0 <= i < |s| => UpperChar(s[i]))
  }

  function Lower(s: string): (r: string)
    ensures |r| == |s| && forall i :: 0 <= i < |s| ==> r[i] == LowerChar(s[i])
  {
    seq(|s|, i requires 0 <= i < |s| => LowerChar(s[i]))
  }

  // ---------------------------------------------------------------- strip

  /** The characters Python's `str.strip()` removes: `str.isspace`'s
      white space, the ASCII separators 0x1C-0x1F included. */
  predicate IsSpace(c: char) {
    || '\U{0009}' <= c <= '\U{000D}' || '\U{001C}' <= c <= '\U{0020}'
    || c == '\U{0085}' || c == '\U{00A0}' || c == '\U{1680}'
    || '\U{2000}' <= c <= '\U{200A}' || c == '\U{2028}' || c == '\U{2029}'
    || c == '\U{202F}' || c == '\U{205F}' || c == '\U{3000}'
  }

  function StripLeft(s: string): (r: string)
    ensures |r| <= |s| && (r != [] ==> !IsSpace(r[0]))
  {
    if s != [] && IsSpace(s[0]) then StripLeft(s[1..]) else s
  }

  function StripRight(s: string): (r: string)
    ensures |r| <= |s| && (r != [] ==> !IsSpace(r[|r| - 1]))
  {
    if s != [] && IsSpace(s[|s| - 1]) then StripRight(s[..|s| - 1]) else s
  }

  /** `s.strip()`: the white space `IsSpace` names is removed at both ends. */
  function Strip(s: string): (r: string) {
    StripRight(StripLeft(s))
  }

  /** A string strips to nothing exactly when it consists of white space only. */
  lemma {:induction false} StripEmptyIffBlank(s: string)
    ensures Strip(s) == "" <==> forall i :: 0 <= i < |s| ==> IsSpace(s[i])
    decreases |s|
  {
    if s != [] {
      if IsSpace(s[0]) {
        StripEmptyIffBlank(s[1..]);
        assert forall i :: 1 <= i < |s| ==> s[1..][i - 1] == s[i];
      } else {
        assert StripLeft(s) == s;
        assert StripRight(s) != "" by { StripRightKeepsNonSpace(s, 0); }
      }
    }
  }

  lemma {:induction false} StripRightKeepsNonSpace(s: string, k: nat)
    requires k < |s| && !IsSpace(s[k])
    ensures |StripRight(s)| > k
    decreases |s|
  {
    if IsSpace(s[|s| - 1]) {
      StripRightKeepsNonSpace(s[..|s| - 1], k);
    }
  }

  // ---------------------------------------------------------------- decimal

  predicate IsDigit(c: char) {
    '0' <= c <= '9'
  }

  predicate IsDigits(s: string) {
    forall i :: 0 <= i < |s| ==> IsDigit(s[i])
  }

  function DigitChar(d: nat): (c: char)
    requires d < 10
    ensures IsDigit(c) && c as int - '0' as int == d
  {
    (d + '0' as int) as char
  }

  /** `str(n)` for a natural number. */
  function NatToString(n: nat): (s: string)
    ensures |s| > 0 && IsDigits(s)
    decreases n
  {
    if n < 10 then [DigitChar(n)] else NatToString(n / 10) + [DigitChar(n % 10)]
  }

  /** `str(i)` for any integer. */
  function IntToString(i: int): (s: string)
    ensures |s| > 0
    ensures i >= 0 <==> IsDigits(s)
  {
    if i >= 0 then NatToString(i)
    else
      var r := "-" + NatToString(-i);
      assert !IsDigit(r[0]);
      r
  }

  /** `int(s)` for a non-empty string of decimal digits. */
  function ParseDigits(s: string): nat
    requires IsDigits(s)
  {
    if s == [] then 0 else ParseDigits(s[..|s| - 1]) * 10 + (s[|s| - 1] as int - '0' as int)
  }

  /** `int(str(n)) == n`. */
  lemma {:induction false} ParseNatToString(n: nat)
    ensures ParseDigits(NatToString(n)) == n
    decreases n
  {
    if n >= 10 {
      ParseNatToString(n / 10);
      var s := NatToString(n);
      assert s[..|s| - 1] == NatToString(n / 10);
    }
  }

  lemma {:induction false} NatToStringInjective(a: nat, b: nat)
    requires NatToString(a) == NatToString(b)
    ensures a == b
  {
    ParseNatToString(a);
    ParseNatToString(b);
  }
}

=== FILE: tradingview_utils.dfy ===
/** The bulk TradingView downloader's message handling: the encoder and the
    decoder of socket messages, the chunking of ticker lists, and the
    per-connection state that collects quotes and counts completed symbols.
    JSON values are carried by their text; whether a text parses as JSON is
    a parameter. */
module TradingViewUtils {
  import opened Wrappers
  import opened Text
  import opened Framing

  // ---------------------------------------------------------------- encode

  /** What `_encode` accepts: a string, one JSON object, or a list of
      objects (each possibly `None`). */
  datatype Data = Text(s: string) | Object(json: string) | Items(items: seq<Option<string>>)

  function ItemText(item: Option<string>): string {
    if item.Some? then item.value else ""
  }

  /** The payload of each frame `_encode` emits. */
  function Payloads(data: Data): (ps: seq<string>)
    ensures data.Items? ==> |ps| == |data.items|
  {
    match data
    case Text(s) => [s]
    case Object(json) => [json]
    case Items(items) => seq(|items|, k requires 0 <= k < |items| => ItemText(items[k]))
  }

  /** `_encode`: one frame per payload, in order; the decoder reads the
      payloads back. */
  method Encode(data: Data) returns (msg: string)
    ensures msg == Frames(Payloads(data))
    ensures DecodeLoose(msg) == Ok(Payloads(data))
  {
    if data.Text? {
      msg := Frame(data.s);
      assert Frames([data.s]) == Frame(data.s) + Frames([]);
    } else {
      var items := if data.Object? then [Some(data.json)] else data.items;
      msg := EncodeItems(items);
      assert Payloads(data) == Payloads(Items(items));
    }
    DecodeLooseFrames(Payloads(data));
  }

  /** The loop of `_encode` over a list of items. */
  method EncodeItems(items: seq<Option<string>>) returns (msg: string)
    ensures msg == Frames(Payloads(Items(items)))
  {
    ghost var ps := Payloads(Items(items));
    msg := "";
    var i := 0;
    while i < |items|
      invariant 0 <= i <= |items|
      invariant msg == Frames(ps[..i])
    {
      var stringified := if items[i].Some? then items[i].value else "";
      FramesPrefix(ps, i);
      msg := msg + Frame(stringified);
      i := i + 1;
    }
    assert ps[..i] == ps;
  }

  // ---------------------------------------------------------------- decode

  /** Prepends payloads already read to the result of reading the rest. */
  function Prepend(done: seq<string>, r: Result<seq<string>, FrameError>): Result<seq<string>, FrameError> {
    match r
    case Err(e) => Err(e)
    case Ok(ps) => Ok(done + ps)
  }

  /** The heartbeats echoed and the events parsed from the frames: a frame
      that starts with "{" but does not parse raises, so nothing after it
      is looked at. */
  function Classify(frames: seq<string>, parses: string -> bool): (r: (seq<string>, Result<seq<string>, string>))
  {
    if frames == [] then ([], Ok([]))
    else
      var (echoes, events) := Classify(frames[..|frames| - 1], parses);
      var m := frames[|frames| - 1];
      if events.Err? then (echoes, events)
      else
        var echoes' := if IsHeartbeat(m) then echoes + [m] else echoes;
        if IsJson(m) then (echoes', if parses(m) then Ok(events.value + [m]) else Err(m))
        else (echoes', events)
  }

  /** When every "{" frame parses, heartbeats are echoed and "{" frames
      become events, in order, and everything else is dropped. */
  lemma {:induction false} ClassifyWellFormed(frames: seq<string>, parses: string -> bool)
    requires forall k :: 0 <= k < |frames| && IsJson(frames[k]) ==> parses(frames[k])
    ensures Classify(frames, parses) == (Select(frames, IsHeartbeat), Ok(Select(frames, IsJson)))
  {
    if frames != [] {
      ClassifyWellFormed(frames[..|frames| - 1], parses);
    }
  }

  /** A "{" frame that does not parse makes the decoder raise. */
  lemma {:induction false} ClassifyBadJson(frames: seq<string>, parses: string -> bool, k: nat)
    requires k < |frames| && IsJson(frames[k]) && !parses(frames[k])
    ensures Classify(frames, parses).1.Err?
    decreases |frames|
  {
    if k < |frames| - 1 {
      ClassifyBadJson(frames[..|frames| - 1], parses, k);
    }
  }

  datatype DecodeError = Framing(e: FrameError) | BadJson(frame: string)

  /** `_decode`: the framing loop, then the frames are sorted into
      heartbeats to echo and events. */
  method Decode(msg: string, parses: string -> bool) returns (echoes: seq<string>, events: Result<seq<string>, DecodeError>)
    ensures DecodeLoose(msg).Err? ==> echoes == [] && events == Err(Framing(DecodeLoose(msg).error))
    ensures DecodeLoose(msg).Ok? ==>
      var c := Classify(DecodeLoose(msg).value, parses);
      echoes == c.0 && events == (if c.1.Ok? then Ok(c.1.value) else Err(BadJson(c.1.error)))
  {
    var decoded := ReadFrames(msg);
    if decoded.Err? {
      return [], Err(Framing(decoded.error));
    }
    var sorted;
    echoes, sorted := SortFrames(decoded.value, parses);
    events := if sorted.Ok? then Ok(sorted.value) else Err(BadJson(sorted.error));
  }

  /** The framing loop of `_decode`. */
  method ReadFrames(msg: string) returns (r: Result<seq<string>, FrameError>)
    ensures r == DecodeLoose(msg)
  {
    var decoded: seq<string> := [];
    var rest := msg;
    if DecodeLoose(msg).Ok? {
      assert [] + DecodeLoose(msg).value == DecodeLoose(msg).value;
    }
    while StartsWith(rest, PREFIX)
      invariant DecodeLoose(msg) == Prepend(decoded, DecodeLoose(rest))
      decreases |rest|
    {
      var t := LooseTurn(rest);
      if t.Bad? {
        return Err(BadLength(t.text));
      }
      PrependTwice(decoded, t.payload, DecodeLoose(t.next));
      decoded := decoded + [t.payload];
      rest := t.next;
    }
    assert decoded + [] == decoded;
    return Ok(decoded);
  }

  /** The second loop of `_decode`: heartbeats are echoed, "{" frames parsed. */
  method SortFrames(decoded: seq<string>, parses: string -> bool) returns (echoes: seq<string>, events: Result<seq<string>, string>)
    ensures (echoes, events) == Classify(decoded, parses)
  {
    echoes := [];
    var parsed: seq<string> := [];
    var i := 0;
    while i < |decoded|
      invariant 0 <= i <= |decoded|
      invariant Classify(decoded[..i], parses) == (echoes, Ok(parsed))
    {
      var m := decoded[i];
      assert decoded[..i + 1][..i] == decoded[..i];
      if StartsWith(m, "~h~") {
        echoes := echoes + [m];
      }
      if StartsWith(m, "{") {
        if !parses(m) {
          ClassifyStops(decoded, i + 1, parses);
          return echoes, Err(m);
        }
        parsed := parsed + [m];
      }
      i := i + 1;
    }
    assert decoded[..i] == decoded;
    events := Ok(parsed);
  }

  lemma {:induction false} PrependTwice(done: seq<string>, p: string, r: Result<seq<string>, FrameError>)
    ensures Prepend(done, Prepend([p], r)) == Prepend(done + [p], r)
  {
    if r.Ok? {
      assert done + ([p] + r.value) == (done + [p]) + r.value;
    }
  }

  /** Once a prefix of the frames raised, the whole list raises the same way. */
  lemma {:induction false} ClassifyStops(frames: seq<string>, n: nat, parses: string -> bool)
    requires n <= |frames| && Classify(frames[..n], parses).1.Err?
    ensures Classify(frames, parses) == Classify(frames[..n], parses)
    decreases |frames| - n
  {
    if n < |frames| {
      assert frames[..n + 1][..n] == frames[..n];
      ClassifyStops(frames, n + 1, parses);
    } else {
      assert frames[..n] == frames;
    }
  }

  // ---------------------------------------------------------------- chunks

  /** `_chunk_list`: consecutive slices of `size` elements; `range` with a
      zero step raises, so the size must be positive. */
  function ChunkList<T>(xs: seq<T>, size: nat): (chunks: seq<seq<T>>)
    requires size > 0
    ensures forall i :: 0 <= i < |chunks| ==> 0 < |chunks[i]| <= size
    ensures |chunks| == 0 <==> xs == []
    decreases |xs|
  {
    if xs == [] then []
    else if |xs| <= size then [xs]
    else [xs[..size]] + ChunkList(xs[size..], size)
  }

  function Flatten<T>(chunks: seq<seq<T>>): seq<T> {
    if chunks == [] then [] else chunks[0] + Flatten(chunks[1..])
  }

  /** Concatenating the chunks gives the list back; every chunk but the
      last is full and the last is not empty. */
  lemma {:induction false} ChunkListParts<T>(xs: seq<T>, size: nat)
    requires size > 0
    ensures Flatten(ChunkList(xs, size)) == xs
    ensures var cs := ChunkList(xs, size);
      && (forall k :: 0 <= k < |cs| - 1 ==> |cs[k]| == size)
      && (cs != [] ==> 0 < |cs[|cs| - 1]| <= size)
      && (cs == [] <==> xs == [])
    decreases |xs|
  {
    if |xs| > size {
      ChunkListParts(xs[size..], size);
      var cs := ChunkList(xs, size);
      assert cs[1..] == ChunkList(xs[size..], size);
      assert xs[..size] + xs[size..] == xs;
    } else if xs != [] {
      assert ChunkList(xs, size)[1..] == [];
    }
  }

  // ---------------------------------------------------------------- fetch state

  datatype Mode = Quote | Bar | All

  /** The events `_process_data` acts on; the others (symbol resolution,
      bar data) only send requests and collect bars. */
  datatype Event = Qsd(ticker: string, values: Option<map<string, string>>)
                 | QuoteCompleted | SeriesCompleted | Other(kind: string)

  /** `_on_qsd_event`: the ticker's quote with the new values merged over
      it; no values leave the quotes as they were. */
  function MergeQuote(quotes: map<string, map<string, string>>, ticker: string, values: Option<map<string, string>>)
    : (r: map<string, map<string, string>>)
  {
    if values.None? then quotes
    else quotes[ticker := (if ticker in quotes then quotes[ticker] else map[]) + values.value]
  }

  /** New values win, old fields not mentioned stay, other tickers keep
      their quotes. */
  lemma {:induction false} MergeQuoteEffect(quotes: map<string, map<string, string>>, ticker: string, values: map<string, string>)
    ensures var r := MergeQuote(quotes, ticker, Some(values));
      && ticker in r
      && (forall f :: f in values ==> f in r[ticker] && r[ticker][f] == values[f])
      && (forall f :: ticker in quotes && f in quotes[ticker] && f !in values ==> f in r[ticker] && r[ticker][f] == quotes[ticker][f])
      && (forall f :: f in r[ticker] ==> f in values || (ticker in quotes && f in quotes[ticker]))
      && (forall t :: t != ticker ==> (t in r <==> t in quotes) && (t in quotes ==> r[t] == quotes[t]))
  {
  }

  function CountOf(events: seq<Event>, e: Event): nat {
    if events == [] then 0
    else CountOf(events[..|events| - 1], e) + (if events[|events| - 1] == e then 1 else 0)
  }

  function QuotesAfter(quotes: map<string, map<string, string>>, events: seq<Event>): map<string, map<string, string>> {
    if events == [] then quotes
    else
      var q := QuotesAfter(quotes, events[..|events| - 1]);
      var e := events[|events| - 1];
      if e.Qsd? then MergeQuote(q, e.ticker, e.values) else q
  }

  /** The per-connection state of the downloader. */
  class FetchState {
    var quotes: map<string, map<string, string>>
    var barCompleted: nat
    var quoteCompleted: nat

    /** `_init`: empty quotes; the counter of the kind of data not asked
        for starts out full. */
    constructor (mode: Mode, tickers: nat)
      ensures quotes == map[]
      ensures barCompleted == (if mode == Quote then tickers else 0)
      ensures quoteCompleted == (if mode == Bar then tickers else 0)
    {
      quotes := map[];
      barCompleted := if mode == Quote then tickers else 0;
      quoteCompleted := if mode == Bar then tickers else 0;
    }

    function Complete(tickers: nat): bool
      reads this
    {
      quoteCompleted == tickers && barCompleted == tickers
    }

    /** `_on_series_completed`: one more symbol's bars are done. */
    method OnSeriesCompleted()
      modifies this
      ensures barCompleted == old(barCompleted) + 1
      ensures quoteCompleted == old(quoteCompleted) && quotes == old(quotes)
    {
      barCompleted := barCompleted + 1;
    }

    /** `_process_data` over the events of one message: it reports whether
        every ticker's quote and bars are complete. */
    method ProcessData(events: seq<Event>, tickers: nat) returns (complete: bool)
      modifies this
      ensures quotes == QuotesAfter(old(quotes), events)
      ensures quoteCompleted == old(quoteCompleted) + CountOf(events, QuoteCompleted)
      ensures barCompleted == old(barCompleted) + CountOf(events, SeriesCompleted)
      ensures complete <==> Complete(tickers)
    {
      var i := 0;
      while i < |events|
        invariant 0 <= i <= |events|
        invariant quotes == QuotesAfter(old(quotes), events[..i])
        invariant quoteCompleted == old(quoteCompleted) + CountOf(events[..i], QuoteCompleted)
        invariant barCompleted == old(barCompleted) + CountOf(events[..i], SeriesCompleted)
      {
        var e := events[i];
        assert events[..i + 1][..i] == events[..i];
        if e.Qsd? {
          quotes := MergeQuote(quotes, e.ticker, e.values);
        }
        if e == QuoteCompleted {
          quoteCompleted := quoteCompleted + 1;
        }
        if e == SeriesCompleted {
          OnSeriesCompleted();
        }
        i := i + 1;
      }
      assert events[..i] == events;
      complete := quoteCompleted == tickers && barCompleted == tickers;
    }
  }
}

=== FILE: tv_framing.dfy ===
/** The TradingView socket framing: each payload travels as
    `~m~<decimal length>~m~<payload>`, frames back to back. Two readers exist:
    the bulk downloader's (a frame without a second separator is read with
    Python's negative-index slicing) and the quote streamer's (which stops
    there). A length that `int()` rejects raises in both. */
module Framing {
  import opened Wrappers
  import opened Text

  const PREFIX: string := "~m~"

  /** One payload framed: its length between two separators, then the
      payload itself. */
  function Frame(p: string): (f: string)
    ensures |f| > |p| + 2 * |PREFIX|
    ensures f[..|PREFIX|] == PREFIX && f[|f| - |p|..] == p
  {
    var f := PREFIX + NatToString(|p|) + PREFIX + p;
    assert f == (PREFIX + NatToString(|p|) + PREFIX) + p;
    f
  }

  /** The frames of the payloads, back to back, in order. */
  function Frames(ps: seq<string>): (msg: string)
    ensures ps == [] ==> msg == ""
  {
    if ps == [] then "" else Frame(ps[0]) + Frames(ps[1..])
  }

  lemma {:induction false} FramesAppend(ps: seq<string>, p: string)
    ensures Frames(ps + [p]) == Frames(ps) + Frame(p)
  {
    if ps != [] {
      FramesAppend(ps[1..], p);
      assert (ps + [p])[1..] == ps[1..] + [p];
    }
  }

  /** The frames of one more payload of a list. */
  lemma {:induction false} FramesPrefix(ps: seq<string>, i: nat)
    requires i < |ps|
    ensures Frames(ps[..i + 1]) == Frames(ps[..i]) + Frame(ps[i])
  {
    assert ps[..i + 1] == ps[..i] + [ps[i]];
    FramesAppend(ps[..i], ps[i]);
  }

  // ---------------------------------------------------------------- slicing

  /** A Python slice bound: negative counts from the end, then clamped. */
  function SliceBound(i: int, len: nat): (b: nat)
    ensures b <= len
    ensures 0 <= i <= len ==> b == i
  {
    if i < 0 then (if i + len < 0 then 0 else i + len) else if i > len then len else i
  }

  /** `s[i:j]` in Python. */
  function PySlice(s: string, i: int, j: int): (r: string)
    ensures |r| <= |s|
    ensures 0 <= i <= j <= |s| ==> r == s[i..j]
    ensures 0 <= i && |s| <= j ==> r == s[SliceBound(i, |s|)..]
  {
    var a, b := SliceBound(i, |s|), SliceBound(j, |s|);
    if a < b then s[a..b] else []
  }

  /** `int(t)` for the length field: decimal digits only. */
  function ParseLength(t: string): Option<nat> {
    if t != [] && IsDigits(t) then Some(ParseDigits(t)) else None
  }

  datatype FrameError = BadLength(text: string)

  /** The outcome of one turn of a framing loop: stop reading, raise on a
      rejected length field, or a payload and what follows it. */
  datatype Turn = Stop | Bad(text: string) | Read(payload: string, next: string)

  // ---------------------------------------------------------------- readers

  /** One turn of the bulk downloader's framing loop: no prefix stops it;
      otherwise the field up to the next separator (read with Python's
      slicing even when there is none) is the length, a rejected one
      raises, and the payload is cut out with reading going on after it. */
  function LooseTurn(msg: string): (t: Turn)
    ensures t.Stop? <==> !StartsWith(msg, PREFIX)
    ensures t.Read? ==> |t.next| < |msg|
  {
    if !StartsWith(msg, PREFIX) then Stop
    else
      var rest := msg[3..];
      var sep := Find(rest, PREFIX);
      var lengthText := PySlice(rest, 0, sep);
      match ParseLength(lengthText)
      case None => Bad(lengthText)
      case Some(n) =>
        var start := sep + 3;
        Read(PySlice(rest, start, start + n), PySlice(rest, start + n, |rest|))
  }

  /** One turn of the quote streamer's framing loop: as the downloader's,
      except that a prefix with no separator after it also stops it. */
  function StrictTurn(msg: string): (t: Turn)
    ensures !StartsWith(msg, PREFIX) ==> t.Stop?
    ensures t.Read? ==> |t.next| < |msg|
  {
    if !StartsWith(msg, PREFIX) then Stop
    else
      var rest := msg[3..];
      var sep := Find(rest, PREFIX);
      if sep == -1 then Stop
      else
        var lengthText := rest[..sep];
        match ParseLength(lengthText)
        case None => Bad(lengthText)
        case Some(n) =>
          var start := sep + 3;
          Read(PySlice(rest, start, start + n), PySlice(rest, start + n, |rest|))
  }

  /** The payloads read turn by turn until a turn stops; a turn that raises
      makes the whole read raise. */
  function DecodeLoose(msg: string): (r: Result<seq<string>, FrameError>)
    decreases |msg|
  {
    match LooseTurn(msg)
    case Stop => Ok([])
    case Bad(text) => Err(BadLength(text))
    case Read(p, next) =>
      match DecodeLoose(next)
      case Err(e) => Err(e)
      case Ok(ps) => Ok([p] + ps)
  }

  function DecodeStrict(msg: string): (r: Result<seq<string>, FrameError>)
    decreases |msg|
  {
    match StrictTurn(msg)
    case Stop => Ok([])
    case Bad(text) => Err(BadLength(text))
    case Read(p, next) =>
      match DecodeStrict(next)
      case Err(e) => Err(e)
      case Ok(ps) => Ok([p] + ps)
  }

  // ---------------------------------------------------------------- round trip

  /** What follows a frame's leading prefix. */
  function AfterPrefix(p: string, tail: string): string {
    NatToString(|p|) + PREFIX + p + tail
  }

  lemma {:induction false} FrameStartsWithPrefix(p: string, tail: string)
    ensures StartsWith(Frame(p) + tail, PREFIX)
    ensures (Frame(p) + tail)[3..] == AfterPrefix(p, tail)
  {
    var d := NatToString(|p|);
    assert Frame(p) + tail == PREFIX + AfterPrefix(p, tail);
  }

  /** The separator after a frame's length field is found right after the
      digits, whatever the payload holds. */
  lemma {:induction false} SeparatorAfterDigits(p: string, tail: string)
    ensures Find(AfterPrefix(p, tail), PREFIX) == |NatToString(|p|)|
  {
    var d := NatToString(|p|);
    var rest := AfterPrefix(p, tail);
    assert rest[|d|..|d| + 3] == PREFIX;
    forall i | 0 <= i < |d| ensures !OccursAt(rest, PREFIX, i) {
      assert rest[i] == d[i];
    }
    FindFromFirst(rest, PREFIX, 0, |d|);
  }

  lemma {:induction false} FrameFields(p: string, tail: string)
    ensures var rest, k := AfterPrefix(p, tail), |NatToString(|p|)|;
      && rest[..k] == NatToString(|p|)
      && ParseLength(NatToString(|p|)) == Some(|p|)
      && PySlice(rest, k + 3, k + 3 + |p|) == p
      && PySlice(rest, k + 3 + |p|, |rest|) == tail
  {
    var rest, k := AfterPrefix(p, tail), |NatToString(|p|)|;
    ParseNatToString(|p|);
    assert rest[k + 3..k + 3 + |p|] == p;
    assert rest[k + 3 + |p|..] == tail;
  }

  /** One frame is read as its payload, then reading goes on after it. */
  lemma {:induction false} DecodeLooseStep(p: string, tail: string)
    ensures DecodeLoose(Frame(p) + tail)
      == match DecodeLoose(tail) { case Err(e) => Err(e) case Ok(ps) => Ok([p] + ps) }
  {
    FrameStartsWithPrefix(p, tail);
    SeparatorAfterDigits(p, tail);
    FrameFields(p, tail);
  }

  lemma {:induction false} DecodeStrictStep(p: string, tail: string)
    ensures DecodeStrict(Frame(p) + tail)
      == match DecodeStrict(tail) { case Err(e) => Err(e) case Ok(ps) => Ok([p] + ps) }
  {
    FrameStartsWithPrefix(p, tail);
    SeparatorAfterDigits(p, tail);
    FrameFields(p, tail);
  }

  /** Reading frames gives back exactly the payloads, in order. */
  lemma {:induction false} DecodeLooseFrames(ps: seq<string>)
    ensures DecodeLoose(Frames(ps)) == Ok(ps)
  {
    if ps != [] {
      var rest := Frames(ps[1..]);
      assert Frames(ps) == Frame(ps[0]) + rest;
      DecodeLooseStep(ps[0], rest);
      DecodeLooseFrames(ps[1..]);
      assert [ps[0]] + ps[1..] == ps;
    }
  }

  /** A trailing prefix with no separator after it. */
  predicate Unterminated(tail: string) {
    StartsWith(tail, PREFIX) && !Contains(tail[3..], PREFIX)
  }

  lemma {:induction false} UnterminatedReadsNothing(tail: string)
    requires tail == [] || Unterminated(tail)
    ensures DecodeStrict(tail) == Ok([])
  {
    if tail != [] {
      assert Find(tail[3..], PREFIX) == -1;
    }
  }

  /** The streamer's reader also gives back the payloads, and ignores a
      trailing frame whose separator never arrives. */
  lemma {:induction false} DecodeStrictFrames(ps: seq<string>, tail: string)
    requires tail == [] || Unterminated(tail)
    ensures DecodeStrict(Frames(ps) + tail) == Ok(ps)
  {
    UnterminatedReadsNothing(tail);
    DecodeStrictBeforeTail(ps, tail);
  }

  lemma {:induction false} DecodeStrictBeforeTail(ps: seq<string>, tail: string)
    requires DecodeStrict(tail) == Ok([])
    ensures DecodeStrict(Frames(ps) + tail) == Ok(ps)
  {
    if ps == [] {
      assert Frames(ps) + tail == tail;
    } else {
      assert Frames(ps) + tail == Frame(ps[0]) + (Frames(ps[1..]) + tail);
      DecodeStrictStep(ps[0], Frames(ps[1..]) + tail);
      DecodeStrictBeforeTail(ps[1..], tail);
      assert [ps[0]] + ps[1..] == ps;
    }
  }

  // ---------------------------------------------------------------- frame kinds

  predicate IsHeartbeat(m: string) {
    StartsWith(m, "~h~")
  }

  predicate IsJson(m: string) {
    StartsWith(m, "{")
  }

  /** No frame is both a heartbeat and an event. */
  lemma {:induction false} HeartbeatIsNotJson(m: string)
    ensures !(IsHeartbeat(m) && IsJson(m))
  {
    if IsHeartbeat(m) {
      assert m[0] == '~';
    }
  }

  /** The frames that satisfy `keep`, in order. */
  function Select(frames: seq<string>, keep: string -> bool): (r: seq<string>)
    ensures |r| <= |frames|
    ensures forall m :: m in r <==> m in frames && keep(m)
  {
    if frames == [] then []
    else
      var rest := Select(frames[..|frames| - 1], keep);
      var m := frames[|frames| - 1];
      if keep(m) then rest + [m] else rest
  }
}

=== FILE: upstox_keys.dfy ===
/** Translation between TradingView symbols and Upstox instrument keys, with
    the two caches the translation fills: forward (ticker to key) and
    reverse (key to ticker). */
module UpstoxKeys {
  import opened Wrappers

  /** Upstox keys of the indexes, as the module lists them. */
  const INDEX_MAPPINGS_AS_WRITTEN: map<string, string> := map[
    "BSE:SENSEX" := "BSE_INDEX|SENSEX",
    "NSE:CNXENERGY" := "NSE_INDEX|Nifty Energy",
    "NSE:NIFTY_INDIA_MFG" := "NSE_INDEX|Nifty India Mfg",
    "NSE:CNXINFRA" := "NSE_INDEX|Nifty Infra",
    "NSE:CNXFMCG" := "NSE_INDEX|Nifty FMCG",
    "NSE:CNXAUTO" := "NSE_INDEX|Nifty Auto",
    "NSE:CNXIT" := "NSE_INDEX|Nifty IT",
    "NSE:CNXFINANCE" := "NSE_INDEX|Nifty Fin Service",
    "NSE:BANKNIFTY" := "NSE_INDEX|Nifty Bank",
    "NSE:CNX500" := "NSE_INDEX|Nifty 500",
    "NSE:NIFTY" := "NSE_INDEX|Nifty 50",
    "NSE:NIFTY_LARGEMID250" := "NSE_INDEX|NIFTY LARGEMID250",
    "NSE:CNXMNC" := "NSE_INDEX|Nifty MNC",
    "NSE:NIFTY_TOTAL_MKT" := "NSE_INDEX|NIFTY TOTAL MKT",
    "NSE:CPSE" := "NSE_INDEX|Nifty CPSE",
    "NSE:NIFTY_MICROCAP250" := "NSE_INDEX|NIFTY MICROCAP250",
    "NSE:CNXCOMMODITIES" := "NSE_INDEX|Nifty Commodities",
    "NSE:NIFTYALPHA50" := "NSE_INDEX|NIFTY Alpha 50",
    "NSE:CNXCONSUMPTION" := "NSE_INDEX|Nifty Consumption",
    "NSE:NIFTYMIDCAP150" := "NSE_INDEX|NIFTY MIDCAP 150",
    "NSE:CNX100" := "NSE_INDEX|Nifty 100",
    "NSE:CNXPSE" := "NSE_INDEX|Nifty PSE",
    "NSE:NIFTYSMLCAP250" := "NSE_INDEX|NIFTY SMLCAP 250",
    "NSE:NIFTYMIDCAP50" := "NSE_INDEX|Nifty Midcap 50",
    "NSE:CNXMIDCAP" := "NSE_INDEX|NIFTY MIDCAP 100",
    "NSE:CNXSMALLCAP" := "NSE_INDEX|NIFTY SMLCAP 100",
    "NSE:NIFTY_MID_SELECT" := "NSE_INDEX|NIFTY MID SELECT",
    "NSE:NIFTY_HEALTHCARE" := "NSE_INDEX|NIFTY HEALTHCARE",
    "NSE:NIFTY_CONSR_DURL" := "NSE_INDEX|NIFTY CONSR DURBL",
    "NSE:NIFTY_OIL_AND_GAS" := "NSE_INDEX|NIFTY OIL AND GAS",
    "NSE:NIFTYPVTBANK" := "NSE_INDEX|Nifty Pvt Bank",
    "NSE:CNXMEDIA" := "NSE_INDEX|Nifty Media",
    "NSE:CNXREALTY" := "NSE_INDEX|Nifty Realty",
    "NSE:CNX200" := "NSE_INDEX|Nifty 200",
    "NSE:CNXMETAL" := "NSE_INDEX|Nifty Metal",
    "NSE:CNXPSUBANK" := "NSE_INDEX|Nifty PSU Bank",
    "NSE:CNXPHARMA" := "NSE_INDEX|Nifty Pharma",
    "NSE:NIFTYJR" := "NSE_INDEX|Nifty Next 50"]

  /** The consumer durables index as TradingView names it. */
  const CONSUMER_DURABLES := "NSE:NIFTY_CONSR_DURBL"

  /** The mapping with the consumer durables entry under TradingView's name. */
  const INDEX_MAPPINGS: map<string, string> :=
    (INDEX_MAPPINGS_AS_WRITTEN - {"NSE:NIFTY_CONSR_DURL"})[CONSUMER_DURABLES := "NSE_INDEX|NIFTY CONSR DURBL"]

  /** The entries of a symbol dict the translation reads; each may be absent. */
  datatype Symbol = Symbol(ticker: Option<string>, kind: Option<string>, exchange: Option<string>, isin: Option<string>)

  datatype KeyError = UnsupportedType

  /** `str(x)` of an optional text, as an f-string renders it. */
  function Show(x: Option<string>): string {
    if x.Some? then x.value else "None"
  }

  /** The key of a symbol with nothing cached: an index through the table
      (an unknown index has none), a stock or fund from its exchange and
      ISIN (none without an ISIN), any other type an error. */
  function Derive(mappings: map<string, string>, s: Symbol): (r: Result<Option<string>, KeyError>)
    ensures r.Err? <==> s.kind !in {Some("index"), Some("stock"), Some("fund")}
    ensures r.Ok? && r.value.Some? && s.kind == Some("index") ==>
      s.ticker.Some? && s.ticker.value in mappings && r.value.value == mappings[s.ticker.value]
  {
    if s.kind == Some("index") then
      if s.ticker.Some? && s.ticker.value in mappings && mappings[s.ticker.value] != "" then Ok(Some(mappings[s.ticker.value]))
      else Ok(None)
    else if s.kind == Some("stock") || s.kind == Some("fund") then
      if s.isin.None? || s.isin.value == "" then Ok(None)
      else Ok(Some(Show(s.exchange) + "_EQ|" + s.isin.value))
    else Err(UnsupportedType)
  }

  /** Both caches; the forward one is keyed by the ticker entry, which may
      be absent. */
  datatype Caches = Caches(forward: map<Option<string>, string>, reverse: map<string, Option<string>>)

  /** `to_upstox_instrument_key`: a cached ticker answers from the cache;
      otherwise a key found is cached in both directions. */
  function ToKey(mappings: map<string, string>, c: Caches, s: Symbol): (r: (Result<Option<string>, KeyError>, Caches))
    ensures c.forward.Keys <= r.1.forward.Keys && c.reverse.Keys <= r.1.reverse.Keys
    ensures r.0.Ok? && r.0.value.Some? ==>
      s.ticker in r.1.forward && r.1.forward[s.ticker] == r.0.value.value
    ensures s.ticker !in c.forward ==> r.0 == Derive(mappings, s)
  {
    if s.ticker in c.forward then (Ok(Some(c.forward[s.ticker])), c)
    else
      var d := Derive(mappings, s);
      if d.Ok? && d.value.Some? then
        (d, Caches(c.forward[s.ticker := d.value.value], c.reverse[d.value.value := s.ticker]))
      else (d, c)
  }

  datatype LookupError = NotCached

  /** `from_upstox_instrument_key`: the cached ticker; an uncached key (or
      one cached for a symbol without a ticker) raises. */
  function FromKey(c: Caches, key: string): (r: Result<string, LookupError>)
    ensures r.Ok? <==> key in c.reverse && c.reverse[key].Some?
  {
    if key in c.reverse && c.reverse[key].Some? then Ok(c.reverse[key].value) else Err(NotCached)
  }

  /** A cached ticker gets its cached key back, unchecked, and nothing
      changes. */
  lemma {:induction false} CachedTickerAnswersFromCache(mappings: map<string, string>, c: Caches, s: Symbol)
    requires s.ticker in c.forward
    ensures ToKey(mappings, c, s) == (Ok(Some(c.forward[s.ticker])), c)
  {
  }

  /** A fresh key translates back to the ticker it came from, and the same
      ticker now answers from the cache with the same key. */
  lemma {:induction false} FreshKeyRoundTrip(mappings: map<string, string>, c: Caches, s: Symbol, t: string)
    requires s.ticker == Some(t) && s.ticker !in c.forward
    requires ToKey(mappings, c, s).0.Ok? && ToKey(mappings, c, s).0.value.Some?
    ensures var (r, c') := ToKey(mappings, c, s);
      FromKey(c', r.value.value) == Ok(t) && ToKey(mappings, c', s) == (r, c')
  {
  }

  /** No key means no change to either cache; a key found is cached, and a
      freshly derived key is never empty. */
  lemma {:induction false} ToKeyCachesOnlyKeys(mappings: map<string, string>, c: Caches, s: Symbol)
    ensures var (r, c') := ToKey(mappings, c, s);
      && (!(r.Ok? && r.value.Some?) ==> c' == c)
      && (r.Ok? && r.value.Some? ==> s.ticker in c'.forward && c'.forward[s.ticker] == r.value.value)
      && (s.ticker !in c.forward && r.Ok? && r.value.Some? ==> r.value.value != "")
      && (r.Err? <==> s.ticker !in c.forward && s.kind != Some("index") && s.kind != Some("stock") && s.kind != Some("fund"))
  {
    if s.ticker !in c.forward {
      var d := Derive(mappings, s);
      if d.Ok? && d.value.Some? && !(s.kind == Some("index")) {
        assert d.value.value == Show(s.exchange) + "_EQ|" + s.isin.value;
        assert |d.value.value| > 0;
      }
    }
  }

  /** An index resolves exactly when the table lists it; a stock or fund
      exactly when it has an ISIN, to "<exchange>_EQ|<isin>". */
  lemma {:induction false} DeriveCases(mappings: map<string, string>, s: Symbol)
    ensures s.kind == Some("index") ==>
      (Derive(mappings, s).Ok? && (Derive(mappings, s).value.Some? <==>
        s.ticker.Some? && s.ticker.value in mappings && mappings[s.ticker.value] != ""))
    ensures (s.kind == Some("stock") || s.kind == Some("fund")) && s.isin.Some? && s.isin.value != "" ==>
      Derive(mappings, s) == Ok(Some(Show(s.exchange) + "_EQ|" + s.isin.value))
    ensures (s.kind == Some("stock") || s.kind == Some("fund")) && (s.isin.None? || s.isin.value == "") ==>
      Derive(mappings, s) == Ok(None)
  {
  }

  /** The consumer durables index, under the name TradingView lists it by. */
  const DURABLES_INDEX := Symbol(Some(CONSUMER_DURABLES), Some("index"), Some("NSE"), None)

  /** As written, the table misspells the consumer durables ticker, so the
      index has no key. */
  lemma DurablesUnresolvedAsWritten()
    ensures Derive(INDEX_MAPPINGS_AS_WRITTEN, DURABLES_INDEX) == Ok(None)
  {
    assert CONSUMER_DURABLES !in INDEX_MAPPINGS_AS_WRITTEN;
  }

  /** With the entry under TradingView's name the index resolves, and every
      other entry of the table is unchanged. */
  lemma DurablesResolved()
    ensures Derive(INDEX_MAPPINGS, DURABLES_INDEX) == Ok(Some("NSE_INDEX|NIFTY CONSR DURBL"))
    ensures forall t :: t in INDEX_MAPPINGS_AS_WRITTEN && t != "NSE:NIFTY_CONSR_DURL" ==>
      t in INDEX_MAPPINGS && INDEX_MAPPINGS[t] == INDEX_MAPPINGS_AS_WRITTEN[t]
  {
  }

  /** The module-level caches, filled as translations succeed. */
  class InstrumentKeys {
    var forward: map<Option<string>, string>
    var reverse: map<string, Option<string>>

    function State(): Caches
      reads this
    {
      Caches(forward, reverse)
    }

    constructor()
      ensures State() == Caches(map[], map[])
    {
      forward, reverse := map[], map[];
    }

    method ToInstrumentKey(s: Symbol) returns (r: Result<Option<string>, KeyError>)
      modifies this
      ensures (r, State()) == ToKey(INDEX_MAPPINGS, old(State()), s)
    {
      if s.ticker in forward {
        return Ok(Some(forward[s.ticker]));
      }
      r := Derive(INDEX_MAPPINGS, s);
      if r.Ok? && r.value.Some? {
        forward := forward[s.ticker := r.value.value];
        reverse := reverse[r.value.value := s.ticker];
      }
    }

    method FromInstrumentKey(key: string) returns (r: Result<string, LookupError>)
      ensures r == FromKey(State(), key)
    {
      if key in reverse && reverse[key].Some? {
        return Ok(reverse[key].value);
      }
      return Err(NotCached);
    }
  }
}

=== FILE: watchlist.dfy ===
/** The TradingView watchlist generator: large-cap symbols grouped into
    sections (a header naming the ten largest and the group size, then every
    ticker), and the sections packed into chunks of about a thousand
    entries, each section wholly inside one chunk. The grouping itself is
    the caller's: groups arrive in the order the grouping yields them. */
module Watchlist {
  import opened Text

  /** Only symbols above this market cap are listed. */
  const MIN_MCAP: real := 3000000000.0
  const TOP := 10
  const CHUNK_LIMIT := 1000

  datatype Member = Member(ticker: string, mcap: real)
  datatype Group = Group(name: string, members: seq<Member>)
  datatype Section = Section(name: string, symbols: seq<string>)

  // ---------------------------------------------------------------- filter

  /** The members above the market-cap floor, in order. */
  function Large(members: seq<Member>): (r: seq<Member>)
    ensures forall m :: m in r <==> m in members && m.mcap > MIN_MCAP
    ensures |r| <= |members|
  {
    if members == [] then []
    else (if members[0].mcap > MIN_MCAP then [members[0]] else []) + Large(members[1..])
  }

  // ---------------------------------------------------------------- top ten

  predicate SortedDesc(s: seq<Member>) {
    forall i, j :: 0 <= i < j < |s| ==> s[i].mcap >= s[j].mcap
  }

  /** `x` placed after every entry at least as large: equal caps keep their
      order, as `nlargest` does. */
  function InsertDesc(s: seq<Member>, x: Member): (r: seq<Member>)
    requires SortedDesc(s)
    ensures SortedDesc(r) && multiset(r) == multiset(s) + multiset{x} && |r| == |s| + 1
    ensures r[0] == x || (s != [] && r[0] == s[0])
  {
    if s == [] then [x]
    else if s[0].mcap >= x.mcap then
      var rest := InsertDesc(s[1..], x);
      assert s == [s[0]] + s[1..];
      PrependSorted(s[0], rest);
      [s[0]] + rest
    else
      PrependSorted(x, s);
      [x] + s
  }

  lemma {:induction false} PrependSorted(a: Member, s: seq<Member>)
    requires SortedDesc(s) && (s != [] ==> a.mcap >= s[0].mcap)
    ensures SortedDesc([a] + s)
  {
    var r := [a] + s;
    forall i, j | 0 <= i < j < |r| ensures r[i].mcap >= r[j].mcap {
      if i == 0 && j > 1 {
        assert s[0].mcap >= s[j - 1].mcap;
      }
    }
  }

  function SortDesc(s: seq<Member>): (r: seq<Member>)
    ensures SortedDesc(r) && multiset(r) == multiset(s) && |r| == |s|
  {
    if s == [] then []
    else
      assert s == s[..|s| - 1] + [s[|s| - 1]];
      InsertDesc(SortDesc(s[..|s| - 1]), s[|s| - 1])
  }

  /** `nlargest(n, 'mcap')`. */
  function Largest(s: seq<Member>, n: nat): (r: seq<Member>)
    ensures |r| == if n < |s| then n else |s|
    ensures SortedDesc(r)
  {
    var sorted := SortDesc(s);
    sorted[..if n < |s| then n else |s|]
  }

  /** The chosen members come from the group, and none left out has a
      larger cap than one chosen. */
  lemma {:induction false} LargestAreLargest(s: seq<Member>, n: nat)
    ensures var sorted := SortDesc(s); var k := if n < |s| then n else |s|;
      && multiset(Largest(s, n)) + multiset(sorted[k..]) == multiset(s)
      && forall i, j :: 0 <= i < k <= j < |s| ==> sorted[i].mcap >= sorted[j].mcap
  {
    SplitSorted(SortDesc(s), if n < |s| then n else |s|);
  }

  lemma {:induction false} SplitSorted(sorted: seq<Member>, k: nat)
    requires SortedDesc(sorted) && k <= |sorted|
    ensures multiset(sorted[..k]) + multiset(sorted[k..]) == multiset(sorted)
    ensures forall i, j :: 0 <= i < k <= j < |sorted| ==> sorted[i].mcap >= sorted[j].mcap
  {
    assert sorted == sorted[..k] + sorted[k..];
  }

  function Tickers(members: seq<Member>): (r: seq<string>)
    ensures |r| == |members| && forall i :: 0 <= i < |members| ==> r[i] == members[i].ticker
  {
    seq(|members|, i requires 0 <= i < |members| => members[i].ticker)
  }

  // ---------------------------------------------------------------- sections

  /** `format_group`: a group of one is just its ticker; a larger group is
      headed by its ten largest tickers joined with "+" and its size. */
  function FormatGroup(members: seq<Member>): (r: seq<string>)
    ensures |members| <= 1 ==> r == Tickers(members)
    ensures |members| > 1 ==>
      && r == [Join(Tickers(Largest(members, TOP)), "+") + "/" + NatToString(|members|)] + Tickers(members)
      && |r| == |members| + 1
  {
    if |members| <= 1 then Tickers(members)
    else [Join(Tickers(Largest(members, TOP)), "+") + "/" + NatToString(|members|)] + Tickers(members)
  }

  /** The sections of the groups that keep a large member, in order. */
  function Sections(groups: seq<Group>): (r: seq<Section>)
    ensures |r| <= |groups|
    ensures forall i :: 0 <= i < |r| ==> r[i].symbols != []
  {
    if groups == [] then []
    else
      var large := Large(groups[0].members);
      (if large == [] then [] else [Section(groups[0].name, FormatGroup(large))]) + Sections(groups[1..])
  }

  /** The entries a section counts for: its symbols and its marker. */
  function SectionSize(s: Section): nat {
    |s.symbols| + 1
  }

  function Size(chunk: seq<Section>): nat {
    if chunk == [] then 0 else Size(chunk[..|chunk| - 1]) + SectionSize(chunk[|chunk| - 1])
  }

  function Concat(chunks: seq<seq<Section>>): seq<Section> {
    if chunks == [] then [] else Concat(chunks[..|chunks| - 1]) + chunks[|chunks| - 1]
  }

  /** A chunk the rules allow after `prev` (if any): not empty, over the
      limit only when it holds one section, and started only because its
      first section would have taken `prev` over the limit. */
  predicate ChunkOk(prev: seq<seq<Section>>, c: seq<Section>) {
    && c != []
    && (Size(c) <= CHUNK_LIMIT || |c| == 1)
    && (prev != [] ==> Size(prev[|prev| - 1]) + SectionSize(c[0]) > CHUNK_LIMIT)
  }

  /** The chunk rules, chunk by chunk. */
  predicate ChunksOk(chunks: seq<seq<Section>>)
    decreases |chunks|
  {
    chunks == [] || (ChunksOk(chunks[..|chunks| - 1]) && ChunkOk(chunks[..|chunks| - 1], chunks[|chunks| - 1]))
  }

  /** The chunk rules read over the whole list: no empty chunk, a chunk
      over the limit holds one section only, and a chunk ends only where
      the next section would have taken it over the limit. */
  lemma {:induction false} ChunksOkMeans(chunks: seq<seq<Section>>)
    ensures ChunksOk(chunks) <==>
      && (forall i :: 0 <= i < |chunks| ==> chunks[i] != [] && (Size(chunks[i]) <= CHUNK_LIMIT || |chunks[i]| == 1))
      && (forall i, j :: 0 <= i < |chunks| && 0 <= j < |chunks| && j == i + 1 ==> Size(chunks[i]) + SectionSize(chunks[j][0]) > CHUNK_LIMIT)
    decreases |chunks|
  {
    if chunks != [] {
      var init, last := chunks[..|chunks| - 1], chunks[|chunks| - 1];
      ChunksOkMeans(init);
      assert ChunksOk(chunks) == (ChunksOk(init) && ChunkOk(init, last));
      forall i | 0 <= i < |init| ensures init[i] == chunks[i] {
      }
      if init != [] {
        assert init[|init| - 1] == chunks[|chunks| - 2];
      }
    }
  }

  /** The packing the watchlist promises: every section in order, under
      the chunk rules. */
  predicate Packed(sections: seq<Section>, chunks: seq<seq<Section>>) {
    Concat(chunks) == sections && ChunksOk(chunks)
  }

  /** The state of the chunking loop after the sections `done`: closed
      chunks under the rules, then the chunk being filled. */
  predicate Filling(done: seq<Section>, chunks: seq<seq<Section>>, current: seq<Section>) {
    && Concat(chunks) + current == done
    && ChunksOk(chunks)
    && (Size(current) <= CHUNK_LIMIT || |current| == 1)
    && (chunks != [] ==> current != [] && Size(chunks[|chunks| - 1]) + SectionSize(current[0]) > CHUNK_LIMIT)
  }

  /** Closing a chunk keeps the rules and the order. */
  lemma {:induction false} CloseChunk(chunks: seq<seq<Section>>, c: seq<Section>)
    requires ChunksOk(chunks) && c != [] && (Size(c) <= CHUNK_LIMIT || |c| == 1)
    requires chunks != [] ==> Size(chunks[|chunks| - 1]) + SectionSize(c[0]) > CHUNK_LIMIT
    ensures ChunksOk(chunks + [c])
    ensures Concat(chunks + [c]) == Concat(chunks) + c
  {
    assert (chunks + [c])[..|chunks|] == chunks;
  }

  /** A section that would take the chunk over the limit starts a new one. */
  lemma {:induction false} StartChunk(done: seq<Section>, chunks: seq<seq<Section>>, current: seq<Section>, section: Section)
    requires Filling(done, chunks, current) && current != []
    requires Size(current) + SectionSize(section) > CHUNK_LIMIT
    ensures Filling(done + [section], chunks + [current], [section])
  {
    CloseChunk(chunks, current);
    assert [section][..0] == [];
  }

  /** A section that fits, or any section of an empty chunk, joins it. */
  lemma {:induction false} JoinChunk(done: seq<Section>, chunks: seq<seq<Section>>, current: seq<Section>, section: Section)
    requires Filling(done, chunks, current)
    requires current == [] || Size(current) + SectionSize(section) <= CHUNK_LIMIT
    ensures Filling(done + [section], chunks, current + [section])
  {
    var next := current + [section];
    assert next[..|current|] == current;
    assert current != [] ==> next[0] == current[0];
  }

  /** The last chunk is kept only if it holds something. */
  lemma {:induction false} FinishChunks(done: seq<Section>, chunks: seq<seq<Section>>, current: seq<Section>)
    requires Filling(done, chunks, current)
    ensures Packed(done, if current == [] then chunks else chunks + [current])
  {
    if current != [] {
      CloseChunk(chunks, current);
    }
  }

  lemma {:induction false} SizeSnoc(c: seq<Section>, s: Section)
    ensures Size(c + [s]) == Size(c) + SectionSize(s)
    ensures Size([s]) == SectionSize(s)
  {
    assert (c + [s])[..|c|] == c;
    assert [s][..0] == [];
  }

  /** The chunking loop's state: the closed chunks and the chunk being
      filled. */
  datatype Packing = Packing(chunks: seq<seq<Section>>, current: seq<Section>)

  /** One step of the chunking loop: the section joins the chunk being
      filled, or, when it would take a non-empty chunk over the limit,
      closes it and starts the next one. */
  function Step(p: Packing, section: Section): Packing {
    if p.current != [] && Size(p.current) + SectionSize(section) > CHUNK_LIMIT then
      Packing(p.chunks + [p.current], [section])
    else
      Packing(p.chunks, p.current + [section])
  }

  /** The state of the chunking loop after the sections `done`. */
  function Fill(done: seq<Section>): Packing
    decreases |done|
  {
    if done == [] then Packing([], []) else Step(Fill(done[..|done| - 1]), done[|done| - 1])
  }

  /** Every state the loop reaches keeps the chunk rules and the order. */
  lemma {:induction false} FillKeepsRules(done: seq<Section>)
    ensures Filling(done, Fill(done).chunks, Fill(done).current)
    decreases |done|
  {
    if done != [] {
      var d, s := done[..|done| - 1], done[|done| - 1];
      FillKeepsRules(d);
      var p := Fill(d);
      assert done == d + [s];
      if p.current != [] && Size(p.current) + SectionSize(s) > CHUNK_LIMIT {
        StartChunk(d, p.chunks, p.current, s);
        assert Fill(done) == Packing(p.chunks + [p.current], [s]);
      } else {
        JoinChunk(d, p.chunks, p.current, s);
        assert Fill(done) == Packing(p.chunks, p.current + [s]);
      }
    }
  }

  /** The chunking loop of `generate_watchlist`. */
  method PackSections(sections: seq<Section>) returns (chunks: seq<seq<Section>>)
    ensures Packed(sections, chunks)
  {
    chunks := [];
    var current: seq<Section> := [];
    var currentSize := 0;
    for i := 0 to |sections|
      invariant Packing(chunks, current) == Fill(sections[..i])
      invariant currentSize == Size(current)
    {
      var section := sections[i];
      var sectionSize := |section.symbols| + 1;
      assert sections[..i + 1][..i] == sections[..i];
      SizeSnoc(current, section);
      if currentSize + sectionSize > CHUNK_LIMIT && current != [] {
        chunks := chunks + [current];
        current := [section];
        currentSize := sectionSize;
      } else {
        current := current + [section];
        currentSize := currentSize + sectionSize;
      }
    }
    assert sections[..|sections|] == sections;
    FillKeepsRules(sections);
    FinishChunks(sections, chunks, current);
    if current != [] {
      chunks := chunks + [current];
    }
  }

  /** A section as it appears in the list: a "###" marker with its name,
      then its symbols, comma-separated. */
  function Entry(s: Section): (e: string)
    ensures StartsWith(e, "###" + s.name + ",")
  {
    "###" + s.name + "," + Join(s.symbols, ",")
  }

  function Render(chunk: seq<Section>): string {
    Join(seq(|chunk|, i requires 0 <= i < |chunk| => Entry(chunk[i])), ",")
  }

  /** `generate_watchlist`: one comma-separated string per chunk. */
  method GenerateWatchlist(groups: seq<Group>) returns (lines: seq<string>, ghost chunks: seq<seq<Section>>)
    ensures Packed(Sections(groups), chunks)
    ensures |lines| == |chunks| && forall i :: 0 <= i < |chunks| ==> lines[i] == Render(chunks[i])
  {
    var cs := PackSections(Sections(groups));
    chunks := cs;
    lines := seq(|cs|, i requires 0 <= i < |cs| => Render(cs[i]));
  }
}

=== FILE: wrappers.dfy ===
/** Failure-carrying datatypes shared by every module of the model.
    `None` stands for Python's `None`; `Err` for a raised exception. */
module Wrappers {

  datatype Option<+T> = None | Some(value: T)

  datatype Result<+T, +E> = Ok(value: T) | Err(error: E)
}
